=== FILE: README.md ===
# Wall-panel firmware and layout editor, modelled in Dafny

This project models the core of a touch wall panel for Home Assistant. It has
three parts:

- **C firmware.**
  - The layout gate (`layout_validate.c`) decides whether an uploaded page
    layout may be stored.
  - The renderer's widget reader and clamp (`ui_runtime.c`).
  - The Home Assistant client: its state model, its priority request queue and
    the WebSocket endpoint parser.
  - The HTTP guard, Wi-Fi bookkeeping, the i18n store, the widget tiles and the
    small API handlers.
- **Browser layout editor** (`app.js`), as pure functions over a JSON layout:
  - geometry (snap to the 10-pixel grid and clamp to the canvas);
  - id sanitising and allocation;
  - widget normalisers;
  - the entity filters behind autocomplete;
  - the document operations (add, delete, import, inspector apply).
- **Python font tools**: the TTF subsetter's table checksums, `loca`, `glyf`
  and `cmap` handling, and the MDI converter's token and range parsing.

Every operation is a pure function (or a short method where the source loops)
over immutable datatypes. `Json.Value` is a small JSON tree whose objects are
ordered key/value sequences. Lookups take the first matching key, as cJSON
does.

Numbers in the editor are JavaScript numbers restricted to finite values:
`real`, with `None` for `NaN` and the infinities. `Number()` of a string is
modelled for decimal, exponent and `0x`/`0o`/`0b` literals, and `Math.round`
rounds halves up.

On the firmware side:

- cJSON's `valueint` truncates a number toward zero and saturates at
  `INT_MAX`/`INT_MIN` (`Json.ValueInt`).
- 32-bit signed sums wrap (`Json.Wrap32`). This makes two overflows in the C
  bound checks visible; see "## Findings".
- Sizes from `app_config.h` are fields of a configuration record, so every
  property holds for any positive configuration.
- The Home Assistant client's budget thresholds, sync interval tables and
  restart constants are defined in `ha_client.c` itself. The model defines
  them as constants (`HaClient.FirmwareBudget`, `InitialTable`,
  `PriorityTable`, `PeriodicTable`, `RestartIntervalMs`) and states the
  policies both for any parameters and for these values.
- A C `char` is one byte. The firmware's texts are modelled as `string`, one
  character per byte, so buffer sizes count characters.

## Model

| member | source | states |
|---|---|---|
| ApiScreenshot.U16RoundTrip | main/api/api_screenshot.c:31-35 | a 16-bit number written low byte first reads back as itself |
| ApiScreenshot.U32RoundTrip | main/api/api_screenshot.c:37-43 | a 32-bit number written lowest byte first reads back as itself |
| ApiScreenshot.BmpStride | main/api/api_screenshot.c:74 | the bitmap row length is a multiple of four below 2^32 and, when the 32-bit sum does not wrap, the source row length rounded up by fewer than four bytes |
| ApiScreenshot.SrcRowBytes | main/api/api_screenshot.c:66 | the source row length is a 32-bit value, three bytes per pixel for any 16-bit width |
| ApiScreenshot.Header | main/api/api_screenshot.c:84-96 | the 54 header bytes read back as `BM`, the file size, the pixel offset 54, info header size 40, width, height, one plane, 24 bits per pixel, no compression, the pixel data size, 2835 pixels per metre both ways and zero reserved, palette and important-colour fields |
| ApiScreenshot.Row | main/api/api_screenshot.c:108-122 | a sent row is the source row's first `width * 3` bytes followed by zero padding |
| ApiScreenshot.BitmapOf | main/api/api_screenshot.c:74-123 | the bitmap is the header followed by the rows bottom first; its length fits 32 bits and the file size and pixel size in the header are the real ones |
| ApiScreenshot.BitmapPixels | main/api/api_screenshot.c:107-123 | the bitmap holds the snapshot upside down: byte `j` of source row `y` sits after the header and `height - 1 - y` padded rows, and each row's padding is zero |
| ApiScreenshot.Screenshot | main/api/api_screenshot.c:45-129 | without snapshot support the answer is 501; without the display lock 503; without a snapshot 500; an empty or short-strided or too large snapshot is refused as invalid; otherwise the answer is the bitmap, and each answer occurs exactly in its case |
| ApiEntities.ParseMaxItems | main/api/api_entities.c:25-43 | the limit always lies in 8..128; no or empty text, text that does not convert as a whole, or a value of 0 or less gives 128; any other value is clamped to 8..128 |
| ApiEntities.ParseMaxItemsOfDec | main/api/api_entities.c:25-43 | the decimal text of a count reads back as that count clamped to 8..128, and 0 gives the default 128 |
| ApiEntities.ParseMaxItemsTrailing | main/api/api_entities.c:33-35 | a count followed by anything that is not a digit falls back to the default |
| ApiEntities.ParseMaxItemsNegative | main/api/api_entities.c:33-35 | a negative count falls back to the default, not to the minimum |
| ApiEntities.EntitiesGet | main/api/api_entities.c:45-107 | the answer lists the first `limit` entities the model lists for the query's domain and search (empty ones do not filter), every listed entity is in the model, and `count` is the number listed, at most 128 |
| EditorDocument.FindPage | components/webui/www/app.js:808-811 | the page lookup returns an index whose page has the selected id, and returns nothing only when no page has that id |
| EditorDocument.FindWidget | components/webui/www/app.js:813-817 | the widget lookup returns the first index whose widget has the selected id, and returns nothing only when no widget has it |
| EditorDocument.AddPage | components/webui/www/app.js:1512-1522 | `addPage` appends one empty page whose id no existing page has, keeps the old pages, selects the new page and clears the widget selection; a document with distinct ids keeps them distinct |
| EditorDocument.WithoutPage | components/webui/www/app.js:1530 | the filter keeps exactly the pages whose id differs from the selected one |
| EditorDocument.DeletePage | components/webui/www/app.js:1524-1534 | `deletePage` as written: without a selection or with at most one page nothing changes; otherwise the pages with the selected id are dropped and the first remaining page is selected, which throws exactly when no page remains |
| EditorDocument.DeletePageEmptiesDocument | components/webui/www/app.js:1524-1534 | two pages sharing the selected id pass the one-page guard and both are removed, leaving a document with no page |
| EditorDocument.DeletePageKeepingOne | components/webui/www/app.js:1524-1534 | the intended deletion never leaves a document without pages, keeps ids distinct, and on a valid document removes exactly the selected page |
| EditorDocument.DeletePageAgrees | components/webui/www/app.js:1524-1534 | on a document with distinct page ids, the deletion as written and the intended deletion give the same result |
| EditorDocument.WithoutDistinct | components/webui/www/app.js:1530 | with distinct page ids, filtering out the selected page removes exactly that one page |
| EditorDocument.DefaultOptions | components/webui/www/app.js:1569-1581 | a new widget gets exactly the option fields of its own type, and a graph has no point count |
| EditorDocument.NewWidget | components/webui/www/app.js:1544-1568 | a new widget's id is used by no widget in the document, its title is its id, its rectangle fits its type, its options are those of its type, and its entity is the default pick for its type |
| EditorDocument.AddWidget | components/webui/www/app.js:1544-1586 | `addWidget` does nothing without a selected page; otherwise it appends the new widget to that page and selects it; a document with distinct ids keeps them distinct |
| EditorDocument.AppendWidget | components/webui/www/app.js:1583-1584 | appending changes only the target page, whose widgets gain the new widget at the end; the document's widget ids gain exactly its id |
| EditorDocument.FieldFractionSnaps | components/webui/www/app.js:1660 | an inspector `x` typed as `12.5` reads as the number 12.5, which snaps to the grid line 10 |
| EditorDocument.ApplyToWidget | components/webui/www/app.js:1596-1666 | the form is refused exactly when the chosen entity does not match the widget's type; a heating tile whose secondary entity is not a `sensor.` id is refused next, keeping only the trimmed title and the chosen entity; otherwise the widget keeps its id and type and takes the trimmed title, the chosen entity, the options the form gives for its type, the form's rectangle clamped to the canvas for its type, and (for a heating tile only) the chosen secondary entity |
| EditorDocument.InspectorOptions | components/webui/www/app.js:1628-1657 | the form writes exactly the option fields of the widget's type: a button's mode and normalised accent colour; a slider's domain, normalised direction and accent colour; a graph's normalised line colour and time window in [1, 1440], and a point count in [16, 64] exactly when the normalised count is positive |
| EditorDocument.ApplyInspector | components/webui/www/app.js:1596-1669 | with no selection or a refused entity the document is unchanged; otherwise it keeps its pages and widget ids, and so its distinct ids |
| EditorDocument.ReplaceWidget | components/webui/www/app.js:1616-1666 | rewriting a widget in place keeps the page ids, the widget ids and the selection, and changes only that widget |
| EditorDocument.ImportLayout | components/webui/www/app.js:1699-1710 | importing fails exactly when the text is not JSON or not an object with a `pages` array; otherwise the layout is the normalised document with the same number of pages |
| EditorDocument.LoadLayout | components/webui/www/app.js:1088-1108 | a failed fetch or a document without a `pages` array gives the normalised default layout with page `wohnen` selected; a loaded layout always has at least one page; loading fails only when the first page is `null` |
| EditorDocument.Filled | components/webui/www/app.js:1100-1102 | a layout with no page gets the default page, and one with pages is left as it is |
| EditorDocument.FirstNormalized | components/webui/www/app.js:1103-1104 | normalising keeps the first page in first place, normalised, and a `null` first page stays `null` |
| EditorDocument.DefaultLayoutPages | components/webui/www/app.js:787-798 | the default layout has exactly the one default page |
| EditorDocument.DefaultFirstId | components/webui/www/app.js:787-798 | the default page keeps its id `wohnen` through normalisation |
| EditorEntities.AllowedDomains | components/webui/www/app.js:839-861 | sensor, light tile, heating tile and both weather tiles allow their one fixed domain; a slider allows its chosen domain, or light, media player and cover under `auto`; a button allows only media player under a transport mode and switch or media player otherwise; every other type allows nothing; the domains are known and distinct |
| EditorEntities.ExpectedDomain | components/webui/www/app.js:863-870 | the expected domain is non-empty exactly when one domain is allowed, and is then that domain |
| EditorEntities.AnyDomain | components/webui/www/app.js:890 | an id is accepted exactly when it starts with one of the allowed domains followed by a dot |
| EditorEntities.EntityMatches | components/webui/www/app.js:877-891 | an empty tile accepts every entity; otherwise an entity without a string id is refused, and one with an id is accepted when no domain is restricted or its id lies in an allowed domain |
| EditorEntities.MediaModeNarrowsButton | components/webui/www/app.js:846-849 | a button under a transport mode accepts no entity that a button under any other mode would refuse |
| EditorEntities.SliderAutoWidest | components/webui/www/app.js:853-859 | a slider restricted to one domain accepts only entities an `auto` slider accepts |
| EditorEntities.ExpectedDomainDecides | components/webui/www/app.js:863-891 | when one domain is expected, a named entity fits exactly when its id lies in that domain |
| EditorEntities.ListForWidgetType | components/webui/www/app.js:893-900 | the list for an empty tile is empty; otherwise it holds the catalog entries that match the type in catalog order, each matching entry as many times as the catalog holds it and no other entry |
| EditorEntities.Matching | components/webui/www/app.js:899 | the filter keeps exactly the matching entries, in catalog order |
| EditorEntities.MatchingCounts | components/webui/www/app.js:899 | every matching entry is kept as many times as the catalog holds it, duplicates included, and every other entry is dropped entirely |
| EditorEntities.MatchingHead | components/webui/www/app.js:899 | the first entry of a non-empty filtered list is the first matching entry of the catalog |
| EditorEntities.FirstMatchNamed | components/webui/www/app.js:902-911 | that first matching entry has a string id, so the default entity is a real id |
| EditorEntities.PickDefaultEntity | components/webui/www/app.js:902-911 | an empty tile gets no entity; otherwise the id of the first matching catalog entry, or when none matches the id of the first entry, or `sensor.example` |
| EditorEntities.ListByDomain | components/webui/www/app.js:872-875 | no domain lists the whole catalog; a domain lists exactly the entries with a string id in that domain, in catalog order |
| EditorEntities.InDomainOnly | components/webui/www/app.js:874 | the domain filter keeps exactly the entries with a string id in the domain, in catalog order |
| EditorFields.NormalizeEnum | components/webui/www/app.js:216-226 | a field restricted to a set keeps a string value that is in the set and otherwise takes the default, so the result is always in the set |
| EditorFields.NormalizeSliderDirection | components/webui/www/app.js:216-218 | a known slider direction is kept; anything else, including a non-string, becomes `auto` |
| EditorFields.NormalizeSliderEntityDomain | components/webui/www/app.js:219-221 | a known slider entity domain is kept; anything else becomes `auto` |
| EditorFields.NormalizeButtonMode | components/webui/www/app.js:223-226 | a known button mode is kept; anything else becomes `auto` |
| EditorFields.ButtonModeRequiresMediaPlayer | components/webui/www/app.js:228-231 | a mode needs a media player exactly when its normalised form is one of the four transport modes, which only a string spelling that mode can give |
| EditorFields.NormalizeHexColor | components/webui/www/app.js:233-250 | an empty or absent value gives the normalised fallback; otherwise the trimmed, lower-cased text with `0x` or nothing in front rewritten to `#` is returned when it is `#` and six hex digits, and the normalised fallback when not |
| EditorFields.DefaultColorCanonical | components/webui/www/app.js:7-9 | the built-in accent colour is already in normal form |
| EditorFields.CanonicalHexFixed | components/webui/www/app.js:233-250 | a colour in normal form is unchanged by trimming, lower-casing and the prefix rewrite |
| EditorFields.NormalizeHexColorIdempotent | components/webui/www/app.js:233-250 | with a valid fallback, normalising a normalised colour gives it back |
| EditorFields.CanonicalNormalizes | components/webui/www/app.js:233-250 | a colour in normal form normalises to itself whatever the fallback |
| EditorFields.NormalizeHexColorAcceptsSpellings | components/webui/www/app.js:233-250 | six hex digits of either case, bare or after `#`, `0x` or `0X`, are accepted and normalise to `#` and the digits in lower case |
| EditorFields.RoundedNumber | components/webui/www/app.js:256-259 | `Math.round(Number(v))` is defined exactly when `Number(v)` is finite and is then the integer within one half of it |
| EditorFields.NormalizeGraphPointCount | components/webui/www/app.js:252-262 | the point count is 0 (not set) exactly when the value is not a finite number or rounds to 0 or less; otherwise it is the rounded value clamped to [16, 64] |
| EditorFields.NormalizeGraphTimeWindowMin | components/webui/www/app.js:264-270 | the window is 120 when the value is not a finite number or rounds to 0 or less; otherwise it is the rounded value clamped to [1, 1440] |
| EditorFields.GraphNumberExamples | components/webui/www/app.js:252-270 | fractions round half up before the clamp: 12.6 points become 16, 40.5 become 41, 0.4 become "not set"; a 12.4-minute window becomes 12 and a missing one 120 |
| EditorFields.GraphTextExample | components/webui/www/app.js:264-270 | a padded decimal string is read as `Number` reads it: " 12.5 " gives a 13-minute window |
| EditorFields.GraphUnitExample | components/webui/www/app.js:252-262 | a string with a unit suffix is not a number: "12px" points mean "not set" |
| EditorFields.NormalizeButton | components/webui/www/app.js:278-286 | a button's accent colour is the normalised colour, its mode is the normalised mode except that a transport mode without a `media_player.` entity becomes `auto`, and no other member changes |
| EditorFields.NormalizeButtonModeSound | components/webui/www/app.js:278-286 | after the button rule the mode is a known mode, a transport mode only on a `media_player.` entity, and either the mode the widget had or `auto` |
| EditorFields.RepairedMode | components/webui/www/app.js:280-285 | the repaired mode is a known mode, a transport mode only with a media-player entity, either the stored mode or `auto`, and it is `auto` exactly for a transport mode without a media-player entity |
| EditorFields.NormalizeSlider | components/webui/www/app.js:287-291 | a slider's direction, accent colour and entity domain are their normalised forms, the colour is in normal form, and no other member changes |
| EditorFields.NormalizeGraph | components/webui/www/app.js:292-301 | a graph's line colour and time window are their normalised forms, the point count is stored when its normalised value is positive and removed otherwise, and no other member changes |
| EditorFields.ButtonKeepsType | components/webui/www/app.js:278-286 | the button rule does not touch `type` |
| EditorFields.SliderKeepsType | components/webui/www/app.js:287-291 | the slider rule does not touch `type` |
| EditorFields.GraphKeepsType | components/webui/www/app.js:292-301 | the graph rule does not touch `type` |
| EditorFields.NormalizeWidgetMembers | components/webui/www/app.js:276-301 | a widget object gets the rule for its type (button, slider or graph) and any other type is left unchanged; its type is never changed |
| EditorFields.NormalizeWidgetList | components/webui/www/app.js:276-303 | every widget of a page is normalised on its own, in place and in order |
| EditorFields.NormalizePageList | components/webui/www/app.js:272-304 | every page is normalised on its own, in place and in order |
| EditorFields.NormalizeLayoutWidgets | components/webui/www/app.js:272-304 | a layout that is not an object with a `pages` array is returned as it is; otherwise each page is normalised in place, the page count is kept, and every other top-level key keeps its value |
| EditorFields.NormalizeButtonIdempotent | components/webui/www/app.js:278-286 | a second button pass changes nothing |
| EditorFields.NormalizeSliderIdempotent | components/webui/www/app.js:287-291 | a second slider pass changes nothing |
| EditorFields.NormalizeGraphIdempotent | components/webui/www/app.js:292-301 | a second graph pass changes nothing |
| EditorFields.GraphWindowFixed | components/webui/www/app.js:264-270 | a stored time window in [1, 1440] reads back as itself |
| EditorFields.GraphPointsFixed | components/webui/www/app.js:252-262 | a stored point count in [16, 64] reads back as itself |
| EditorFields.NormalizeWidgetMembersIdempotent | components/webui/www/app.js:276-303 | normalising a widget twice is the same as normalising it once |
| EditorFields.NormalizePageIdempotent | components/webui/www/app.js:276-303 | normalising a page twice is the same as normalising it once |
| EditorFields.NormalizeLayoutWidgetsIdempotent | components/webui/www/app.js:272-304 | normalising a layout twice gives the same document as normalising it once |
| EditorGeometry.EffectiveLimits | components/webui/www/app.js:39-69 | the size limits of any widget type, after capping the maxima at the 720x600 canvas and the minima at the maxima, are positive, grid-aligned and ordered minimum <= maximum <= canvas |
| EditorGeometry.SnapNearest | components/webui/www/app.js:804-806 | `snap` returns the grid line nearest to its argument, halves going up |
| EditorGeometry.SnapOfGridLine | components/webui/www/app.js:804-806 | a value already on a grid line is left where it is by `snap` |
| EditorGeometry.ClampRectToCanvas | components/webui/www/app.js:71-84 | the clamped rectangle always fits the canvas and the limits of its type; a missing, zero or non-numeric width or height becomes the type's minimum, and a missing or non-positive position becomes 0 |
| EditorGeometry.ClampRect | components/webui/www/app.js:71-84 | under any valid limits the result fits them, with the same fallbacks for missing or zero fields |
| EditorGeometry.ClampKeepsInRange | components/webui/www/app.js:800-806 | a coordinate on the grid and inside the bounds passes `clamp(snap(v))` unchanged |
| EditorGeometry.ClampRectIdempotent | components/webui/www/app.js:71-84 | `clampRectToCanvas` leaves a rectangle unchanged exactly when it already fits its type, so clamping twice is the same as clamping once |
| EditorGeometry.ClampRectFixpoint | components/webui/www/app.js:71-84 | the same fixpoint characterisation for any valid limits |
| EditorGeometry.OnMove | components/webui/www/app.js:1261-1291 | a move event writes the widget exactly when some coordinate changes; dragging never changes the size and resizing never changes the position |
| EditorGeometry.MoveWithin | components/webui/www/app.js:1261-1291 | the same write rule and frame for any limits |
| EditorGeometry.MoveBounds | components/webui/www/app.js:1274-1280 | from a fitting start, a dragged position stays on the grid inside `[0, 720 - w]` x `[0, 600 - h]`, and a resized size stays on the grid inside `[minW, min(maxW, 720 - x)]` x `[minH, min(maxH, 600 - y)]` |
| EditorGeometry.DragAxis | components/webui/www/app.js:1274-1276 | one dragged coordinate stays on the grid and keeps the widget on the canvas |
| EditorGeometry.ResizeAxis | components/webui/www/app.js:1277-1279 | one resized side stays on the grid, inside the limits and inside the canvas |
| EditorGeometry.ClampOnGrid | components/webui/www/app.js:800-806 | clamping a snapped value between two grid lines gives a grid line between them |
| EditorGeometry.GestureKeepsFit | components/webui/www/app.js:1250-1306 | after any sequence of move events a drag or resize gesture leaves a fitting rectangle; a drag keeps the size, a resize keeps the position, and if `moved` stays false the rectangle is the start rectangle |
| EditorIds.CandidateInjective | components/webui/www/app.js:916 | two candidates `<prefix>_<i>` with the same prefix are equal only for the same number |
| EditorIds.Pigeonhole | components/webui/www/app.js:913-920 | if candidates 1 to n are all taken, at least n ids are taken, so the search ends by the candidate numbered one more than the ids taken |
| EditorIds.FreeFrom | components/webui/www/app.js:914-919 | the search loop from candidate i returns the first candidate at or after i that is free, numbered at most one more than the ids taken |
| EditorIds.UniqueId | components/webui/www/app.js:913-920 | `uniqueId` returns a candidate no entry uses, numbered at most one more than the number of entries, with every lower-numbered candidate taken |
| EditorIds.CollapseRuns | components/webui/www/app.js:926 | replacing each run of other characters by one `_` leaves only `[a-z0-9_]` and leaves a string of those unchanged; the lemmas below fix its value on a run and across a split |
| EditorIds.CollapseOthers | components/webui/www/app.js:926 | a non-empty run of characters outside `[a-z0-9_]` collapses to a single `_` |
| EditorIds.CollapseSplit | components/webui/www/app.js:926 | collapsing distributes over a concatenation that does not cut a run of other characters |
| EditorIds.CollapseJoin | components/webui/www/app.js:926 | two clean words around a run of other characters collapse to the words joined by `_` |
| EditorIds.StripUnderscores | components/webui/www/app.js:927 | stripping removes `_` from both ends and leaves a string without `_` at its ends unchanged |
| EditorIds.SanitizeIdPart | components/webui/www/app.js:922-929 | a sanitised part is non-empty, uses only `[a-z0-9_]` and has no `_` at either end; its value on words, separators and empty input is fixed by the lemmas below |
| EditorIds.SanitizeKeepsCleanPart | components/webui/www/app.js:922-929 | a part that already has the sanitised shape comes back unchanged |
| EditorIds.SanitizeIdempotent | components/webui/www/app.js:922-929 | sanitising twice is the same as sanitising once |
| EditorIds.SanitizeWord | components/webui/www/app.js:922-929 | a word whose lower-case form has the sanitised shape sanitises to that lower-case form |
| EditorIds.SanitizeJoinsWords | components/webui/www/app.js:922-929 | two words around any run of other characters sanitise to the lower-cased words joined by one `_` |
| EditorIds.SanitizeNothingLeft | components/webui/www/app.js:922-929 | a value with no character that lower-cases into `[a-z0-9_]` sanitises to `item` |
| EditorIds.JoinIdChars | components/webui/www/app.js:938 | two id parts joined by `_` use only id characters |
| EditorIds.WidgetIdPrefix | components/webui/www/app.js:932-933 | the prefix from the page and widget type is at least three characters from `[a-z0-9_]` |
| EditorIds.CreateWidgetId | components/webui/www/app.js:931-944 | `createWidgetIdForPage` returns `<page>_<type>_<n>` that no widget on any page uses, with n at most one more than the number of widget ids and every lower-numbered candidate already taken |
| EditorSearch.NormalizeSearchTerm | components/webui/www/app.js:963-970 | a missing term is empty; a term without `*` is the trimmed text; with a `*` it is the trimmed text after the first `*`; the result has no surrounding white space |
| EditorSearch.WildcardDropsPrefix | components/webui/www/app.js:963-970 | everything up to the first `*` is dropped, so `*living` searches for `living` |
| EditorSearch.ExplicitDomain | components/webui/www/app.js:977-984 | a domain is typed exactly when the input has a `.` after at least one character and the text before the first `.`, trimmed and lower-cased, consists only of `[a-z0-9_]` |
| EditorSearch.ParseSearchInput | components/webui/www/app.js:972-988 | a typed domain replaces the widget's domain and the search is the normalised text after the dot; without one the domain is the trimmed, lower-cased fallback and the search is the normalised input |
| EditorSearch.ParseExplicitDomain | components/webui/www/app.js:972-988 | input `<domain>.<rest>` with a valid domain searches that domain for the normalised rest, whatever the fallback |
| EditorSearch.Qualifying | components/webui/www/app.js:998-1003 | the qualifying entries are source entries with a non-empty string id, in the domain when one is given, and matching the search |
| EditorSearch.QualifyingStep | components/webui/www/app.js:1000-1004 | one more source entry extends the qualifying list by itself exactly when it qualifies |
| EditorSearch.CapReached | components/webui/www/app.js:1005 | once the collected list reaches the cap it is the capped prefix of the whole qualifying list, so breaking early loses nothing |
| EditorSearch.FilterLocalSuggestions | components/webui/www/app.js:998-1008 | `filterLocalEntitySuggestions` returns the first qualifying entries in source order, as many as the cap allows (at least one, since the check follows the push) |
| EditorSearch.LocalSuggestionsBounded | components/webui/www/app.js:998-1008 | with the cap of 24, the local suggestions number at most 24, come from the source, and lie in the requested domain |
| EditorSearch.OptionIds | components/webui/www/app.js:952-961 | the option list shows one non-empty id per entry that has one, and no more entries than it was given |
| EditorSearch.Run | components/webui/www/app.js:1045-1075 | a run advances the request counter; a typed domain outside the allowed list empties the suggestions and sends no query; otherwise the suggestions are the ids of the first 24 qualifying entries, and a query tagged with the new counter goes out exactly when there is a domain or at least two search characters |
| EditorSearch.LocalOptions | components/webui/www/app.js:1060-1061 | the options shown before any answer are the ids of the first 24 qualifying entries |
| EditorSearch.Respond | components/webui/www/app.js:1066-1074 | a remote answer replaces the suggestions only when it is non-empty and answers the latest run; the counter and timer are untouched |
| EditorSearch.NewerAnswerWins | components/webui/www/app.js:1066-1074 | whatever order two answers arrive in, the suggestions end as those of the newer non-empty answer |
| EditorSearch.StaleAnswerIgnored | components/webui/www/app.js:1068 | an answer to a superseded query changes nothing |
| EditorSearch.Schedule | components/webui/www/app.js:1040-1043 | scheduling leaves one pending timer and changes neither the counter nor the suggestions |
| EditorSearch.ScheduleAutocomplete | components/webui/www/app.js:1031-1086 | a disabled input is left alone; otherwise a pending timer is cleared, and the run starts at once when `immediate` is set (clearing the timer, advancing the counter and showing the local suggestions) or a new timer is armed |
| EditorSearch.TimerFires | components/webui/www/app.js:1082-1085 | the debounce timer firing clears the pending flag and starts a run that advances the counter |
| HaClient.HeapQueueLevel | main/ha/ha_client.c:410-428 | the level is critical exactly when free heap is below the critical mark or the queue fill reaches its critical mark, and at least protect or pressure exactly when the corresponding marks are crossed |
| HaClient.EvalBgBudgetLevel | main/ha/ha_client.c:410-434 | the level is never below what heap and queue call for; a transport-recovery error streak makes it critical and a Wi-Fi-recovery streak raises it to at least protect |
| HaClient.EvalMonotone | main/ha/ha_client.c:410-434 | less free heap, a fuller queue or a longer error streak never lowers the level |
| HaClient.FirmwareLevel | main/ha/ha_client.c:152-181 | with the firmware's constants the level is critical exactly below 5 KiB free, at 75 % queue fill or after 4 errors; otherwise protect exactly below 8 KiB, at 50 % or after 3; normal exactly from 12 KiB free with the queue under 25 % and fewer than 3 errors |
| HaClient.IntervalStep | main/ha/ha_client.c:436-479 | the step is the table's entry for the level: normal, pressure, protect or critical |
| HaClient.IntervalStepMonotone | main/ha/ha_client.c:436-479 | for any table whose entries grow with the severity, the interval step never shrinks as the level rises |
| HaClient.FirmwareStepsMonotone | main/ha/ha_client.c:182-193 | the initial, priority and periodic sync intervals the firmware defines never shrink as the level rises |
| HaClient.FirmwareStepRanges | main/ha/ha_client.c:182-193 | the initial interval lies in 200..3000 ms, the priority interval in 300..3000 ms and the periodic one in 30..90 minutes |
| HaClient.HttpOpenBudgetPerMinute | main/ha/ha_client.c:481-494 | the budget lies between 4 and 120 HTTP opens a minute: 120 exactly at the normal level, 40 exactly at pressure, 12 exactly at protect and 4 exactly at critical |
| HaClient.HttpBudgetNonIncreasing | main/ha/ha_client.c:481-494 | a more severe level never allows more HTTP opens |
| HaClient.EmptyQueue | main/ha/ha_client.c:1519-1535 | a new queue is well formed and holds nothing |
| HaClient.Pending | main/ha/ha_client.c:1482-1495 | the queued ids are the `count` slots from the head, round the ring |
| HaClient.Push | main/ha/ha_client.c:1497-1517 | an empty or already queued id is ignored; otherwise a full queue drops its oldest entry and the id, cut to the entry buffer, joins at the back; the queue stays well formed |
| HaClient.PushPending | main/ha/ha_client.c:1497-1517 | after a push the pending ids are the old ones, without the oldest when the queue was full, followed by the new id |
| HaClient.Pop | main/ha/ha_client.c:1519-1535 | popping fails exactly when there is no output buffer or the queue is empty; otherwise it yields the oldest id cut to the buffer |
| HaClient.PopPending | main/ha/ha_client.c:1519-1535 | after a pop the pending ids are the old ones without the oldest |
| HaClient.PushKeepsDistinct | main/ha/ha_client.c:1482-1517 | pushing keeps the queue free of duplicates and every entry within its buffer |
| HaClient.ParseWsEndpoint | main/ha/ha_client.c:1864-1915 | the endpoint parses exactly when the WebSocket URI parser accepts the URL, with the same scheme, host and port |
| HaClient.LexTotal | main/ha/ha_client.c:2168-2174 | the comparison of entity ids is total |
| HaClient.Insert | main/ha/ha_client.c:2168-2174 | inserting an id into a sorted list keeps it sorted and adds exactly that id |
| HaClient.SortIds | main/ha/ha_client.c:2176-2199 | the ids come out sorted and are a permutation of the ids given |
| HaClient.SortedUnique | main/ha/ha_client.c:2176-2199 | two sorted lists of the same ids are the same list, so the sorted order does not depend on the input order |
| HaClient.LayoutEntitySignature | main/ha/ha_client.c:2176-2199 | no ids give 0; otherwise the signature is the FNV-1a hash of the sorted ids, each followed by the 0xFF delimiter |
| HaClient.SignatureOrderIndependent | main/ha/ha_client.c:2176-2199 | the signature depends on which ids the layout binds, not on their order |
| HaClient.ExpectedStateFromService | main/ha/ha_client.c:1579-1609 | only `turn_on`, `turn_off`, `open_cover`, `close_cover` and `toggle` predict a state, one of on/off/open/closed; a toggle predicts exactly for a named entity that is on or off, and predicts the other one |
| HaClient.ToggleTwice | main/ha/ha_client.c:1579-1609 | toggling twice predicts the state the entity started in |
| HaClient.WsRestartWait | main/ha/ha_client.c:4148-4162 | the wait is the base doubled once per error, at most four times and stopping at the cap, plus the jitter; without the jitter it lies between the base and the cap |
| HaClient.BackoffMonotone | main/ha/ha_client.c:4148-4160 | a longer error streak never shortens the restart wait |
| HaClient.FirmwareBackoff | main/ha/ha_client.c:145-147 | with the firmware's 12 s base and 30 s cap the wait before jitter is 12 s after no error, 24 s after one and 30 s from the second on |
| HaModel.SafeCopy | main/ha/ha_model.c:37-49 | the copy is the longest prefix of the source that fits the buffer with its terminator, and a null source gives the empty text |
| HaModel.ContainsCaseInsensitive | main/ha/ha_model.c:51-80 | an empty or null needle is found anywhere, a null haystack holds no other needle, and otherwise the needle is found exactly when it matches, ignoring ASCII case, at some position |
| HaModel.ContainsIsLowerSearch | main/ha/ha_model.c:51-80 | the case-insensitive search is a plain search of the lower-cased texts |
| HaModel.FillDomain | main/ha/ha_model.c:82-98 | the domain is the text before the first dot, cut to the buffer, and `unknown` for an id without a dot |
| HaModel.FindEntity | main/ha/ha_model.c:161-169 | the index found is the first entity with the id, and none is found exactly when no entity has it |
| HaModel.FindState | main/ha/ha_model.c:171-179 | the index found is the first state with the entity id, and none is found exactly when no state has it |
| HaModel.UpsertEntity | main/ha/ha_model.c:181-202 | an empty id is an argument error; a known id is replaced in place; a new id is appended while there is room and is an out-of-memory error otherwise, with nothing changed; states and revision are untouched and the tables stay valid |
| HaModel.WithStub | main/ha/ha_model.c:229-235 | a stub entity named by the id is appended exactly when no entity has the id and there is room; otherwise the entities are unchanged |
| HaModel.UpsertState | main/ha/ha_model.c:204-243 | an empty id is an argument error; an identical state changes nothing; a full table is an out-of-memory error with nothing changed; any stored change bumps the revision exactly once; the tables stay valid |
| HaModel.GetState | main/ha/ha_model.c:245-259 | a state is found exactly when the table holds one for the entity, and it is that stored state |
| HaModel.UpsertThenGet | main/ha/ha_model.c:204-259 | storing a state and reading it back gives that state, when the table has room or already holds the id |
| HaModel.UpsertStateTwice | main/ha/ha_model.c:204-243 | storing the same state twice changes nothing the second time, so the revision moves at most once |
| HaModel.AllListedMembers | main/ha/ha_model.c:261-283 | the full listing holds exactly the table's entities that pass the domain filter and whose id or name holds the search text |
| HaModel.ListEntities | main/ha/ha_model.c:261-283 | the output is the first `maxOut` listed entities in table order, each in the table and passing the filter |
| HaModel.ListedPrefix | main/ha/ha_model.c:261-283 | the entities listed from a prefix of the table are a prefix of those listed from all of it |
| HaModel.Reset | main/ha/ha_model.c:147-159 | both tables are emptied, the revision is bumped with 32-bit wrap-around, and no state is found afterwards |
| HaWs.Authority | main/ha/ha_ws.c:63-71 | the authority is the longest prefix after the scheme without `/`, and stops exactly at the first `/` |
| HaWs.PortAfter | main/ha/ha_ws.c:84-93 | the port is the scheme's default unless the text after the last colon converts to 1..65535 |
| HaWs.HostOf | main/ha/ha_ws.c:76-85 | the host is the authority before its last colon, or the whole authority when it has none |
| HaWs.ParseWsUri | main/ha/ha_ws.c:41-102 | a URL without `ws://` or `wss://` is refused; an accepted one yields the scheme's security, a non-empty host without `/` that fits its buffer, the default port (443 or 80) or one in 1..65535, and a path starting with `/` |
| HaWs.ParseFormatRoundTrip | main/ha/ha_ws.c:41-102 | the URL written for an endpoint with a non-empty host without `/` that fits its buffer parses back to that endpoint |
| HttpGuard.Init | main/api/http_guard.c:167-169 | initialisation leaves a valid table of sixteen slots, none of them in use |
| HttpGuard.FindKey | main/api/http_guard.c:87-92 | a client's slot is the first used slot holding its key, and none is found exactly when no used slot holds it |
| HttpGuard.FirstFree | main/api/http_guard.c:97-99 | the free slot chosen is the first unused one, and none is found exactly when every slot is in use |
| HttpGuard.Oldest | main/api/http_guard.c:93-96 | the slot to evict is the first used slot seen least recently; a time of `INT64_MAX` never qualifies |
| HttpGuard.SlotFor | main/api/http_guard.c:102-106 | a known client keeps its own slot; otherwise the first free slot, else the oldest one, is taken; no slot exactly when none of the three exists |
| HttpGuard.Refill | main/api/http_guard.c:114-124 | a clock that has not moved on changes nothing; otherwise tokens grow by five thousandths per millisecond up to the burst of ten and the refill time becomes now |
| HttpGuard.Allow | main/api/http_guard.c:78-133 | a request without a slot is refused and changes nothing; otherwise the slot is claimed (a new client starts full), refilled, marked seen, and the request passes exactly when a whole token is left, which it then costs |
| HttpGuard.AllowKeepsValid | main/api/http_guard.c:78-133 | the table stays valid and a client that got a slot is in the table afterwards |
| HttpGuard.NewClientPasses | main/api/http_guard.c:102-112 | a new client in a table with a free slot passes and is left with nine tokens |
| HttpGuard.WaitRefills | main/api/http_guard.c:115-124 | a known client that waited 200 ms since its last refill passes again |
| HttpGuard.RepeatFromTokens | main/api/http_guard.c:127-132 | of requests made at one instant from a slot with `k` whole tokens, exactly the first `k` pass |
| HttpGuard.BurstOfTen | main/api/http_guard.c:17-20 | a new client gets exactly ten of any number of requests made at one instant |
| HttpGuard.AllowScan | main/api/http_guard.c:82-133 | the code as written, the slot search followed by the refill and charge, decides exactly as the definition does and changes the table the same way |
| HttpGuard.ScanSlot | main/api/http_guard.c:82-104 | the single scan that stops at the client's own slot, and otherwise remembers the first free slot and the least recently seen used one, picks the slot the definition picks: own, else free, else oldest, else none |
| HttpGuard.Handle | main/api/http_guard.c:176-206 | a request is handed on exactly when initialisation succeeded, the rate limit allows it and one of the two active places is free; a rate refusal answers 429; only the answers 200, 429 and 503 occur |
| HttpGuard.ClientKey | main/api/http_guard.c:40-76 | an IPv4 peer is keyed by its address, an IPv6 peer by a 32-bit hash of its address, and any other peer shares key 0 |
| I18nStore.NormalizeLanguageCode | main/settings/i18n_store.c:68-94 | a normalised code exists only for given input and a non-empty buffer, is non-empty, fits the buffer and is a valid language code |
| I18nStore.NormalizeFirstWord | main/settings/i18n_store.c:74-93 | the code is the first word after the leading white space, lower-cased; the word ends at the end of the input or at white space, and normalising succeeds exactly when the word is non-empty, fits the buffer and lower-cases to a valid code |
| I18nStore.CodeOfWord | main/settings/i18n_store.c:78-93 | a word yields a code exactly when it is non-empty, fits the buffer and lower-cases to a valid code (2 to `maxLen - 1` characters from `a-z`, `0-9`, `-`, `_`), and the code is the lower-cased word |
| I18nStore.NormalizeValidCode | main/settings/i18n_store.c:47-94 | a valid code that fits the buffer is its own normal form |
| I18nStore.NormalizeIdempotent | main/settings/i18n_store.c:68-94 | normalising a normalised code again gives it back unchanged |
| I18nStore.BuiltinTranslation | main/settings/i18n_store.c:96-119 | a built-in table is selected exactly for a built-in code, German for `de`, English for `en` and Spanish for `es` |
| I18nStore.AddLanguage | main/settings/i18n_store.c:241-261 | a code is added exactly when it is given, non-empty, not already listed (compared over the buffer) and the list has room; it is then appended cut to its buffer, and otherwise nothing changes |
| I18nStore.AddLanguageKeepsList | main/settings/i18n_store.c:241-261 | adding a code that fits keeps the list free of repeats and within its bound, and the code is listed afterwards unless the list was full |
| I18nStore.CodeFromName | main/settings/i18n_store.c:290-313 | a directory entry yields a code only when its name is longer than `.json` and ends in it, and the code is the normalised base name |
| I18nStore.CodeFromFileName | main/settings/i18n_store.c:290-313 | the file a translation is saved under, `<code>.json`, lists that code again |
| I18nStore.AddCode | main/settings/i18n_store.c:315 | one entry's step keeps the list well formed and extends it only by that entry's code, which is listed afterwards while there is room |
| I18nStore.AddNames | main/settings/i18n_store.c:288-316 | the listing loop keeps the list well formed and the old codes in front; every new code comes from some entry, and short of the cap every entry's code is listed |
| I18nStore.NamesOrigin | main/settings/i18n_store.c:288-316 | every code past the old ones is the code of some directory entry |
| I18nStore.NamesCovered | main/settings/i18n_store.c:288-316 | short of the cap, the code of every directory entry is listed |
| I18nStore.AddBuiltins | main/settings/i18n_store.c:272-275 | the built-in codes `de`, `en`, `es` are listed first, as many as fit, in that order |
| I18nStore.ListLanguages | main/settings/i18n_store.c:263-321 | no room for any code is an argument error; otherwise the built-ins come first, then each code from the translation files once, up to the cap; a failed directory open is an error unless the directory is missing |
| Json.Truncate | main/layout/layout_validate.c:339-342 | C's conversion of an in-range double to `int` drops the fraction toward zero |
| Json.ValueInt | main/layout/layout_validate.c:339-342 | cJSON's `valueint` of a number is `INT_MAX` from `INT_MAX` up, `INT_MIN` from `INT_MIN` down, and the value truncated toward zero in between |
| Json.ValueIntExamples | main/ui/ui_runtime.c:279-282 | a whole number within 32 bits reads as itself, 12.9 and -12.9 read as 12 and -12, and `1e12` reads as `INT_MAX` |
| Json.Wrap32 | main/layout/layout_validate.c:344-345 | a sum of two `int`s on 32-bit two's-complement hardware is the exact sum reduced into the `int` range, and is the exact sum when that fits |
| Json.Lookup | main/layout/layout_validate.c:330-333 | looking a key up finds nothing exactly when no member has that key |
| Json.Put | components/webui/www/app.js:278-300 | assigning a property makes it hold the new value, keeps an existing property in place, and appends a new one at the end |
| Json.PutOther | components/webui/www/app.js:278-300 | assigning one property leaves every other property's value as it was |
| Json.PutOthers | components/webui/www/app.js:278-300 | assigning one property leaves the value of every other key as it was |
| Json.Remove | components/webui/www/app.js:299 | `delete` removes every member with that key and keeps all others in order |
| Json.RemoveOther | components/webui/www/app.js:299 | deleting one property leaves every other property's value as it was |
| Json.PutTwo | components/webui/www/app.js:278-286 | after two assignments to distinct keys each holds its value and every other key is kept |
| Json.PutThree | components/webui/www/app.js:287-291 | after three assignments to distinct keys each holds its value and every other key is kept |
| Json.PutTwoRemove | components/webui/www/app.js:292-301 | after two assignments and a deletion on distinct keys, every other key is kept |
| Json.PutTwoFixpoint | components/webui/www/app.js:278-286 | repeating two assignments to distinct keys changes nothing |
| Json.PutThreeFixpoint | components/webui/www/app.js:287-291 | repeating three assignments to distinct keys changes nothing |
| Json.PutTwoRemoveFixpoint | components/webui/www/app.js:292-301 | repeating two assignments and a deletion on distinct keys changes nothing |
| Json.PutFixpoint | components/webui/www/app.js:278-300 | assigning the value a property already holds changes nothing |
| JsText.Trim | components/webui/www/app.js:234 | `trim` leaves no white space at either end and never lengthens the text |
| JsText.TrimIdempotent | components/webui/www/app.js:234 | trimming a trimmed string changes nothing |
| JsText.TrimLowerCommute | components/webui/www/app.js:234-238 | lower-casing and trimming commute, since no letter is white space |
| JsText.JsRound | components/webui/www/app.js:259 | `Math.round` gives the integer within one half of its argument, halves going up |
| JsText.JsRoundInt | components/webui/www/app.js:259 | an integer is its own rounding |
| JsText.StringToNumber | components/webui/www/app.js:256 | text that is empty or only white space converts to 0 |
| JsText.StringToNumberTrim | components/webui/www/app.js:256 | surrounding white space never changes what a text converts to |
| JsText.StringToNumberDigits | components/webui/www/app.js:256 | digits, with any surrounding white space, convert to the integer they spell |
| JsText.NegatedDigits | components/webui/www/app.js:256 | a minus sign before digits converts to the negated integer |
| JsText.StringToNumberPointed | components/webui/www/app.js:256 | digits, a point and optional digits convert to the integer part plus the fraction digits over the matching power of ten |
| JsText.ToNumberOfDecimal | components/webui/www/app.js:256 | every integer written in decimal reads back through `Number` as itself |
| JsText.StringToNumberFraction | components/webui/www/app.js:256 | `Number(" 12.5 ")` is 12.5: the spaces are trimmed and the fraction is kept |
| JsText.StringToNumberSignedFraction | components/webui/www/app.js:256 | `Number("-.5")` is -0.5 |
| JsText.StringToNumberExponent | components/webui/www/app.js:256 | `Number("1e3")` is 1000 |
| JsText.StringToNumberNegativeExponent | components/webui/www/app.js:256 | `Number("25E-1")` is 2.5 |
| JsText.StringToNumberHex | components/webui/www/app.js:256 | `Number("0x1F")` is 31 |
| JsText.StringToNumberRejectsUnit | components/webui/www/app.js:256-257 | `Number("12px")` is not a finite number |
| JsText.StringToNumberRejectsPoint | components/webui/www/app.js:256-257 | `Number(".")` is not a finite number |
| JsText.StringToNumberRejectsComma | components/webui/www/app.js:256-257 | `Number("1,2")`, the text of a two-element array, is not a finite number |
| LayoutValidate.IsValidEntityId | main/layout/layout_validate.c:28-57 | an entity id is valid exactly when it fits its buffer, has one dot with text on both sides, and every other character is from `a-z`, `0-9`, `_` |
| LayoutValidate.EntityIdShapeAt | main/layout/layout_validate.c:28-57 | with the first dot found, validity is: no later dot and every other character allowed |
| LayoutValidate.EntityInDomainIsPrefix | main/layout/layout_validate.c:59-66 | an id is in a domain exactly when it starts with the domain followed by a dot |
| LayoutValidate.EntityDomainValid | main/layout/layout_validate.c:164-179 | a sensor takes `sensor.` or `binary_sensor.` ids, any other typed widget takes ids of its required domain, and a type without one takes any id |
| LayoutValidate.Add | main/layout/layout_validate.c:230-240 | a message is kept exactly while the list has room; otherwise the list is unchanged |
| LayoutValidate.AddAllKeepsPrefix | main/layout/layout_validate.c:230-240 | adding messages one by one keeps the first ones up to the cap and drops the rest |
| LayoutValidate.IdProblems | main/layout/layout_validate.c:255-264 | a widget id draws at most one message, and none exactly when it is a non-empty string that fits its buffer and was not seen before |
| LayoutValidate.TypeProblems | main/layout/layout_validate.c:266-273 | a widget type draws at most one message, and none exactly when it is a string naming a type the firmware supports |
| LayoutValidate.EntityProblems | main/layout/layout_validate.c:275-292 | the entity id draws at most two messages, and none exactly when it is a valid id in the domain the widget type requires |
| LayoutValidate.SecondaryProblems | main/layout/layout_validate.c:294-303 | a heating tile's non-empty secondary entity draws a message exactly when it is not a valid `sensor.` id |
| LayoutValidate.SliderProblems | main/layout/layout_validate.c:305-324 | a slider's direction and accent colour, when present, draw a message exactly when they are not strings of their grammars |
| LayoutValidate.RectProblems | main/layout/layout_validate.c:326-359 | the rect draws at most one message, and none exactly when it is an object of four numbers lying inside the content box with a positive size and within the type's size limits |
| LayoutValidate.RectProblemsAsWritten | main/layout/layout_validate.c:326-359 | with the bound test as written, the rect draws at most one message and none exactly when it is four numbers passing the wrapping bound test and within the type's limits |
| LayoutValidate.RectProblemsAgree | main/layout/layout_validate.c:339-345 | while no coordinate's `valueint` exceeds half of `INT_MAX`, the rect check as written and as intended give the same messages |
| LayoutValidate.WidgetProblemsExact | main/layout/layout_validate.c:242-362 | a widget draws no message exactly when it meets every rule on id, type, entity, secondary entity, slider options and rect |
| LayoutValidate.ScanWidget | main/layout/layout_validate.c:450-466 | checking one widget entry only appends messages and only appends to the recorded widget ids |
| LayoutValidate.ScanPage | main/layout/layout_validate.c:412-466 | checking one page only appends messages and only appends to the recorded widget ids |
| LayoutValidate.DocumentProblems | main/layout/layout_validate.c:378-389 | a wrong version is the first message, and a `pages` value that is not an array ends the check with its message last |
| LayoutValidate.Problems | main/layout/layout_validate.c:364-376 | a null text draws only the null-layout message and an unparsable one only the parse-error message |
| LayoutValidate.ValidateJson | main/layout/layout_validate.c:364-473 | the messages are the first problems found, up to the cap, and the layout is valid exactly when there is no problem, which is exactly when no message is kept |
| LayoutValidate.RecordedIdReported | main/layout/layout_validate.c:256-264 | a widget whose id was recorded earlier draws a duplicate-id message, wherever in the document it appears |
| LayoutValidate.ContentBoxAgrees | main/layout/layout_validate.c:344-345 | while neither `rx + rw` nor `ry + rh` leaves the `int` range, the bound test as written accepts exactly the rects inside the content box |
| LayoutValidate.ContentBoxOverflowAccepted | main/layout/layout_validate.c:339-345 | a 120x80 sensor rect (within the sensor's size limits) with `"x": 1e12` reads `x` as `INT_MAX`; the sum wraps negative, so the rect check as written raises nothing while the intended check reports the rect out of bounds |
| LayoutValidate.OverflowWidgetRejected | main/layout/layout_validate.c:326-359 | any sensor widget carrying that rect has the out-of-bounds message in its problem list, while the rect check as written gives it none |
| MdiConverter.Strip | tools/mdi_to_lvgl_converter.py:31 | the stripped text has no white space at either end and is what is left after removing white space from both ends |
| MdiConverter.SplitJoin | tools/mdi_to_lvgl_converter.py:59 | splitting comma-joined pieces that hold no comma gives the pieces back |
| MdiConverter.BeforeHash | tools/mdi_to_lvgl_converter.py:56 | the kept part of a line is its longest prefix without `#`, and it stops exactly at the first `#` |
| MdiConverter.Chunks | tools/mdi_to_lvgl_converter.py:59-62 | every chunk kept from a line is non-empty |
| MdiConverter.LoadJoined | tools/mdi_to_lvgl_converter.py:53-63 | a token file holding clean tokens separated by commas loads as exactly those tokens, in order |
| MdiConverter.HexValue | tools/mdi_to_lvgl_converter.py:49-50 | the upper-case hexadecimal digits written for a code point are a numeral worth that code point |
| MdiConverter.SignedHexParses | tools/mdi_to_lvgl_converter.py:38 | reading base 16 the digits written for any integer, with its sign, gives that integer back |
| MdiConverter.ParseCodepointOx | tools/mdi_to_lvgl_converter.py:30-38 | a token starting `0x` is read as hexadecimal from after the prefix |
| MdiConverter.RangeEntryParses | tools/mdi_to_lvgl_converter.py:30-38 | each `0x`-prefixed entry of the range string parses back as its code point |
| MdiConverter.RangeEntries | tools/mdi_to_lvgl_converter.py:49-50 | the range string has one `0x`-prefixed upper-case entry per code point, in order |
| MdiConverter.ParseAll | tools/mdi_to_lvgl_converter.py:112 | parsing a token list succeeds exactly when every token parses, and then gives each token's code point in order |
| MdiConverter.RangeFileRoundTrip | tools/mdi_to_lvgl_converter.py:49-63 | a range string saved as a token file loads and parses back as the code points it lists |
| MdiConverter.UniqueSorted | tools/mdi_to_lvgl_converter.py:41-42 | the result is strictly increasing and holds exactly the values given |
| MdiConverter.IncreasingUnique | tools/mdi_to_lvgl_converter.py:41-42 | two strictly increasing lists with the same members are equal, so the result is the only such list |
| MdiConverter.UniqueSortedIdempotent | tools/mdi_to_lvgl_converter.py:41-42 | making an already unique sorted list unique and sorted again changes nothing |
| MdiConverter.Tokens | tools/mdi_to_lvgl_converter.py:102-110 | the converter always has at least one token to work on |
| MdiConverter.Codepoints | tools/mdi_to_lvgl_converter.py:112 | the code points are found exactly when every token parses; they are strictly increasing and are exactly the parsed values |
| MdiConverter.HexTokenParses | tools/mdi_to_lvgl_converter.py:30-38 | a bare upper-case hexadecimal token parses as its value |
| MdiConverter.DefaultRange | tools/mdi_to_lvgl_converter.py:109-112 | with no tokens from any source the converter works on U+F06E8 alone |
| PanelConfig.WidgetSizeLimits | main/layout/layout_validate.c:86-142 | every type's limits lie within the content box, with minimums between 60x60 and 260x220; an unknown or missing type gets 60x60 up to the whole box, sensors, sliders and graphs may fill the box, and on a box of at least 640x420 no minimum exceeds its maximum |
| Percent.ClampPercent | main/ui/widgets/w_light_tile.c:125-134 | the result lies in 0..100, equals the input inside that range, and is 0 below it and 100 above it |
| Percent.ClampPercentMonotone | main/ui/widgets/w_slider.c:43-52 | clamping keeps the order of its inputs and clamping twice is clamping once |
| Percent.BrightnessToPercent | main/ui/widgets/w_light_tile.c:180-189 | a raw brightness becomes a percent in 0..100; anything at or below 0 reads as 0 and anything at or above 255 as 100 |
| Percent.BrightnessToPercentRounds | main/ui/widgets/w_light_tile.c:180-189 | the percent is the raw 0..255 brightness rounded to the nearest whole percent |
| Percent.BrightnessToPercentMonotone | main/ui/widgets/w_light_tile.c:180-189 | a brighter raw value never reads as a smaller percent |
| Percent.PercentToBrightness | main/ui/ui_bindings.c:62-65 | a slider percent sent to a light becomes a brightness in 0..255: the clamped percent times 255 divided by 100, rounded down, so 0 for 0 % and 255 for 100 % |
| Percent.PercentBrightnessRoundTrip | main/ui/ui_bindings.c:62-65 | a percent sent to a light and read back from the brightness the light reports comes back unchanged |
| HexRgb.IsValidHexRgbSpellings | main/layout/layout_validate.c:186-209 | a colour text is accepted exactly when it is six hex digits, optionally after `#`, `0x` or `0X` |
| HexRgb.ParseHexRgb | main/ui/widgets/w_graph.c:195-231 | a colour parses exactly when the layout validator accepts it, and the parsed colour fits 24 bits |
| HexRgb.ParseFormatRoundTrip | main/ui/widgets/w_slider.c:181-217 | the lower-case `#rrggbb` form of any 24-bit colour parses back to that colour |
| HexRgb.PrefixIrrelevant | main/ui/widgets/w_slider.c:181-217 | `#`, `0x`, `0X` and no prefix in front of the same six digits give the same colour |
| RingBuf.WriteByte | main/util/ringbuf.c:16-25 | a write succeeds exactly when a store exists and the ring is not full; on success the byte joins the end of the waiting bytes, on failure nothing changes, and the ring stays well formed |
| RingBuf.ReadByte | main/util/ringbuf.c:27-36 | a read succeeds exactly when a store exists, an output place is given and bytes are waiting; it yields the oldest waiting byte and leaves the rest in order, and a failed read changes nothing |
| RingBuf.WriteAllQueues | main/util/ringbuf.c:16-25 | writing a run of bytes stores as many as there is room for, and they queue after the bytes already waiting |
| RingBuf.ReadAllInOrder | main/util/ringbuf.c:27-36 | repeated reads return the waiting bytes oldest first, as many as asked for or as are waiting |
| RingBuf.Fifo | main/util/ringbuf.c:16-36 | bytes written into an empty ring with room for them are read back unchanged and in the same order |
| ApiSettings.NormalizeCountryCode | main/api/api_settings.c:58-78 | an empty code becomes the default; a non-empty one is accepted exactly when it is two letters, and is then stored upper-cased, the same letters as given |
| ApiSettings.NormalizeCountryCodeFixpoint | main/api/api_settings.c:58-78 | a two-letter upper-case code is already normal and comes back as it is |
| ApiSettings.NormalizeUiLanguage | main/api/api_settings.c:80-96 | an empty language becomes the default; any other must normalise to a valid language code, the one the language store would produce |
| ApiSettings.UpdateString | main/api/api_settings.c:202-234 | an absent key changes nothing; a string that fits replaces the value; a too-long string raises the too-long flag and changes nothing; `null` clears the value; any other type raises the wrong-type flag; a value that fit its buffer still fits |
| ApiSettings.UpdateBool | main/api/api_settings.c:236-252 | an absent key changes nothing, a boolean replaces the value, and anything else raises the wrong-type flag |
| ApiSettings.SetText | main/api/api_settings.c:202-234 | one field takes the new text and every other field keeps its value |
| ApiSettings.ApplyStep | main/api/api_settings.c:320-362 | an update whose key is absent changes nothing; it changes only its own field, keeps that field within its buffer, and never clears a flag already raised |
| ApiSettings.ApplySteps | main/api/api_settings.c:320-362 | the updates in order keep every field within its buffer, change nothing when no key is present, and never clear a raised flag |
| ApiSettings.ApplyFields | main/api/api_settings.c:318-362 | all updates of a `PUT` keep every field within its buffer, and a body naming no setting leaves the settings and the flags untouched |
| ApiSettings.Finish | main/api/api_settings.c:378-409 | a wrong type is reported first, then a too-long value, then a URL without `ws://` or `wss://`, then a bad country code; a save keeps SSID and URL as given, clears the password for an empty SSID, fills empty NTP server and time zone from the defaults, and stores settings that meet every constraint |
| ApiSettings.Put | main/api/api_settings.c:275-409 | a body that is not an object, a section that is not an object (checked `wifi`, `ha`, `time`, `ui` in turn) or a `reboot` that is not a boolean is rejected before any field counts; otherwise the field updates and the final checks decide |
| ApiSettings.PutSavesNormal | main/api/api_settings.c:364-409 | what a successful `PUT` stores meets every constraint the handler enforces, and reboot is true unless the body says otherwise |
| ApiSettings.FinishNormal | main/api/api_settings.c:378-409 | settings that already meet the constraints pass the final checks unchanged |
| ApiSettings.RebootOnlyTouchesNothing | main/api/api_settings.c:346-374 | a body carrying only `reboot` touches no setting |
| ApiSettings.PutNormalIsFixpoint | main/api/api_settings.c:254-437 | settings that already meet the constraints come back unchanged from a `PUT` that names no setting |
| ApiSettings.PutEmptyBody | main/api/api_settings.c:364-409 | an empty object over settings that meet the constraints saves them unchanged and asks for a reboot |
| ApiSettings.PutIdempotent | main/api/api_settings.c:254-437 | saving is idempotent: a `PUT` naming no setting over what a `PUT` saved saves the same settings |
| SubsetTtf.Expand | tools/subset_ttf.py:247-260 | one round of the work list only adds glyphs, and only 16-bit glyph indices; a round that adds nothing leaves a set closed under composite references |
| SubsetTtf.CloseCloses | tools/subset_ttf.py:245-260 | the closure holds the starting glyphs and every glyph a member's composite outline refers to |
| SubsetTtf.CloseLeast | tools/subset_ttf.py:245-260 | any set that holds the starting glyphs and is closed under composite references holds the closure, so nothing needless is kept |
| SubsetTtf.QueueRefs | tools/subset_ttf.py:256-260 | each component not seen before joins both the kept set and the queue; nothing else changes |
| SubsetTtf.Visit | tools/subset_ttf.py:248-260 | a glyph out of range or with an empty or out-of-table outline adds nothing; otherwise its unseen components join the kept set and the queue |
| SubsetTtf.KeepClosure | tools/subset_ttf.py:245-260 | the work-list loop ends with the smallest set that holds the starting glyphs and is closed under composite references |
| SubsetTtf.FindTag | tools/subset_ttf.py:229-232 | a table is found exactly when some directory entry carries its tag, and the entry found carries it |
| SubsetTtf.StartGlyphs | tools/subset_ttf.py:239-243 | the start set holds `.notdef` and every glyph a code point maps to, and every other member comes from some code point; a lookup that raises yields nothing |
| SubsetTtf.RetableFrom | tools/subset_ttf.py:289-310 | every table of the subset font is a source table from the kept list, with `glyf` and `loca` replaced by the new ones |
| SubsetTtf.RetableHas | tools/subset_ttf.py:301-310 | every source table from the kept list appears in the subset font |
| SubsetTtf.RetableHead | tools/subset_ttf.py:301-310 | the subset font keeps the source's `head` table unchanged |
| SubsetTtf.RebuiltChecksum | tools/subset_ttf.py:312-313 | whenever the rebuilt font is packed, it sums to 0xB1B0AFBA |
| SubsetTtf.SubsetChecksum | tools/subset_ttf.py:226-315 | whenever subsetting produces a font, its checksum adjustment is right: the whole font sums to 0xB1B0AFBA |
| TtfChecksum.Padded | tools/subset_ttf.py:165-167 | the data is followed by fewer than four zero bytes that bring its length to a multiple of four |
| TtfChecksum.ComputeChecksum | tools/subset_ttf.py:164-171 | the loop that masks its running total to 32 bits at every step gives the 32-bit sum of the padded data's big-endian words |
| TtfChecksum.ChecksumAppend | tools/subset_ttf.py:164-171 | the checksum of a word-aligned piece followed by another is the 32-bit sum of the two pieces' checksums |
| TtfChecksum.ChecksumWordChange | tools/subset_ttf.py:164-171 | filling one aligned word that was zero adds that word's value, modulo 2^32, to the checksum |
| TtfDirectory.SortByTag | tools/subset_ttf.py:175 | the tables come out in ascending tag order and are a permutation of the tables given |
| TtfDirectory.SearchParams | tools/subset_ttf.py:178-182 | the doubling loop finds the largest power of two not above the table count (1 for none) and its exponent |
| TtfDirectory.Log2Unique | tools/subset_ttf.py:178-182 | the exponent the loop finds is the only one whose power of two brackets the table count |
| TtfDirectory.MakeTtf | tools/subset_ttf.py:174-202 | building succeeds exactly when every count, offset and length fits its 16- or 32-bit field, and then lays out the tables in tag order |
| TtfDirectory.BuildHeader | tools/subset_ttf.py:183-186 | the built file starts with version 0x00010000, the table count, the search range, the entry selector and the range shift the OpenType "Table Directory" section defines |
| TtfDirectory.BuildRecord | tools/subset_ttf.py:188-195 | record `i` holds the table's tag, its checksum, its offset in the file and its unpadded length |
| TtfDirectory.OffsetStep | tools/subset_ttf.py:196-200 | every table starts on a four-byte boundary, right after the padded table before it |
| TtfDirectory.BuildData | tools/subset_ttf.py:196-202 | every table is stored unchanged at the offset its record gives, followed by zero padding up to the next four-byte boundary |
| TtfDirectory.Adjusted | tools/subset_ttf.py:217-223 | only the four bytes of the adjustment field change, and they hold the adjustment computed from the font with that field zeroed |
| TtfDirectory.SetHeadChecksumAdjustment | tools/subset_ttf.py:205-223 | the adjustment succeeds exactly when the font is long enough for its table count and has a `head` record, and then patches the first `head` table's field at offset 8 |
| TtfDirectory.AdjustedChecksum | tools/subset_ttf.py:205-223 | when the `head` table is four-byte aligned, the adjusted font sums to 0xB1B0AFBA, as the OpenType "head" section requires |
| TtfDirectory.FindHeadInBuild | tools/subset_ttf.py:206-213 | in a built font the record search finds the first `head` table in tag order |
| TtfDirectory.HeadedFontChecksum | tools/subset_ttf.py:312-313 | building any tables that include a `head` table of at least 12 bytes and then setting the adjustment succeeds, and the font sums to 0xB1B0AFBA |
| TtfLoca.LocaOffsets | tools/subset_ttf.py:60-67 | reading `n + 1` offsets succeeds exactly when they all lie inside the table, and offset `i` is entry `i` in the table's format |
| TtfLoca.ParseLoca | tools/subset_ttf.py:56-67 | parsing succeeds exactly when `head` holds the format flag and `loca` holds `n + 1` entries, and gives `n + 1` offsets |
| TtfLoca.EncodeLoca | tools/subset_ttf.py:277-286 | packing succeeds exactly when every offset is storable in the format (even and under 2^17 for short, under 2^32 for long) and gives one entry per offset |
| TtfLoca.LocaRoundTrip | tools/subset_ttf.py:56-67 | offsets packed in either format parse back as themselves |
| TtfLoca.NewLocaShape | tools/subset_ttf.py:262-272 | the new `loca` starts at 0, never decreases and ends at the length of the new `glyf` |
| TtfLoca.NewGlyphBytes | tools/subset_ttf.py:265-271 | in the new font, glyph `g` spans exactly its original outline when it is kept and its offsets are sound, and nothing otherwise |
| TtfLoca.Rebuild | tools/subset_ttf.py:262-272 | the rebuild loop computes the new `glyf` and `loca` |
| TtfCmap.FirstHitFound | tools/subset_ttf.py:84-90 | a scan hits a glyph exactly when some step does and every step before it misses |
| TtfCmap.FirstHitMiss | tools/subset_ttf.py:102-122 | a scan misses exactly when every step misses |
| TtfCmap.FirstHitFault | tools/subset_ttf.py:84-90 | a scan raises exactly when some step reads past the table and every step before it misses |
| TtfCmap.GroupStep | tools/subset_ttf.py:85-89 | a format 12 group holding the codepoint maps it to a non-negative glyph: its start glyph plus the distance from its start character |
| TtfCmap.SegmentGlyph | tools/subset_ttf.py:108-119 | a format 4 segment's glyph is a 16-bit value, from the delta alone or from the glyph array, and 0 when the array entry lies past the table |
| TtfCmap.SegmentStep | tools/subset_ttf.py:103-121 | a segment holding the codepoint hits only with a nonzero 16-bit glyph |
| TtfCmap.SubtableStep | tools/subset_ttf.py:77-94 | a format 12 match returns at once with a non-negative glyph, a format 4 match sets a nonzero best glyph, and other subtables are skipped |
| TtfCmap.WalkReturns | tools/subset_ttf.py:76-91 | the first format 12 subtable that maps the codepoint decides the lookup, whatever format 4 subtables before it found |
| TtfCmap.WalkFaults | tools/subset_ttf.py:76-124 | a subtable that reads past the table before any subtable decides makes the lookup raise |
| TtfCmap.WalkLastBest | tools/subset_ttf.py:120-124 | when no subtable returns or raises, the last format 4 subtable that found a glyph decides |
| TtfCmap.WalkSkips | tools/subset_ttf.py:74-124 | when every remaining subtable is skipped, the best glyph found so far (0 at the start) is the answer |
| TtfCmap.WalkNonNegative | tools/subset_ttf.py:70-124 | a glyph the lookup finds is never negative |
| TtfCmap.GroupLoop | tools/subset_ttf.py:84-91 | the group loop with its early return computes the group scan |
| TtfCmap.SegmentLoop | tools/subset_ttf.py:102-122 | the segment loop with its break computes the segment scan |
| TtfCmap.LookupGlyph | tools/subset_ttf.py:70-124 | the subtable loop with its early return and running best computes the lookup |
| TtfGlyf.ComponentSize | tools/subset_ttf.py:148-157 | a component takes 6 to 16 bytes, depending on its argument and transform flags |
| TtfGlyf.CompositeRefs | tools/subset_ttf.py:127-132 | only a glyph of at least 10 bytes with a negative contour count has components, and every component glyph index fits 16 bits |
| TtfGlyf.ScanComposite | tools/subset_ttf.py:134-161 | the loop with its `more` flag computes the component list |
| TtfGlyf.CompositeRoundTrip | tools/subset_ttf.py:127-161 | a composite glyph written from chained components reads back as their glyph indices in order, whatever follows them |
| UiRuntime.ClampWidgetRect | main/ui/ui_runtime.c:101-142 | the clamped rect lies inside the content box and within the type's maximum size, reaches the minimum size where the limits allow it, and keeps any size and position that were already within bounds |
| UiRuntime.ClampIdempotent | main/ui/ui_runtime.c:101-142 | clamping a clamped rect changes nothing |
| UiRuntime.WidgetFromJson | main/ui/ui_runtime.c:243-285 | a widget becomes a definition exactly when its id, type and entity id are strings and its rect is an object of four numbers; every text is cut to its buffer, the title falls back to the id, and the rect is clamped |
| UiRuntime.ActionFor | main/ui/ui_runtime.c:193-214 | an empty entity id touches nothing; a widget bound to the entity as primary or as non-empty secondary receives a found state; a missing state marks only primary-bound widgets unavailable, and only when asked to |
| UiRuntime.ApplyEntityState | main/ui/ui_runtime.c:201-213 | every built widget, in order, gets exactly the action its binding calls for |
| UiRuntime.PreserveMissingOnlyWithholds | main/ui/ui_runtime.c:232-241 | preserving missing states never marks a widget unavailable; it only withholds marks the ordinary update would make |
| UiPages.Init | main/ui/ui_pages.c:328-391 | a new registry holds no pages and shows none |
| UiPages.Add | main/ui/ui_pages.c:398-423 | a page is added exactly when the registry has room, the id is given and non-empty and the content box exists; it is appended with id and title cut to their buffers; a refusal changes nothing, and the registry stays valid |
| UiPages.ShowIndex | main/ui/ui_pages.c:425-444 | showing by index succeeds exactly for an index of an existing page, which becomes current; a refusal changes nothing |
| UiPages.FirstMatch | main/ui/ui_pages.c:446-457 | the page found is the first whose id matches over the id buffer, and none is found exactly when no id matches |
| UiPages.Show | main/ui/ui_pages.c:446-457 | showing by id succeeds exactly when some page's id matches, and the first match becomes current; a refusal changes nothing |
| UiPages.AddThenShow | main/ui/ui_pages.c:398-457 | a page added with an id that fits its buffer can then be shown by that id |
| UiPages.Next | main/ui/ui_pages.c:459-466 | stepping succeeds exactly when there is a page, and moves to the page after the current one (the first when none is shown), wrapping around |
| UiPages.NextNAdvances | main/ui/ui_pages.c:459-466 | from a shown page, up to one round of steps lands that many pages further on, wrapping once |
| UiPages.NextCycles | main/ui/ui_pages.c:459-466 | stepping through every page comes back to the page it started from |
| UiPages.CurrentId | main/ui/ui_pages.c:468-474 | the current id is the shown page's id, or empty when no page is shown |
| UiPages.ShowIndexThenCurrentId | main/ui/ui_pages.c:425-474 | showing a page by index and reading the current id gives that page's id |
| UiPages.SideWidth | main/ui/ui_pages.c:125-136 | each side button is at least 64 pixels wide and, when the region has room for the minimum widths, the buttons and their 8-pixel gaps fit the region |
| UiPages.NavGeometry | main/ui/ui_pages.c:97-136 | the extra pages are split into `(n + 1) / 2` on the left and `n / 2` on the right, each side's buttons at least 64 pixels wide, the right side starting after the centred home button and its gap |
| UiPages.NavLayout | main/ui/ui_pages.c:138-176 | every slot up to the page limit is filled: slot `s` is hidden exactly when page `s + 1` does not exist, a hidden slot names no page, and a shown one holds page `s + 1` on the left (filling outwards from home) when `s` is even and on the right otherwise |
| UiPages.PlaceButton | main/ui/ui_pages.c:148-167 | one pass of the loop shows the button of its page at the place its side counters call for |
| UiPages.FormatDateFields | main/ui/ui_pages.c:519-537 | the date reads `DD.MM.YYYY`, and the day, the month counted from 1 and the full year read back from fixed positions |
| UiPages.FormatTimeFields | main/ui/ui_pages.c:519-537 | the time reads `HH:MM`, and hour and minute read back from fixed positions |
| UiPages.WifiStatus | main/ui/ui_pages.c:481-517 | an active setup access point is shown whether or not a network is joined; otherwise the symbol says connected or disconnected |
| UiPages.ApiStatus | main/ui/ui_pages.c:481-517 | Home Assistant shows disconnected exactly when not connected and synced exactly when connected and the initial sync is done |
| UiRuntime.ClampWidgetRectAsWritten | main/ui/ui_runtime.c:101-142 | while `x + w` and `y + h` stay within the `int` range, the clamp as written gives the intended clamp's result |
| UiRuntime.ClampOverflowEscapes | main/ui/ui_runtime.c:129-134 | a widget with `"x": 1e12` keeps `x = INT_MAX` under the clamp as written, because the sum wraps negative, where the intended clamp moves it to the right edge of the content box |
| UiBindings.SplitEntityId | main/ui/ui_bindings.c:10-26 | the domain is found exactly when the id has a dot that is not its first character and the buffer is non-empty; it is the text before the first dot, cut to the buffer |
| UiBindings.SplitEntityIdOfJoin | main/ui/ui_bindings.c:10-26 | an id built as a short dot-free domain, a dot and anything splits back to that domain |
| UiBindings.ToggleEntity | main/ui/ui_bindings.c:28-40 | a toggle is sent exactly for a non-empty id with a domain, to that domain, naming the entity only; anything else is an invalid argument |
| UiBindings.SetSliderValue | main/ui/ui_bindings.c:42-77 | a call is made exactly for a non-empty id with a domain; a light is turned on with the brightness `PercentToBrightness` gives for the value, a media player's volume, a climate entity's temperature and any other entity's value are set to the slider value clamped to 0..100 |
| UiBindings.SliderLightRoundTrip | main/ui/ui_bindings.c:62-65 | the brightness a light slider sends reads back, through the light tile's percent conversion, as the clamped slider value |
| UiI18n.SetFirst | main/ui/ui_i18n.c:48-51 | the first member with the key gets the value in place; every other key and the member order are untouched |
| UiI18n.RemoveFirst | main/ui/ui_i18n.c:48-50 | deleting a key leaves every other key's value, removes only existing members, and in a table without repeated keys leaves the key absent |
| UiI18n.MergeMemberLookup | main/ui/ui_i18n.c:33-52 | one merged member: its key ends up with the merged value (objects merged deeply, anything else replaced), every other key keeps its value, and keys stay unique |
| UiI18n.MergeMembersLookup | main/ui/ui_i18n.c:27-53 | after the deep merge, a key the source carries under a non-empty name holds the merged value and every other key keeps the destination's value |
| UiI18n.MergeNothing | main/ui/ui_i18n.c:27-53 | merging an object with no members changes nothing |
| UiI18n.LookupPath | main/ui/ui_i18n.c:95-129 | no table, no key or an empty key finds nothing, and anything found lies under an object `lvgl` |
| UiI18n.WalkJoin | main/ui/ui_i18n.c:106-128 | a dotted key of non-empty, dot-free segments under 64 bytes resolves as one member lookup per segment |
| UiI18n.LeadingDot | main/ui/ui_i18n.c:108-111 | a key starting with a dot finds nothing |
| UiI18n.LongSegment | main/ui/ui_i18n.c:108-111 | a key whose first segment is 64 bytes or longer finds nothing |
| UiI18n.EmptyInteriorSegment | main/ui/ui_i18n.c:106-128 | an empty segment after good ones, as in `a..b`, finds nothing |
| UiI18n.Translate | main/ui/ui_i18n.c:131-138 | the text is the found node's string when that is non-empty, otherwise the fallback, otherwise the empty string |
| UiI18n.ObjectOrEmpty | main/ui/ui_i18n.c:17-25 | a parsed object keeps its members and anything else becomes an empty object |
| UiI18n.Init | main/ui/ui_i18n.c:55-86 | the language is the normalised code or, failing that, the default; the table is an object built from the built-in translation with any custom one merged over it |
| UiI18n.InitUnknownLanguage | main/ui/ui_i18n.c:62-65 | a valid code without a built-in table and without a custom translation reads the English table |
| UiI18n.InitInvalidCode | main/ui/ui_i18n.c:57-60 | a code that does not normalise selects the default language |
| UiI18n.InitCustomOverrides | main/ui/ui_i18n.c:72-78 | a custom translation overrides the built-in one key by key: a top-level key it carries holds the merged value and every other key the built-in value |
| UiI18n.Reset | main/ui/ui_i18n.c:88-93 | after a reset there is no table and the language is the default |
| UiI18n.ResetFallsBack | main/ui/ui_i18n.c:88-138 | after a reset every key reads as its fallback |
| BootSplash.Line | main/ui/ui_boot_splash.c:105-133 | a stored line fits its 64-byte buffer and is non-empty for non-empty text |
| BootSplash.Initial | main/ui/ui_boot_splash.c:51-64 | the state before the splash is first shown is valid |
| BootSplash.AddStatusLine | main/ui/ui_boot_splash.c:105-133 | empty text changes nothing; otherwise the text becomes the last line and the splash keeps the last five lines, oldest first |
| BootSplash.AddAllKeepsLastFive | main/ui/ui_boot_splash.c:105-133 | after any number of status texts the splash shows the last five non-empty ones, oldest first |
| BootSplash.RenderFits | main/ui/ui_boot_splash.c:71-103 | the lines a valid splash holds always fit the 325-byte render buffer |
| BootSplash.RenderStatusLines | main/ui/ui_boot_splash.c:71-103 | the label text fits the buffer, is a prefix of the lines joined by newlines, and is all of them when they fit |
| BootSplash.StepProgress | main/ui/ui_boot_splash.c:144-156 | the progress grows by five and goes back to 0 once it would reach 100 |
| BootSplash.StepsCycle | main/ui/ui_boot_splash.c:144-162 | from 0 the animation runs through 0, 5, …, 95 and repeats every twenty ticks |
| BootSplash.Tick | main/ui/ui_boot_splash.c:158-162 | a timer tick steps the progress and bar of a shown splash with a running timer and changes nothing otherwise |
| BootSplash.Show | main/ui/ui_boot_splash.c:199-278 | showing fails without a ready display or the lock, leaves a shown splash alone, and otherwise shows the splash with the first status line, the timer running and the layout reset |
| BootSplash.SetStatus | main/ui/ui_boot_splash.c:280-293 | a non-empty status on a shown splash with the lock is added as a line; anything else changes nothing |
| BootSplash.ClearStatus | main/ui/ui_boot_splash.c:316-328 | a shown splash with the lock loses all its lines; otherwise nothing changes |
| BootSplash.SetProgress | main/ui/ui_boot_splash.c:330-348 | setting progress stops the timer and shows the value clamped to 100, leaving lines and layout alone |
| BootSplash.SetProgressHolds | main/ui/ui_boot_splash.c:158-162 | once progress is set, timer ticks no longer move it |
| BootSplash.SetStatusLayout | main/ui/ui_boot_splash.c:363-379 | a width within 120 and the screen width is taken and any other keeps the old width; alignment and offset are always taken |
| BootSplash.SetStatusXOffset | main/ui/ui_boot_splash.c:350-361 | a shown splash with the lock takes the offset; otherwise nothing changes |
| BootSplash.HideDelay | main/ui/ui_boot_splash.c:381-409 | the splash is removed no sooner than 1200 ms after it was shown, with no wait once that time has passed |
| BootSplash.Hide | main/ui/ui_boot_splash.c:381-409 | with the lock, a shown splash is cleared while its layout settings stay |
| BootSplash.OperationsKeepValid | main/ui/ui_boot_splash.c:105-409 | every operation keeps the splash valid: at most five non-empty lines, progress at most 100, a width that is the default or within bounds, and a hidden splash holds no lines and no timer |
| ButtonWidget.ApplyState | main/ui/widgets/w_button.c:288-297 | the button is on and reads `ON` exactly when the state counts as on, and reads `OFF` otherwise |
| ButtonWidget.MarkUnavailable | main/ui/widgets/w_button.c:299-306 | an unavailable button is off, reads `unavailable`, and looks like no state update |
| ButtonWidget.ActionSurface | main/ui/widgets/w_button.c:52-135 | the touch surface is inset on each side, at least 24 wide, starts below the state label and ends above the title, and is at least as tall as the icon needs within a content box of at least 24 by 48 |
| ButtonWidget.SqueezedSurface | main/ui/widgets/w_button.c:110-130 | whatever the label positions, the surface of a squeezed 48-high card is exactly 44 high |
| GraphWidget.ClampPointCount | main/ui/widgets/w_graph.c:233-245 | a non-positive count means no chart; any other count lands in 16..64 and a count already there is kept |
| GraphWidget.ClampTimeWindowMin | main/ui/widgets/w_graph.c:247-259 | a non-positive window becomes 120 minutes; every result lies in 1..1440 and a window already there is kept |
| GraphWidget.ClampsIdempotent | main/ui/widgets/w_graph.c:233-259 | both clamps leave their own results alone |
| GraphWidget.FormatDuration | main/ui/widgets/w_graph.c:156-174 | a zero-sized buffer gets nothing; otherwise the label fits the buffer and is a prefix of the duration text |
| GraphWidget.DurationRoundTrip | main/ui/widgets/w_graph.c:156-174 | every duration label `<n>m`, `<n>h` or `<n>h<mm>m` reads back as its number of minutes |
| GraphWidget.SanitizeWidgetId | main/ui/widgets/w_graph.c:291-314 | the file name fits the buffer, keeps each letter, digit, `-` and `_` of the id at its place and replaces every other character with `_`, and an empty or missing id becomes `graph` |
| GraphWidget.SanitizeIdempotent | main/ui/widgets/w_graph.c:291-314 | sanitising a sanitised name changes nothing |
| GraphWidget.DropOldest | main/ui/widgets/w_graph.c:353-367 | dropping `n` samples drops exactly the first `n`, none for `n <= 0` and all when `n` covers the history |
| GraphWidget.LeadingOlder | main/ui/widgets/w_graph.c:369-384 | the count is the length of the leading run of samples older than the cut-off |
| GraphWidget.TrimRetention | main/ui/widgets/w_graph.c:369-384 | nothing is dropped while the newest time is within the first day; otherwise the leading samples older than a day before it are dropped |
| GraphWidget.TrimKeepsRecent | main/ui/widgets/w_graph.c:369-384 | on an increasing history, trimming keeps exactly the samples at most a day older than the newest time |
| GraphWidget.AppendOrUpdate | main/ui/widgets/w_graph.c:589-627 | bucket 0 and buckets before the last are refused without change; the last bucket's value is replaced when it differs; a newer bucket is appended and is then the last sample, and the history holds exactly it and the old samples at most a day older that were not dropped for room; the history stays valid |
| GraphWidget.AppendNewer | main/ui/widgets/w_graph.c:608-626 | a newer sample ends the history, which stays increasing and within its size, and holds exactly the new sample and the old ones at most a day older, less the oldest one when the history was full |
| GraphWidget.AppendMembers | main/ui/widgets/w_graph.c:608-626 | after making room and trimming, a sample is kept exactly when it is the new one, or an old one within a day that was not the oldest of a full history |
| GraphWidget.DropFirstMembers | main/ui/widgets/w_graph.c:608-611 | making room in a full history removes exactly its oldest sample and nothing else |
| GraphWidget.LoadHistory | main/ui/widgets/w_graph.c:386-428 | a file's samples are accepted exactly when they are at most a day's worth with growing timestamps, and an accepted history is trimmed to a day before its newest sample |
| GraphWidget.AdjacentIncreasing | main/ui/widgets/w_graph.c:417-423 | checking each sample against its neighbour is checking the whole history grows |
| GraphWidget.CurrentBucketTs | main/ui/widgets/w_graph.c:261-277 | the bucket is 0 before 2021-01-01 (the clock read as 32 bits) and otherwise the start of the current minute |
| GraphWidget.MaxHistoryOffsetMin | main/ui/widgets/w_graph.c:647-664 | the offset is the whole minutes back to the oldest sample, at most a day, and 0 without history, clock or older samples |
| GraphWidget.PanStepMin | main/ui/widgets/w_graph.c:666-680 | a pan step is between 1 and 60 minutes, an eighth of the window when that is in range |
| GraphWidget.PanHistory | main/ui/widgets/w_graph.c:902-931 | panning older never passes the oldest sample and panning newer never passes now; an offset in range stays in range; the chart is rebuilt exactly when the offset changes |
| GraphWidget.PanBackAndForth | main/ui/widgets/w_graph.c:902-931 | panning back and then forward by one step returns to the start when no bound was hit |
| HeatingTile.ExtractStatus | main/ui/widgets/w_heating_tile.c:138-185 | the status is a prefix of a non-empty `hvac_action`, else of the state text, within the buffer, and empty only when both are |
| HeatingTile.StatusLabel | main/ui/widgets/w_heating_tile.c:242-278 | an empty status shows the on or off text; the four known words, in any case and with `_` for spaces, get their translations and any other status is shown lower-cased |
| HeatingTile.StatusLabelSpellings | main/ui/widgets/w_heating_tile.c:242-278 | case and `_` spellings do not change which label a status gets, and unknown words are shown as they read |
| HeatingTile.ApplyLayout | main/ui/widgets/w_heating_tile.c:280-340 | the arc is the smaller of the card's width less 38 and height less 70, clamped to 140..340; its offset stays within half the spare height; the status is 34 above the bottom, with the readouts stacked above it |
| HeatingTile.LayoutRoomyCard | main/ui/widgets/w_heating_tile.c:280-340 | on a card tall enough the arc keeps its preferred offset of 22 |
| HeatingTile.ApplyState | main/ui/widgets/w_heating_tile.c:562-596 | a climate update sets on flag, target and status, and the current temperature only without a sensor; a sensor update sets only the current temperature; any other entity changes nothing |
| HeatingTile.SensorUpdateKeepsClimateFields | main/ui/widgets/w_heating_tile.c:562-596 | a sensor update never touches the on flag, the target or the status |
| HeatingTile.Click | main/ui/widgets/w_heating_tile.c:406-433 | a click flips the tile and shows `on` or `off` at once; when the toggle call fails the previous flag and status come back |
| HeatingTile.MarkUnavailable | main/ui/widgets/w_heating_tile.c:598-626 | an unavailable tile is off, without a current temperature, reads `unavailable` and keeps its target |
| LightTile.ExtractBrightness | main/ui/widgets/w_light_tile.c:171-196 | the brightness is a percent: `brightness_pct` clamped when present and non-negative, else the 0..255 `brightness` scaled, else 100 when on and 0 when off |
| LightTile.ClassFromDim | main/ui/widgets/w_light_tile.c:324-339 | each size class holds exactly its dimension range: compact up to 180, small below 240 (and for non-positive sizes), medium below 300, large from 300 |
| LightTile.ClassMonotone | main/ui/widgets/w_light_tile.c:324-339 | for positive sizes, a bigger card never gets a smaller class |
| LightTile.ApplyState | main/ui/widgets/w_light_tile.c:673-687 | a state update makes the tile available, on exactly for the text `on`, with the extracted percent brightness |
| LightTile.MarkUnavailable | main/ui/widgets/w_light_tile.c:689-701 | an unavailable tile is off at brightness 0 |
| LightTile.Click | main/ui/widgets/w_light_tile.c:495-542 | a click is ignored while unavailable; otherwise the light switches, a light turned on at zero shows 100, and a failed power call restores the previous state exactly |
| LightTile.ClickTwice | main/ui/widgets/w_light_tile.c:495-542 | two successful clicks leave the light switched as it was, with a non-zero brightness when on |
| LightTile.SliderMoved | main/ui/widgets/w_light_tile.c:544-591 | dragging the slider only moves the shown brightness, clamped to a percent |
| LightTile.SliderReleased | main/ui/widgets/w_light_tile.c:544-591 | releasing sends the clamped brightness; on success the light is available and on exactly when it is above zero, and on failure the previous state is restored |
| LightTile.DragThenFailedRelease | main/ui/widgets/w_light_tile.c:544-591 | the rollback restores the state as it was at release, so a failed release keeps the dragged brightness |
| SensorWidget.PickValueFont | main/ui/widgets/w_sensor.c:93-113 | the value font follows the card's smaller side: extra large from 260, large from 190, medium from 140, small below, and medium without a card |
| SensorWidget.PickValueFontMonotone | main/ui/widgets/w_sensor.c:93-113 | growing a card in both directions never picks a smaller font |
| SensorWidget.AgeBucket | main/ui/widgets/w_sensor.c:123-166 | the age label is the bucket of the whole minutes since the update, a negative age counting as 0, and the "1 day" bucket is never reached |
| SensorWidget.AgeBucketMonotone | main/ui/widgets/w_sensor.c:123-166 | an older update never shows a younger bucket |
| SensorWidget.AgeLabelAt | main/ui/widgets/w_sensor.c:123-166 | the age is hidden exactly while unavailable or without a timestamp; otherwise it shows the age's bucket, muted for the first 30 minutes |
| SensorWidget.ShownValue | main/ui/widgets/w_sensor.c:115-121 | the value label is never empty, `--` standing in for an empty value |
| SensorWidget.ApplyState | main/ui/widgets/w_sensor.c:333-376 | the sensor is unavailable exactly for an unavailable state; otherwise the value text is a prefix of the state followed by a space and the unit when there is a non-empty unit, cut to fit 96 bytes |
| SensorWidget.ApplyStateShowsUnit | main/ui/widgets/w_sensor.c:333-376 | an available state with a non-empty unit that fits the buffer shows as the state, one space and the unit |
| SensorWidget.AvailableShowsValue | main/ui/widgets/w_sensor.c:333-376 | an available sensor shows a value, never the `--` placeholder |
| SensorWidget.ApplyUnavailable | main/ui/widgets/w_sensor.c:224-236 | an unavailable sensor has no timestamp, shows the translated word and never shows an age |
| SliderWidget.DirectionFromText | main/ui/widgets/w_slider.c:219-237 | a text names an explicit direction exactly when it is one of the four names, and anything else means auto |
| SliderWidget.DirectionNameRoundTrip | main/ui/widgets/w_slider.c:219-237 | reading a direction's own name gives the direction back |
| SliderWidget.AxesDetermineDirection | main/ui/widgets/w_slider.c:239-247 | the vertical and reversed tests tell the four explicit directions apart |
| SliderWidget.EffectiveDirection | main/ui/widgets/w_slider.c:249-261 | the direction is never auto: a configured direction wins, auto runs bottom to top on a card narrower than tall and left to right otherwise, as does a missing context |
| SliderWidget.NativeRange | main/ui/widgets/w_slider.c:263-276 | the native range spans 0 and 100, starting at 0 exactly when the direction is not reversed |
| SliderWidget.ExtractPercent | main/ui/widgets/w_slider.c:101-160 | the percent comes from the state text, then `brightness_pct`, then the 0..255 brightness, then the volume, whichever is numeric first; without a number the on text alone gives 100 or 0 |
| SliderWidget.Initial | main/ui/widgets/w_slider.c:504-583 | a new slider is valid and has sent nothing |
| SliderWidget.ApplyState | main/ui/widgets/w_slider.c:585-615 | an unavailable state reads 0, off and unavailable; otherwise the extracted percent is shown and the slider is on when a positive number was found or the text says on |
| SliderWidget.MarkUnavailable | main/ui/widgets/w_slider.c:617-633 | an unavailable slider reads 0, off and not dragging, and keeps the last value sent |
| SliderWidget.OnEvent | main/ui/widgets/w_slider.c:456-502 | a value is sent only on release, clamped, and exactly when it differs from the last value sent, which is updated only on success; moving shows the value, pressing starts and losing the press ends a drag |
| SliderWidget.OnEventPreservesValid | main/ui/widgets/w_slider.c:456-502 | every event keeps the slider valid |
| SliderWidget.ReleaseSendsOnce | main/ui/widgets/w_slider.c:456-502 | releasing again at a value whose sending succeeded sends nothing more |
| SliderWidget.FailedReleaseRetries | main/ui/widgets/w_slider.c:456-502 | a failed send is retried on the next release at the same value |
| WeatherTile.NormalizeConditionKey | main/ui/widgets/w_weather_tile.c:284-307 | nothing fits a zero-sized buffer; otherwise the key keeps each character of the condition, cut to the buffer, with spaces and `_` as `-` and capitals made small |
| WeatherTile.NormalizeIdempotent | main/ui/widgets/w_weather_tile.c:284-307 | a normalised key normalises to itself |
| WeatherTile.HumanizeCondition | main/ui/widgets/w_weather_tile.c:1089-1113 | nothing fits a zero-sized buffer; an empty condition reads `--`; otherwise each character is kept, cut to the buffer, separators become spaces and the first letter of every word is capitalised |
| WeatherTile.IconCodepointForKey | main/ui/widgets/w_weather_tile.c:768-876 | two exact names come first, then the tokens in a fixed order; the code point is one of the icon set, and 0 exactly when no name or token matches |
| WeatherTile.Utf8FromCodepoint | main/ui/widgets/w_weather_tile.c:309-341 | a code point takes one to four bytes by the ranges of section 3 of RFC 3629, followed by continuation bytes |
| WeatherTile.Utf8RoundTrip | main/ui/widgets/w_weather_tile.c:309-341 | every Unicode scalar value survives encoding and strict decoding |
| WeatherTile.ParseYmd | main/ui/widgets/w_weather_tile.c:1134-1166 | a date is read exactly from a `YYYY-MM-DD` prefix with month 1..12 and day 1..31, and the fields are those digits |
| WeatherTile.ParseFormatYmd | main/ui/widgets/w_weather_tile.c:1134-1166 | a written date followed by anything parses back to that date |
| WeatherTile.Weekday | main/ui/widgets/w_weather_tile.c:1168-1175 | Sakamoto's method with floor division gives a weekday 0..6 |
| WeatherTile.WeekdayIsReference | main/ui/widgets/w_weather_tile.c:1168-1175 | Sakamoto's method with floor division gives the proleptic Gregorian weekday for every date |
| WeatherTile.ReferenceEpoch | main/ui/widgets/w_weather_tile.c:1168-1175 | the reference calendar puts 1 January 2000 on a Saturday |
| WeatherTile.AsWrittenAgrees | main/ui/widgets/w_weather_tile.c:1168-1175 | truncating division gives the same weekday from year 1 on, and from March of year 0 |
| WeatherTile.AsWrittenYearZero | main/ui/widgets/w_weather_tile.c:1168-1175 | the code as written calls 1 January of year 0 a Sunday, though it was a Saturday |
| WeatherTile.DatetimeIsToday | main/ui/widgets/w_weather_tile.c:1200-1214 | a date-time is today exactly when its date prefix parses to the local date |
| WeatherTile.DayFromDatetimeAsWritten | main/ui/widgets/w_weather_tile.c:1177-1198 | an unreadable date reads `--`, and any other a short weekday name |
| WeatherTile.DayFromDatetime | main/ui/widgets/w_weather_tile.c:1177-1198 | the day reads `--` exactly for an unreadable date, and otherwise the name of its true weekday |
| WeatherTile.DayNameCounterexample | main/ui/widgets/w_weather_tile.c:1168-1198 | the as-written day name of 0000-01-01 is `Sun` while the true one is `Sat` |
| WeatherTile.Complete | main/ui/widgets/w_weather_tile.c:1452-1521 | a row that knows one bound uses it for the other, and keeps every other field |
| WeatherTile.Build3DayRows | main/ui/widgets/w_weather_tile.c:1452-1521 | there are four rows: "Now" with today's bounds falling back to the current temperature, then the valid forecast slots, every valid row with both bounds or neither |
| WeatherTile.Set3DayRowsLayout | main/ui/widgets/w_weather_tile.c:1592-1682 | the rows get at least 120 of content width, 22 of height and a 40-wide bar, start between 118 and 152, and use the card's width less 32 when that is wide enough |
| WifiMgr.NormalizeCountry | main/net/wifi_mgr.c:113-129 | normalising succeeds exactly for given input of two letters with a big enough buffer, and yields the same letters upper-cased |
| WifiMgr.NormalizeCountryFixpoint | main/net/wifi_mgr.c:113-129 | a normal code comes back as it is, so normalising is idempotent |
| WifiMgr.NormalizeCountryAgrees | main/net/wifi_mgr.c:113-129 | the Wi-Fi manager and the settings endpoint normalise a non-empty country code the same way |
| WifiMgr.SetCountryFromInput | main/net/wifi_mgr.c:131-140 | the stored code is always two upper-case letters: the normalised input, the configured default for missing or empty input, and `US` for input that does not normalise |
| WifiMgr.BackoffStep | main/net/wifi_mgr.c:232-251 | the attempt number used lies in 1..5 and is the attempt itself inside that range |
| WifiMgr.ReconnectDelay | main/net/wifi_mgr.c:232-251 | the reconnect delay always lies between 500 ms and 20000 ms |
| WifiMgr.ComputeReconnectDelay | main/net/wifi_mgr.c:232-251 | the doubling loop that stops at the cap computes the delay: 2000 ms for a hard reason, 500 ms otherwise, doubled per attempt after the first up to the fifth, at most 20000 ms |
| WifiMgr.ReconnectDelayMonotone | main/net/wifi_mgr.c:232-251 | a later attempt never waits less |
| WifiMgr.ReconnectDelayHardFirst | main/net/wifi_mgr.c:219-251 | a hard reason (auth expiry, association expiry, handshake timeout, connection failure) never waits less than a soft one at the same attempt |
| WifiMgr.ReconnectDelayTable | main/net/wifi_mgr.c:232-251 | the steps are 500, 1000, 2000, 4000, 8000 ms for a soft reason and 2000, 4000, 8000, 16000, 20000 ms for a hard one |
| WifiMgr.RequestConnect | main/net/wifi_mgr.c:177-194 | the driver is asked exactly when the request is forced or at least 1500 ms after the last one; a skipped request fails and keeps the last-request time; an asked one records the time and succeeds unless the driver fails |
| WifiMgr.CalledTimesSpaced | main/net/wifi_mgr.c:177-194 | however often unforced requests come, the driver is asked at most once per 1500 ms |
| WifiMgr.TryReconnect | main/net/wifi_mgr.c:300-334 | a hard reason at a late enough attempt and long enough after the last restart restarts the driver; failing that, an old enough disconnect-and-connect nudges it; otherwise an ordinary connect is requested; each path records its own times |
| WifiMgr.StopStartSpaced | main/net/wifi_mgr.c:300-334 | two driver restarts in a row are at least 20 s apart |
| WifiMgr.UnknownReasonIsNormal | main/net/wifi_mgr.c:300-334 | an unknown reason only ever leads to an ordinary connect request |
| WifiMgr.Dedup | main/net/wifi_mgr.c:1329-1349 | the scan result holds at most `maxResults` entries, each stored from a record with a name, and none with an empty name |
| WifiMgr.DedupSaturated | main/net/wifi_mgr.c:1330 | once the result is full, later records change nothing |
| WifiMgr.DedupDistinct | main/net/wifi_mgr.c:1329-1349 | when every name fits its slot, no name appears twice in the result |
| WifiMgr.DedupComplete | main/net/wifi_mgr.c:1329-1349 | when every name fits its slot, each record with a name has that name in the result unless the result is full |
| WifiMgr.CollectScan | main/net/wifi_mgr.c:1329-1349 | the record loop that skips hidden networks and compares each name with those already kept computes the deduplicated result |

## Left out

Whole areas:

- Network and protocol I/O is left out because it runs against ESP-IDF, lwIP and the WebSocket client library, none of which is modelled. This covers:
  - the Home Assistant task loop, message handling, REST fetches and subscriptions;
  - WebSocket start and stop, and DNS;
  - Wi-Fi driver calls, event groups, timers, scans and the co-processor update.
- Concurrency is left out. FreeRTOS mutexes, queues, tasks and the HTTP guard's counting semaphore are dropped, and the state they guard is modelled sequentially.
- LVGL rendering is left out: styles, fonts, object trees, every `lv_*` call, widget creation in `ui_pages.c`, the theme, and display and touch setup. Where a widget's logic depends on an LVGL object, the object becomes a flag or an input.
- Floating-point values are left out:
  - weather temperatures and the three-day range;
  - the heating tile's temperature clamp (temperatures are an abstract type);
  - the slider's `volume_level`;
  - `strtod`/`strtof`;
  - graph sample values (an abstract type; the `0.0001` no-change test is modelled as equality) and the chart's range rendering.
- JSON text is left out. cJSON's own parsing and printing are not modelled, and every operation starts from a parsed `Json.Value`.
- Persistence is left out: the layout store, runtime settings and secret migration, the graph history file and its persist queue, and i18n file load and save. The i18n directory listing is an input.
- HTTP plumbing is left out: request bodies, response building, route registration, the layout/state/wifi handlers and the cJSON wrappers.
- Other firmware outside the modelled core is left out: boot orchestration, SNTP, the event queue, and the superseded copies under `src/main/`.
- Clocks and randomness become parameters. The current time is a `now` argument, and the reconnect jitter is an argument.
- The values in `app_config.h` are not part of this model: buffer sizes, page and widget caps, and the content box. They are fields of `PanelConfig.Config` or explicit parameters. The thresholds and tables defined in `ha_client.c` are modelled as constants.
- Multi-byte UTF-8 is left out on the firmware side. A character stands for one byte, so a text holding non-ASCII characters is measured in characters, not in its encoded bytes.
- In the editor, these are left out: DOM wiring, `fetch`, the Wi-Fi and settings forms, and preview rendering. The `setTimeout` debounce is a single-slot timer.

Per module:

- ApiScreenshot: the display lock, the frame snapshot and the chunked send are inputs, and a failed send is not modelled.
- ApiSettings: reading the request body, loading and saving the settings, and the restart are left out.
- BootSplash: the LVGL objects are reduced to a "shown" flag, and the display lock is an input.
- UiI18n: JSON parsing is left out, and the merge works on parsed values.
- SubsetTtf: the table directory arrives already parsed from bytes. Reading the font file, the command-line code-point parser and writing the output file are left out.
- MdiConverter: `utf8_escape` is left out. `IsSpace` follows Python's full white-space class.
- MdiConverter.UpperChar: upper-cases ASCII letters only. Python's `str.upper` maps all of Unicode and can change the length, as `"ﬀ".upper()` gives `"FF"`.
- MdiConverter.IsHexDigit: accepts ASCII hex digits only. Python's `int(token, 16)` also accepts other Unicode decimal digits, so `int("٣", 16)` is 3 there and a parse failure in the model.

Contracts weaker than the source, or narrower in scope:

- HaModel: `strncmp` over a stored text is treated as equality, which holds because every stored text is shorter than its buffer.
- HaClient.PushKeepsDistinct: freedom from duplicates is proved only for ids shorter than the entry buffer. A longer id is truncated on entry, and two long ids can then collide. All callers pass ids that fit.
- WifiMgr.DedupDistinct: distinct names are proved only when every SSID fits its slot, for the same reason.
- UiPages: navigation assumes that the page buttons exist, since they are LVGL objects.
- EditorDocument.ImportLayout: `JSON.parse` keeps the last of two duplicate keys, but `Json.Lookup` takes the first (which is what cJSON does). So `{"pages":1,"pages":[...]}` imports in the browser but is an error in the model.
- EditorDocument.LoadLayout: has the same duplicate-key difference as `ImportLayout`.
- EditorIds.CollapseRuns: its own contract states the result's alphabet and that a clean string is kept. Its value elsewhere is stated by `CollapseOthers`, `CollapseSplit` and `CollapseJoin`. These cover a run of other characters and any split between runs, not a closed formula for every input.
- EditorIds.SanitizeIdPart: its own contract states the shape of the result. Its value is stated by `SanitizeKeepsCleanPart`, `SanitizeWord`, `SanitizeJoinsWords` and `SanitizeNothingLeft`, for a single word, two words around a separator, and text without id characters. A text with three or more words is covered only by composing `CollapseSplit`.
- JsText.ToLowerCase: lower-cases ASCII letters only, whereas JavaScript lower-cases all of Unicode.
- EditorSearch.ContainsSearch: inherits the ASCII-only lower-casing, so a non-ASCII name such as `KÜCHE` does not match `küche` in the model.
- EditorSearch.ParseSearchInput: lower-cases the typed domain and the fallback with the same ASCII-only lower-casing.
- JsText.StringToNumber: reads a literal's exact value. It does not model rounding to the nearest double, or a huge literal overflowing to `Infinity`. The spellings of `Infinity` read as `None`.
- JsText.ToNumber: an object, or an array of two or more elements, is `None` (NaN). Converting an object through a custom `toString` is not modelled.
- EditorGeometry.ClampRectToCanvas: a field whose `Number()` is `NaN` or infinite takes the field's fallback. In the browser, `NaN` passes through the clamp unchanged and an infinity clamps to the bound.
- EditorDocument.FieldNumber: inherits the `StringToNumber` limits above.
- EditorFields.EntityText: reads a string entity id only. Any other value reads as the empty text, whereas `String()` would give its text.
- EditorSearch.ScheduleAutocomplete: a missing input or list element is folded into `disabled`, and the remote entity fetch is the `Respond` step.
- LayoutValidate.WidgetProblemsExact: checks the rect with the corrected bound test `InContentBox`, not the wrapping 32-bit sum of layout_validate.c:339-345. A sensor with `"x": 1e12` therefore draws `RectOutOfBounds` here, where the firmware raises nothing. The as-written behaviour is `RectProblemsAsWritten`, and the layout_validate.c row under "## Findings" sets the two side by side.
- LayoutValidate.ValidateJson: inherits the corrected bound test from `WidgetProblemsExact`, so a layout holding such a widget is invalid here and valid in the firmware. `RectProblemsAgree` shows the two agree while no coordinate exceeds half of `INT_MAX`.
- UiRuntime.WidgetFromJson: clamps with the corrected `ClampWidgetRect`, so `"x": 1e12` ends at the right edge of the content box, where ui_runtime.c:129-134 keeps `INT_MAX`. The as-written clamp is `ClampWidgetRectAsWritten`, and the ui_runtime.c row under "## Findings" sets the two side by side.
- EditorEntities.PickDefaultEntity: an entity id is a string or absent (`Entity.id: Option<string>`). So the case where `editor.entities[0]?.id` is a truthy non-string, which app.js:910 returns as it is, cannot be expressed.

## Findings

| source | as written | input that shows it | evidently intended | confidence | as-written member | corrected member |
|---|---|---|---|---|---|---|
| components/webui/www/app.js:1524-1534 | `deletePage` checks the page count, then removes every page with the selected id and reads the first remaining page, which throws once none remains | a layout whose two pages share the id `a`, with `a` selected: both pages go, the layout is left empty, and the function throws | deleting a page never leaves a layout without pages | not executed | EditorDocument.DeletePage, EditorDocument.DeletePageEmptiesDocument | EditorDocument.DeletePageKeepingOne, EditorDocument.DeletePageAgrees |
| main/ui/widgets/w_weather_tile.c:1168-1198 | the weekday formula divides the year by 4, 100 and 400 with C's truncating division, and the date parser accepts year 0000 | `0000-01-01`, which the tile labels `Sun` | the proleptic Gregorian weekday, `Sat` | not executed | WeatherTile.DayFromDatetimeAsWritten, WeatherTile.AsWrittenYearZero, WeatherTile.DayNameCounterexample | WeatherTile.DayFromDatetime, WeatherTile.WeekdayIsReference |
| main/layout/layout_validate.c:339-345 | `valueint` saturates at `INT_MAX`, and `rx + rw` is then compared as a 32-bit `int` sum | a sensor widget with rect `{"x": 1e12, "y": 0, "w": 120, "h": 80}`, a size the sensor's limits allow | a rect reaching past the content box is rejected | not executed; signed overflow is undefined in C, and the model assumes the wrapping hardware does | LayoutValidate.RectProblemsAsWritten, LayoutValidate.ContentBoxOverflowAccepted | LayoutValidate.RectProblems (through LayoutValidate.InContentBox), LayoutValidate.OverflowWidgetRejected, LayoutValidate.RectProblemsAgree; used by LayoutValidate.WidgetProblemsExact and LayoutValidate.ValidateJson |
| main/ui/ui_runtime.c:129-134 | the clamp compares `def->x + def->w` as a 32-bit `int` sum | a widget with `"x": 1e12` and width 100 | the clamped widget lies inside the content box | not executed; signed overflow is undefined in C, and the model assumes the wrapping hardware does | UiRuntime.ClampWidgetRectAsWritten, UiRuntime.ClampOverflowEscapes | UiRuntime.ClampWidgetRect; used by UiRuntime.WidgetFromJson |

=== FILE: api_entities.dfy ===
/**
 * The `GET /api/entities` handler: how the `limit` query value becomes the
 * number of items to list, and which entities the answer carries.
 */
module ApiEntities {
  import opened Wrappers
  import opened CStr
  import opened HaModel

  const DefaultItems: nat := 128
  const MinItems: nat := 8
  const MaxItems: nat := 128

  /** The `char limit_raw[12]` buffer the query value is copied into. */
  const LimitBuffer: nat := 12

  /**
   * `parse_max_items`: no text, empty text, text that does not convert as a
   * whole, or a value of 0 or less means 128; any other value is clamped to
   * 8..128.
   */
  function ParseMaxItems(value: Option<string>): (n: nat)
    ensures MinItems <= n <= MaxItems
    ensures value.None? || value.value == "" ==> n == DefaultItems
    ensures value.Some? ==> var c := Strtol(value.value);
      c.consumed < |value.value| || c.value <= 0 ==> n == DefaultItems
    ensures value.Some? ==> var c := Strtol(value.value);
      c.consumed == |value.value| > 0 && c.value > 0 ==> n == Max(MinItems, Min(MaxItems, c.value))
  {
    if value.None? || value.value == "" then DefaultItems
    else
      var c := Strtol(value.value);
      if c.consumed == 0 || c.consumed != |value.value| || c.value <= 0 then DefaultItems
      else if c.value < MinItems then MinItems
      else if c.value > MaxItems then MaxItems
      else c.value
  }

  /** The decimal text of a count is read back as that count, clamped; 0 means the default. */
  lemma ParseMaxItemsOfDec(k: nat)
    ensures ParseMaxItems(Some(NatToDec(k))) == if k == 0 then DefaultItems else Max(MinItems, Min(MaxItems, k))
  {
    StrtolOfDec(k);
  }

  /** A count followed by anything that is not a digit is rejected as a whole: the default applies. */
  lemma ParseMaxItemsTrailing(k: nat, t: string)
    requires t != "" && !IsDigit(t[0])
    ensures ParseMaxItems(Some(NatToDec(k) + t)) == DefaultItems
  {
    StrtolOfDecThen(k, t);
  }

  /** A negative count falls back to the default, not to the minimum. */
  lemma ParseMaxItemsNegative(k: int)
    requires k < 0
    ensures ParseMaxItems(Some(IntToDec(k))) == DefaultItems
  {
    AtoiOfIntToDec(k);
  }

  /** The answer of the handler: the listed entities, whose number is the `count` field. */
  datatype Answer = Answer(items: seq<Entity>, count: nat)

  /**
   * `api_entities_get_handler`. The `domain`, `search` and `limit` query
   * values (absent when the key is missing) are cut to their buffers; an
   * empty domain or search does not filter. The answer holds the first
   * `ParseMaxItems` entities `ha_model_list_entities` lists, in table order.
   */
  method EntitiesGet(m: Model, nameSize: nat, domain: Option<string>, search: Option<string>, limit: Option<string>)
    returns (a: Answer)
    requires nameSize > 0
    ensures var d := if domain.Some? then Fit(domain.value, nameSize) else "";
      var s := if search.Some? then Fit(search.value, nameSize) else "";
      var all := AllListed(m.entities, if d != "" then Some(d) else None, if s != "" then Some(s) else None);
      var n := ParseMaxItems(Some(if limit.Some? then Fit(limit.value, LimitBuffer) else ""));
      a.items == all[..Min(n, |all|)]
    ensures a.count == |a.items| <= MaxItems
    ensures limit.None? ==> a.count <= DefaultItems
    ensures forall e :: e in a.items ==> e in m.entities
  {
    var d := if domain.Some? then Fit(domain.value, nameSize) else "";
    var s := if search.Some? then Fit(search.value, nameSize) else "";
    var raw := if limit.Some? then Fit(limit.value, LimitBuffer) else "";
    var maxItems := ParseMaxItems(Some(raw));
    var items := ListEntities(m, if d != "" then Some(d) else None, if s != "" then Some(s) else None, maxItems);
    a := Answer(items, |items|);
  }
}

=== FILE: api_screenshot.dfy ===
/**
 * The `GET /api/screenshot.bmp` handler: a snapshot of the screen in RGB888
 * becomes a 24-bit Windows bitmap (a BITMAPFILEHEADER of 14 bytes and a
 * BITMAPINFOHEADER of 40), with rows stored bottom-up and padded to four
 * bytes. The display lock, the snapshot itself and the chunked sending are
 * parameters; a failed send is not modelled.
 */
module ApiScreenshot {
  import opened Wrappers
  import opened Bytes

  const Int32Max: nat := 0x7fff_ffff

  /** The size of the two headers together, and so the offset of the pixels. */
  const HeaderSize: nat := 54

  /** 2835 pixels per metre, about 72 dots per inch. */
  const PixelsPerMetre: nat := 2835

  /** `write_u16_le`: the low byte first; `>> 8` and `& 0xff` are division and remainder by 256. */
  function U16Le(v: nat): (b: seq<Byte>)
    requires v < 0x1_0000
    ensures |b| == 2
  {
    [v % 256, v / 256]
  }

  /** `write_u32_le`: the lowest byte first. */
  function U32Le(v: nat): (b: seq<Byte>)
    requires v < U32Limit
    ensures |b| == 4
  {
    [v % 256, v / 0x100 % 256, v / 0x1_0000 % 256, v / 0x100_0000]
  }

  /** The little-endian number of two bytes at `i`, as a reader of the file takes it. */
  function ReadU16(b: seq<Byte>, i: nat): nat
    requires i + 2 <= |b|
  {
    b[i] as int + 0x100 * (b[i + 1] as int)
  }

  /** The little-endian number of four bytes at `i`. */
  function ReadU32(b: seq<Byte>, i: nat): nat
    requires i + 4 <= |b|
  {
    b[i] as int + 0x100 * (b[i + 1] as int) + 0x1_0000 * (b[i + 2] as int) + 0x100_0000 * (b[i + 3] as int)
  }

  /** Writing a 16-bit number and reading it back gives the number. */
  lemma U16RoundTrip(v: nat)
    requires v < 0x1_0000
    ensures ReadU16(U16Le(v), 0) == v
  {
  }

  /** Writing a 32-bit number and reading it back gives the number. */
  lemma U32RoundTrip(v: nat)
    requires v < U32Limit
    ensures ReadU32(U32Le(v), 0) == v
  {
    var q1 := v / 0x100;
    var q2 := q1 / 0x100;
    assert v / 0x1_0000 == q2;
    assert v / 0x100_0000 == q2 / 0x100;
  }

  /** Four bytes that spell `v` read back as `v`, wherever they sit. */
  lemma ReadU32At(b: seq<Byte>, i: nat, v: nat)
    requires v < U32Limit && i + 4 <= |b|
    requires b[i] == U32Le(v)[0] && b[i + 1] == U32Le(v)[1] && b[i + 2] == U32Le(v)[2] && b[i + 3] == U32Le(v)[3]
    ensures ReadU32(b, i) == v
  {
    U32RoundTrip(v);
  }

  lemma ReadU16At(b: seq<Byte>, i: nat, v: nat)
    requires v < 0x1_0000 && i + 2 <= |b|
    requires b[i] == U16Le(v)[0] && b[i + 1] == U16Le(v)[1]
    ensures ReadU16(b, i) == v
  {
    U16RoundTrip(v);
  }

  /** A product grows by one factor per step of the other. */
  lemma MulSucc(a: nat, b: nat)
    ensures (a + 1) * b == a * b + b
  {
  }

  lemma MulMono(a: nat, c: nat, b: nat)
    requires a <= c
    ensures a * b <= c * b
  {
  }

  /**
   * `(src_row_bytes + 3U) & ~3U` in 32-bit arithmetic: the row length
   * rounded up to a multiple of four, as long as the sum does not wrap.
   */
  function BmpStride(rowBytes: nat): (s: nat)
    requires rowBytes < U32Limit
    ensures s % 4 == 0 && s < U32Limit
    ensures rowBytes + 3 < U32Limit ==> rowBytes <= s < rowBytes + 4
  {
    var sum := (rowBytes + 3) % U32Limit;
    sum - sum % 4
  }

  /**
   * What `lv_snapshot_take` hands over: a size, a stride, and maybe pixel
   * data, seen as its rows; row `y` is the `stride` bytes from `y * stride`.
   */
  datatype Snapshot = Snapshot(width: nat, height: nat, stride: nat, data: Option<seq<seq<Byte>>>)

  /**
   * A snapshot as the graphics library makes it: width and height are 16-bit
   * fields of its image header, the stride a 32-bit one, and the data holds
   * `stride` bytes for each row.
   */
  predicate WellFormed(s: Snapshot)
  {
    && s.width < 0x1_0000 && s.height < 0x1_0000 && s.stride < U32Limit
    && (s.data.Some? ==> |s.data.value| == s.height && forall y :: 0 <= y < s.height ==> |s.data.value[y]| == s.stride)
  }

  /** The answers of the handler. */
  datatype Response =
    | NotImplemented   // 501: snapshots disabled in the build
    | DisplayBusy      // 503: the display lock was not had in time
    | CaptureFailed    // 500: no snapshot
    | InvalidBuffer    // 500: empty, without data, or a stride shorter than a row
    | TooLarge         // 500: sizes beyond the 32-bit fields
    | Bitmap(bytes: seq<Byte>)

  /** `width * 3U` in 32-bit arithmetic; a 16-bit width never wraps it. */
  function SrcRowBytes(width: nat): (n: nat)
    ensures n < U32Limit
    ensures width < 0x1_0000 ==> n == 3 * width
  {
    width * 3 % U32Limit
  }

  /** The four numbers of the header fit its 32-bit fields. */
  predicate Fields32(fileSize: nat, width: nat, height: nat, pixelSize: nat)
  {
    fileSize < U32Limit && width < U32Limit && height < U32Limit && pixelSize < U32Limit
  }

  /** The 54 header bytes, each as `HeaderByte` gives it. */
  function HeaderBytes(fileSize: nat, width: nat, height: nat, pixelSize: nat): (h: seq<Byte>)
    requires Fields32(fileSize, width, height, pixelSize)
    ensures |h| == HeaderSize
  {
    seq(HeaderSize, i requires 0 <= i < HeaderSize => HeaderByte(fileSize, width, height, pixelSize, i))
  }

  /** The BITMAPFILEHEADER: `BM`, the file size, two reserved zero words, the pixel offset. */
  lemma FileHeaderFields(fileSize: nat, width: nat, height: nat, pixelSize: nat)
    requires Fields32(fileSize, width, height, pixelSize)
    ensures var h := HeaderBytes(fileSize, width, height, pixelSize);
      && h[0] == 0x42 && h[1] == 0x4d
      && ReadU32(h, 2) == fileSize && ReadU32(h, 6) == 0 && ReadU32(h, 10) == 54
  {
    var h := HeaderBytes(fileSize, width, height, pixelSize);
    ReadU32At(h, 2, fileSize); ReadU32At(h, 6, 0); ReadU32At(h, 10, 54);
  }

  /** The start of the BITMAPINFOHEADER: its size, width, height, planes and bits per pixel. */
  lemma InfoHeaderSize(fileSize: nat, width: nat, height: nat, pixelSize: nat)
    requires Fields32(fileSize, width, height, pixelSize)
    ensures var h := HeaderBytes(fileSize, width, height, pixelSize);
      && ReadU32(h, 14) == 40 && ReadU32(h, 18) == width && ReadU32(h, 22) == height
      && ReadU16(h, 26) == 1 && ReadU16(h, 28) == 24
  {
    var h := HeaderBytes(fileSize, width, height, pixelSize);
    ReadU32At(h, 14, 40); ReadU32At(h, 18, width); ReadU32At(h, 22, height);
    ReadU16At(h, 26, 1); ReadU16At(h, 28, 24);
  }

  /** The rest of the BITMAPINFOHEADER: no compression, the pixel size, the resolution, no palette. */
  lemma InfoHeaderRest(fileSize: nat, width: nat, height: nat, pixelSize: nat)
    requires Fields32(fileSize, width, height, pixelSize)
    ensures var h := HeaderBytes(fileSize, width, height, pixelSize);
      && ReadU32(h, 30) == 0 && ReadU32(h, 34) == pixelSize
      && ReadU32(h, 38) == PixelsPerMetre && ReadU32(h, 42) == PixelsPerMetre
      && ReadU32(h, 46) == 0 && ReadU32(h, 50) == 0
  {
    var h := HeaderBytes(fileSize, width, height, pixelSize);
    ReadU32At(h, 30, 0); ReadU32At(h, 34, pixelSize);
    ReadU32At(h, 38, PixelsPerMetre); ReadU32At(h, 42, PixelsPerMetre);
    ReadU32At(h, 46, 0); ReadU32At(h, 50, 0);
  }

  /**
   * The 54 header bytes: `BM`, the file size, the pixel offset 54, the info
   * header size 40, width, height, one plane, 24 bits per pixel, no
   * compression, the pixel data size and 2835 pixels per metre both ways;
   * the reserved words and the palette counts are 0.
   */
  function Header(fileSize: nat, width: nat, height: nat, pixelSize: nat): (h: seq<Byte>)
    requires Fields32(fileSize, width, height, pixelSize)
    ensures |h| == HeaderSize
    ensures h[0] == 0x42 && h[1] == 0x4d  // `B`, `M`
    ensures ReadU32(h, 2) == fileSize && ReadU32(h, 6) == 0 && ReadU32(h, 10) == 54
    ensures ReadU32(h, 14) == 40 && ReadU32(h, 18) == width && ReadU32(h, 22) == height
    ensures ReadU16(h, 26) == 1 && ReadU16(h, 28) == 24
    ensures ReadU32(h, 30) == 0 && ReadU32(h, 34) == pixelSize
    ensures ReadU32(h, 38) == PixelsPerMetre && ReadU32(h, 42) == PixelsPerMetre
    ensures ReadU32(h, 46) == 0 && ReadU32(h, 50) == 0
  {
    FileHeaderFields(fileSize, width, height, pixelSize);
    InfoHeaderSize(fileSize, width, height, pixelSize);
    InfoHeaderRest(fileSize, width, height, pixelSize);
    HeaderBytes(fileSize, width, height, pixelSize)
  }

  /** Byte `i` of the header, field by field; the bytes of no field are 0. */
  function HeaderByte(fileSize: nat, width: nat, height: nat, pixelSize: nat, i: nat): Byte
    requires Fields32(fileSize, width, height, pixelSize)
  {
    if i == 0 then 0x42
    else if i == 1 then 0x4d
    else if 2 <= i < 6 then U32Le(fileSize)[i - 2]
    else if 10 <= i < 14 then U32Le(54)[i - 10]
    else if 14 <= i < 18 then U32Le(40)[i - 14]
    else if 18 <= i < 22 then U32Le(width)[i - 18]
    else if 22 <= i < 26 then U32Le(height)[i - 22]
    else if 26 <= i < 28 then U16Le(1)[i - 26]
    else if 28 <= i < 30 then U16Le(24)[i - 28]
    else if 34 <= i < 38 then U32Le(pixelSize)[i - 34]
    else if 38 <= i < 42 then U32Le(PixelsPerMetre)[i - 38]
    else if 42 <= i < 46 then U32Le(PixelsPerMetre)[i - 42]
    else 0
  }

  /** `pad_len` zero bytes. */
  function Zeros(n: nat): (z: seq<Byte>)
    ensures |z| == n && forall i :: 0 <= i < n ==> z[i] == 0
  {
    seq(n, i => 0)
  }

  /** Source row `y`: its first `rowBytes` bytes, then the padding. */
  function Row(data: seq<seq<Byte>>, rowBytes: nat, pad: nat, y: nat): (r: seq<Byte>)
    requires y < |data| && rowBytes <= |data[y]|
    ensures |r| == rowBytes + pad
    ensures forall j :: 0 <= j < rowBytes ==> r[j] == data[y][j]
    ensures forall j :: rowBytes <= j < rowBytes + pad ==> r[j] == 0
  {
    data[y][..rowBytes] + Zeros(pad)
  }

  /** Every row is at least `rowBytes` long. */
  predicate RowsHold(data: seq<seq<Byte>>, rowBytes: nat)
  {
    forall y :: 0 <= y < |data| ==> rowBytes <= |data[y]|
  }

  /** Rows `k - 1` down to 0, the order the loop sends them in. */
  function Rows(data: seq<seq<Byte>>, rowBytes: nat, pad: nat, k: nat): seq<Byte>
    requires k <= |data| && RowsHold(data, rowBytes)
    decreases k
  {
    if k == 0 then [] else Row(data, rowBytes, pad, k - 1) + Rows(data, rowBytes, pad, k - 1)
  }

  /** `k` rows of `rowBytes + pad` bytes each. */
  lemma {:induction false} RowsLength(data: seq<seq<Byte>>, rowBytes: nat, pad: nat, k: nat)
    requires k <= |data| && RowsHold(data, rowBytes)
    ensures |Rows(data, rowBytes, pad, k)| == k * (rowBytes + pad)
    decreases k
  {
    if k > 0 {
      RowsLength(data, rowBytes, pad, k - 1);
      MulSucc(k - 1, rowBytes + pad);
    }
  }

  /**
   * Bottom-up storage: byte `j` of source row `y`, padding included, is
   * found after the rows above it, which are sent first.
   */
  lemma {:induction false} RowsAt(data: seq<seq<Byte>>, rowBytes: nat, pad: nat, k: nat, y: nat, j: nat)
    requires k <= |data| && RowsHold(data, rowBytes)
    requires y < k && j < rowBytes + pad
    ensures var r := Rows(data, rowBytes, pad, k); var above := |r| - |Rows(data, rowBytes, pad, y + 1)|;
      && 0 <= above && above + j < |r|
      && r[above + j] == Row(data, rowBytes, pad, y)[j]
    decreases k
  {
    var head := Row(data, rowBytes, pad, k - 1);
    var tail := Rows(data, rowBytes, pad, k - 1);
    assert Rows(data, rowBytes, pad, k) == head + tail;
    if y < k - 1 {
      RowsAt(data, rowBytes, pad, k - 1, y, j);
      var above := |tail| - |Rows(data, rowBytes, pad, y + 1)|;
      ConcatAt(head, tail, above + j);
    } else {
      ConcatAt(head, tail, j);
    }
  }

  lemma ConcatAt(a: seq<Byte>, b: seq<Byte>, i: nat)
    requires i < |a| + |b|
    ensures (a + b)[i] == if i < |a| then a[i] else b[i - |a|]
  {
  }

  /** Where the rows above row `y` end, in bytes. */
  lemma RowsAbove(data: seq<seq<Byte>>, rowBytes: nat, pad: nat, k: nat, y: nat)
    requires k <= |data| && RowsHold(data, rowBytes) && y < k
    ensures |Rows(data, rowBytes, pad, k)| - |Rows(data, rowBytes, pad, y + 1)| == (k - 1 - y) * (rowBytes + pad)
  {
    RowsLength(data, rowBytes, pad, k);
    RowsLength(data, rowBytes, pad, y + 1);
    MulSub(k, y + 1, rowBytes + pad);
  }

  lemma MulSub(a: nat, b: nat, c: nat)
    requires b <= a
    ensures a * c - b * c == (a - b) * c
  {
  }

  /** Reading inside a prefix reads the prefix. */
  lemma ReadInPrefix(b: seq<Byte>, h: seq<Byte>, i: nat)
    requires |h| <= |b| && b[..|h|] == h && i + 4 <= |h|
    ensures ReadU32(b, i) == ReadU32(h, i)
  {
    assert b[i] == h[i] && b[i + 1] == h[i + 1] && b[i + 2] == h[i + 2] && b[i + 3] == h[i + 3];
  }

  /** The file: the header, then the rows. */
  function Encode(fileSize: nat, width: nat, height: nat, pixelSize: nat, rows: seq<Byte>): (b: seq<Byte>)
    requires Fields32(fileSize, width, height, pixelSize)
    ensures |b| == HeaderSize + |rows| && b[HeaderSize..] == rows
    ensures ReadU32(b, 2) == fileSize && ReadU32(b, 10) == 54
    ensures ReadU32(b, 18) == width && ReadU32(b, 22) == height && ReadU32(b, 34) == pixelSize
  {
    var h := Header(fileSize, width, height, pixelSize);
    var b := h + rows;
    assert b[..HeaderSize] == h;
    ReadInPrefix(b, h, 2); ReadInPrefix(b, h, 10); ReadInPrefix(b, h, 18);
    ReadInPrefix(b, h, 22); ReadInPrefix(b, h, 34);
    b
  }

  /** The rows of a snapshot that passed the checks, bottom first. */
  function SnapshotRows(s: Snapshot): seq<Byte>
    requires WellFormed(s) && s.data.Some? && SrcRowBytes(s.width) <= s.stride
  {
    var row := SrcRowBytes(s.width);
    var st := BmpStride(row);
    Rows(s.data.value, row, st - row, s.height)
  }

  /** The checks the handler makes before it writes anything. */
  predicate Fine(s: Snapshot)
    requires WellFormed(s)
  {
    && s.width != 0 && s.height != 0 && s.data.Some? && SrcRowBytes(s.width) <= s.stride
    && BmpStride(SrcRowBytes(s.width)) * s.height < U32Limit
    && HeaderSize + BmpStride(SrcRowBytes(s.width)) * s.height < U32Limit
    && s.width <= Int32Max && s.height <= Int32Max
  }

  /**
   * The bitmap of a snapshot that passed the checks: the header followed by
   * the rows bottom first; the file size and pixel size the header states
   * are the real ones.
   */
  function BitmapOf(s: Snapshot): (b: seq<Byte>)
    requires WellFormed(s) && Fine(s)
    ensures |b| == HeaderSize + BmpStride(SrcRowBytes(s.width)) * s.height < U32Limit
    ensures b[HeaderSize..] == SnapshotRows(s)
    ensures ReadU32(b, 2) == |b| && ReadU32(b, 34) == (|b| - HeaderSize)
    ensures ReadU32(b, 18) == s.width && ReadU32(b, 22) == s.height
  {
    var row := SrcRowBytes(s.width);
    var st := BmpStride(row);
    EncodeRows(s.data.value, row, st, s.width, s.height);
    Encode(HeaderSize + st * s.height, s.width, s.height, st * s.height, SnapshotRows(s))
  }

  /** The sizes the header of `height` rows of `stride` bytes states agree with the file. */
  lemma EncodeRows(data: seq<seq<Byte>>, row: nat, stride: nat, width: nat, height: nat)
    requires height <= |data| && RowsHold(data, row) && row <= stride
    requires HeaderSize + stride * height < U32Limit && width < U32Limit && height < U32Limit
    ensures Fields32(HeaderSize + stride * height, width, height, stride * height)
    ensures |Rows(data, row, stride - row, height)| == stride * height
  {
    RowsLength(data, row, stride - row, height);
  }

  /**
   * `api_screenshot_bmp_get_handler`: without snapshot support 501; without
   * the display lock 503; without a snapshot 500. A snapshot with no pixels,
   * no data or a stride shorter than a row (`width * 3`, in 32-bit
   * arithmetic) is an invalid buffer; a pixel area or file beyond 32 bits or
   * a side beyond `INT32_MAX` is too large. Otherwise the answer is the
   * bitmap.
   */
  function Screenshot(supported: bool, locked: bool, snap: Option<Snapshot>): (r: Response)
    requires snap.Some? ==> WellFormed(snap.value)
    ensures !supported <==> r == NotImplemented
    ensures r == DisplayBusy <==> supported && !locked
    ensures r == CaptureFailed <==> supported && locked && snap.None?
    ensures r == InvalidBuffer <==> (supported && locked && snap.Some? &&
      (snap.value.width == 0 || snap.value.height == 0 || snap.value.data.None?
       || snap.value.stride < SrcRowBytes(snap.value.width)))
    ensures r.Bitmap? <==> supported && locked && snap.Some? && Fine(snap.value)
    ensures r.Bitmap? ==> r.bytes == BitmapOf(snap.value)
  {
    if !supported then NotImplemented
    else if !locked then DisplayBusy
    else if snap.None? then CaptureFailed
    else
      var s := snap.value;
      var row := SrcRowBytes(s.width);
      if s.width == 0 || s.height == 0 || s.data.None? || s.stride < row then InvalidBuffer
      else
        var st := BmpStride(row);
        var pixelSize := st * s.height;
        var fileSize := HeaderSize + pixelSize;
        if pixelSize >= U32Limit || fileSize >= U32Limit || s.width > Int32Max || s.height > Int32Max then TooLarge
        else Bitmap(BitmapOf(s))
  }

  /** In a file of `height` rows of `stride` bytes stored bottom first, the bytes before row `y`. */
  function RowOffset(height: nat, y: nat, stride: nat): nat
    requires y < height
  {
    (height - 1 - y) * stride
  }

  /** Byte `j` of row `y` in a file whose pixel part holds `k` rows bottom first. */
  lemma PixelAt(bytes: seq<Byte>, data: seq<seq<Byte>>, rowBytes: nat, pad: nat, k: nat, y: nat, j: nat)
    requires k <= |data| && RowsHold(data, rowBytes) && y < k && j < rowBytes + pad
    requires |bytes| >= HeaderSize && bytes[HeaderSize..] == Rows(data, rowBytes, pad, k)
    ensures HeaderSize + RowOffset(k, y, rowBytes + pad) + j < |bytes|
    ensures bytes[HeaderSize + RowOffset(k, y, rowBytes + pad) + j] == Row(data, rowBytes, pad, y)[j]
  {
    var rows := Rows(data, rowBytes, pad, k);
    RowsAt(data, rowBytes, pad, k, y, j);
    RowsAbove(data, rowBytes, pad, k, y);
    var above := |rows| - |Rows(data, rowBytes, pad, y + 1)|;
    assert above == RowOffset(k, y, rowBytes + pad);
    assert bytes[HeaderSize + above + j] == rows[above + j];
  }

  /**
   * The bitmap holds the snapshot upside down: byte `j` of source row `y`
   * sits after the header and `height - 1 - y` padded rows, and the padding
   * after each row is zero.
   */
  lemma BitmapPixels(s: Snapshot, y: nat, j: nat)
    requires WellFormed(s) && Fine(s)
    requires y < s.height && j < BmpStride(SrcRowBytes(s.width))
    ensures var row := SrcRowBytes(s.width); var st := BmpStride(row);
      var bytes := BitmapOf(s);
      var at := HeaderSize + RowOffset(s.height, y, st) + j;
      && at < |bytes|
      && (j < row ==> j < |s.data.value[y]| && bytes[at] == s.data.value[y][j])
      && (j >= row ==> bytes[at] == 0)
  {
    var row := SrcRowBytes(s.width);
    var st := BmpStride(row);
    var pad := st - row;
    PixelAt(BitmapOf(s), s.data.value, row, pad, s.height, y, j);
    var at := HeaderSize + RowOffset(s.height, y, row + pad) + j;
    assert at == HeaderSize + RowOffset(s.height, y, st) + j by {
      assert row + pad == st;
    }
    assert j < row ==> Row(s.data.value, row, pad, y)[j] == s.data.value[y][j];
  }
}

=== FILE: api_settings.dfy ===
/**
 * The settings endpoint's validation: which Home Assistant URLs are accepted,
 * the country-code and UI-language normalisation, how one JSON field updates
 * one setting, and the order in which a `PUT` applies its fields, reports the
 * first problem, and fills in defaults. Reading the body, loading and saving
 * the settings and the scheduled restart are not part of this model: the
 * parsed body and the loaded settings are inputs, and a successful `PUT`
 * yields the settings that would be saved.
 */
module ApiSettings {
  import opened Wrappers
  import opened CStr
  import opened Json
  import opened I18nStore

  /** `has_ws_scheme`: empty, or beginning with `ws://` or `wss://`. */
  predicate HasWsScheme(url: string)
  {
    url == "" || StartsWith(url, "ws://") || StartsWith(url, "wss://")
  }

  /** Two ASCII letters, upper case. */
  predicate IsCountryCode(cc: string)
  {
    |cc| == 2 && IsUpper(cc[0]) && IsUpper(cc[1])
  }

  /**
   * `normalize_country_code` on the settings field (whose buffer is always
   * big enough): empty becomes the default, two letters are upper-cased,
   * anything else is refused.
   */
  function NormalizeCountryCode(cc: string, bufLen: nat, defaultCountry: string): (r: Option<string>)
    requires bufLen > 0
    ensures cc == "" ==> r == Some(Fit(defaultCountry, bufLen))
    ensures cc != "" ==> (r.Some? <==> |cc| == 2 && IsAlpha(cc[0]) && IsAlpha(cc[1]))
    ensures cc != "" && r.Some? ==> IsCountryCode(r.value) && Lower(r.value) == Lower(cc)
  {
    if cc == "" then Some(Fit(defaultCountry, bufLen))
    else if |cc| != 2 || !IsAlpha(cc[0]) || !IsAlpha(cc[1]) then None
    else Some([ToUpper(cc[0]), ToUpper(cc[1])])
  }

  /** An upper-case code is already normal. */
  lemma NormalizeCountryCodeFixpoint(cc: string, bufLen: nat, defaultCountry: string)
    requires bufLen > 0 && IsCountryCode(cc)
    ensures NormalizeCountryCode(cc, bufLen, defaultCountry) == Some(cc)
  {
    assert cc == [cc[0], cc[1]];
  }

  /**
   * `normalize_ui_language` on the settings field of `maxLen` bytes: empty
   * becomes the default language, anything else must normalise to a valid
   * code.
   */
  function NormalizeUiLanguage(language: string, maxLen: nat, defaultLanguage: string): (r: Option<string>)
    requires maxLen > 0
    ensures language == "" ==> r == Some(Fit(defaultLanguage, maxLen))
    ensures language != "" ==> r == NormalizeLanguageCode(Some(language), maxLen, maxLen)
    ensures language != "" && r.Some? ==> IsValidLanguageCode(r.value, maxLen)
  {
    if language == "" then Some(Fit(defaultLanguage, maxLen))
    else NormalizeLanguageCode(Some(language), maxLen, maxLen)
  }

  /** The two problems field updates can flag. */
  datatype Flags = Flags(invalidType: bool, tooLong: bool)

  /**
   * `update_string_setting` for a buffer of `size` bytes: an absent key
   * changes nothing; a string that fits replaces the value; a too-long
   * string flags `tooLong` and changes nothing; `null` clears the value; any
   * other type flags `invalidType` and changes nothing. Flags are only ever
   * raised.
   */
  function UpdateString(obj: Value, key: string, current: string, size: nat, f: Flags): (r: (string, Flags))
    ensures Get(obj, key).None? ==> r == (current, f)
    ensures Get(obj, key) == Some(Null) ==> r == ("", f)
    ensures IsString(Get(obj, key)) ==> var s := Get(obj, key).value.s;
      r == (if |s| < size then (s, f) else (current, f.(tooLong := true)))
    ensures Get(obj, key).Some? && !IsString(Get(obj, key)) && Get(obj, key) != Some(Null) ==>
      r == (current, f.(invalidType := true))
    ensures |current| < size ==> |r.0| < size
  {
    match Get(obj, key)
    case None => (current, f)
    case Some(Str(s)) => if |s| >= size then (current, f.(tooLong := true)) else (s, f)
    case Some(Null) => ("", f)
    case Some(_) => (current, f.(invalidType := true))
  }

  /** `update_bool_setting`: absent changes nothing, a boolean replaces the value, anything else flags `invalidType`. */
  function UpdateBool(obj: Value, key: string, current: bool, f: Flags): (r: (bool, Flags))
    ensures Get(obj, key).None? ==> r == (current, f)
    ensures IsBool(Get(obj, key)) ==> r == (Get(obj, key).value.b, f)
    ensures Get(obj, key).Some? && !IsBool(Get(obj, key)) ==> r == (current, f.(invalidType := true))
  {
    match Get(obj, key)
    case None => (current, f)
    case Some(Bool(b)) => (b, f)
    case Some(_) => (current, f.(invalidType := true))
  }

  /** The fields of `runtime_settings_t` the endpoint writes. */
  datatype Settings = Settings(
    ssid: string, password: string, country: string, wsUrl: string, token: string,
    restEnabled: bool, ntp: string, tz: string, language: string)

  /** The buffer sizes of those fields (`APP_*_MAX_LEN`). */
  datatype Sizes = Sizes(ssid: nat, password: nat, country: nat, wsUrl: nat, token: nat,
                         ntp: nat, tz: nat, language: nat)

  predicate ValidSizes(z: Sizes)
  {
    z.ssid > 0 && z.password > 0 && z.country > 2 && z.wsUrl > 0 && z.token > 0 && z.ntp > 0 && z.tz > 0 && z.language > 0
  }

  /** Every field fits its buffer. */
  predicate Fits(st: Settings, z: Sizes)
  {
    && |st.ssid| < z.ssid && |st.password| < z.password && |st.country| < z.country
    && |st.wsUrl| < z.wsUrl && |st.token| < z.token && |st.ntp| < z.ntp && |st.tz| < z.tz
    && |st.language| < z.language
  }

  /** `APP_WIFI_COUNTRY_CODE`, `APP_NTP_SERVER`, `APP_TIME_TZ`, `APP_UI_DEFAULT_LANGUAGE`. */
  datatype Defaults = Defaults(country: string, ntp: string, tz: string, language: string)

  /** The fields a `PUT` can write. */
  datatype Field = Ssid | Password | Country | WsUrl | Token | RestEnabled | Ntp | Tz | Language

  /** A text field's value (empty for the boolean). */
  function Text(st: Settings, field: Field): string
  {
    match field
    case Ssid => st.ssid
    case Password => st.password
    case Country => st.country
    case WsUrl => st.wsUrl
    case Token => st.token
    case RestEnabled => ""
    case Ntp => st.ntp
    case Tz => st.tz
    case Language => st.language
  }

  /** A text field's buffer size. */
  function Size(z: Sizes, field: Field): nat
  {
    match field
    case Ssid => z.ssid
    case Password => z.password
    case Country => z.country
    case WsUrl => z.wsUrl
    case Token => z.token
    case RestEnabled => 1
    case Ntp => z.ntp
    case Tz => z.tz
    case Language => z.language
  }

  /** Replaces one text field, leaving every other field as it was. */
  function SetText(st: Settings, field: Field, v: string): (r: Settings)
    requires field != RestEnabled
    ensures Text(r, field) == v && r.restEnabled == st.restEnabled
    ensures forall g :: g != field ==> Text(r, g) == Text(st, g)
  {
    match field
    case Ssid => st.(ssid := v)
    case Password => st.(password := v)
    case Country => st.(country := v)
    case WsUrl => st.(wsUrl := v)
    case Token => st.(token := v)
    case Ntp => st.(ntp := v)
    case Tz => st.(tz := v)
    case Language => st.(language := v)
  }

  lemma FitsByField(st: Settings, z: Sizes)
    ensures Fits(st, z) <==> forall g :: g != RestEnabled ==> |Text(st, g)| < Size(z, g)
  {
    if forall g :: g != RestEnabled ==> |Text(st, g)| < Size(z, g) {
      assert |Text(st, Ssid)| < Size(z, Ssid) && |Text(st, Password)| < Size(z, Password);
      assert |Text(st, Country)| < Size(z, Country) && |Text(st, WsUrl)| < Size(z, WsUrl);
      assert |Text(st, Token)| < Size(z, Token) && |Text(st, Ntp)| < Size(z, Ntp);
      assert |Text(st, Tz)| < Size(z, Tz) && |Text(st, Language)| < Size(z, Language);
    }
  }

  /** One field update: key `key` of section `section` (of the body itself when none). */
  datatype Step = Step(section: Option<string>, key: string, field: Field)

  /**
   * The updates of a `PUT`, in the handler's order: the `wifi`, `ha`, `time`
   * and `ui` sections, then the flat legacy keys, which therefore win over
   * the sections.
   */
  const Steps: seq<Step> := [
    Step(Some("wifi"), "ssid", Ssid), Step(Some("wifi"), "password", Password),
    Step(Some("wifi"), "country_code", Country),
    Step(Some("ha"), "ws_url", WsUrl), Step(Some("ha"), "access_token", Token),
    Step(Some("ha"), "rest_enabled", RestEnabled),
    Step(Some("time"), "ntp_server", Ntp), Step(Some("time"), "timezone", Tz),
    Step(Some("ui"), "language", Language),
    Step(None, "wifi_ssid", Ssid), Step(None, "wifi_password", Password),
    Step(None, "wifi_country_code", Country), Step(None, "ha_ws_url", WsUrl),
    Step(None, "ha_access_token", Token), Step(None, "ha_rest_enabled", RestEnabled),
    Step(None, "ntp_server", Ntp), Step(None, "time_tz", Tz), Step(None, "language", Language)]

  /** The object a step reads from: its section when that is an object, the body itself for a flat key. */
  function StepObject(body: Value, step: Step): Option<Value>
  {
    if step.section.None? then Some(body)
    else if IsObject(Get(body, step.section.value)) then Get(body, step.section.value)
    else None
  }

  /** A step finds its key. */
  predicate Touches(body: Value, step: Step)
  {
    var obj := StepObject(body, step);
    obj.Some? && Get(obj.value, step.key).Some?
  }

  /** One update, through `update_bool_setting` for the boolean and `update_string_setting` for the rest. */
  function ApplyStep(body: Value, st: Settings, z: Sizes, f: Flags, step: Step): (r: (Settings, Flags))
    ensures !Touches(body, step) ==> r == (st, f)
    ensures step.field != RestEnabled && |Text(st, step.field)| < Size(z, step.field) ==>
      |Text(r.0, step.field)| < Size(z, step.field)
    ensures forall g :: g != step.field ==> Text(r.0, g) == Text(st, g)
    ensures (f.invalidType ==> r.1.invalidType) && (f.tooLong ==> r.1.tooLong)
  {
    var obj := StepObject(body, step);
    if obj.None? then (st, f)
    else if step.field == RestEnabled then
      var (b, f) := UpdateBool(obj.value, step.key, st.restEnabled, f);
      (st.(restEnabled := b), f)
    else
      var (v, f) := UpdateString(obj.value, step.key, Text(st, step.field), Size(z, step.field), f);
      (SetText(st, step.field, v), f)
  }

  /** The updates in order. */
  function ApplySteps(body: Value, st: Settings, z: Sizes, f: Flags, steps: seq<Step>): (r: (Settings, Flags))
    ensures Fits(st, z) ==> Fits(r.0, z)
    ensures (forall i :: 0 <= i < |steps| ==> !Touches(body, steps[i])) ==> r == (st, f)
    ensures (f.invalidType ==> r.1.invalidType) && (f.tooLong ==> r.1.tooLong)
    decreases |steps|
  {
    if |steps| == 0 then (st, f)
    else
      var (st1, f1) := ApplyStep(body, st, z, f, steps[0]);
      assert Fits(st, z) ==> Fits(st1, z) by { FitsByField(st, z); FitsByField(st1, z); }
      ApplySteps(body, st1, z, f1, steps[1..])
  }

  /** All field updates of a `PUT`, starting with no flags. */
  function ApplyFields(body: Value, st: Settings, z: Sizes): (r: (Settings, Flags))
    ensures Fits(st, z) ==> Fits(r.0, z)
    ensures (forall i :: 0 <= i < |Steps| ==> !Touches(body, Steps[i])) ==> r == (st, Flags(false, false))
  {
    ApplySteps(body, st, z, Flags(false, false), Steps)
  }

  /** Why a `PUT` is refused with `400 Bad Request`. */
  datatype Problem =
    | InvalidJson | SectionNotObject(section: string) | RebootNotBoolean
    | InvalidType | TooLong | BadWsUrl | BadCountryCode | BadLanguage

  datatype Outcome = Rejected(problem: Problem) | Saved(settings: Settings, reboot: bool)

  /** The settings a successful `PUT` stores: every constraint the handler enforces. */
  predicate Normal(st: Settings, z: Sizes)
  {
    && Fits(st, z) && HasWsScheme(st.wsUrl)
    && (st.ssid == "" ==> st.password == "")
    && st.ntp != "" && st.tz != ""
    && IsValidLanguageCode(st.language, z.language)
    && IsCountryCode(st.country)
  }

  /** Defaults that satisfy the handler's own checks. */
  predicate GoodDefaults(d: Defaults, z: Sizes)
  {
    IsCountryCode(d.country) && 0 < |d.ntp| < z.ntp && 0 < |d.tz| < z.tz && IsValidLanguageCode(d.language, z.language)
  }

  /**
   * The checks after the updates, in the handler's order: a wrong type, a
   * too-long value, the URL scheme, the country code; then an empty SSID
   * clears the password, an empty NTP server or time zone takes its
   * default, and finally the language must normalise.
   */
  function Finish(st: Settings, f: Flags, reboot: bool, z: Sizes, d: Defaults): (r: Outcome)
    requires ValidSizes(z)
    ensures f.invalidType ==> r == Rejected(InvalidType)
    ensures !f.invalidType && f.tooLong ==> r == Rejected(TooLong)
    ensures !f.invalidType && !f.tooLong && !HasWsScheme(st.wsUrl) ==> r == Rejected(BadWsUrl)
    ensures r.Saved? ==> !f.invalidType && !f.tooLong && r.reboot == reboot
    ensures r.Saved? && Fits(st, z) && GoodDefaults(d, z) ==> Normal(r.settings, z)
    ensures r.Saved? ==> && r.settings.ssid == st.ssid && r.settings.wsUrl == st.wsUrl
                         && r.settings.token == st.token && r.settings.restEnabled == st.restEnabled
    ensures r.Saved? && st.ssid != "" ==> r.settings.password == st.password
    ensures r.Saved? && st.ntp != "" ==> r.settings.ntp == st.ntp
    ensures r.Saved? && st.tz != "" ==> r.settings.tz == st.tz
  {
    if f.invalidType then Rejected(InvalidType)
    else if f.tooLong then Rejected(TooLong)
    else if !HasWsScheme(st.wsUrl) then Rejected(BadWsUrl)
    else match NormalizeCountryCode(st.country, z.country, d.country)
      case None => Rejected(BadCountryCode)
      case Some(country) =>
        var st := st.(country := country);
        var st := if st.ssid == "" then st.(password := "") else st;
        var st := if st.ntp == "" then st.(ntp := Fit(d.ntp, z.ntp)) else st;
        var st := if st.tz == "" then st.(tz := Fit(d.tz, z.tz)) else st;
        match NormalizeUiLanguage(st.language, z.language, d.language)
        case None => Rejected(BadLanguage)
        case Some(language) => Saved(st.(language := language), reboot)
  }

  /** Each section present is an object. */
  predicate SectionOk(body: Value, section: string)
  {
    Get(body, section).None? || IsObject(Get(body, section))
  }

  /** The shape checks a body must pass before any field is looked at. */
  predicate ShapeOk(body: Value)
  {
    && body.Obj? && SectionOk(body, "wifi") && SectionOk(body, "ha") && SectionOk(body, "time") && SectionOk(body, "ui")
    && (Get(body, "reboot").None? || IsBool(Get(body, "reboot")))
  }

  /** `reboot` when given, true otherwise. */
  function RebootOf(body: Value): bool
  {
    if IsBool(Get(body, "reboot")) then Get(body, "reboot").value.b else true
  }

  /**
   * `api_settings_put_handler` after the body is parsed: the body must be
   * an object; the sections that are present must be objects, checked in
   * the order `wifi`, `ha`, `time`, `ui`; `reboot`, when present, must be a
   * boolean and defaults to true; then the fields are applied and checked.
   */
  function Put(body: Value, loaded: Settings, z: Sizes, d: Defaults): (r: Outcome)
    requires ValidSizes(z)
    ensures !body.Obj? ==> r == Rejected(InvalidJson)
    ensures body.Obj? && !SectionOk(body, "wifi") ==> r == Rejected(SectionNotObject("wifi"))
    ensures body.Obj? && SectionOk(body, "wifi") && !SectionOk(body, "ha") ==> r == Rejected(SectionNotObject("ha"))
    ensures !ShapeOk(body) ==> r.Rejected? && r.problem in {InvalidJson, SectionNotObject("wifi"), SectionNotObject("ha"),
                                                           SectionNotObject("time"), SectionNotObject("ui"), RebootNotBoolean}
    ensures ShapeOk(body) ==> var (st, f) := ApplyFields(body, loaded, z); r == Finish(st, f, RebootOf(body), z, d)
  {
    if !body.Obj? then Rejected(InvalidJson)
    else if !SectionOk(body, "wifi") then Rejected(SectionNotObject("wifi"))
    else if !SectionOk(body, "ha") then Rejected(SectionNotObject("ha"))
    else if !SectionOk(body, "time") then Rejected(SectionNotObject("time"))
    else if !SectionOk(body, "ui") then Rejected(SectionNotObject("ui"))
    else if Get(body, "reboot").Some? && !IsBool(Get(body, "reboot")) then Rejected(RebootNotBoolean)
    else
      var (st, f) := ApplyFields(body, loaded, z);
      Finish(st, f, RebootOf(body), z, d)
  }

  /** What a successful `PUT` stores meets every constraint the handler enforces, and reboot defaults to true. */
  lemma PutSavesNormal(body: Value, loaded: Settings, z: Sizes, d: Defaults)
    requires ValidSizes(z) && Fits(loaded, z) && GoodDefaults(d, z)
    ensures var r := Put(body, loaded, z, d);
      r.Saved? ==> Normal(r.settings, z) && r.reboot == RebootOf(body) && ShapeOk(body)
  {
  }

  /** Settings that already meet the constraints pass the final checks unchanged. */
  lemma FinishNormal(st: Settings, z: Sizes, d: Defaults, reboot: bool)
    requires ValidSizes(z) && Normal(st, z)
    ensures Finish(st, Flags(false, false), reboot, z, d) == Saved(st, reboot)
  {
    NormalizeValidCode(st.language, z.language, z.language);
    NormalizeCountryCodeFixpoint(st.country, z.country, d.country);
  }

  /** No update step reads `reboot`, neither as a section nor as a key. */
  lemma StepsIgnoreReboot()
    ensures forall i :: 0 <= i < |Steps| ==> Steps[i].key != "reboot" && Steps[i].section != Some("reboot")
  {
  }

  /** A body carrying only `reboot` touches no setting. */
  lemma RebootOnlyTouchesNothing(reboot: bool)
    ensures forall i :: 0 <= i < |Steps| ==> !Touches(Obj([Member("reboot", Bool(reboot))]), Steps[i])
  {
    var body := Obj([Member("reboot", Bool(reboot))]);
    StepsIgnoreReboot();
    forall i | 0 <= i < |Steps| ensures !Touches(body, Steps[i]) {
      var step := Steps[i];
      if step.section.Some? {
        assert Get(body, step.section.value).None?;
      } else {
        assert Get(body, step.key).None?;
      }
    }
  }

  /** Settings that are already normal come back unchanged from a `PUT` that sets no field. */
  lemma PutNormalIsFixpoint(loaded: Settings, z: Sizes, d: Defaults, reboot: bool)
    requires ValidSizes(z) && Normal(loaded, z)
    ensures Put(Obj([Member("reboot", Bool(reboot))]), loaded, z, d) == Saved(loaded, reboot)
  {
    var body := Obj([Member("reboot", Bool(reboot))]);
    assert ShapeOk(body) && RebootOf(body) == reboot;
    RebootOnlyTouchesNothing(reboot);
    FinishNormal(loaded, z, d, reboot);
  }

  /** An empty body over settings that already meet the constraints saves them unchanged, with a reboot. */
  lemma PutEmptyBody(st: Settings, z: Sizes, d: Defaults)
    requires ValidSizes(z) && Normal(st, z)
    ensures Put(Obj([]), st, z, d) == Saved(st, true)
  {
    assert ShapeOk(Obj([])) && RebootOf(Obj([]));
    assert forall i :: 0 <= i < |Steps| ==> !Touches(Obj([]), Steps[i]);
    FinishNormal(st, z, d, true);
  }

  /** Saving is idempotent: a `PUT` setting no field over saved settings saves them as they are. */
  lemma PutIdempotent(body: Value, loaded: Settings, z: Sizes, d: Defaults)
    requires ValidSizes(z) && Fits(loaded, z) && GoodDefaults(d, z)
    requires Put(body, loaded, z, d).Saved?
    ensures var saved := Put(body, loaded, z, d).settings;
      Put(Obj([]), saved, z, d) == Saved(saved, true)
  {
    PutSavesNormal(body, loaded, z, d);
    PutEmptyBody(Put(body, loaded, z, d).settings, z, d);
  }
}

=== FILE: boot_splash.dfy ===
/**
 * The boot splash: a scrolling list of at most five status lines, a progress
 * value that an animation timer steps while nothing sets it, and the status
 * label's layout. LVGL objects are not part of this model: "shown" stands
 * for the splash's objects existing, and whether the display lock was taken
 * is an input.
 */
module BootSplash {
  import opened CStr

  const MaxLines: nat := 5
  const LineLen: nat := 64
  const ProgressStep: nat := 5
  const MinStatusWidth: int := 120
  const DefaultStatusWidth: int := 400
  const DefaultXOffset: int := 24
  const MinShowMs: int := 1200

  /** The render buffer: five lines of 64 bytes and five separators. */
  const RenderBuffer: nat := MaxLines * LineLen + MaxLines

  datatype Align = AlignLeft | AlignCenter

  /**
   * The splash state and the status label's layout. The layout lives outside
   * the splash record in the firmware, so hiding the splash keeps it.
   */
  datatype Splash = Splash(
    shown: bool, lines: seq<string>, progress: nat, bar: nat, timerActive: bool, shownAt: int,
    width: int, align: Align, xOffset: int)

  /** A status line as stored: cut to its 64-byte buffer. */
  function Line(text: string): (l: string)
    ensures |l| < LineLen
    ensures text != "" ==> l != ""
  {
    Fit(text, LineLen)
  }

  /** What the operations keep: at most five non-empty stored lines, a progress of at most 100, a width that is the default or within `[120, screenWidth]`; a hidden splash has no lines and no timer. */
  predicate Valid(s: Splash, screenWidth: int)
  {
    && |s.lines| <= MaxLines
    && (forall i :: 0 <= i < |s.lines| ==> s.lines[i] != "" && |s.lines[i]| < LineLen)
    && s.progress <= 100 && s.bar <= 100
    && (s.width == DefaultStatusWidth || MinStatusWidth <= s.width <= screenWidth)
    && (!s.shown ==> s.lines == [] && !s.timerActive)
  }

  /** The state before the splash is first shown. */
  function Initial(): (s: Splash)
    ensures forall w :: Valid(s, w)
  {
    Splash(false, [], 0, 0, false, 0, DefaultStatusWidth, AlignLeft, DefaultXOffset)
  }

  /** The last `n` elements of `s`, or all of them when there are fewer. */
  function LastN(s: seq<string>, n: nat): (r: seq<string>)
    ensures |r| == Min(|s|, n)
  {
    if |s| <= n then s else s[|s| - n..]
  }

  /**
   * `splash_add_status_line`: empty text is ignored; below five lines the
   * text is appended, otherwise the oldest line goes, the others move up and
   * the text becomes the last line.
   */
  function AddStatusLine(lines: seq<string>, text: string): (r: seq<string>)
    requires |lines| <= MaxLines
    ensures |r| <= MaxLines
    ensures text == "" ==> r == lines
    ensures text != "" ==> r == LastN(lines + [Line(text)], MaxLines)
    ensures text != "" ==> |r| == Min(|lines| + 1, MaxLines) && r[|r| - 1] == Line(text)
  {
    if text == "" then lines
    else if |lines| < MaxLines then lines + [Line(text)]
    else lines[1..] + [Line(text)]
  }

  /** The stored lines of the non-empty texts, in order. */
  function Kept(texts: seq<string>): seq<string>
    decreases |texts|
  {
    if |texts| == 0 then []
    else (if texts[0] == "" then [] else [Line(texts[0])]) + Kept(texts[1..])
  }

  /** Adding several status texts one after the other. */
  function AddAll(lines: seq<string>, texts: seq<string>): (r: seq<string>)
    requires |lines| <= MaxLines
    ensures |r| <= MaxLines
    decreases |texts|
  {
    if |texts| == 0 then lines else AddAll(AddStatusLine(lines, texts[0]), texts[1..])
  }

  lemma LastNTwice(x: seq<string>, y: seq<string>, n: nat)
    ensures LastN(LastN(x, n) + y, n) == LastN(x + y, n)
  {
    if |x| > n {
      assert x + y == x[..|x| - n] + (x[|x| - n..] + y);
    }
  }

  /** After any number of status texts, the splash shows the last five non-empty ones, oldest first. */
  lemma {:induction false} AddAllKeepsLastFive(lines: seq<string>, texts: seq<string>)
    requires |lines| <= MaxLines
    ensures AddAll(lines, texts) == LastN(lines + Kept(texts), MaxLines)
    decreases |texts|
  {
    if |texts| == 0 {
      assert lines + Kept(texts) == lines;
    } else {
      var rest := Kept(texts[1..]);
      var next := AddStatusLine(lines, texts[0]);
      assert AddAll(lines, texts) == AddAll(next, texts[1..]);
      AddAllKeepsLastFive(next, texts[1..]);
      if texts[0] == "" {
        assert Kept(texts) == rest;
      } else {
        assert Kept(texts) == [Line(texts[0])] + rest;
        KeptStep(lines, Line(texts[0]), rest);
      }
    }
  }

  /** One more stored line, then the rest: the window of the whole. */
  lemma KeptStep(lines: seq<string>, line: string, rest: seq<string>)
    ensures LastN(LastN(lines + [line], MaxLines) + rest, MaxLines) == LastN(lines + ([line] + rest), MaxLines)
  {
    LastNTwice(lines + [line], rest, MaxLines);
    assert lines + [line] + rest == lines + ([line] + rest);
  }

  /** The text of line `i` in the status label: the line and, unless it is the last, a newline. */
  function Piece(lines: seq<string>, i: nat): string
    requires i < |lines|
  {
    lines[i] + (if i + 1 < |lines| then "\n" else "")
  }

  /** The first `k` pieces joined. */
  function Joined(lines: seq<string>, k: nat): string
    requires k <= |lines|
  {
    if k == 0 then "" else Joined(lines, k - 1) + Piece(lines, k - 1)
  }

  lemma {:induction false} JoinedPrefix(lines: seq<string>, k: nat, n: nat)
    requires k <= n <= |lines|
    ensures StartsWith(Joined(lines, n), Joined(lines, k))
    decreases n
  {
    if k < n {
      JoinedPrefix(lines, k, n - 1);
      assert Joined(lines, n)[..|Joined(lines, n - 1)|] == Joined(lines, n - 1);
    }
  }

  /** Lines shorter than 64 bytes join into at most 64 bytes per line. */
  lemma {:induction false} JoinedLength(lines: seq<string>, k: nat)
    requires k <= |lines|
    requires forall i :: 0 <= i < |lines| ==> |lines[i]| < LineLen
    ensures |Joined(lines, k)| <= LineLen * k
    decreases k
  {
    if k > 0 {
      JoinedLength(lines, k - 1);
    }
  }

  /** The lines a valid splash holds always fit the render buffer. */
  lemma RenderFits(s: Splash, screenWidth: int)
    requires Valid(s, screenWidth)
    ensures |Joined(s.lines, |s.lines|)| < RenderBuffer
  {
    JoinedLength(s.lines, |s.lines|);
  }

  /**
   * `splash_render_status_lines`: the lines joined by newlines into a
   * buffer of 325 bytes; output that does not fit is cut, and the loop stops.
   * The label text is always a prefix of the joined lines, and all of them
   * when they fit.
   */
  method RenderStatusLines(lines: seq<string>) returns (text: string)
    ensures |text| < RenderBuffer
    ensures StartsWith(Joined(lines, |lines|), text)
    ensures |Joined(lines, |lines|)| < RenderBuffer ==> text == Joined(lines, |lines|)
  {
    text := "";
    var i := 0;
    while i < |lines|
      invariant 0 <= i <= |lines|
      invariant text == Joined(lines, i) && |text| < RenderBuffer
    {
      var piece := Piece(lines, i);
      if |piece| == 0 {
        assert i + 1 == |lines| && Joined(lines, i + 1) == text;
        JoinedPrefix(lines, i, |lines|);
        return;
      }
      if |piece| >= RenderBuffer - |text| {
        JoinedPrefix(lines, i + 1, |lines|);
        assert |Joined(lines, i + 1)| >= RenderBuffer;
        text := (text + piece)[..RenderBuffer - 1];
        assert StartsWith(Joined(lines, i + 1), text);
        return;
      }
      text := text + piece;
      i := i + 1;
    }
  }

  /** `splash_step_progress`: five more, back to 0 once 100 is reached. */
  function StepProgress(value: nat): (r: nat)
    requires value <= 100
    ensures r < 100
    ensures value + ProgressStep < 100 ==> r == value + ProgressStep
    ensures value + ProgressStep >= 100 ==> r == 0
  {
    if value + ProgressStep >= 100 then 0 else value + ProgressStep
  }

  function Steps(value: nat, n: nat): (r: nat)
    requires value <= 100
    ensures r <= 100
  {
    if n == 0 then value else StepProgress(Steps(value, n - 1))
  }

  /** From 0, the animation cycles through 0, 5, …, 95 every twenty ticks. */
  lemma {:induction false} StepsCycle(n: nat)
    ensures Steps(0, n) == ProgressStep * (n % 20)
  {
    if n > 0 {
      StepsCycle(n - 1);
    }
  }

  /** The animation timer fires: with a timer, a shown splash steps its progress. */
  function Tick(s: Splash): (r: Splash)
    requires s.progress <= 100
    ensures !s.shown || !s.timerActive ==> r == s
    ensures s.shown && s.timerActive ==> r == s.(progress := StepProgress(s.progress), bar := StepProgress(s.progress))
  {
    if s.shown && s.timerActive then
      var v := StepProgress(s.progress);
      s.(progress := v, bar := v)
    else s
  }

  /** How `ui_boot_splash_show` ended. */
  datatype ShowResult = ShowOk | NotReady | LockTimeout

  /**
   * `ui_boot_splash_show`: fails when the display is not ready or the lock
   * is not taken; a shown splash stays as it is. Otherwise the splash
   * appears with the bar at 20 but a progress value of 0, the default
   * layout, the first status line, and the animation timer running.
   */
  function Show(s: Splash, ready: bool, locked: bool, initText: string, now: int): (res: (ShowResult, Splash))
    ensures !ready ==> res == (NotReady, s)
    ensures ready && !locked ==> res == (LockTimeout, s)
    ensures ready && locked && s.shown ==> res == (ShowOk, s)
    ensures ready && locked && !s.shown ==>
      res.0 == ShowOk && res.1.shown && res.1.timerActive && res.1.progress == 0 && res.1.bar == 20
      && res.1.lines == AddStatusLine([], initText) && res.1.shownAt == now
      && res.1.width == DefaultStatusWidth && res.1.align == AlignLeft && res.1.xOffset == DefaultXOffset
  {
    if !ready then (NotReady, s)
    else if !locked then (LockTimeout, s)
    else if s.shown then (ShowOk, s)
    else (ShowOk, Splash(true, AddStatusLine([], initText), 0, 20, true, now, DefaultStatusWidth, AlignLeft, DefaultXOffset))
  }

  /** `ui_boot_splash_set_status`: empty text, a hidden splash or a busy display changes nothing. */
  function SetStatus(s: Splash, text: string, locked: bool): (r: Splash)
    requires |s.lines| <= MaxLines
    ensures text == "" || !s.shown || !locked ==> r == s
    ensures text != "" && s.shown && locked ==> r == s.(lines := AddStatusLine(s.lines, text))
  {
    if text == "" || !s.shown || !locked then s else s.(lines := AddStatusLine(s.lines, text))
  }

  /** `ui_boot_splash_clear_status`: a shown splash with the lock loses all its lines. */
  function ClearStatus(s: Splash, locked: bool): (r: Splash)
    ensures s.shown && locked ==> r == s.(lines := [])
    ensures !(s.shown && locked) ==> r == s
  {
    if s.shown && locked then s.(lines := []) else s
  }

  /**
   * `ui_boot_splash_set_progress`: stops the animation timer and shows the
   * value, clamped to 100.
   */
  function SetProgress(s: Splash, percent: nat, locked: bool): (r: Splash)
    requires percent < 256
    ensures !(s.shown && locked) ==> r == s
    ensures s.shown && locked ==> !r.timerActive && r.progress == Min(percent, 100) && r.bar == r.progress
    ensures r.lines == s.lines && r.width == s.width && r.shown == s.shown
  {
    if s.shown && locked then
      var v := Min(percent, 100);
      s.(timerActive := false, progress := v, bar := v)
    else s
  }

  /** Once the progress is set, the animation no longer moves it. */
  lemma SetProgressHolds(s: Splash, percent: nat)
    requires percent < 256 && s.shown
    ensures var r := SetProgress(s, percent, true); Tick(r) == r
  {
  }

  /**
   * `ui_boot_splash_set_status_layout`: a width within `[120, screenWidth]`
   * is taken, any other keeps the old width; the alignment and offset are
   * always taken.
   */
  function SetStatusLayout(s: Splash, centered: bool, width: nat, xOffset: int, screenWidth: int, locked: bool): (r: Splash)
    requires width < 0x1_0000
    ensures !(s.shown && locked) ==> r == s
    ensures s.shown && locked ==>
      (r.width == if MinStatusWidth <= width <= screenWidth then width else s.width)
      && r.align == (if centered then AlignCenter else AlignLeft) && r.xOffset == xOffset
      && r.lines == s.lines && r.progress == s.progress
  {
    if s.shown && locked then
      s.(width := if MinStatusWidth <= width <= screenWidth then width else s.width,
         align := if centered then AlignCenter else AlignLeft, xOffset := xOffset)
    else s
  }

  /** `ui_boot_splash_set_status_x_offset`. */
  function SetStatusXOffset(s: Splash, xOffset: int, locked: bool): (r: Splash)
    ensures s.shown && locked ==> r == s.(xOffset := xOffset)
    ensures !(s.shown && locked) ==> r == s
  {
    if s.shown && locked then s.(xOffset := xOffset) else s
  }

  /**
   * How long `ui_boot_splash_hide` waits before removing the splash, so that
   * it stays up at least 1200 ms.
   */
  function HideDelay(now: int, shownAt: int): (d: nat)
    ensures now + d >= shownAt + MinShowMs
    ensures d <= MinShowMs || now < shownAt
    ensures now - shownAt >= MinShowMs ==> d == 0
  {
    if now - shownAt < MinShowMs then MinShowMs - (now - shownAt) else 0
  }

  /**
   * `ui_boot_splash_hide`, after its wait: with the lock the splash record
   * is cleared; the layout settings, kept elsewhere, stay.
   */
  function Hide(s: Splash, locked: bool): (r: Splash)
    ensures !s.shown || !locked ==> r == s
    ensures s.shown && locked ==>
      (!r.shown && r.lines == [] && !r.timerActive && r.progress == 0
       && r.width == s.width && r.align == s.align && r.xOffset == s.xOffset)
  {
    if s.shown && locked then Splash(false, [], 0, 0, false, 0, s.width, s.align, s.xOffset) else s
  }

  /** Every operation keeps the splash valid. */
  lemma OperationsKeepValid(s: Splash, screenWidth: int, text: string, percent: nat, width: nat,
                            centered: bool, xOffset: int, locked: bool, ready: bool, now: int)
    requires Valid(s, screenWidth) && percent < 256 && width < 0x1_0000
    ensures Valid(Tick(s), screenWidth)
    ensures Valid(Show(s, ready, locked, text, now).1, screenWidth)
    ensures Valid(SetStatus(s, text, locked), screenWidth)
    ensures Valid(ClearStatus(s, locked), screenWidth)
    ensures Valid(SetProgress(s, percent, locked), screenWidth)
    ensures Valid(SetStatusLayout(s, centered, width, xOffset, screenWidth, locked), screenWidth)
    ensures Valid(SetStatusXOffset(s, xOffset, locked), screenWidth)
    ensures Valid(Hide(s, locked), screenWidth)
  {
    AddStatusLineValid(s.lines, text);
    AddStatusLineValid([], text);
  }

  lemma AddStatusLineValid(lines: seq<string>, text: string)
    requires |lines| <= MaxLines
    requires forall i :: 0 <= i < |lines| ==> lines[i] != "" && |lines[i]| < LineLen
    ensures var r := AddStatusLine(lines, text);
      forall i :: 0 <= i < |r| ==> r[i] != "" && |r[i]| < LineLen
  {
  }
}

=== FILE: button_widget.dfy ===
/**
 * The button widget's logic: which states count as on, the visual state its
 * updates select, and the integer clamping of the touch surface between the
 * state label and the title.
 */
module ButtonWidget {
  import opened Wrappers

  /** `state_is_on` of the button. */
  predicate StateIsOn(state: Option<string>)
  {
    state.Some? && state.value in {"on", "open", "playing", "home"}
  }

  /** What `button_apply_visual` is asked to show. */
  datatype Visual = Visual(isOn: bool, statusText: string)

  /** `w_button_apply_state`: `ON` when the state counts as on, `OFF` otherwise. */
  function ApplyState(state: Option<string>): (v: Visual)
    ensures v.isOn <==> StateIsOn(state)
    ensures v.statusText == "ON" <==> StateIsOn(state)
    ensures v.statusText in {"ON", "OFF"}
  {
    var on := StateIsOn(state);
    Visual(on, if on then "ON" else "OFF")
  }

  /** `w_button_mark_unavailable`: rendered off, with the text `unavailable`. */
  function MarkUnavailable(): (v: Visual)
    ensures !v.isOn && v.statusText == "unavailable"
    ensures forall state :: v != ApplyState(state)
  {
    Visual(false, "unavailable")
  }

  /** The smallest height of the touch surface. */
  const MinHeight: int := 44

  /** The surface rectangle, in the card's content coordinates. */
  datatype Surface = Surface(x: int, width: int, top: int, bottom: int)

  /**
   * `button_layout_action_surface`. The content box is at least 24 by 48;
   * the surface is inset by 2 (tuned layout) or 0 on each side, at least 24
   * wide; vertically it spans from below the state label (gap 10 or 8) to
   * above the title (gap 12 or 10), pushed and clipped so that it stays in
   * the content box and is at least 44 high.
   */
  function ActionSurface(contentW: int, contentH: int, stateBottom: int, titleY: int, tuned: bool): (s: Surface)
    ensures var h := if contentH < 48 then 48 else contentH;
      0 <= s.top && s.bottom <= h && s.bottom - s.top >= MinHeight
    ensures s.width >= 24 && s.x == (if tuned then 2 else 0)
    ensures var w := if contentW < 24 then 24 else contentW;
      w - 2 * s.x >= 24 ==> s.width == w - 2 * s.x
    ensures var h := if contentH < 48 then 48 else contentH;
      var top := stateBottom + (if tuned then 10 else 8);
      var bottom := titleY - (if tuned then 12 else 10);
      0 <= top && top + MinHeight <= bottom <= h ==> s.top == top && s.bottom == bottom
  {
    var inset := if tuned then 2 else 0;
    var topGap := if tuned then 10 else 8;
    var bottomGap := if tuned then 12 else 10;
    var w := if contentW < 24 then 24 else contentW;
    var h := if contentH < 48 then 48 else contentH;
    var width := if w - 2 * inset < 24 then 24 else w - 2 * inset;
    var top := stateBottom + topGap;
    var bottom := titleY - bottomGap;
    var top := if top < 0 then 0 else top;
    var bottom := if bottom > h then h else bottom;
    var (top, bottom) :=
      if bottom < top + MinHeight then
        (if bottom - MinHeight < 0 then (0, MinHeight) else (bottom - MinHeight, bottom))
      else (top, bottom);
    var bottom := if bottom > h then h else bottom;
    var (top, bottom) :=
      if bottom < top + MinHeight then
        if top + MinHeight > h then (if h - MinHeight < 0 then 0 else h - MinHeight, h) else (top, top + MinHeight)
      else (top, bottom);
    Surface(inset, width, top, bottom)
  }

  /** Whatever the labels' positions, a surface has room for the icon: it is exactly 44 high when squeezed. */
  lemma SqueezedSurface(contentW: int, stateBottom: int, titleY: int, tuned: bool)
    requires titleY - stateBottom < 60
    ensures var s := ActionSurface(contentW, 48, stateBottom, titleY, tuned);
      s.bottom - s.top == MinHeight
  {
  }
}

=== FILE: bytes.dfy ===
/**
 * Bytes and the big-endian numbers of binary file formats: a byte is an
 * integer in `0..255`, and a 16- or 32-bit field is read and written with
 * its most significant byte first.
 */
module Bytes {
  type Byte = x: int | 0 <= x < 256

  const U16Limit: nat := 0x1_0000
  const U32Limit: nat := 0x1_0000_0000

  /** `n` zero bytes. */
  function ZeroBytes(n: nat): (z: seq<Byte>)
    ensures |z| == n && forall i :: 0 <= i < n ==> z[i] == 0
  {
    seq(n, i => 0)
  }

  /** The unsigned 16-bit number at `i`, high byte first (`struct` format `>H`). */
  function BeU16(b: seq<Byte>, i: nat): (v: nat)
    requires i + 2 <= |b|
    ensures v < U16Limit
  {
    0x100 * (b[i] as int) + b[i + 1]
  }

  /** The signed 16-bit number at `i` in two's complement (`>h`). */
  function BeI16(b: seq<Byte>, i: nat): (v: int)
    requires i + 2 <= |b|
    ensures -0x8000 <= v < 0x8000
  {
    var u := BeU16(b, i);
    if u < 0x8000 then u else u - U16Limit
  }

  /** The unsigned 32-bit number at `i`, most significant byte first (`>I`). */
  function BeU32(b: seq<Byte>, i: nat): (v: nat)
    requires i + 4 <= |b|
    ensures v < U32Limit
  {
    0x100_0000 * (b[i] as int) + 0x1_0000 * (b[i + 1] as int) + 0x100 * (b[i + 2] as int) + b[i + 3]
  }

  /** `struct.pack(">H", v)`. */
  function U16Be(v: nat): (b: seq<Byte>)
    requires v < U16Limit
    ensures |b| == 2
  {
    [v / 0x100, v % 0x100]
  }

  /** `struct.pack(">I", v)`. */
  function U32Be(v: nat): (b: seq<Byte>)
    requires v < U32Limit
    ensures |b| == 4
  {
    [v / 0x100_0000, v / 0x1_0000 % 0x100, v / 0x100 % 0x100, v % 0x100]
  }

  /** A packed 16-bit number reads back as itself. */
  lemma U16BeRoundTrip(v: nat)
    requires v < U16Limit
    ensures BeU16(U16Be(v), 0) == v
  {
  }

  /** A packed 32-bit number reads back as itself. */
  lemma U32BeRoundTrip(v: nat)
    requires v < U32Limit
    ensures BeU32(U32Be(v), 0) == v
  {
    var q1 := v / 0x100;
    var q2 := q1 / 0x100;
    assert v / 0x1_0000 == q2;
    assert v / 0x100_0000 == q2 / 0x100;
  }

  /** Reading a 32-bit number and packing it again gives the same four bytes. */
  lemma BeU32Packs(b: seq<Byte>, i: nat)
    requires i + 4 <= |b|
    ensures U32Be(BeU32(b, i)) == b[i..i + 4]
  {
    var v := BeU32(b, i);
    assert v / 0x100 == 0x1_0000 * (b[i] as int) + 0x100 * (b[i + 1] as int) + b[i + 2];
    assert v / 0x1_0000 == 0x100 * (b[i] as int) + b[i + 1];
  }

  /** Four bytes spelling `v` read back as `v` wherever they sit. */
  lemma BeU32At(b: seq<Byte>, i: nat, v: nat)
    requires v < U32Limit && i + 4 <= |b|
    requires b[i] == U32Be(v)[0] && b[i + 1] == U32Be(v)[1] && b[i + 2] == U32Be(v)[2] && b[i + 3] == U32Be(v)[3]
    ensures BeU32(b, i) == v
  {
    U32BeRoundTrip(v);
  }

  /** Two bytes spelling `v` read back as `v` wherever they sit. */
  lemma BeU16At(b: seq<Byte>, i: nat, v: nat)
    requires v < U16Limit && i + 2 <= |b|
    requires b[i] == U16Be(v)[0] && b[i + 1] == U16Be(v)[1]
    ensures BeU16(b, i) == v
  {
  }

  /** `2^k`. */
  function Pow2(k: nat): (p: nat)
    ensures p >= 1
  {
    if k == 0 then 1 else 2 * Pow2(k - 1)
  }

  /** Powers of two grow with the exponent. */
  lemma {:induction false} Pow2Mono(a: nat, b: nat)
    requires a <= b
    ensures Pow2(a) <= Pow2(b)
    decreases b
  {
    if a < b {
      Pow2Mono(a, b - 1);
    }
  }
}

=== FILE: cstr.dfy ===
/**
 * C-library string behaviour used throughout the firmware: the ASCII character
 * classes of the "C" locale, bounded copies into fixed buffers (`snprintf`,
 * `strlcpy`), `strstr`, `atoi`/`strtol` in base 10, and `%d`/`%02d` formatting.
 * Strings are `seq<char>` without the terminating NUL.
 */
module CStr {
  import opened Wrappers

  predicate IsDigit(c: char) { '0' <= c <= '9' }
  predicate IsLower(c: char) { 'a' <= c <= 'z' }
  predicate IsUpper(c: char) { 'A' <= c <= 'Z' }
  predicate IsAlpha(c: char) { IsLower(c) || IsUpper(c) }
  predicate IsAlnum(c: char) { IsAlpha(c) || IsDigit(c) }
  predicate IsHexDigit(c: char) { IsDigit(c) || 'a' <= c <= 'f' || 'A' <= c <= 'F' }

  /** `isspace` in the "C" locale: space, tab, newline, vertical tab, form feed, carriage return. */
  predicate IsSpace(c: char) { c == ' ' || c == '\t' || c == '\n' || c == '\r' || c as int == 11 || c as int == 12 }

  function ToLower(c: char): char { if IsUpper(c) then (c as int + 32) as char else c }
  function ToUpper(c: char): char { if IsLower(c) then (c as int - 32) as char else c }

  function Lower(s: string): string { seq(|s|, i requires 0 <= i < |s| => ToLower(s[i])) }
  function Upper(s: string): string { seq(|s|, i requires 0 <= i < |s| => ToUpper(s[i])) }

  /** A string without upper-case letters is its own lower-case form. */
  lemma LowerNoop(s: string)
    requires forall i :: 0 <= i < |s| ==> !IsUpper(s[i])
    ensures Lower(s) == s
  {
    assert forall i :: 0 <= i < |s| ==> Lower(s)[i] == s[i];
  }

  predicate StartsWith(s: string, prefix: string) { |prefix| <= |s| && s[..|prefix|] == prefix }
  predicate EndsWith(s: string, suffix: string) { |suffix| <= |s| && s[|s| - |suffix|..] == suffix }

  /** C's `/` on `int`: the quotient truncated toward zero. */
  function CDiv(a: int, b: int): int
    requires b > 0
  {
    if a >= 0 then a / b else -((-a) / b)
  }

  /** C's `%` on `int`: the remainder takes the sign of the dividend. */
  function CMod(a: int, b: int): int
    requires b > 0
  {
    a - b * CDiv(a, b)
  }

  function Min(a: int, b: int): int { if a <= b then a else b }
  function Max(a: int, b: int): int { if a >= b then a else b }

  /** The first `n` characters of `s`, or all of it when it is shorter. */
  function Prefix(s: string, n: nat): (r: string)
    ensures |r| == Min(|s|, n)
    ensures StartsWith(s, r)
  {
    if |s| <= n then s else s[..n]
  }

  /**
   * The string a NUL-terminated buffer of `size` bytes holds after
   * `snprintf(buf, size, "%s", s)` or `strlcpy(buf, s, size)`, for `size > 0`:
   * at most `size - 1` characters are kept.
   */
  function Fit(s: string, size: nat): (r: string)
    requires size > 0
    ensures |r| < size
    ensures |r| == Min(|s|, size - 1) && StartsWith(s, r)
    ensures |s| < size ==> r == s
  {
    Prefix(s, size - 1)
  }

  /** `needle` occurs in `hay` starting at index `i`. */
  predicate OccursAt(hay: string, needle: string, i: int)
  {
    0 <= i && i + |needle| <= |hay| && hay[i..i + |needle|] == needle
  }

  predicate Contains(hay: string, needle: string)
  {
    exists i :: 0 <= i <= |hay| && OccursAt(hay, needle, i)
  }

  /** `strstr`: the index of the first occurrence of `needle` at or after `from`. */
  function FindFrom(hay: string, needle: string, from: nat): (r: Option<nat>)
    requires from <= |hay|
    ensures r.Some? ==> from <= r.value && OccursAt(hay, needle, r.value)
    ensures r.Some? ==> forall j :: from <= j < r.value ==> !OccursAt(hay, needle, j)
    ensures r.None? ==> forall j :: from <= j ==> !OccursAt(hay, needle, j)
    decreases |hay| - from
  {
    if from + |needle| > |hay| then None
    else if hay[from..from + |needle|] == needle then Some(from)
    else if from == |hay| then None
    else FindFrom(hay, needle, from + 1)
  }

  function Find(hay: string, needle: string): (r: Option<nat>)
    ensures r.Some? <==> Contains(hay, needle)
    ensures r.Some? ==> OccursAt(hay, needle, r.value)
    ensures r.Some? ==> forall j :: 0 <= j < r.value ==> !OccursAt(hay, needle, j)
  {
    FindFrom(hay, needle, 0)
  }

  /** `strncmp(a, b, n) == 0` for strings without NUL characters. */
  predicate SameUpTo(a: string, b: string, n: nat)
  {
    Prefix(a, n) == Prefix(b, n)
  }

  /** Against a text shorter than `n`, the bounded comparison is plain equality. */
  lemma SameUpToShort(a: string, b: string, n: nat)
    requires |a| < n
    ensures SameUpTo(a, b, n) <==> a == b
  {
    if SameUpTo(a, b, n) {
      assert |Prefix(b, n)| == |a|;
      assert Prefix(b, n) == b;
    }
  }

  /** Index of the first occurrence of `c` (`strchr`). */
  function IndexOf(s: string, c: char): (r: Option<nat>)
    ensures r.Some? ==> r.value < |s| && s[r.value] == c && c !in s[..r.value]
    ensures r.None? <==> c !in s
  {
    if |s| == 0 then None
    else if s[0] == c then Some(0)
    else match IndexOf(s[1..], c)
      case None => None
      case Some(k) => assert s[1..][..k] == s[1..k + 1]; Some(k + 1)
  }

  /** The first occurrence is determined by its position alone. */
  lemma IndexOfAt(s: string, c: char, k: nat)
    requires k < |s| && s[k] == c && c !in s[..k]
    ensures IndexOf(s, c) == Some(k)
  {
    assert s[k] in s;
    var r := IndexOf(s, c).value;
    assert forall j :: 0 <= j < k ==> s[..k][j] == s[j];
    assert forall j :: 0 <= j < r ==> s[..r][j] == s[j];
  }

  /** Index of the last occurrence of `c` (`strrchr`). */
  function LastIndexOf(s: string, c: char): (r: Option<nat>)
    ensures r.Some? ==> r.value < |s| && s[r.value] == c && c !in s[r.value + 1..]
    ensures r.None? <==> c !in s
  {
    if |s| == 0 then None
    else if s[|s| - 1] == c then Some(|s| - 1)
    else match LastIndexOf(s[..|s| - 1], c)
      case None => None
      case Some(k) => assert s[k + 1..] == s[..|s| - 1][k + 1..] + [s[|s| - 1]]; Some(k)
  }

  /** The last occurrence is determined by its position alone. */
  lemma LastIndexOfAt(s: string, c: char, k: nat)
    requires k < |s| && s[k] == c && c !in s[k + 1..]
    ensures LastIndexOf(s, c) == Some(k)
  {
    assert s[k] in s;
    var r := LastIndexOf(s, c).value;
    assert forall j :: k < j < |s| ==> s[k + 1..][j - k - 1] == s[j];
    assert forall j :: r < j < |s| ==> s[r + 1..][j - r - 1] == s[j];
  }

  predicate AllDigits(s: string) { forall i :: 0 <= i < |s| ==> IsDigit(s[i]) }

  function DigitValue(c: char): nat requires IsDigit(c) { c as int - '0' as int }
  function DigitChar(d: nat): char requires d < 10 { ('0' as int + d) as char }

  /** The value of a run of decimal digits, most significant first. */
  function DigitsValue(s: string): nat
    requires AllDigits(s)
  {
    if |s| == 0 then 0 else DigitsValue(s[..|s| - 1]) * 10 + DigitValue(s[|s| - 1])
  }

  /** `%u`: the shortest decimal spelling of `n`. */
  function NatToDec(n: nat): (r: string)
    ensures |r| > 0 && AllDigits(r)
    ensures n > 0 ==> r[0] != '0'
  {
    if n < 10 then [DigitChar(n)] else NatToDec(n / 10) + [DigitChar(n % 10)]
  }

  /** `%d`. */
  function IntToDec(i: int): string
  {
    if i < 0 then "-" + NatToDec(-i) else NatToDec(i)
  }

  /** `%02d` for a non-negative value. */
  function Dec2(n: nat): (r: string)
    ensures |r| >= 2 && AllDigits(r)
  {
    if n < 10 then "0" + NatToDec(n) else NatToDec(n)
  }

  /** Two decimal digits at `i`. */
  function Digits2(s: string, i: nat): nat
    requires i + 2 <= |s| && IsDigit(s[i]) && IsDigit(s[i + 1])
  {
    DigitValue(s[i]) * 10 + DigitValue(s[i + 1])
  }

  /** `%04d` for a value below 10000. */
  function Dec4(n: nat): (r: string)
    requires n < 10000
    ensures |r| == 4 && AllDigits(r)
  {
    [DigitChar(n / 1000), DigitChar(n / 100 % 10), DigitChar(n / 10 % 10), DigitChar(n % 10)]
  }

  /** `k` zero characters, none when `k` is not positive. */
  function Zeros(k: int): (r: string)
    ensures |r| == Max(k, 0) && forall i :: 0 <= i < |r| ==> r[i] == '0'
  {
    seq(Max(k, 0), _ => '0')
  }

  /** `%0<width>d`: the decimal text of `i`, zero-padded after its sign to `width` characters. */
  function PadDec(i: int, width: nat): (r: string)
    ensures |r| >= width
  {
    if i < 0 then "-" + Zeros(width - 1 - |NatToDec(-i)|) + NatToDec(-i)
    else Zeros(width - |NatToDec(i)|) + NatToDec(i)
  }

  /** For a value below 100, `%02d` is its two digits. */
  lemma PadDecTwo(n: int)
    requires 0 <= n < 100
    ensures PadDec(n, 2) == [DigitChar(n / 10), DigitChar(n % 10)]
  {
    if n >= 10 {
      assert NatToDec(n) == NatToDec(n / 10) + [DigitChar(n % 10)];
    }
  }

  /** For a value below 10000, `%04d` is its four digits. */
  lemma PadDecFour(n: int)
    requires 0 <= n < 10000
    ensures PadDec(n, 4) == Dec4(n)
  {
    if n >= 1000 {
      assert NatToDec(n / 100) == NatToDec(n / 1000) + [DigitChar(n / 100 % 10)];
      assert NatToDec(n / 10) == NatToDec(n / 100) + [DigitChar(n / 10 % 10)];
      assert NatToDec(n) == NatToDec(n / 10) + [DigitChar(n % 10)];
    } else if n >= 100 {
      assert NatToDec(n / 10) == NatToDec(n / 100) + [DigitChar(n / 10 % 10)];
      assert NatToDec(n) == NatToDec(n / 10) + [DigitChar(n % 10)];
    } else if n >= 10 {
      assert NatToDec(n) == NatToDec(n / 10) + [DigitChar(n % 10)];
    }
  }

  lemma {:induction false} NatToDecRoundTrip(n: nat)
    ensures DigitsValue(NatToDec(n)) == n
  {
    if n >= 10 {
      var s := NatToDec(n);
      assert s[..|s| - 1] == NatToDec(n / 10);
      NatToDecRoundTrip(n / 10);
    }
  }

  /** Length of the leading run of digits. */
  function DigitRun(s: string): (k: nat)
    ensures k <= |s| && AllDigits(s[..k])
    ensures k < |s| ==> !IsDigit(s[k])
  {
    if |s| == 0 || !IsDigit(s[0]) then 0
    else
      var k := 1 + DigitRun(s[1..]);
      assert forall i :: 1 <= i < k ==> s[..k][i] == s[1..][..k - 1][i - 1];
      k
  }

  /** Length of the leading run of `isspace` characters. */
  function SpaceRun(s: string): (k: nat)
    ensures k <= |s| && forall i :: 0 <= i < k ==> IsSpace(s[i])
    ensures k < |s| ==> !IsSpace(s[k])
  {
    if |s| == 0 || !IsSpace(s[0]) then 0 else 1 + SpaceRun(s[1..])
  }

  /** Length of the leading run of characters that are not `isspace`. */
  function WordRun(s: string): (k: nat)
    ensures k <= |s| && forall i :: 0 <= i < k ==> !IsSpace(s[i])
    ensures k < |s| ==> IsSpace(s[k])
  {
    if |s| == 0 || IsSpace(s[0]) then 0 else 1 + WordRun(s[1..])
  }

  /**
   * `strtol(s, &end, 10)` without overflow saturation: skip white space, take an
   * optional sign and the digits after it. `consumed` is how far `end` moved;
   * it is 0 when no digit follows, as C requires.
   */
  datatype Conversion = Conversion(value: int, consumed: nat)

  function Strtol(s: string): (c: Conversion)
    ensures c.consumed <= |s|
    ensures c.consumed == 0 ==> c.value == 0
    ensures c.consumed > 0 ==> IsDigit(s[c.consumed - 1])
  {
    var sp := SpaceRun(s);
    var t := s[sp..];
    var signed := |t| > 0 && (t[0] == '-' || t[0] == '+');
    var body := if signed then t[1..] else t;
    var k := DigitRun(body);
    var magnitude := DigitsValue(body[..k]);
    if k == 0 then Conversion(0, 0)
    else
      var consumed := sp + (if signed then 1 else 0) + k;
      assert s[consumed - 1] == body[k - 1];
      var value: int := if signed && t[0] == '-' then 0 - (magnitude as int) else magnitude;
      Conversion(value, consumed)
  }

  /** `atoi`: the value `strtol` converts; 0 when nothing converts. */
  function Atoi(s: string): int
  {
    Strtol(s).value
  }

  lemma StrtolOfDec(n: nat)
    ensures Strtol(NatToDec(n)) == Conversion(n, |NatToDec(n)|)
  {
    var s := NatToDec(n);
    assert SpaceRun(s) == 0;
    assert DigitRun(s) == |s| by { DigitRunAll(s); }
    assert s[..|s|] == s;
    NatToDecRoundTrip(n);
  }

  lemma {:induction false} DigitRunAll(s: string)
    requires AllDigits(s)
    ensures DigitRun(s) == |s|
  {
    if |s| > 0 { DigitRunAll(s[1..]); }
  }

  lemma {:induction false} DigitRunThen(s: string, t: string)
    requires AllDigits(s) && (|t| == 0 || !IsDigit(t[0]))
    ensures DigitRun(s + t) == |s|
  {
    if |s| > 0 {
      assert (s + t)[1..] == s[1..] + t;
      DigitRunThen(s[1..], t);
    } else {
      assert s + t == t;
    }
  }

  /** `strtol` stops at the first character after the decimal text of a number. */
  lemma StrtolOfDecThen(n: nat, t: string)
    requires |t| == 0 || !IsDigit(t[0])
    ensures Strtol(NatToDec(n) + t) == Conversion(n, |NatToDec(n)|)
  {
    var d := NatToDec(n);
    var s := d + t;
    assert SpaceRun(s) == 0 by { assert s[0] == d[0]; }
    assert s[0..] == s;
    DigitRunThen(d, t);
    assert s[..|d|] == d;
    NatToDecRoundTrip(n);
  }

  /** Parsing the decimal text of any integer gives that integer back. */
  lemma AtoiOfIntToDec(i: int)
    ensures Atoi(IntToDec(i)) == i
  {
    if i >= 0 {
      StrtolOfDec(i);
    } else {
      var d := NatToDec(-i);
      var s := "-" + d;
      assert SpaceRun(s) == 0;
      assert s[0..] == s && s[1..] == d;
      DigitRunAll(d);
      assert d[..|d|] == d;
      NatToDecRoundTrip(-i);
    }
  }
}

=== FILE: editor_document.dfy ===
/**
 * The editor's document operations over a typed view of the layout: adding
 * and deleting pages, adding widgets and applying the inspector form, with
 * the document invariants they keep (at least one page, distinct page ids,
 * widget ids distinct across the whole document); and importing or loading a
 * layout as JSON.
 */
module EditorDocument {
  import opened Wrappers
  import opened CStr
  import opened JsText
  import opened Json
  import opened EditorGeometry
  import opened EditorFields
  import opened EditorEntities
  import opened EditorIds

  /** The type-specific fields a widget may carry; `None` is an absent field. */
  datatype Options = Options(
    buttonMode: Option<string>, buttonAccentColor: Option<string>,
    sliderEntityDomain: Option<string>, sliderDirection: Option<string>, sliderAccentColor: Option<string>,
    graphLineColor: Option<string>, graphTimeWindowMin: Option<int>, graphPointCount: Option<int>)

  datatype Widget = Widget(id: string, widgetType: string, title: string, entityId: string,
                           secondaryEntityId: string, rect: Rect, options: Options)

  datatype Page = Page(id: string, title: string, widgets: seq<Widget>)

  /** The editor's document and selection; a selection of `None` or "" selects nothing. */
  datatype Editor = Editor(pages: seq<Page>, selectedPageId: Option<string>, selectedWidgetId: Option<string>)

  const NoOptions: Options := Options(None, None, None, None, None, None, None, None)

  /** Exactly the fields of the widget's own type are present (the point count may be absent). */
  predicate OptionsMatchType(o: Options, widgetType: string)
  {
    && (o.buttonMode.Some? <==> widgetType == "button") && (o.buttonAccentColor.Some? <==> widgetType == "button")
    && (o.sliderEntityDomain.Some? <==> widgetType == "slider") && (o.sliderDirection.Some? <==> widgetType == "slider")
    && (o.sliderAccentColor.Some? <==> widgetType == "slider")
    && (o.graphLineColor.Some? <==> widgetType == "graph") && (o.graphTimeWindowMin.Some? <==> widgetType == "graph")
    && (o.graphPointCount.Some? ==> widgetType == "graph")
  }

  predicate Truthy(sel: Option<string>)
  {
    sel.Some? && sel.value != ""
  }

  /** The ids of all widgets of all pages, with multiplicity. */
  function WidgetIds(pages: seq<Page>): multiset<string>
  {
    if |pages| == 0 then multiset{} else PageWidgetIds(pages[0]) + WidgetIds(pages[1..])
  }

  function PageWidgetIds(p: Page): multiset<string>
  {
    IdsOf(p.widgets)
  }

  function IdsOf(ws: seq<Widget>): multiset<string>
  {
    if |ws| == 0 then multiset{} else multiset{ws[0].id} + IdsOf(ws[1..])
  }

  function PageIds(pages: seq<Page>): set<string>
  {
    set i | 0 <= i < |pages| :: pages[i].id
  }

  predicate DistinctPageIds(pages: seq<Page>)
  {
    forall i, j :: 0 <= i < j < |pages| ==> pages[i].id != pages[j].id
  }

  predicate DistinctWidgetIds(pages: seq<Page>)
  {
    forall id :: id in WidgetIds(pages) ==> WidgetIds(pages)[id] <= 1
  }

  /** The invariants the editor's own operations keep. */
  predicate Valid(ed: Editor)
  {
    |ed.pages| >= 1 && DistinctPageIds(ed.pages) && DistinctWidgetIds(ed.pages)
  }

  /** `pages.find((p) => p.id === selectedPageId)`. */
  function FindPage(pages: seq<Page>, sel: Option<string>): (r: Option<nat>)
    ensures r.Some? ==> (r.value < |pages| && sel == Some(pages[r.value].id)
      && forall j :: 0 <= j < r.value ==> sel != Some(pages[j].id))
    ensures r.None? ==> forall j :: 0 <= j < |pages| ==> sel != Some(pages[j].id)
  {
    if |pages| == 0 then None
    else if sel == Some(pages[0].id) then Some(0)
    else match FindPage(pages[1..], sel)
      case None => None
      case Some(k) => Some(k + 1)
  }

  /** `widgets.find((w) => w.id === selectedWidgetId)`. */
  function FindWidget(ws: seq<Widget>, sel: Option<string>): (r: Option<nat>)
    ensures r.Some? ==> (r.value < |ws| && sel == Some(ws[r.value].id)
      && forall j :: 0 <= j < r.value ==> sel != Some(ws[j].id))
    ensures r.None? ==> forall j :: 0 <= j < |ws| ==> sel != Some(ws[j].id)
  {
    if |ws| == 0 then None
    else if sel == Some(ws[0].id) then Some(0)
    else match FindWidget(ws[1..], sel)
      case None => None
      case Some(k) => Some(k + 1)
  }

  lemma {:induction false} IdsOfAppend(ws: seq<Widget>, w: Widget)
    ensures IdsOf(ws + [w]) == IdsOf(ws) + multiset{w.id}
  {
    if |ws| > 0 {
      assert (ws + [w])[1..] == ws[1..] + [w];
      IdsOfAppend(ws[1..], w);
    }
  }

  lemma {:induction false} IdsOfUpdate(ws: seq<Widget>, m: nat, w: Widget)
    requires m < |ws| && w.id == ws[m].id
    ensures IdsOf(ws[m := w]) == IdsOf(ws)
  {
    var ws' := ws[m := w];
    assert ws'[0].id == ws[0].id;
    if m > 0 {
      assert ws'[1..] == ws[1..][m - 1 := w];
      IdsOfUpdate(ws[1..], m - 1, w);
      assert IdsOf(ws'[1..]) == IdsOf(ws[1..]);
    } else {
      assert ws'[1..] == ws[1..];
    }
    assert IdsOf(ws') == multiset{ws'[0].id} + IdsOf(ws'[1..]);
  }

  /** Replacing one page changes the document's widget ids by that page's difference. */
  lemma {:induction false} WidgetIdsUpdate(pages: seq<Page>, k: nat, p: Page)
    requires k < |pages|
    ensures WidgetIds(pages[k := p]) + PageWidgetIds(pages[k]) == WidgetIds(pages) + PageWidgetIds(p)
  {
    var pages' := pages[k := p];
    if k > 0 {
      assert pages'[1..] == pages[1..][k - 1 := p];
      WidgetIdsUpdate(pages[1..], k - 1, p);
      assert pages'[0] == pages[0] && pages[1..][k - 1] == pages[k];
      assert WidgetIds(pages') == PageWidgetIds(pages[0]) + WidgetIds(pages'[1..]);
      assert WidgetIds(pages) == PageWidgetIds(pages[0]) + WidgetIds(pages[1..]);
      forall x
        ensures (WidgetIds(pages') + PageWidgetIds(pages[k]))[x] == (WidgetIds(pages) + PageWidgetIds(p))[x]
      {
        assert (WidgetIds(pages'[1..]) + PageWidgetIds(pages[k]))[x] == (WidgetIds(pages[1..]) + PageWidgetIds(p))[x];
      }
    } else {
      assert pages'[1..] == pages[1..];
    }
  }

  /** `a + c == b + c` cancels to `a == b`. */
  lemma Cancel(a: multiset<string>, b: multiset<string>, c: multiset<string>)
    requires a + c == b + c
    ensures a == b
  {
    forall x
      ensures a[x] == b[x]
    {
      assert (a + c)[x] == (b + c)[x];
    }
  }

  /** Replacing a page by one with the same widget ids keeps the document's widget ids. */
  lemma WidgetIdsSame(pages: seq<Page>, k: nat, p: Page)
    requires k < |pages| && PageWidgetIds(p) == PageWidgetIds(pages[k])
    ensures WidgetIds(pages[k := p]) == WidgetIds(pages)
  {
    WidgetIdsUpdate(pages, k, p);
    Cancel(WidgetIds(pages[k := p]), WidgetIds(pages), PageWidgetIds(p));
  }

  /** Replacing a page by one with an extra widget adds exactly that widget's id. */
  lemma WidgetIdsGrow(pages: seq<Page>, k: nat, p: Page, id: string)
    requires k < |pages| && PageWidgetIds(p) == PageWidgetIds(pages[k]) + multiset{id}
    ensures WidgetIds(pages[k := p]) == WidgetIds(pages) + multiset{id}
  {
    WidgetIdsUpdate(pages, k, p);
    Cancel(WidgetIds(pages[k := p]), WidgetIds(pages) + multiset{id}, PageWidgetIds(pages[k]));
  }

  lemma {:induction false} WidgetIdsAppend(pages: seq<Page>, p: Page)
    ensures WidgetIds(pages + [p]) == WidgetIds(pages) + PageWidgetIds(p)
  {
    if |pages| > 0 {
      assert (pages + [p])[1..] == pages[1..] + [p];
      WidgetIdsAppend(pages[1..], p);
    }
  }

  lemma {:induction false} WidgetIdsListed(pages: seq<Page>, k: nat, m: nat)
    requires k < |pages| && m < |pages[k].widgets|
    ensures pages[k].widgets[m].id in WidgetIds(pages)
  {
    if k > 0 {
      WidgetIdsListed(pages[1..], k - 1, m);
    } else {
      IdsOfListed(pages[0].widgets, m);
    }
  }

  lemma {:induction false} IdsOfListed(ws: seq<Widget>, m: nat)
    requires m < |ws|
    ensures ws[m].id in IdsOf(ws)
  {
    if m > 0 {
      IdsOfListed(ws[1..], m - 1);
    }
  }

  /** The set of widget ids `createWidgetIdForPage` must avoid. */
  function AllWidgetIds(pages: seq<Page>): set<string>
  {
    set id | id in WidgetIds(pages)
  }

  /** `addPage`: a fresh `page_<n>` id, title `Page <count+1>`, selected, with no widget selected. */
  function AddPage(ed: Editor): (r: Editor)
    ensures |r.pages| == |ed.pages| + 1 && r.pages[..|ed.pages|] == ed.pages
    ensures r.pages[|ed.pages|].id !in PageIds(ed.pages) && r.pages[|ed.pages|].widgets == []
    ensures r.selectedPageId == Some(r.pages[|ed.pages|].id) && r.selectedWidgetId.None?
    ensures Valid(ed) ==> Valid(r)
  {
    var id := UniqueId("page", PageIds(ed.pages));
    var page := Page(id, "Page " + NatToDec(|ed.pages| + 1), []);
    var pages := ed.pages + [page];
    WidgetIdsAppend(ed.pages, page);
    assert forall i :: 0 <= i < |ed.pages| ==> pages[i].id in PageIds(ed.pages);
    Editor(pages, Some(id), None)
  }

  /** What a `deletePage` call leaves behind; `Threw` is the state after the exception it can raise. */
  datatype Outcome = Done(ed: Editor) | Threw(ed: Editor)

  /** Every page but those with the selected id. */
  function WithoutPage(pages: seq<Page>, id: string): (r: seq<Page>)
    ensures |r| <= |pages|
    ensures forall p :: p in r <==> p in pages && p.id != id
  {
    if |pages| == 0 then []
    else if pages[0].id == id then WithoutPage(pages[1..], id)
    else [pages[0]] + WithoutPage(pages[1..], id)
  }

  /**
   * `deletePage` as written: with more than one page it keeps the pages whose
   * id differs from the selected one, then selects the first remaining page,
   * which throws when none remains.
   */
  function DeletePage(ed: Editor): (r: Outcome)
    ensures !Truthy(ed.selectedPageId) || |ed.pages| <= 1 ==> r == Done(ed)
    ensures Truthy(ed.selectedPageId) && |ed.pages| > 1 ==>
      r.ed.pages == WithoutPage(ed.pages, ed.selectedPageId.value)
    ensures r.Done? && r != Done(ed) ==> (|r.ed.pages| > 0 && r.ed.selectedPageId == Some(r.ed.pages[0].id)
      && r.ed.selectedWidgetId.None?)
    ensures r.Threw? <==> Truthy(ed.selectedPageId) && |ed.pages| > 1 && |WithoutPage(ed.pages, ed.selectedPageId.value)| == 0
  {
    if |ed.pages| == 0 || !Truthy(ed.selectedPageId) then Done(ed)
    else if |ed.pages| == 1 then Done(ed)
    else
      var pages := WithoutPage(ed.pages, ed.selectedPageId.value);
      if |pages| == 0 then Threw(ed.(pages := pages))
      else Done(Editor(pages, Some(pages[0].id), None))
  }

  /** Two pages sharing the selected id: the guard passes and no page is left. */
  lemma DeletePageEmptiesDocument()
    ensures var ed := Editor([Page("a", "A", []), Page("a", "B", [])], Some("a"), None);
      DeletePage(ed).Threw? && |DeletePage(ed).ed.pages| == 0
  {
    var ps := [Page("a", "A", []), Page("a", "B", [])];
    assert WithoutPage(ps[1..], "a") == [];
  }

  /** With distinct page ids, removing the selected page removes exactly one. */
  lemma {:induction false} WithoutDistinct(pages: seq<Page>, k: nat)
    requires DistinctPageIds(pages) && k < |pages|
    ensures WithoutPage(pages, pages[k].id) == pages[..k] + pages[k + 1..]
  {
    if k > 0 {
      var tail := pages[1..];
      assert DistinctPageIds(tail) by {
        forall i, j | 0 <= i < j < |tail|
          ensures tail[i].id != tail[j].id
        {
          assert tail[i] == pages[i + 1] && tail[j] == pages[j + 1];
        }
      }
      assert tail[k - 1] == pages[k];
      WithoutDistinct(tail, k - 1);
      assert pages[0].id != pages[k].id;
      assert WithoutPage(pages, pages[k].id) == [pages[0]] + WithoutPage(tail, pages[k].id);
      PrefixRemoved(pages, k);
    } else {
      WithoutAbsent(pages[1..], pages[0].id);
      assert pages[1..] == pages[..0] + pages[1..];
    }
  }

  lemma PrefixRemoved(pages: seq<Page>, k: nat)
    requires 0 < k < |pages|
    ensures [pages[0]] + (pages[1..][..k - 1] + pages[1..][k..]) == pages[..k] + pages[k + 1..]
  {
  }

  lemma {:induction false} WithoutAbsent(pages: seq<Page>, id: string)
    requires forall j :: 0 <= j < |pages| ==> pages[j].id != id
    ensures WithoutPage(pages, id) == pages
  {
    if |pages| > 0 {
      WithoutAbsent(pages[1..], id);
    }
  }

  /**
   * The intended `deletePage`: the same removal, but refused whenever it would
   * leave no page, like the one-page guard.
   */
  function DeletePageKeepingOne(ed: Editor): (r: Editor)
    ensures |ed.pages| >= 1 ==> |r.pages| >= 1
    ensures Valid(ed) ==> Valid(r)
    ensures Valid(ed) && Truthy(ed.selectedPageId) && ed.selectedPageId.value in PageIds(ed.pages) && |ed.pages| > 1 ==>
      |r.pages| == |ed.pages| - 1 && ed.selectedPageId.value !in PageIds(r.pages)
  {
    if |ed.pages| == 0 || !Truthy(ed.selectedPageId) || |ed.pages| == 1 then ed
    else
      var pages := WithoutPage(ed.pages, ed.selectedPageId.value);
      DeleteKeepsValid(ed, pages);
      if |pages| == 0 then ed
      else Editor(pages, Some(pages[0].id), None)
  }

  /**
   * On a valid document (page ids distinct) the guard in `deletePage` is enough:
   * the as-written deletion and the intended one coincide.
   */
  lemma DeletePageAgrees(ed: Editor)
    requires Valid(ed)
    ensures DeletePage(ed) == Done(DeletePageKeepingOne(ed))
  {
    if |ed.pages| > 1 && Truthy(ed.selectedPageId) {
      var pages := WithoutPage(ed.pages, ed.selectedPageId.value);
      DeleteKeepsValid(ed, pages);
      if ed.selectedPageId.value !in PageIds(ed.pages) {
        assert forall j :: 0 <= j < |ed.pages| ==> ed.pages[j].id in PageIds(ed.pages);
        WithoutAbsent(ed.pages, ed.selectedPageId.value);
      }
    }
  }

  lemma DeleteKeepsValid(ed: Editor, pages: seq<Page>)
    requires |ed.pages| > 1 && Truthy(ed.selectedPageId) && pages == WithoutPage(ed.pages, ed.selectedPageId.value)
    ensures Valid(ed) ==> DistinctPageIds(pages) && DistinctWidgetIds(pages)
    ensures Valid(ed) && ed.selectedPageId.value in PageIds(ed.pages) ==>
      |pages| == |ed.pages| - 1 && ed.selectedPageId.value !in PageIds(pages)
  {
    if Valid(ed) {
      var id := ed.selectedPageId.value;
      if id in PageIds(ed.pages) {
        var k :| 0 <= k < |ed.pages| && ed.pages[k].id == id;
        WithoutDistinct(ed.pages, k);
        RemoveKeepsDistinct(ed.pages, k);
        assert forall i :: 0 <= i < |pages| ==> pages[i] in ed.pages;
      } else {
        assert forall j :: 0 <= j < |ed.pages| ==> ed.pages[j].id in PageIds(ed.pages);
        WithoutAbsent(ed.pages, id);
      }
    }
  }

  lemma {:induction false} RemoveKeepsDistinct(pages: seq<Page>, k: nat)
    requires k < |pages| && DistinctPageIds(pages) && DistinctWidgetIds(pages)
    ensures DistinctPageIds(pages[..k] + pages[k + 1..]) && DistinctWidgetIds(pages[..k] + pages[k + 1..])
  {
    var rest := pages[..k] + pages[k + 1..];
    WidgetIdsRemove(pages, k);
    assert forall id :: id in WidgetIds(rest) ==> WidgetIds(rest)[id] <= WidgetIds(pages)[id];
    forall i, j | 0 <= i < j < |rest|
      ensures rest[i].id != rest[j].id
    {
      var i' := if i < k then i else i + 1;
      var j' := if j < k then j else j + 1;
      assert rest[i] == pages[i'] && rest[j] == pages[j'];
    }
  }

  lemma {:induction false} WidgetIdsRemove(pages: seq<Page>, k: nat)
    requires k < |pages|
    ensures WidgetIds(pages[..k] + pages[k + 1..]) + PageWidgetIds(pages[k]) == WidgetIds(pages)
  {
    if k > 0 {
      WidgetIdsRemove(pages[1..], k - 1);
      assert (pages[..k] + pages[k + 1..])[1..] == pages[1..][..k - 1] + pages[1..][k..];
    } else {
      assert pages[..k] + pages[k + 1..] == pages[1..];
    }
  }

  /** The default size of a new widget of this type. */
  function DefaultSize(widgetType: string): (int, int)
  {
    if widgetType == "weather_3day" then (360, 260)
    else if widgetType in {"light_tile", "heating_tile", "weather_tile", "empty_tile"} then (300, 260)
    else (220, 120)
  }

  /** The fields `addWidget` gives a new widget of this type. */
  function DefaultOptions(widgetType: string): (o: Options)
    ensures OptionsMatchType(o, widgetType) && o.graphPointCount.None?
  {
    if widgetType == "slider" then
      NoOptions.(sliderEntityDomain := Some(DefaultSliderEntityDomain), sliderDirection := Some(DefaultSliderDirection),
                 sliderAccentColor := Some(DefaultSliderAccentColor))
    else if widgetType == "button" then
      NoOptions.(buttonMode := Some(DefaultButtonMode), buttonAccentColor := Some(DefaultButtonAccentColor))
    else if widgetType == "graph" then
      NoOptions.(graphLineColor := Some(DefaultGraphLineColor), graphTimeWindowMin := Some(DefaultGraphTimeWindowMin))
    else NoOptions
  }

  const AutoSetting: Option<Value> := Some(Str("auto"))

  /** The widget `addWidget` creates on page `page` of the document. */
  function NewWidget(pages: seq<Page>, page: Page, widgetType: string, catalog: seq<Entity>): (w: Widget)
    ensures w.id !in WidgetIds(pages)
    ensures w.widgetType == widgetType && w.title == w.id
    ensures FitsCanvas(w.rect, widgetType) && OptionsMatchType(w.options, widgetType)
    ensures w.entityId == PickDefaultEntity(catalog, widgetType, AutoSetting, AutoSetting)
  {
    var id := CreateWidgetId(page.id, page.title, widgetType, AllWidgetIds(pages));
    var (dw, dh) := DefaultSize(widgetType);
    Widget(id, widgetType, id,
      PickDefaultEntity(catalog, widgetType, AutoSetting, AutoSetting),
      if widgetType == "heating_tile" then PickDefaultEntity(catalog, "sensor", AutoSetting, AutoSetting) else "",
      ClampRectToCanvas(RawRect(Some(20.0), Some(20.0), Some(dw as real), Some(dh as real)), widgetType),
      DefaultOptions(widgetType))
  }

  /** `addWidget`: appends a new widget to the selected page and selects it; without a selected page nothing happens. */
  function AddWidget(ed: Editor, widgetType: string, catalog: seq<Entity>): (r: Editor)
    ensures FindPage(ed.pages, ed.selectedPageId).None? ==> r == ed
    ensures FindPage(ed.pages, ed.selectedPageId).Some? ==>
      var k := FindPage(ed.pages, ed.selectedPageId).value;
      r == AppendWidget(ed, k, NewWidget(ed.pages, ed.pages[k], widgetType, catalog))
    ensures Valid(ed) ==> Valid(r)
  {
    match FindPage(ed.pages, ed.selectedPageId)
    case None => ed
    case Some(k) => AppendWidget(ed, k, NewWidget(ed.pages, ed.pages[k], widgetType, catalog))
  }

  /** Page `k` gains `w` as its last widget, which becomes the selected one; nothing else changes. */
  function AppendWidget(ed: Editor, k: nat, w: Widget): (r: Editor)
    requires k < |ed.pages| && w.id !in WidgetIds(ed.pages)
    ensures |r.pages| == |ed.pages| && forall i :: 0 <= i < |ed.pages| && i != k ==> r.pages[i] == ed.pages[i]
    ensures r.pages[k].id == ed.pages[k].id && r.pages[k].title == ed.pages[k].title
    ensures r.pages[k].widgets == ed.pages[k].widgets + [w]
    ensures r.selectedPageId == ed.selectedPageId && r.selectedWidgetId == Some(w.id)
    ensures WidgetIds(r.pages) == WidgetIds(ed.pages) + multiset{w.id}
    ensures Valid(ed) ==> Valid(r)
  {
    var page := ed.pages[k];
    var page' := page.(widgets := page.widgets + [w]);
    AddKeepsValid(ed, k, w);
    ed.(pages := ed.pages[k := page'], selectedWidgetId := Some(w.id))
  }

  lemma AddKeepsValid(ed: Editor, k: nat, w: Widget)
    requires k < |ed.pages| && w.id !in WidgetIds(ed.pages)
    ensures var p := ed.pages[k];
      && WidgetIds(ed.pages[k := p.(widgets := p.widgets + [w])]) == WidgetIds(ed.pages) + multiset{w.id}
      && (Valid(ed) ==> Valid(ed.(pages := ed.pages[k := p.(widgets := p.widgets + [w])])))
  {
    var p := ed.pages[k];
    var pages := ed.pages[k := p.(widgets := p.widgets + [w])];
    AddedIds(ed.pages, k, w);
    if Valid(ed) {
      assert forall i :: 0 <= i < |pages| ==> pages[i].id == ed.pages[i].id;
      SingleAdd(WidgetIds(ed.pages), w.id);
    }
  }

  /** A widget appended to page `k` adds its id once to the document's ids. */
  lemma AddedIds(pages: seq<Page>, k: nat, w: Widget)
    requires k < |pages|
    ensures var p := pages[k];
      WidgetIds(pages[k := p.(widgets := p.widgets + [w])]) == WidgetIds(pages) + multiset{w.id}
  {
    var p := pages[k];
    var p' := p.(widgets := p.widgets + [w]);
    IdsOfAppend(p.widgets, w);
    WidgetIdsGrow(pages, k, p', w.id);
  }

  /** Adding a new element to a multiset without repeats keeps it without repeats. */
  lemma SingleAdd(m: multiset<string>, id: string)
    requires forall x :: x in m ==> m[x] <= 1
    requires id !in m
    ensures forall x :: x in m + multiset{id} ==> (m + multiset{id})[x] <= 1
  {
  }

  /** The inspector form: raw field texts and the select values. */
  datatype InspectorForm = InspectorForm(
    title: string, entity: string, secondaryEntity: string,
    sliderEntityDomain: Option<Value>, buttonMode: Option<Value>, buttonAccentColor: Option<Value>,
    sliderDirection: Option<Value>, sliderAccentColor: Option<Value>,
    graphLineColor: Option<Value>, graphTimeWindowMin: Option<Value>, graphPointCount: Option<Value>,
    x: string, y: string, w: string, h: string)

  /** What `applyInspector` did to the selected widget. */
  datatype Applied =
    | NoSelection
    | EntityRejected
    | SecondaryRejected(partial: Widget)
    | Updated(widget: Widget)

  /** `Number(text || fallback)` for an inspector field. */
  function FieldNumber(text: string, fallback: int): Option<real>
  {
    if text == "" then Some(fallback as real) else ToNumber(Some(Str(text)))
  }

  /** An inspector `x` of `12.5` is read as the number 12.5 and snaps to the grid line 10. */
  lemma FieldFractionSnaps()
    ensures FieldNumber("12.5", 0) == Some(12.5)
    ensures Snap(FieldNumber("12.5", 0).value) == 10
  {
    StringToNumberPlainFraction();
    assert ToNumber(Some(Str("12.5"))) == Some(12.5);
    SnapTwelveAndHalf();
  }

  lemma SnapTwelveAndHalf()
    ensures Snap(12.5) == 10
  {
    assert 12.5 / 10.0 == 1.25 && (1.25 + 0.5).Floor == 1;
  }

  /** The selected widget's new value under the form; `applyInspector` without the document plumbing. */
  function ApplyToWidget(w: Widget, form: InspectorForm, catalog: seq<Entity>): (r: Applied)
    ensures r.NoSelection? == false
    ensures r.EntityRejected? <==>
      !EntityMatches(Entity(Some(InspectorEntity(w, form, catalog)), ""), w.widgetType,
                     Some(Str(InspectorSliderDomain(w, form))), Some(Str(InspectorButtonMode(w, form))))
    ensures r.SecondaryRejected? <==>
      !r.EntityRejected? && w.widgetType == "heating_tile" && !StartsWith(InspectorSecondary(form, catalog), "sensor.")
    ensures r.SecondaryRejected? ==>
      r.partial == w.(title := Trim(form.title), entityId := InspectorEntity(w, form, catalog))
    ensures r.Updated? ==>
      && r.widget.id == w.id && r.widget.widgetType == w.widgetType
      && r.widget.title == Trim(form.title)
      && r.widget.entityId == InspectorEntity(w, form, catalog)
      && r.widget.options == InspectorOptions(w.widgetType, InspectorSliderDomain(w, form), InspectorButtonMode(w, form), form)
      && OptionsMatchType(r.widget.options, w.widgetType)
      && r.widget.rect == ClampRectToCanvas(InspectorRect(w, form), w.widgetType)
      && FitsCanvas(r.widget.rect, w.widgetType)
      && (w.widgetType == "heating_tile" ==> r.widget.secondaryEntityId == InspectorSecondary(form, catalog))
      && (w.widgetType == "heating_tile" <==> StartsWith(r.widget.secondaryEntityId, "sensor."))
      && (w.widgetType != "heating_tile" ==> r.widget.secondaryEntityId == "")
  {
    var widgetType := w.widgetType;
    var sliderDomain := InspectorSliderDomain(w, form);
    var buttonMode := InspectorButtonMode(w, form);
    var nextEntityId := InspectorEntity(w, form, catalog);
    if !EntityMatches(Entity(Some(nextEntityId), ""), widgetType, Some(Str(sliderDomain)), Some(Str(buttonMode))) then
      EntityRejected
    else
      var titled := w.(title := Trim(form.title), entityId := nextEntityId);
      var secondary := InspectorSecondary(form, catalog);
      if widgetType == "heating_tile" && !StartsWith(secondary, "sensor.") then SecondaryRejected(titled)
      else
        var options := InspectorOptions(widgetType, sliderDomain, buttonMode, form);
        Updated(titled.(secondaryEntityId := if widgetType == "heating_tile" then secondary else "",
                        options := options, rect := ClampRectToCanvas(InspectorRect(w, form), widgetType)))
  }

  /** `el.fSecondaryEntity.value.trim() || pickDefaultEntityForWidgetType("sensor")`. */
  function InspectorSecondary(form: InspectorForm, catalog: seq<Entity>): string
  {
    OrText(Trim(form.secondaryEntity), PickDefaultEntity(catalog, "sensor", AutoSetting, AutoSetting))
  }

  /** The rectangle the form's four fields give, before the clamp: `Number(field || fallback)`. */
  function InspectorRect(w: Widget, form: InspectorForm): RawRect
  {
    RawRect(FieldNumber(form.x, 0), FieldNumber(form.y, 0), FieldNumber(form.w, w.rect.w), FieldNumber(form.h, w.rect.h))
  }

  function InspectorSliderDomain(w: Widget, form: InspectorForm): string
  {
    if w.widgetType == "slider" then NormalizeSliderEntityDomain(form.sliderEntityDomain) else DefaultSliderEntityDomain
  }

  function InspectorButtonMode(w: Widget, form: InspectorForm): string
  {
    if w.widgetType == "button" then NormalizeButtonMode(form.buttonMode) else DefaultButtonMode
  }

  /** `el.fEntity.value.trim() || pickDefaultEntityForWidgetType(...)`. */
  function InspectorEntity(w: Widget, form: InspectorForm, catalog: seq<Entity>): string
  {
    OrText(Trim(form.entity),
           PickDefaultEntity(catalog, w.widgetType, Some(Str(InspectorSliderDomain(w, form))),
                             Some(Str(InspectorButtonMode(w, form)))))
  }

  /** The type-specific fields the form writes; those of other types are deleted. */
  function InspectorOptions(widgetType: string, sliderDomain: string, buttonMode: string, form: InspectorForm): (o: Options)
    ensures OptionsMatchType(o, widgetType)
    ensures o.graphPointCount.Some? ==> GraphPointsMin <= o.graphPointCount.value <= GraphPointsMax
    ensures o.graphTimeWindowMin.Some? ==> GraphTimeWindowMin <= o.graphTimeWindowMin.value <= GraphTimeWindowMax
    ensures widgetType == "button" ==>
      o.buttonMode == Some(buttonMode)
      && o.buttonAccentColor == Some(NormalizeHexColor(form.buttonAccentColor, DefaultButtonAccentColor))
    ensures widgetType == "slider" ==>
      o.sliderEntityDomain == Some(sliderDomain)
      && o.sliderDirection == Some(NormalizeSliderDirection(form.sliderDirection))
      && o.sliderAccentColor == Some(NormalizeHexColor(form.sliderAccentColor, DefaultSliderAccentColor))
    ensures widgetType == "graph" ==>
      o.graphLineColor == Some(NormalizeHexColor(form.graphLineColor, DefaultGraphLineColor))
      && o.graphTimeWindowMin == Some(NormalizeGraphTimeWindowMin(form.graphTimeWindowMin))
      && (o.graphPointCount.Some? <==> NormalizeGraphPointCount(form.graphPointCount) > 0)
      && (o.graphPointCount.Some? ==> o.graphPointCount.value == NormalizeGraphPointCount(form.graphPointCount))
  {
    var points := NormalizeGraphPointCount(form.graphPointCount);
    Options(
      if widgetType == "button" then Some(buttonMode) else None,
      if widgetType == "button" then Some(NormalizeHexColor(form.buttonAccentColor, DefaultButtonAccentColor)) else None,
      if widgetType == "slider" then Some(sliderDomain) else None,
      if widgetType == "slider" then Some(NormalizeSliderDirection(form.sliderDirection)) else None,
      if widgetType == "slider" then Some(NormalizeHexColor(form.sliderAccentColor, DefaultSliderAccentColor)) else None,
      if widgetType == "graph" then Some(NormalizeHexColor(form.graphLineColor, DefaultGraphLineColor)) else None,
      if widgetType == "graph" then Some(NormalizeGraphTimeWindowMin(form.graphTimeWindowMin)) else None,
      if widgetType == "graph" && points > 0 then Some(points) else None)
  }

  /** `applyInspector` on the document: the selected widget of the selected page is rewritten in place. */
  function ApplyInspector(ed: Editor, form: InspectorForm, catalog: seq<Entity>): (r: (Editor, Applied))
    ensures r.1.NoSelection? || r.1.EntityRejected? ==> r.0 == ed
    ensures Valid(ed) ==> Valid(r.0)
    ensures |r.0.pages| == |ed.pages| && WidgetIds(r.0.pages) == WidgetIds(ed.pages)
  {
    match FindPage(ed.pages, ed.selectedPageId)
    case None => (ed, NoSelection)
    case Some(k) =>
      match FindWidget(ed.pages[k].widgets, ed.selectedWidgetId)
      case None => (ed, NoSelection)
      case Some(m) =>
        var w := ed.pages[k].widgets[m];
        var outcome := ApplyToWidget(w, form, catalog);
        match outcome
        case NoSelection => (ed, outcome)
        case EntityRejected => (ed, outcome)
        case SecondaryRejected(partial) => (ReplaceWidget(ed, k, m, partial), outcome)
        case Updated(nw) => (ReplaceWidget(ed, k, m, nw).(selectedWidgetId := Some(nw.id)), outcome)
  }

  /** Writes `nw` over widget `m` of page `k`; it keeps the widget's id. */
  function ReplaceWidget(ed: Editor, k: nat, m: nat, nw: Widget): (r: Editor)
    requires k < |ed.pages| && m < |ed.pages[k].widgets| && nw.id == ed.pages[k].widgets[m].id
    ensures |r.pages| == |ed.pages| && WidgetIds(r.pages) == WidgetIds(ed.pages)
    ensures forall i :: 0 <= i < |ed.pages| ==> r.pages[i].id == ed.pages[i].id
    ensures r.pages[k].widgets == ed.pages[k].widgets[m := nw]
    ensures r.selectedPageId == ed.selectedPageId && r.selectedWidgetId == ed.selectedWidgetId
    ensures Valid(ed) ==> Valid(r)
  {
    var p := ed.pages[k];
    var p' := p.(widgets := p.widgets[m := nw]);
    IdsOfUpdate(p.widgets, m, nw);
    WidgetIdsSame(ed.pages, k, p');
    ed.(pages := ed.pages[k := p'])
  }

  /** The page `loadLayout` adds to a layout without pages, and the page of the default layout. */
  const DefaultPage: Value := Obj([Member("id", Str("wohnen")), Member("title", Str("Wohnen")), Member("widgets", Arr([]))])

  /** `defaultLayout()`. */
  const DefaultLayout: Value := Obj([Member("version", Number(1.0)), Member("pages", Arr([DefaultPage]))])

  predicate HasPagesArray(v: Value)
  {
    v.Obj? && IsArray(Lookup(v.members, "pages"))
  }

  function PagesOf(v: Value): seq<Value>
    requires HasPagesArray(v)
  {
    Lookup(v.members, "pages").value.items
  }

  /** `parsed.pages[0]?.id || null` as the selection. */
  function FirstPageSelection(pages: seq<Value>): Option<Value>
  {
    if |pages| == 0 then None
    else match pages[0]
      case Obj(m) =>
        (match Lookup(m, "id")
         case Some(v) => if Falsy(v) then None else Some(v)
         case None => None)
      case _ => None
  }

  /** JavaScript falsiness of a JSON value. */
  predicate Falsy(v: Value)
  {
    v.Null? || v == Bool(false) || v == Number(0.0) || v == Str("")
  }

  datatype Imported = Imported(layout: Value, selectedPageId: Option<Value>)

  /** `importLayoutFromText` after `JSON.parse`: `None` is a parse error. Both failures throw. */
  function ImportLayout(parsed: Option<Value>): (r: Result<Imported, string>)
    ensures r.Err? <==> parsed.None? || !HasPagesArray(parsed.value)
    ensures r.Ok? ==> (r.value.layout == NormalizeLayoutWidgets(parsed.value) && HasPagesArray(r.value.layout)
      && |PagesOf(r.value.layout)| == |PagesOf(parsed.value)|)
  {
    match parsed
    case None => Err("Unexpected token")
    case Some(v) =>
      if !HasPagesArray(v) then Err("Invalid layout JSON")
      else
        var layout := NormalizeLayoutWidgets(v);
        Ok(Imported(layout, FirstPageSelection(PagesOf(layout))))
  }

  /**
   * `loadLayout`: the fetched layout when it is an object with a `pages`
   * array, else the default layout; a page is added when there is none, and
   * the first page is selected. `None` is a failed fetch. Selecting reads
   * `pages[0].id`, which throws when the first page is `null`.
   */
  function LoadLayout(fetched: Option<Value>): (r: Result<Imported, string>)
    ensures r.Ok? ==> HasPagesArray(r.value.layout) && |PagesOf(r.value.layout)| >= 1
    ensures r.Err? ==> (fetched.Some? && HasPagesArray(fetched.value) && |PagesOf(fetched.value)| > 0
      && PagesOf(fetched.value)[0].Null?)
    ensures fetched.None? || !HasPagesArray(fetched.value) ==>
      r == Ok(Imported(NormalizeLayoutWidgets(DefaultLayout), Some(Str("wohnen"))))
  {
    var base := if fetched.Some? && HasPagesArray(fetched.value) then fetched.value else DefaultLayout;
    DefaultLayoutPages();
    var pages := PagesOf(base);
    var filled := Filled(base);
    FirstNormalized(filled);
    DefaultFirstId();
    var layout := NormalizeLayoutWidgets(filled);
    var first := PagesOf(layout)[0];
    if first.Null? then Err("Cannot read properties of null")
    else Ok(Imported(layout, FirstPageId(first)))
  }

  /** A layout with an empty `pages` array gets the default page. */
  function Filled(base: Value): (r: Value)
    requires HasPagesArray(base)
    ensures HasPagesArray(r) && |PagesOf(r)| >= 1
    ensures |PagesOf(base)| == 0 ==> PagesOf(r)[0] == DefaultPage
    ensures |PagesOf(base)| > 0 ==> r == base
  {
    if |PagesOf(base)| == 0 then Obj(Put(base.members, "pages", Arr([DefaultPage]))) else base
  }

  /** Normalizing keeps the first page where it is, normalized, and `null` stays `null`. */
  lemma FirstNormalized(v: Value)
    requires HasPagesArray(v) && |PagesOf(v)| >= 1
    ensures HasPagesArray(NormalizeLayoutWidgets(v)) && |PagesOf(NormalizeLayoutWidgets(v))| >= 1
    ensures PagesOf(NormalizeLayoutWidgets(v))[0] == NormalizePage(PagesOf(v)[0])
    ensures PagesOf(NormalizeLayoutWidgets(v))[0].Null? <==> PagesOf(v)[0].Null?
  {
  }

  /** The default page keeps its id `wohnen` through normalization. */
  lemma DefaultFirstId()
    ensures NormalizePage(DefaultPage).Obj? && FirstPageId(NormalizePage(DefaultPage)) == Some(Str("wohnen"))
  {
    assert DefaultPage.members[0].key != "widgets" && DefaultPage.members[1].key != "widgets";
  }

  lemma DefaultLayoutPages()
    ensures HasPagesArray(DefaultLayout) && PagesOf(DefaultLayout) == [DefaultPage]
  {
    assert "version"[0] != "pages"[0];
    assert DefaultLayout.members[0].key != "pages";
  }

  /** `pages[0].id` for a non-null first page. */
  function FirstPageId(first: Value): Option<Value>
  {
    match first
    case Obj(m) => Lookup(m, "id")
    case _ => None
  }
}

=== FILE: editor_entities.dfy ===
/**
 * The editor's entity-domain rules: which Home Assistant domains a widget
 * type accepts, whether a catalog entity fits a widget, the per-type entity
 * list and the default entity a new widget is given.
 */
module EditorEntities {
  import opened Wrappers
  import opened CStr
  import opened Json
  import opened EditorFields

  /** A catalog entry as the editor holds it; `id` is None when it is not a string. */
  datatype Entity = Entity(id: Option<string>, name: string)

  /** `id.startsWith(`${domain}.`)`. */
  predicate InDomain(id: string, domain: string)
  {
    StartsWith(id, domain + ".")
  }

  /** Every domain an editor widget may be bound to. */
  const KnownDomains: set<string> := {"sensor", "switch", "media_player", "light", "climate", "weather", "cover"}

  /** The widget types whose entity field is restricted to some domains. */
  const RestrictedTypes: set<string> :=
    {"sensor", "button", "light_tile", "heating_tile", "weather_tile", "weather_3day", "slider"}

  /** The widget types whose entity domain depends on no setting, with that domain. */
  const FixedDomains: map<string, string> :=
    map["sensor" := "sensor", "light_tile" := "light", "heating_tile" := "climate",
        "weather_tile" := "weather", "weather_3day" := "weather"]

  /**
   * `allowedEntityDomainsForWidgetType`: one fixed domain for the types of
   * `FixedDomains`; for a slider its domain setting, or light, media player
   * and cover under `auto`; for a button the media player alone under a
   * transport mode, else switch and media player; nothing for any other type.
   */
  function AllowedDomains(widgetType: string, sliderDomain: Option<Value>, buttonMode: Option<Value>): (r: seq<string>)
    ensures widgetType in FixedDomains ==> r == [FixedDomains[widgetType]]
    ensures widgetType == "slider" ==>
      var d := NormalizeSliderEntityDomain(sliderDomain);
      r == if d == "auto" then ["light", "media_player", "cover"] else [d]
    ensures widgetType == "button" ==>
      r == if NormalizeButtonMode(buttonMode) in MediaButtonModes then ["media_player"] else ["switch", "media_player"]
    ensures widgetType !in FixedDomains && widgetType != "slider" && widgetType != "button" ==> r == []
    ensures 0 < |r| <= 3 <==> widgetType in RestrictedTypes
    ensures forall i :: 0 <= i < |r| ==> r[i] in KnownDomains
    ensures forall i, j :: 0 <= i < j < |r| ==> r[i] != r[j]
    ensures widgetType == "button" ==> "media_player" in r
    ensures widgetType == "button" ==> ("switch" in r <==> !ButtonModeRequiresMediaPlayer(buttonMode))
    ensures widgetType == "slider" && NormalizeSliderEntityDomain(sliderDomain) != "auto" ==>
      r == [NormalizeSliderEntityDomain(sliderDomain)]
  {
    if widgetType == "empty_tile" then []
    else if widgetType == "sensor" then ["sensor"]
    else if widgetType == "button" then
      if ButtonModeRequiresMediaPlayer(buttonMode) then ["media_player"] else ["switch", "media_player"]
    else if widgetType == "light_tile" then ["light"]
    else if widgetType == "heating_tile" then ["climate"]
    else if widgetType == "weather_tile" || widgetType == "weather_3day" then ["weather"]
    else if widgetType == "slider" then
      var normalized := NormalizeSliderEntityDomain(sliderDomain);
      if normalized == "auto" then ["light", "media_player", "cover"] else [normalized]
    else []
  }

  /** `expectedDomainForWidgetType`: the domain when exactly one is allowed, else "". */
  function ExpectedDomain(widgetType: string, sliderDomain: Option<Value>, buttonMode: Option<Value>): (r: string)
    ensures r != "" <==> |AllowedDomains(widgetType, sliderDomain, buttonMode)| == 1
    ensures r != "" ==> AllowedDomains(widgetType, sliderDomain, buttonMode) == [r] && r in KnownDomains
  {
    var domains := AllowedDomains(widgetType, sliderDomain, buttonMode);
    if |domains| == 1 then domains[0] else ""
  }

  /** `allowedDomains.some((domain) => id.startsWith(`${domain}.`))`. */
  function AnyDomain(id: string, domains: seq<string>): (r: bool)
    ensures r <==> exists i :: 0 <= i < |domains| && InDomain(id, domains[i])
  {
    if |domains| == 0 then false
    else InDomain(id, domains[0]) || AnyDomain(id, domains[1..])
  }

  function IdText(e: Entity): string
  {
    match e.id
    case Some(s) => s
    case None => ""
  }

  /** `entityMatchesWidgetType`. */
  function EntityMatches(e: Entity, widgetType: string, sliderDomain: Option<Value>, buttonMode: Option<Value>): (r: bool)
    ensures widgetType == "empty_tile" ==> r
    ensures widgetType != "empty_tile" && IdText(e) == "" ==> !r
    ensures widgetType != "empty_tile" && IdText(e) != "" ==>
      (r <==> (|AllowedDomains(widgetType, sliderDomain, buttonMode)| == 0
              || exists d :: d in AllowedDomains(widgetType, sliderDomain, buttonMode) && InDomain(IdText(e), d)))
  {
    if widgetType == "empty_tile" then true
    else
      var id := IdText(e);
      if id == "" then false
      else
        var allowed := AllowedDomains(widgetType, sliderDomain, buttonMode);
        if |allowed| == 0 then true else AnyDomain(id, allowed)
  }

  /** A transport button mode only narrows what a button accepts: such a button accepts no more than any other. */
  lemma MediaModeNarrowsButton(e: Entity, sliderDomain: Option<Value>, mode: Option<Value>, other: Option<Value>)
    requires ButtonModeRequiresMediaPlayer(mode)
    ensures EntityMatches(e, "button", sliderDomain, mode) ==> EntityMatches(e, "button", sliderDomain, other)
  {
    var a := AllowedDomains("button", sliderDomain, mode);
    var b := AllowedDomains("button", sliderDomain, other);
    assert a == ["media_player"];
    if EntityMatches(e, "button", sliderDomain, mode) {
      var d :| d in a && InDomain(IdText(e), d);
      assert d == "media_player";
      assert d in b;
    }
  }

  /** A slider restricted to one domain accepts a subset of what an `auto` slider accepts. */
  lemma SliderAutoWidest(e: Entity, sliderDomain: Option<Value>, buttonMode: Option<Value>)
    ensures EntityMatches(e, "slider", sliderDomain, buttonMode) ==> EntityMatches(e, "slider", None, buttonMode)
  {
    var wide := AllowedDomains("slider", None, buttonMode);
    assert wide == ["light", "media_player", "cover"];
    if EntityMatches(e, "slider", sliderDomain, buttonMode) {
      var narrow := AllowedDomains("slider", sliderDomain, buttonMode);
      var d :| d in narrow && InDomain(IdText(e), d);
      assert d in SliderEntityDomains;
      assert d in wide;
    }
  }

  /** When a widget expects a single domain, a named entity fits it exactly when its id lies in that domain. */
  lemma ExpectedDomainDecides(e: Entity, widgetType: string, sliderDomain: Option<Value>, buttonMode: Option<Value>)
    requires widgetType != "empty_tile" && IdText(e) != ""
    requires ExpectedDomain(widgetType, sliderDomain, buttonMode) != ""
    ensures EntityMatches(e, widgetType, sliderDomain, buttonMode)
      <==> InDomain(IdText(e), ExpectedDomain(widgetType, sliderDomain, buttonMode))
  {
    var d := ExpectedDomain(widgetType, sliderDomain, buttonMode);
    assert AllowedDomains(widgetType, sliderDomain, buttonMode) == [d];
    if EntityMatches(e, widgetType, sliderDomain, buttonMode) {
      var x :| x in [d] && InDomain(IdText(e), x);
    }
  }

  /** Catalog order is kept by a filter: `sub` is `full` with some entries removed. */
  predicate IsSubsequence(sub: seq<Entity>, full: seq<Entity>)
    decreases |full|
  {
    if |sub| == 0 then true
    else if |full| == 0 then false
    else if sub[0] == full[0] then IsSubsequence(sub[1..], full[1..])
    else IsSubsequence(sub, full[1..])
  }

  /** `listEntitiesForWidgetType`. */
  function ListForWidgetType(entities: seq<Entity>, widgetType: string, sliderDomain: Option<Value>, buttonMode: Option<Value>)
    : (r: seq<Entity>)
    ensures widgetType == "empty_tile" ==> r == []
    ensures widgetType != "empty_tile" ==>
      forall e :: e in r <==> e in entities && EntityMatches(e, widgetType, sliderDomain, buttonMode)
    ensures IsSubsequence(r, entities)
    ensures widgetType != "empty_tile" ==> forall e :: (multiset(r)[e]
      == if EntityMatches(e, widgetType, sliderDomain, buttonMode) then multiset(entities)[e] else 0)
  {
    if widgetType == "empty_tile" then []
    else
      MatchingCounts(entities, widgetType, sliderDomain, buttonMode);
      Matching(entities, widgetType, sliderDomain, buttonMode)
  }

  /** The filter keeps every copy of a fitting entry, duplicates included, and no copy of any other. */
  lemma {:induction false} MatchingCounts(entities: seq<Entity>, widgetType: string, sliderDomain: Option<Value>, buttonMode: Option<Value>)
    ensures forall e :: (multiset(Matching(entities, widgetType, sliderDomain, buttonMode))[e]
      == if EntityMatches(e, widgetType, sliderDomain, buttonMode) then multiset(entities)[e] else 0)
  {
    if |entities| > 0 {
      MatchingCounts(entities[1..], widgetType, sliderDomain, buttonMode);
      assert entities == [entities[0]] + entities[1..];
    }
  }

  function Matching(entities: seq<Entity>, widgetType: string, sliderDomain: Option<Value>, buttonMode: Option<Value>)
    : (r: seq<Entity>)
    ensures forall e :: e in r <==> e in entities && EntityMatches(e, widgetType, sliderDomain, buttonMode)
    ensures IsSubsequence(r, entities)
  {
    if |entities| == 0 then []
    else
      var rest := Matching(entities[1..], widgetType, sliderDomain, buttonMode);
      assert entities == [entities[0]] + entities[1..];
      if EntityMatches(entities[0], widgetType, sliderDomain, buttonMode) then
        [entities[0]] + rest
      else
        rest
  }

  /** The head of the filtered list is the first catalog entry that fits. */
  lemma {:induction false} MatchingHead(entities: seq<Entity>, widgetType: string, sliderDomain: Option<Value>, buttonMode: Option<Value>)
    requires |Matching(entities, widgetType, sliderDomain, buttonMode)| > 0
    ensures exists i :: (0 <= i < |entities| && Matching(entities, widgetType, sliderDomain, buttonMode)[0] == entities[i]
      && forall j :: 0 <= j < i ==> !EntityMatches(entities[j], widgetType, sliderDomain, buttonMode))
  {
    var m := Matching(entities, widgetType, sliderDomain, buttonMode);
    if EntityMatches(entities[0], widgetType, sliderDomain, buttonMode) {
      assert m[0] == entities[0];
    } else {
      var rest := Matching(entities[1..], widgetType, sliderDomain, buttonMode);
      assert m == rest;
      MatchingHead(entities[1..], widgetType, sliderDomain, buttonMode);
      var k :| 0 <= k < |entities[1..]| && rest[0] == entities[1..][k]
        && forall j :: 0 <= j < k ==> !EntityMatches(entities[1..][j], widgetType, sliderDomain, buttonMode);
      assert m[0] == entities[k + 1];
      assert forall j :: 0 <= j < k + 1 ==> !EntityMatches(entities[j], widgetType, sliderDomain, buttonMode) by {
        forall j | 0 <= j < k + 1
          ensures !EntityMatches(entities[j], widgetType, sliderDomain, buttonMode)
        {
          if j > 0 { assert entities[j] == entities[1..][j - 1]; }
        }
      }
    }
  }

  /** The head of a non-empty match list is the first catalog entry that fits, and it has a string id. */
  lemma FirstMatchNamed(entities: seq<Entity>, widgetType: string, sliderDomain: Option<Value>, buttonMode: Option<Value>)
    requires widgetType != "empty_tile" && |Matching(entities, widgetType, sliderDomain, buttonMode)| > 0
    ensures var m := Matching(entities, widgetType, sliderDomain, buttonMode);
      exists i :: (0 <= i < |entities| && entities[i].id == Some(IdText(m[0]))
        && EntityMatches(entities[i], widgetType, sliderDomain, buttonMode)
        && forall j :: 0 <= j < i ==> !EntityMatches(entities[j], widgetType, sliderDomain, buttonMode))
  {
    var m := Matching(entities, widgetType, sliderDomain, buttonMode);
    assert m[0] in m;
    MatchingHead(entities, widgetType, sliderDomain, buttonMode);
    var i :| 0 <= i < |entities| && m[0] == entities[i]
      && forall j :: 0 <= j < i ==> !EntityMatches(entities[j], widgetType, sliderDomain, buttonMode);
    assert entities[i].id == Some(IdText(m[0]));
  }

  const FallbackEntity: string := "sensor.example"

  /** `pickDefaultEntityForWidgetType`. */
  function PickDefaultEntity(entities: seq<Entity>, widgetType: string, sliderDomain: Option<Value>, buttonMode: Option<Value>)
    : (r: string)
    ensures widgetType == "empty_tile" ==> r == ""
    ensures widgetType != "empty_tile" && (exists e :: e in entities && EntityMatches(e, widgetType, sliderDomain, buttonMode)) ==>
      r != "" && exists i :: (0 <= i < |entities| && entities[i].id == Some(r)
        && EntityMatches(entities[i], widgetType, sliderDomain, buttonMode)
        && forall j :: 0 <= j < i ==> !EntityMatches(entities[j], widgetType, sliderDomain, buttonMode))
    ensures widgetType != "empty_tile" && (forall e :: e in entities ==> !EntityMatches(e, widgetType, sliderDomain, buttonMode)) ==>
      r == (if |entities| > 0 && IdText(entities[0]) != "" then IdText(entities[0]) else FallbackEntity)
  {
    if widgetType == "empty_tile" then ""
    else
      var matching := Matching(entities, widgetType, sliderDomain, buttonMode);
      if |matching| > 0 then
        FirstMatchNamed(entities, widgetType, sliderDomain, buttonMode);
        IdText(matching[0])
      else if |entities| > 0 && IdText(entities[0]) != "" then IdText(entities[0])
      else FallbackEntity
  }

  /** `listEntitiesByDomain`: the whole catalog for "", else the string ids in that domain. */
  function ListByDomain(entities: seq<Entity>, domain: string): (r: seq<Entity>)
    ensures domain == "" ==> r == entities
    ensures domain != "" ==> forall e :: e in r <==> e in entities && e.id.Some? && InDomain(e.id.value, domain)
    ensures IsSubsequence(r, entities)
  {
    if domain == "" then
      SubsequenceRefl(entities);
      entities
    else InDomainOnly(entities, domain)
  }

  lemma {:induction false} SubsequenceRefl(s: seq<Entity>)
    ensures IsSubsequence(s, s)
  {
    if |s| > 0 {
      SubsequenceRefl(s[1..]);
    }
  }

  function InDomainOnly(entities: seq<Entity>, domain: string): (r: seq<Entity>)
    ensures forall e :: e in r <==> e in entities && e.id.Some? && InDomain(e.id.value, domain)
    ensures IsSubsequence(r, entities)
  {
    if |entities| == 0 then []
    else
      var rest := InDomainOnly(entities[1..], domain);
      if entities[0].id.Some? && InDomain(entities[0].id.value, domain) then [entities[0]] + rest else rest
  }
}

=== FILE: editor_fields.dfy ===
/**
 * The editor's field normalisers: slider and button enumerations, the
 * button-mode repair rule, hex colours, the graph point count and time window,
 * and `normalizeLayoutWidgets`, which applies them to every widget of a layout
 * document.
 */
module EditorFields {
  import opened Wrappers
  import opened CStr
  import opened JsText
  import opened Json
  import G = EditorGeometry

  const DefaultSliderDirection: string := "auto"
  const DefaultButtonMode: string := "auto"
  const DefaultSliderEntityDomain: string := "auto"
  const DefaultButtonAccentColor: string := "#6fe8ff"
  const DefaultSliderAccentColor: string := "#6fe8ff"
  const DefaultGraphLineColor: string := "#6fe8ff"
  const DefaultGraphTimeWindowMin: int := 120
  const GraphPointsMin: int := 16
  const GraphPointsMax: int := 64
  const GraphTimeWindowMin: int := 1
  const GraphTimeWindowMax: int := 1440

  const SliderDirections: set<string> := {"auto", "left_to_right", "right_to_left", "bottom_to_top", "top_to_bottom"}
  const SliderEntityDomains: set<string> := {"auto", "light", "media_player", "cover"}
  const ButtonModes: set<string> := {"auto", "play_pause", "stop", "next", "previous"}
  const MediaButtonModes: set<string> := {"play_pause", "stop", "next", "previous"}

  /** `Set.has(value)`: only a string member of the set is kept, anything else is the default. */
  function NormalizeEnum(v: Option<Value>, allowed: set<string>, default: string): (r: string)
    requires default in allowed
    ensures r in allowed
    ensures (v.Some? && v.value.Str? && v.value.s in allowed) ==> r == v.value.s
    ensures !(v.Some? && v.value.Str? && v.value.s in allowed) ==> r == default
  {
    match v
    case Some(Str(s)) => if s in allowed then s else default
    case _ => default
  }

  function NormalizeSliderDirection(v: Option<Value>): (r: string)
    ensures r in SliderDirections
    ensures (v.Some? && v.value.Str? && v.value.s in SliderDirections) ==> r == v.value.s
    ensures !(v.Some? && v.value.Str? && v.value.s in SliderDirections) ==> r == "auto"
  {
    NormalizeEnum(v, SliderDirections, DefaultSliderDirection)
  }

  function NormalizeSliderEntityDomain(v: Option<Value>): (r: string)
    ensures r in SliderEntityDomains
    ensures (v.Some? && v.value.Str? && v.value.s in SliderEntityDomains) ==> r == v.value.s
    ensures !(v.Some? && v.value.Str? && v.value.s in SliderEntityDomains) ==> r == "auto"
  {
    NormalizeEnum(v, SliderEntityDomains, DefaultSliderEntityDomain)
  }

  function NormalizeButtonMode(v: Option<Value>): (r: string)
    ensures r in ButtonModes
    ensures (v.Some? && v.value.Str? && v.value.s in ButtonModes) ==> r == v.value.s
    ensures !(v.Some? && v.value.Str? && v.value.s in ButtonModes) ==> r == "auto"
  {
    NormalizeEnum(v, ButtonModes, DefaultButtonMode)
  }

  /** `buttonModeRequiresMediaPlayer`: the four transport modes. */
  function ButtonModeRequiresMediaPlayer(v: Option<Value>): (r: bool)
    ensures r <==> NormalizeButtonMode(v) in MediaButtonModes
    ensures r ==> v.Some? && v.value.Str? && v.value.s in MediaButtonModes
  {
    var mode := NormalizeButtonMode(v);
    mode == "play_pause" || mode == "stop" || mode == "next" || mode == "previous"
  }

  predicate IsLowerHexDigit(c: char) { IsDigit(c) || 'a' <= c <= 'f' }

  /** Matches `^#[0-9a-f]{6}$`. */
  predicate IsCanonicalHex(s: string)
  {
    |s| == 7 && s[0] == '#' && forall i :: 1 <= i < 7 ==> IsLowerHexDigit(s[i])
  }

  /** The spelling `normalizeHexColor` tries for a non-empty trimmed source. */
  function HexCandidate(source: string): (hex: string)
    ensures |hex| > 0 && hex[0] == '#'
  {
    var lower := ToLowerCase(source);
    var h := if StartsWith(lower, "0x") then "#" + lower[2..] else lower;
    if StartsWith(h, "#") then h else "#" + h
  }

  function FallbackNorm(fallback: string): string
  {
    ToLowerCase(Trim(fallback))
  }

  function SourceText(v: Option<Value>): string
  {
    match v
    case Some(Str(s)) => Trim(s)
    case _ => ""
  }

  /**
   * `normalizeHexColor`: the trimmed, lower-cased value with `0x` or nothing in
   * front rewritten to `#`, when that is `#` and six lower-case hex digits;
   * otherwise the trimmed, lower-cased fallback.
   */
  function NormalizeHexColor(v: Option<Value>, fallback: string): (r: string)
    ensures |SourceText(v)| == 0 ==> r == FallbackNorm(fallback)
    ensures |SourceText(v)| > 0 && IsCanonicalHex(HexCandidate(SourceText(v))) ==> r == HexCandidate(SourceText(v))
    ensures |SourceText(v)| > 0 && !IsCanonicalHex(HexCandidate(SourceText(v))) ==> r == FallbackNorm(fallback)
    ensures IsCanonicalHex(r) || r == FallbackNorm(fallback)
  {
    var source := SourceText(v);
    if |source| == 0 then FallbackNorm(fallback)
    else
      var hex := HexCandidate(source);
      if IsCanonicalHex(hex) then hex else FallbackNorm(fallback)
  }

  /** The built-in default colour is its own normalised form. */
  lemma DefaultColorCanonical()
    ensures IsCanonicalHex("#6fe8ff") && FallbackNorm("#6fe8ff") == "#6fe8ff"
  {
    var h := "#6fe8ff";
    TrimStartNoop(h);
    TrimEndNoop(h);
    assert Trim(h) == h;
    assert Lower(h) == h;
  }

  lemma CanonicalHexFixed(h: string)
    requires IsCanonicalHex(h)
    ensures Trim(h) == h && ToLowerCase(h) == h && HexCandidate(h) == h
  {
    TrimStartNoop(h);
    TrimEndNoop(h);
    assert Lower(h) == h;
  }

  /** With a valid fallback, normalising an already normalised colour changes nothing. */
  lemma NormalizeHexColorIdempotent(v: Option<Value>, fallback: string)
    requires IsCanonicalHex(FallbackNorm(fallback))
    ensures var r := NormalizeHexColor(v, fallback);
      IsCanonicalHex(r) && NormalizeHexColor(Some(Str(r)), fallback) == r
  {
    var r := NormalizeHexColor(v, fallback);
    assert IsCanonicalHex(r);
    CanonicalNormalizes(r, fallback);
  }

  /** A canonical colour normalises to itself, whatever the fallback. */
  lemma CanonicalNormalizes(h: string, fallback: string)
    requires IsCanonicalHex(h)
    ensures NormalizeHexColor(Some(Str(h)), fallback) == h
  {
    CanonicalHexFixed(h);
    assert SourceText(Some(Str(h))) == h;
  }

  /**
   * The accepted spellings: six hex digits of either case, bare or after `#`,
   * `0x` or `0X`, all normalise to `#` and the digits in lower case.
   */
  lemma NormalizeHexColorAcceptsSpellings(prefix: string, digits: string, fallback: string)
    requires prefix in {"", "#", "0x", "0X"}
    requires |digits| == 6 && forall i :: 0 <= i < 6 ==> IsHexDigit(digits[i])
    ensures NormalizeHexColor(Some(Str(prefix + digits)), fallback) == "#" + Lower(digits)
  {
    SpellingIsTrimmed(prefix, digits);
    CandidateOfSpelling(prefix, digits);
    LowerDigitsCanonical(digits);
  }

  lemma SpellingIsTrimmed(prefix: string, digits: string)
    requires prefix in {"", "#", "0x", "0X"}
    requires |digits| == 6 && forall i :: 0 <= i < 6 ==> IsHexDigit(digits[i])
    ensures SourceText(Some(Str(prefix + digits))) == prefix + digits
  {
    var s := prefix + digits;
    assert s[0] in "#0" + digits && s[|s| - 1] == digits[5];
    TrimStartNoop(s);
    TrimEndNoop(s);
  }

  lemma LowerDigitsCanonical(digits: string)
    requires |digits| == 6 && forall i :: 0 <= i < 6 ==> IsHexDigit(digits[i])
    ensures IsCanonicalHex("#" + Lower(digits))
  {
    var ld := Lower(digits);
    assert forall i :: 0 <= i < 6 ==> IsLowerHexDigit(ld[i]);
    var h := "#" + ld;
    assert forall i :: 1 <= i < 7 ==> h[i] == ld[i - 1];
  }

  lemma CandidateOfSpelling(prefix: string, digits: string)
    requires prefix in {"", "#", "0x", "0X"}
    requires |digits| == 6 && forall i :: 0 <= i < 6 ==> IsHexDigit(digits[i])
    ensures HexCandidate(prefix + digits) == "#" + Lower(digits)
  {
    var lower := Lower(prefix + digits);
    assert lower == Lower(prefix) + Lower(digits);
    var ld := Lower(digits);
    assert forall i :: 0 <= i < 6 ==> IsLowerHexDigit(ld[i]);
    if prefix == "0x" || prefix == "0X" {
      assert Lower(prefix) == "0x";
      CandidateAfterZeroX(lower, ld);
    } else if prefix == "#" {
      assert Lower(prefix) == "#";
      CandidateAfterHash(lower, ld);
    } else {
      assert lower == ld;
      CandidateBare(ld);
    }
  }

  lemma CandidateAfterZeroX(lower: string, ld: string)
    requires lower == "0x" + ld && |ld| == 6 && forall i :: 0 <= i < 6 ==> IsLowerHexDigit(ld[i])
    ensures HexCandidate(lower) == "#" + ld
  {
    assert Lower(lower) == lower;
    assert StartsWith(lower, "0x");
    assert lower[2..] == ld;
  }

  lemma CandidateAfterHash(lower: string, ld: string)
    requires lower == "#" + ld && |ld| == 6 && forall i :: 0 <= i < 6 ==> IsLowerHexDigit(ld[i])
    ensures HexCandidate(lower) == "#" + ld
  {
    assert Lower(lower) == lower;
    assert lower[0] == '#';
    assert lower[..2] != "0x";
    assert StartsWith(lower, "#");
  }

  lemma CandidateBare(ld: string)
    requires |ld| == 6 && forall i :: 0 <= i < 6 ==> IsLowerHexDigit(ld[i])
    ensures HexCandidate(ld) == "#" + ld
  {
    assert Lower(ld) == ld;
    assert IsLowerHexDigit(ld[1]) && ld[1] != 'x';
    assert ld[..2] != "0x";
    assert ld[0] != '#';
    assert ld[..1] != "#";
  }

  /** `Math.round(Number(value))`, or nothing when `Number(value)` is not finite. */
  function RoundedNumber(v: Option<Value>): (r: Option<int>)
    ensures r.Some? <==> ToNumber(v).Some?
    ensures r.Some? ==> r.value as real - 0.5 <= ToNumber(v).value < r.value as real + 0.5
  {
    match ToNumber(v)
    case None => None
    case Some(x) => Some(JsRound(x))
  }

  /** `normalizeGraphPointCount`: 0 (meaning "not set") or a count in [16, 64]. */
  function NormalizeGraphPointCount(v: Option<Value>): (r: int)
    ensures r == 0 || GraphPointsMin <= r <= GraphPointsMax
    ensures r == 0 <==> RoundedNumber(v).None? || RoundedNumber(v).value <= 0
    ensures r != 0 ==> r == G.Clamp(RoundedNumber(v).value, GraphPointsMin, GraphPointsMax)
  {
    if v.None? || v == Some(Null) then 0
    else if v.value.Str? && |Trim(v.value.s)| == 0 then 0
    else match ToNumber(v)
      case None => 0
      case Some(n) =>
        var rounded := JsRound(n);
        if rounded <= 0 then 0 else G.Clamp(rounded, GraphPointsMin, GraphPointsMax)
  }

  /** `normalizeGraphTimeWindowMin`: 120 for anything non-finite or rounding to at most 0, else clamped to [1, 1440]. */
  function NormalizeGraphTimeWindowMin(v: Option<Value>): (r: int)
    ensures GraphTimeWindowMin <= r <= GraphTimeWindowMax
    ensures (RoundedNumber(v).None? || RoundedNumber(v).value <= 0) ==> r == DefaultGraphTimeWindowMin
    ensures RoundedNumber(v).Some? && RoundedNumber(v).value > 0 ==>
      r == G.Clamp(RoundedNumber(v).value, GraphTimeWindowMin, GraphTimeWindowMax)
  {
    match ToNumber(v)
    case None => DefaultGraphTimeWindowMin
    case Some(n) =>
      var rounded := JsRound(n);
      if rounded <= 0 then DefaultGraphTimeWindowMin else G.Clamp(rounded, GraphTimeWindowMin, GraphTimeWindowMax)
  }

  /** Fractions round half up before clamping. */
  lemma GraphNumberExamples()
    ensures NormalizeGraphPointCount(Some(Number(12.6))) == 16
    ensures NormalizeGraphPointCount(Some(Number(40.5))) == 41
    ensures NormalizeGraphPointCount(Some(Number(0.4))) == 0
    ensures NormalizeGraphTimeWindowMin(Some(Number(12.4))) == 12
    ensures NormalizeGraphTimeWindowMin(None) == DefaultGraphTimeWindowMin
  {
    assert JsRound(12.6) == 13 && JsRound(40.5) == 41 && JsRound(0.4) == 0 && JsRound(12.4) == 12;
  }

  /** Text is read as `Number` reads it: a padded decimal parses ... */
  lemma GraphTextExample()
    ensures NormalizeGraphTimeWindowMin(Some(Str(" 12.5 "))) == 13
  {
    var v := Some(Str(" 12.5 "));
    StringToNumberFraction();
    assert ToNumber(v) == Some(12.5);
    RoundTwelveAndHalf();
    assert RoundedNumber(v) == Some(13);
  }

  lemma RoundTwelveAndHalf()
    ensures JsRound(12.5) == 13
  {
    assert (12.5 + 0.5).Floor == 13;
  }

  /** ... and a unit suffix does not. */
  lemma GraphUnitExample()
    ensures NormalizeGraphPointCount(Some(Str("12px"))) == 0
  {
    StringToNumberRejectsUnit();
    assert ToNumber(Some(Str("12px"))) == None;
  }

  /** `String(widget.entity_id || "")` for a string or absent entity id. */
  function EntityText(m: seq<Member>): string
  {
    match Lookup(m, "entity_id")
    case Some(Str(s)) => s
    case _ => ""
  }

  function TypeIs(m: seq<Member>, t: string): bool
  {
    Lookup(m, "type") == Some(Str(t))
  }

  /**
   * The button rule: the accent colour normalised, and the mode normalised
   * unless it is a transport mode and the entity is not a media player, when
   * it becomes `auto`. No other member changes.
   */
  function NormalizeButton(m: seq<Member>): (r: seq<Member>)
    ensures Lookup(r, "button_accent_color")
      == Some(Str(NormalizeHexColor(Lookup(m, "button_accent_color"), DefaultButtonAccentColor)))
    ensures var mode := NormalizeButtonMode(Lookup(m, "button_mode"));
      Lookup(r, "button_mode")
        == Some(Str(if mode in MediaButtonModes && !StartsWith(EntityText(m), "media_player.") then DefaultButtonMode else mode))
    ensures forall k :: k != "button_accent_color" && k != "button_mode" ==> Lookup(r, k) == Lookup(m, k)
  {
    var c := NormalizeHexColor(Lookup(m, "button_accent_color"), DefaultButtonAccentColor);
    var m1 := Put(m, "button_accent_color", Str(c));
    ColourKeepsMode(m, Str(c));
    PutTwo(m, "button_accent_color", Str(c), "button_mode", Str(RepairedMode(m1)));
    Put(m1, "button_mode", Str(RepairedMode(m1)))
  }

  /**
   * What the button rule guarantees: a known mode, a transport mode only on a
   * `media_player.` entity, and either the mode the widget had or `auto`.
   */
  lemma NormalizeButtonModeSound(m: seq<Member>)
    ensures var r := NormalizeButton(m);
      var mode := Lookup(r, "button_mode");
      && mode.Some? && mode.value.Str? && mode.value.s in ButtonModes
      && (mode.value.s in MediaButtonModes ==> StartsWith(EntityText(r), "media_player."))
      && (Lookup(m, "button_mode") == Some(Str(mode.value.s)) || mode.value.s == "auto")
  {
    var c := NormalizeHexColor(Lookup(m, "button_accent_color"), DefaultButtonAccentColor);
    var m1 := Put(m, "button_accent_color", Str(c));
    var chosen := RepairedMode(m1);
    ColourKeepsMode(m, Str(c));
    PutTwo(m, "button_accent_color", Str(c), "button_mode", Str(chosen));
    PutOther(m1, "button_mode", Str(chosen), "entity_id");
    assert NormalizeButton(m) == Put(m1, "button_mode", Str(chosen));
  }

  /** Setting the accent colour leaves the mode and the entity as they were. */
  lemma ColourKeepsMode(m: seq<Member>, v: Value)
    ensures var m1 := Put(m, "button_accent_color", v);
      Lookup(m1, "button_mode") == Lookup(m, "button_mode") && EntityText(m1) == EntityText(m)
  {
    PutOther(m, "button_accent_color", v, "button_mode");
    PutOther(m, "button_accent_color", v, "entity_id");
  }

  /** The mode `repairButtonMode` keeps: the normalised one, or `auto` for a transport mode without a media player. */
  function RepairedMode(m: seq<Member>): (chosen: string)
    ensures chosen in ButtonModes
    ensures chosen in MediaButtonModes ==> StartsWith(EntityText(m), "media_player.")
    ensures Lookup(m, "button_mode") == Some(Str(chosen)) || chosen == "auto"
    ensures var mode := NormalizeButtonMode(Lookup(m, "button_mode"));
      chosen == if mode in MediaButtonModes && !StartsWith(EntityText(m), "media_player.") then DefaultButtonMode else mode
  {
    var mode := NormalizeButtonMode(Lookup(m, "button_mode"));
    if ButtonModeRequiresMediaPlayer(Lookup(m, "button_mode")) && !StartsWith(EntityText(m), "media_player.") then DefaultButtonMode else mode
  }

  /** The slider rule: direction, accent colour and entity domain normalised, nothing else changed. */
  function NormalizeSlider(m: seq<Member>): (r: seq<Member>)
    ensures Lookup(r, "slider_direction") == Some(Str(NormalizeSliderDirection(Lookup(m, "slider_direction"))))
    ensures Lookup(r, "slider_accent_color")
      == Some(Str(NormalizeHexColor(Lookup(m, "slider_accent_color"), DefaultSliderAccentColor)))
    ensures Lookup(r, "slider_entity_domain") == Some(Str(NormalizeSliderEntityDomain(Lookup(m, "slider_entity_domain"))))
    ensures IsCanonicalHex(Lookup(r, "slider_accent_color").value.s)
    ensures forall k :: k != "slider_direction" && k != "slider_accent_color" && k != "slider_entity_domain" ==>
      Lookup(r, k) == Lookup(m, k)
  {
    DefaultColorCanonical();
    var d := NormalizeSliderDirection(Lookup(m, "slider_direction"));
    var c := NormalizeHexColor(Lookup(m, "slider_accent_color"), DefaultSliderAccentColor);
    var e := NormalizeSliderEntityDomain(Lookup(m, "slider_entity_domain"));
    PutThree(m, "slider_direction", Str(d), "slider_accent_color", Str(c), "slider_entity_domain", Str(e));
    Put(Put(Put(m, "slider_direction", Str(d)), "slider_accent_color", Str(c)), "slider_entity_domain", Str(e))
  }

  /**
   * The graph rule: line colour and time window normalised, the point count
   * kept normalised when positive and deleted otherwise, nothing else changed.
   */
  function NormalizeGraph(m: seq<Member>): (r: seq<Member>)
    ensures Lookup(r, "graph_line_color") == Some(Str(NormalizeHexColor(Lookup(m, "graph_line_color"), DefaultGraphLineColor)))
    ensures Lookup(r, "graph_time_window_min") == Some(Number(NormalizeGraphTimeWindowMin(Lookup(m, "graph_time_window_min")) as real))
    ensures var p := NormalizeGraphPointCount(Lookup(m, "graph_point_count"));
      Lookup(r, "graph_point_count") == if p > 0 then Some(Number(p as real)) else None
    ensures forall k :: k != "graph_line_color" && k != "graph_time_window_min" && k != "graph_point_count" ==>
      Lookup(r, k) == Lookup(m, k)
  {
    var c := NormalizeHexColor(Lookup(m, "graph_line_color"), DefaultGraphLineColor);
    var w := NormalizeGraphTimeWindowMin(Lookup(m, "graph_time_window_min"));
    var points := NormalizeGraphPointCount(Lookup(m, "graph_point_count"));
    var m2 := Put(Put(m, "graph_line_color", Str(c)), "graph_time_window_min", Number(w as real));
    if points > 0 then
      PutThree(m, "graph_line_color", Str(c), "graph_time_window_min", Number(w as real), "graph_point_count", Number(points as real));
      Put(m2, "graph_point_count", Number(points as real))
    else
      PutTwoRemove(m, "graph_line_color", Str(c), "graph_time_window_min", Number(w as real), "graph_point_count");
      Remove(m2, "graph_point_count")
  }

  /** None of the three rules touches `type`. */
  lemma ButtonKeepsType(m: seq<Member>)
    ensures Lookup(NormalizeButton(m), "type") == Lookup(m, "type")
  {
    assert |"type"| < |"button_mode"| < |"button_accent_color"|;
  }

  lemma SliderKeepsType(m: seq<Member>)
    ensures Lookup(NormalizeSlider(m), "type") == Lookup(m, "type")
  {
    assert |"type"| < |"slider_direction"| < |"slider_accent_color"| < |"slider_entity_domain"|;
  }

  lemma GraphKeepsType(m: seq<Member>)
    ensures Lookup(NormalizeGraph(m), "type") == Lookup(m, "type")
  {
    assert |"type"| < |"graph_line_color"| < |"graph_point_count"| < |"graph_time_window_min"|;
  }

  /**
   * The members of a widget object after `normalizeLayoutWidgets` visited it:
   * the rule for its type, and no change for any other type.
   */
  function NormalizeWidgetMembers(m: seq<Member>): (r: seq<Member>)
    ensures TypeIs(m, "button") ==> r == NormalizeButton(m)
    ensures TypeIs(m, "slider") ==> r == NormalizeSlider(m)
    ensures TypeIs(m, "graph") ==> r == NormalizeGraph(m)
    ensures !TypeIs(m, "button") && !TypeIs(m, "slider") && !TypeIs(m, "graph") ==> r == m
    ensures Lookup(r, "type") == Lookup(m, "type")
  {
    ButtonKeepsType(m);
    var m1 := if TypeIs(m, "button") then NormalizeButton(m) else m;
    SliderKeepsType(m1);
    var m2 := if TypeIs(m1, "slider") then NormalizeSlider(m1) else m1;
    GraphKeepsType(m2);
    if TypeIs(m2, "graph") then NormalizeGraph(m2) else m2
  }

  /** One entry of a page's `widgets` array: only objects are visited. */
  function NormalizeWidget(w: Value): Value
  {
    if w.Obj? then Obj(NormalizeWidgetMembers(w.members)) else w
  }

  function NormalizeWidgetList(ws: seq<Value>): (r: seq<Value>)
    ensures |r| == |ws| && forall i :: 0 <= i < |ws| ==> r[i] == NormalizeWidget(ws[i])
  {
    if |ws| == 0 then [] else [NormalizeWidget(ws[0])] + NormalizeWidgetList(ws[1..])
  }

  /** A page is visited only when it is an object whose `widgets` is an array. */
  function NormalizePage(p: Value): Value
  {
    match p
    case Obj(m) =>
      (match Lookup(m, "widgets")
       case Some(Arr(ws)) => Obj(Put(m, "widgets", Arr(NormalizeWidgetList(ws))))
       case _ => p)
    case _ => p
  }

  function NormalizePageList(ps: seq<Value>): (r: seq<Value>)
    ensures |r| == |ps| && forall i :: 0 <= i < |ps| ==> r[i] == NormalizePage(ps[i])
  {
    if |ps| == 0 then [] else [NormalizePage(ps[0])] + NormalizePageList(ps[1..])
  }

  /** `normalizeLayoutWidgets`: a no-op unless the layout is an object with a `pages` array. */
  function NormalizeLayoutWidgets(layout: Value): (r: Value)
    ensures !(layout.Obj? && IsArray(Lookup(layout.members, "pages"))) ==> r == layout
    ensures layout.Obj? && IsArray(Lookup(layout.members, "pages")) ==>
      && r.Obj? && IsArray(Lookup(r.members, "pages"))
      && |Lookup(r.members, "pages").value.items| == |Lookup(layout.members, "pages").value.items|
      && forall i :: 0 <= i < |Lookup(r.members, "pages").value.items| ==>
           Lookup(r.members, "pages").value.items[i] == NormalizePage(Lookup(layout.members, "pages").value.items[i])
    ensures layout.Obj? ==> r.Obj? && forall k :: k != "pages" ==> Lookup(r.members, k) == Lookup(layout.members, k)
  {
    match layout
    case Obj(m) =>
      (match Lookup(m, "pages")
       case Some(Arr(ps)) =>
         PutOthers(m, "pages", Arr(NormalizePageList(ps)));
         Obj(Put(m, "pages", Arr(NormalizePageList(ps))))
       case _ => layout)
    case _ => layout
  }

  /** A normalised button is left as it is by a second pass. */
  lemma NormalizeButtonIdempotent(m: seq<Member>)
    ensures NormalizeButton(NormalizeButton(m)) == NormalizeButton(m)
  {
    DefaultColorCanonical();
    var c := NormalizeHexColor(Lookup(m, "button_accent_color"), DefaultButtonAccentColor);
    var m1 := Put(m, "button_accent_color", Str(c));
    var chosen := RepairedMode(m1);
    var r := Put(m1, "button_mode", Str(chosen));
    assert NormalizeButton(m) == r;
    PutTwo(m, "button_accent_color", Str(c), "button_mode", Str(chosen));
    PutOther(m1, "button_mode", Str(chosen), "entity_id");
    NormalizeHexColorIdempotent(Lookup(m, "button_accent_color"), DefaultButtonAccentColor);
    var r1 := Put(r, "button_accent_color", Str(c));
    ColourKeepsMode(r, Str(c));
    assert RepairedMode(r1) == chosen;
    assert NormalizeButton(r) == Put(r1, "button_mode", Str(chosen));
    PutTwoFixpoint(m, "button_accent_color", Str(c), "button_mode", Str(chosen));
  }

  /** A normalised slider is left as it is by a second pass. */
  lemma NormalizeSliderIdempotent(m: seq<Member>)
    ensures NormalizeSlider(NormalizeSlider(m)) == NormalizeSlider(m)
  {
    DefaultColorCanonical();
    var d := NormalizeSliderDirection(Lookup(m, "slider_direction"));
    var c := NormalizeHexColor(Lookup(m, "slider_accent_color"), DefaultSliderAccentColor);
    var e := NormalizeSliderEntityDomain(Lookup(m, "slider_entity_domain"));
    var r := Put(Put(Put(m, "slider_direction", Str(d)), "slider_accent_color", Str(c)), "slider_entity_domain", Str(e));
    assert NormalizeSlider(m) == r;
    PutThree(m, "slider_direction", Str(d), "slider_accent_color", Str(c), "slider_entity_domain", Str(e));
    NormalizeHexColorIdempotent(Lookup(m, "slider_accent_color"), DefaultSliderAccentColor);
    assert NormalizeSliderDirection(Lookup(r, "slider_direction")) == d;
    assert NormalizeHexColor(Lookup(r, "slider_accent_color"), DefaultSliderAccentColor) == c;
    assert NormalizeSliderEntityDomain(Lookup(r, "slider_entity_domain")) == e;
    PutThreeFixpoint(m, "slider_direction", Str(d), "slider_accent_color", Str(c), "slider_entity_domain", Str(e));
  }

  /** A normalised graph is left as it is by a second pass. */
  lemma NormalizeGraphIdempotent(m: seq<Member>)
    ensures NormalizeGraph(NormalizeGraph(m)) == NormalizeGraph(m)
  {
    DefaultColorCanonical();
    var c := NormalizeHexColor(Lookup(m, "graph_line_color"), DefaultGraphLineColor);
    var w := NormalizeGraphTimeWindowMin(Lookup(m, "graph_time_window_min"));
    var points := NormalizeGraphPointCount(Lookup(m, "graph_point_count"));
    var r := NormalizeGraph(m);
    NormalizeHexColorIdempotent(Lookup(m, "graph_line_color"), DefaultGraphLineColor);
    assert NormalizeHexColor(Lookup(r, "graph_line_color"), DefaultGraphLineColor) == c;
    GraphWindowFixed(w);
    assert NormalizeGraphTimeWindowMin(Lookup(r, "graph_time_window_min")) == w;
    if points > 0 {
      GraphPointsFixed(points);
      assert NormalizeGraphPointCount(Lookup(r, "graph_point_count")) == points;
      PutThreeFixpoint(m, "graph_line_color", Str(c), "graph_time_window_min", Number(w as real),
        "graph_point_count", Number(points as real));
    } else {
      assert NormalizeGraphPointCount(Lookup(r, "graph_point_count")) == 0;
      PutTwoRemoveFixpoint(m, "graph_line_color", Str(c), "graph_time_window_min", Number(w as real), "graph_point_count");
    }
  }

  /** A stored time window reads back as itself. */
  lemma GraphWindowFixed(w: int)
    requires GraphTimeWindowMin <= w <= GraphTimeWindowMax
    ensures NormalizeGraphTimeWindowMin(Some(Number(w as real))) == w
  {
    JsRoundInt(w);
  }

  /** A stored point count reads back as itself. */
  lemma GraphPointsFixed(p: int)
    requires GraphPointsMin <= p <= GraphPointsMax
    ensures NormalizeGraphPointCount(Some(Number(p as real))) == p
  {
    JsRoundInt(p);
  }

  /** `normalizeLayoutWidgets` applied to a widget it already normalised changes nothing. */
  lemma NormalizeWidgetMembersIdempotent(m: seq<Member>)
    ensures NormalizeWidgetMembers(NormalizeWidgetMembers(m)) == NormalizeWidgetMembers(m)
  {
    if TypeIs(m, "button") {
      NormalizeButtonIdempotent(m);
    } else if TypeIs(m, "slider") {
      NormalizeSliderIdempotent(m);
    } else if TypeIs(m, "graph") {
      NormalizeGraphIdempotent(m);
    }
  }

  lemma NormalizePageIdempotent(p: Value)
    ensures NormalizePage(NormalizePage(p)) == NormalizePage(p)
  {
    if p.Obj? && IsArray(Lookup(p.members, "widgets")) {
      var ws := Lookup(p.members, "widgets").value.items;
      var nws := NormalizeWidgetList(ws);
      forall i | 0 <= i < |ws| ensures NormalizeWidget(nws[i]) == nws[i] {
        if ws[i].Obj? { NormalizeWidgetMembersIdempotent(ws[i].members); }
      }
      assert NormalizeWidgetList(nws) == nws;
      var r := Put(p.members, "widgets", Arr(nws));
      PutAllValued(p.members, "widgets", Arr(nws));
      PutFixpoint(r, "widgets", Arr(nws));
    }
  }

  /** Normalising a layout twice gives the same document as normalising it once. */
  lemma NormalizeLayoutWidgetsIdempotent(layout: Value)
    ensures NormalizeLayoutWidgets(NormalizeLayoutWidgets(layout)) == NormalizeLayoutWidgets(layout)
  {
    if layout.Obj? && IsArray(Lookup(layout.members, "pages")) {
      var ps := Lookup(layout.members, "pages").value.items;
      var nps := NormalizePageList(ps);
      forall i | 0 <= i < |ps| ensures NormalizePage(nps[i]) == nps[i] {
        NormalizePageIdempotent(ps[i]);
      }
      assert NormalizePageList(nps) == nps;
      var r := Put(layout.members, "pages", Arr(nps));
      PutAllValued(layout.members, "pages", Arr(nps));
      PutFixpoint(r, "pages", Arr(nps));
    }
  }
}

=== FILE: editor_geometry.dfy ===
/**
 * The layout editor's geometry rules: per-type size limits, the 10-pixel grid,
 * the clamp that keeps every widget rectangle on the 720x600 canvas, and the
 * arithmetic of live dragging and resizing.
 *
 * Editor coordinates are JavaScript numbers, taken as reals; pointer deltas
 * may be fractional. Every rectangle the clamp and the gestures produce is
 * snapped to whole grid lines. A raw field that is `undefined`, `null` or
 * `NaN` is `None`.
 */
module EditorGeometry {
  import opened Wrappers
  import opened CStr
  import opened JsText

  const Grid: int := 10
  const CanvasWidth: int := 720
  const CanvasHeight: int := 600
  const MinWidgetSize: int := 60

  datatype Limits = Limits(minW: int, minH: int, maxW: int, maxH: int)

  datatype Rect = Rect(x: int, y: int, w: int, h: int)

  /** A stored rectangle whose fields may be missing or falsy. */
  datatype RawRect = RawRect(x: Option<real>, y: Option<real>, w: Option<real>, h: Option<real>)

  /** Minimum and maximum widget size by type; unknown types get 60x60 up to the canvas. */
  function WidgetSizeLimits(widgetType: string): Limits
  {
    match widgetType
    case "sensor" => Limits(120, 80, CanvasWidth, CanvasHeight)
    case "button" => Limits(100, 100, 480, 320)
    case "slider" => Limits(100, 100, CanvasWidth, CanvasHeight)
    case "graph" => Limits(220, 140, CanvasWidth, CanvasHeight)
    case "empty_tile" => Limits(120, 80, CanvasWidth, CanvasHeight)
    case "light_tile" => Limits(200, 180, 480, 480)
    case "heating_tile" => Limits(220, 200, 480, 480)
    case "weather_tile" => Limits(220, 200, 480, 480)
    case "weather_3day" => Limits(260, 220, 640, 420)
    case _ => Limits(MinWidgetSize, MinWidgetSize, CanvasWidth, CanvasHeight)
  }

  /** The limits after capping the maxima at the canvas and the minima at the maxima. */
  function EffectiveLimits(widgetType: string): (l: Limits)
    ensures 0 < l.minW <= l.maxW <= CanvasWidth && 0 < l.minH <= l.maxH <= CanvasHeight
    ensures l.minW % Grid == 0 && l.maxW % Grid == 0 && l.minH % Grid == 0 && l.maxH % Grid == 0
    ensures ValidLimits(l)
  {
    var lim := WidgetSizeLimits(widgetType);
    var maxW := Min(lim.maxW, CanvasWidth);
    var maxH := Min(lim.maxH, CanvasHeight);
    Limits(Min(lim.minW, maxW), Min(lim.minH, maxH), maxW, maxH)
  }

  /** `Math.min(max, Math.max(min, value))`: when `lo > hi` the upper bound wins. */
  function Clamp(v: int, lo: int, hi: int): int
  {
    Min(hi, Max(lo, v))
  }

  /** `snap`: `Math.round(v / 10) * 10`. */
  function Snap(v: real): int
  {
    JsRound(v / 10.0) * Grid
  }

  /** The snapped value is the grid line nearest to `v`, ties going up. */
  lemma SnapNearest(v: real)
    ensures Snap(v) % Grid == 0
    ensures Snap(v) as real - 5.0 <= v < Snap(v) as real + 5.0
  {
    var q := JsRound(v / 10.0);
    assert Snap(v) == q * 10;
    assert q as real - 0.5 <= v / 10.0 < q as real + 0.5;
  }

  lemma SnapOfGridLine(v: int)
    requires v % Grid == 0
    ensures Snap(v as real) == v
  {
    var q := v / Grid;
    assert v == q * 10;
    assert (v as real) / 10.0 == q as real;
    JsRoundInt(q);
  }

  /** `value || fallback` for a number: 0, `NaN` and missing values fall back. */
  function OrElse(v: Option<real>, fallback: int): real
  {
    if v.None? || v.value == 0.0 then fallback as real else v.value
  }

  /** Limits as `EffectiveLimits` produces them. */
  predicate ValidLimits(l: Limits)
  {
    && 0 < l.minW <= l.maxW <= CanvasWidth && 0 < l.minH <= l.maxH <= CanvasHeight
    && l.minW % Grid == 0 && l.maxW % Grid == 0 && l.minH % Grid == 0 && l.maxH % Grid == 0
  }

  /** The invariant every stored rectangle is meant to satisfy for its type. */
  predicate FitsCanvas(r: Rect, widgetType: string)
  {
    FitsLimits(r, EffectiveLimits(widgetType))
  }

  predicate FitsLimits(r: Rect, l: Limits)
  {
    && r.x % Grid == 0 && r.y % Grid == 0 && r.w % Grid == 0 && r.h % Grid == 0
    && l.minW <= r.w <= l.maxW && l.minH <= r.h <= l.maxH
    && 0 <= r.x <= CanvasWidth - r.w && 0 <= r.y <= CanvasHeight - r.h
  }

  function ToRaw(r: Rect): RawRect
  {
    RawRect(Some(r.x as real), Some(r.y as real), Some(r.w as real), Some(r.h as real))
  }

  /** `clampRectToCanvas`. */
  function ClampRectToCanvas(raw: RawRect, widgetType: string): (r: Rect)
    ensures FitsCanvas(r, widgetType)
    ensures OrElse(raw.w, 0) == 0.0 ==> r.w == EffectiveLimits(widgetType).minW
    ensures OrElse(raw.h, 0) == 0.0 ==> r.h == EffectiveLimits(widgetType).minH
    ensures OrElse(raw.x, 0) <= 0.0 ==> r.x == 0
    ensures OrElse(raw.y, 0) <= 0.0 ==> r.y == 0
  {
    ClampRect(raw, EffectiveLimits(widgetType))
  }

  function ClampRect(raw: RawRect, l: Limits): (r: Rect)
    requires ValidLimits(l)
    ensures FitsLimits(r, l)
    ensures OrElse(raw.w, 0) == 0.0 ==> r.w == l.minW
    ensures OrElse(raw.h, 0) == 0.0 ==> r.h == l.minH
    ensures OrElse(raw.x, 0) <= 0.0 ==> r.x == 0
    ensures OrElse(raw.y, 0) <= 0.0 ==> r.y == 0
  {
    var w := Clamp(Snap(OrElse(raw.w, l.minW)), l.minW, l.maxW);
    var h := Clamp(Snap(OrElse(raw.h, l.minH)), l.minH, l.maxH);
    var x := Clamp(Snap(OrElse(raw.x, 0)), 0, CanvasWidth - w);
    var y := Clamp(Snap(OrElse(raw.y, 0)), 0, CanvasHeight - h);
    ClampOnGrid(OrElse(raw.w, l.minW), l.minW, l.maxW);
    ClampOnGrid(OrElse(raw.h, l.minH), l.minH, l.maxH);
    ClampOnGrid(OrElse(raw.x, 0), 0, CanvasWidth - w);
    ClampOnGrid(OrElse(raw.y, 0), 0, CanvasHeight - h);
    Rect(x, y, w, h)
  }

  /** A coordinate that already lies on the grid within bounds passes the clamp unchanged. */
  lemma ClampKeepsInRange(v: int, lo: int, hi: int)
    requires v % Grid == 0 && lo <= v <= hi
    ensures Clamp(Snap(v as real), lo, hi) == v
  {
    SnapOfGridLine(v);
  }

  /** The clamp accepts exactly the fitting rectangles unchanged, so it is idempotent. */
  lemma ClampRectIdempotent(r: Rect, widgetType: string)
    ensures ClampRectToCanvas(ToRaw(r), widgetType) == r <==> FitsCanvas(r, widgetType)
    ensures ClampRectToCanvas(ToRaw(ClampRectToCanvas(ToRaw(r), widgetType)), widgetType)
         == ClampRectToCanvas(ToRaw(r), widgetType)
  {
    ClampRectFixpoint(r, EffectiveLimits(widgetType));
  }

  lemma ClampRectFixpoint(r: Rect, l: Limits)
    requires ValidLimits(l)
    ensures ClampRect(ToRaw(r), l) == r <==> FitsLimits(r, l)
    ensures ClampRect(ToRaw(ClampRect(ToRaw(r), l)), l) == ClampRect(ToRaw(r), l)
  {
    var c := ClampRect(ToRaw(r), l);
    if FitsLimits(r, l) {
      ClampKeepsInRange(r.w, l.minW, l.maxW);
      ClampKeepsInRange(r.h, l.minH, l.maxH);
      ClampKeepsInRange(r.x, 0, CanvasWidth - r.w);
      ClampKeepsInRange(r.y, 0, CanvasHeight - r.h);
    }
    ClampKeepsInRange(c.w, l.minW, l.maxW);
    ClampKeepsInRange(c.h, l.minH, l.maxH);
    ClampKeepsInRange(c.x, 0, CanvasWidth - c.w);
    ClampKeepsInRange(c.y, 0, CanvasHeight - c.h);
  }

  datatype Mode = Drag | Resize

  /** One `mousemove` of a gesture: the rectangle after the move and whether it was written. */
  datatype MoveStep = MoveStep(rect: Rect, wrote: bool)

  /**
   * `onMove`: dragging moves the start rectangle by the pointer delta, resizing
   * grows it; both snap to the grid and clamp, the limits being those of the
   * widget's type. The widget is written only when some coordinate differs
   * from its current one.
   */
  function OnMove(mode: Mode, widgetType: string, start: Rect, current: Rect, dx: real, dy: real): (s: MoveStep)
    ensures s.wrote <==> s.rect != current
    ensures mode == Drag ==> s.rect.w == current.w && s.rect.h == current.h
    ensures mode == Resize ==> s.rect.x == current.x && s.rect.y == current.y
  {
    MoveWithin(mode, EffectiveLimits(widgetType), start, current, dx, dy)
  }

  function MoveWithin(mode: Mode, l: Limits, start: Rect, current: Rect, dx: real, dy: real): (s: MoveStep)
    ensures s.wrote <==> s.rect != current
    ensures mode == Drag ==> s.rect.w == current.w && s.rect.h == current.h
    ensures mode == Resize ==> s.rect.x == current.x && s.rect.y == current.y
  {
    var next :=
      if mode == Drag then
        current.(x := Clamp(Snap(start.x as real + dx), 0, CanvasWidth - start.w),
                 y := Clamp(Snap(start.y as real + dy), 0, CanvasHeight - start.h))
      else
        current.(w := Clamp(Snap(start.w as real + dx), l.minW, Min(l.maxW, CanvasWidth - start.x)),
                 h := Clamp(Snap(start.h as real + dy), l.minH, Min(l.maxH, CanvasHeight - start.y)));
    if next != current then MoveStep(next, true) else MoveStep(current, false)
  }

  /** A whole gesture: the widget's rectangle after every pointer delta, and the `moved` flag. */
  datatype Gesture = Gesture(rect: Rect, moved: bool)

  function RunGesture(mode: Mode, l: Limits, start: Rect, current: Rect, moved: bool, deltas: seq<(real, real)>): Gesture
    decreases |deltas|
  {
    if |deltas| == 0 then Gesture(current, moved)
    else
      var s := MoveWithin(mode, l, start, current, deltas[0].0, deltas[0].1);
      RunGesture(mode, l, start, s.rect, moved || s.wrote, deltas[1..])
  }

  /**
   * Drag bounds: from a fitting start, the new position is the snapped pointer
   * position kept inside `[0, 720 - w]` x `[0, 600 - h]`; resize bounds: the new
   * size lies in `[minW, min(maxW, 720 - x)]` x `[minH, min(maxH, 600 - y)]`.
   */
  lemma MoveBounds(mode: Mode, l: Limits, start: Rect, current: Rect, dx: real, dy: real)
    requires ValidLimits(l) && FitsLimits(start, l)
    ensures var s := MoveWithin(mode, l, start, current, dx, dy);
      && (mode == Drag ==>
            && 0 <= s.rect.x <= CanvasWidth - start.w && 0 <= s.rect.y <= CanvasHeight - start.h
            && s.rect.x % Grid == 0 && s.rect.y % Grid == 0)
      && (mode == Resize ==>
            && l.minW <= s.rect.w <= Min(l.maxW, CanvasWidth - start.x)
            && l.minH <= s.rect.h <= Min(l.maxH, CanvasHeight - start.y)
            && s.rect.w % Grid == 0 && s.rect.h % Grid == 0)
  {
    if mode == Drag {
      DragAxis(start.x as real + dx, start.w, CanvasWidth);
      DragAxis(start.y as real + dy, start.h, CanvasHeight);
    } else {
      ResizeAxis(start.w as real + dx, l.minW, l.maxW, start.x, CanvasWidth);
      ResizeAxis(start.h as real + dy, l.minH, l.maxH, start.y, CanvasHeight);
    }
  }

  /** A dragged coordinate stays on the grid and keeps the widget on the canvas. */
  lemma DragAxis(v: real, size: int, canvas: int)
    requires canvas % Grid == 0 && size % Grid == 0 && 0 <= size <= canvas
    ensures var c := Clamp(Snap(v), 0, canvas - size);
      0 <= c <= canvas - size && c % Grid == 0
  {
    GridDiff(canvas, size);
    ClampOnGrid(v, 0, canvas - size);
  }

  /** A resized side stays on the grid, within the limits and inside the canvas. */
  lemma ResizeAxis(v: real, lo: int, hi: int, at: int, canvas: int)
    requires canvas % Grid == 0 && at % Grid == 0 && lo % Grid == 0 && hi % Grid == 0
    requires lo <= hi && lo <= canvas - at
    ensures var c := Clamp(Snap(v), lo, Min(hi, canvas - at));
      lo <= c <= Min(hi, canvas - at) && c % Grid == 0
  {
    GridDiff(canvas, at);
    ClampOnGrid(v, lo, Min(hi, canvas - at));
  }

  lemma GridDiff(a: int, b: int)
    requires a % Grid == 0 && b % Grid == 0
    ensures (a - b) % Grid == 0
  {
    assert a == (a / Grid) * Grid && b == (b / Grid) * Grid;
    assert a - b == (a / Grid - b / Grid) * Grid;
  }

  /** Clamping a snapped value between two grid lines stays on the grid and within them. */
  lemma ClampOnGrid(v: real, lo: int, hi: int)
    requires lo <= hi && lo % Grid == 0 && hi % Grid == 0
    ensures var c := Clamp(Snap(v), lo, hi); lo <= c <= hi && c % Grid == 0
  {
    SnapNearest(v);
  }

  /**
   * Dragging or resizing a fitting rectangle keeps it fitting after any sequence
   * of moves; dragging never changes the size and resizing never changes the
   * position; and the rectangle differs from the start only if `moved` is set.
   */
  lemma {:induction false} GestureKeepsFit(mode: Mode, l: Limits, start: Rect, current: Rect, moved: bool, deltas: seq<(real, real)>)
    requires ValidLimits(l) && FitsLimits(start, l) && FitsLimits(current, l)
    requires mode == Drag ==> current.w == start.w && current.h == start.h
    requires mode == Resize ==> current.x == start.x && current.y == start.y
    requires !moved ==> current == start
    ensures var g := RunGesture(mode, l, start, current, moved, deltas);
      && FitsLimits(g.rect, l)
      && (mode == Drag ==> g.rect.w == start.w && g.rect.h == start.h)
      && (mode == Resize ==> g.rect.x == start.x && g.rect.y == start.y)
      && (!g.moved ==> g.rect == start)
    decreases |deltas|
  {
    if |deltas| > 0 {
      var s := MoveWithin(mode, l, start, current, deltas[0].0, deltas[0].1);
      MoveBounds(mode, l, start, current, deltas[0].0, deltas[0].1);
      GestureKeepsFit(mode, l, start, s.rect, moved || s.wrote, deltas[1..]);
    }
  }
}

=== FILE: editor_ids.dfy ===
/**
 * The editor's id generation: `uniqueId`, `sanitizeIdPart` and the
 * `<page>_<type>_<n>` widget ids of `createWidgetIdForPage`.
 */
module EditorIds {
  import opened CStr
  import opened JsText

  /** The candidate `${prefix}_${i}`. */
  function Candidate(prefix: string, i: nat): string
  {
    prefix + "_" + NatToDec(i)
  }

  lemma CandidateInjective(prefix: string, i: nat, j: nat)
    requires Candidate(prefix, i) == Candidate(prefix, j)
    ensures i == j
  {
    var n := |prefix| + 1;
    assert Candidate(prefix, i)[n..] == NatToDec(i);
    assert Candidate(prefix, j)[n..] == NatToDec(j);
    NatToDecRoundTrip(i);
    NatToDecRoundTrip(j);
  }

  /** The candidates numbered 1 to n all taken means at least n ids are taken. */
  lemma {:induction false} Pigeonhole(prefix: string, used: set<string>, n: nat)
    requires forall j :: 1 <= j <= n ==> Candidate(prefix, j) in used
    ensures n <= |used|
  {
    if n > 0 {
      var c := Candidate(prefix, n);
      var rest := used - {c};
      forall j | 1 <= j <= n - 1
        ensures Candidate(prefix, j) in rest
      {
        if Candidate(prefix, j) == c {
          CandidateInjective(prefix, j, n);
        }
      }
      Pigeonhole(prefix, rest, n - 1);
    }
  }

  /** The search loop of `uniqueId`, from candidate `i` on. */
  function FreeFrom(prefix: string, used: set<string>, i: nat): (k: nat)
    requires 1 <= i
    requires forall j :: 1 <= j < i ==> Candidate(prefix, j) in used
    ensures i <= k <= |used| + 1
    ensures Candidate(prefix, k) !in used
    ensures forall j :: 1 <= j < k ==> Candidate(prefix, j) in used
    decreases |used| + 1 - i
  {
    if Candidate(prefix, i) !in used then
      Pigeonhole(prefix, used, i - 1);
      i
    else
      Pigeonhole(prefix, used, i);
      FreeFrom(prefix, used, i + 1)
  }

  /** `uniqueId(prefix, list)`: the lowest-numbered candidate no entry uses. */
  function UniqueId(prefix: string, used: set<string>): (r: string)
    ensures r !in used
    ensures exists k :: (1 <= k <= |used| + 1 && r == Candidate(prefix, k)
      && forall j :: 1 <= j < k ==> Candidate(prefix, j) in used)
  {
    var k := FreeFrom(prefix, used, 1);
    Candidate(prefix, k)
  }

  /** `[a-z0-9_]`. */
  predicate IsIdChar(c: char)
  {
    IsLower(c) || IsDigit(c) || c == '_'
  }

  predicate AllIdChars(s: string)
  {
    forall i :: 0 <= i < |s| ==> IsIdChar(s[i])
  }

  /** Drops the leading characters outside `[a-z0-9_]`. */
  function SkipOthers(s: string): (r: string)
    ensures |r| <= |s| && r == s[|s| - |r|..]
    ensures |r| > 0 ==> IsIdChar(r[0])
  {
    if |s| > 0 && !IsIdChar(s[0]) then SkipOthers(s[1..]) else s
  }

  /** `replace(/[^a-z0-9_]+/g, "_")`: every maximal run of other characters becomes one `_`. */
  function CollapseRuns(s: string): (r: string)
    ensures AllIdChars(r)
    ensures AllIdChars(s) ==> r == s
    decreases |s|
  {
    if |s| == 0 then ""
    else if IsIdChar(s[0]) then [s[0]] + CollapseRuns(s[1..])
    else "_" + CollapseRuns(SkipOthers(s[1..]))
  }

  /** A string of characters outside `[a-z0-9_]` only. */
  predicate NoIdChars(s: string)
  {
    forall i :: 0 <= i < |s| ==> !IsIdChar(s[i])
  }

  /** A non-empty run of other characters collapses to a single `_`. */
  lemma CollapseOthers(o: string)
    requires |o| > 0 && NoIdChars(o)
    ensures CollapseRuns(o) == "_"
  {
    SkipAllOthers(o[1..], "");
    assert o[1..] + "" == o[1..];
  }

  /** Skipping a prefix of other characters stops at the first id character after it. */
  lemma {:induction false} SkipAllOthers(x: string, y: string)
    requires NoIdChars(x) && (|y| == 0 || IsIdChar(y[0]))
    ensures SkipOthers(x + y) == y
    decreases |x|
  {
    if |x| > 0 {
      assert (x + y)[1..] == x[1..] + y;
      SkipAllOthers(x[1..], y);
    } else {
      assert x + y == y;
    }
  }

  /** Skipping stops inside `x` when `x` holds an id character. */
  lemma {:induction false} SkipWithin(x: string, y: string)
    requires !NoIdChars(x)
    ensures |SkipOthers(x)| > 0 && SkipOthers(x + y) == SkipOthers(x) + y
    decreases |x|
  {
    if !IsIdChar(x[0]) {
      assert (x + y)[1..] == x[1..] + y;
      assert !NoIdChars(x[1..]) by {
        var i :| 0 <= i < |x| && IsIdChar(x[i]);
        assert x[1..][i - 1] == x[i];
      }
      SkipWithin(x[1..], y);
    }
  }

  /**
   * Collapsing distributes over a concatenation that does not cut a run of
   * other characters in two: with the single-run case above, this fixes the
   * result of `CollapseRuns` on every string.
   */
  lemma {:induction false} CollapseSplit(a: string, b: string)
    requires |a| == 0 || |b| == 0 || IsIdChar(a[|a| - 1]) || IsIdChar(b[0])
    ensures CollapseRuns(a + b) == CollapseRuns(a) + CollapseRuns(b)
    decreases |a|, 2
  {
    if |a| == 0 {
      assert a + b == b;
    } else if |b| == 0 {
      assert a + b == a;
    } else if IsIdChar(a[0]) {
      assert (a + b)[1..] == a[1..] + b;
      CollapseSplit(a[1..], b);
    } else {
      CollapseSplitOther(a, b);
    }
  }

  /** The case of `CollapseSplit` where `a` starts with a run of other characters. */
  lemma {:induction false} CollapseSplitOther(a: string, b: string)
    requires |a| > 0 && |b| > 0 && !IsIdChar(a[0])
    requires IsIdChar(a[|a| - 1]) || IsIdChar(b[0])
    ensures CollapseRuns(a + b) == CollapseRuns(a) + CollapseRuns(b)
    decreases |a|, 1
  {
    if NoIdChars(a[1..]) {
      assert !IsIdChar(a[|a| - 1]) by { assert |a| == 1 || a[|a| - 1] == a[1..][|a| - 2]; }
      CollapseRunThenId(a, b);
    } else {
      CollapseSplitInner(a, b);
    }
  }

  /** The run at the front of `a` ends inside `a`. */
  lemma {:induction false} CollapseSplitInner(a: string, b: string)
    requires |a| > 0 && |b| > 0 && !IsIdChar(a[0]) && !NoIdChars(a[1..])
    requires IsIdChar(a[|a| - 1]) || IsIdChar(b[0])
    ensures CollapseRuns(a + b) == CollapseRuns(a) + CollapseRuns(b)
    decreases |a|, 0
  {
    SkipWithin(a[1..], b);
    var k := SkipOthers(a[1..]);
    assert k[|k| - 1] == a[|a| - 1];
    CollapseSplit(k, b);
    CollapseRunThenMore(a, b);
  }

  /** A whole run of other characters followed by an id character. */
  lemma CollapseRunThenId(a: string, b: string)
    requires |a| > 0 && !IsIdChar(a[0]) && NoIdChars(a[1..]) && |b| > 0 && IsIdChar(b[0])
    ensures CollapseRuns(a + b) == "_" + CollapseRuns(b)
    ensures CollapseRuns(a) == "_"
  {
    assert (a + b)[1..] == a[1..] + b;
    CollapseHead(a + b);
    CollapseHead(a);
    SkipAllOthers(a[1..], b);
    SkipAllOthers(a[1..], "");
    assert a[1..] + "" == a[1..];
  }

  /** A run of other characters followed by more of `a`. */
  lemma CollapseRunThenMore(a: string, b: string)
    requires |a| > 0 && !IsIdChar(a[0]) && !NoIdChars(a[1..])
    requires SkipOthers(a[1..] + b) == SkipOthers(a[1..]) + b
    requires CollapseRuns(SkipOthers(a[1..]) + b) == CollapseRuns(SkipOthers(a[1..])) + CollapseRuns(b)
    ensures CollapseRuns(a + b) == CollapseRuns(a) + CollapseRuns(b)
  {
    TailOfConcat(a, b);
    CollapseHead(a + b);
    CollapseHead(a);
    var k := SkipOthers(a[1..]);
    var x, y := CollapseRuns(k), CollapseRuns(b);
    assert SkipOthers((a + b)[1..]) == k + b;
    assert CollapseRuns(a + b) == "_" + (x + y);
    assert CollapseRuns(a) == "_" + x;
    ConcatAssoc("_", x, y);
  }

  lemma ConcatAssoc(p: string, x: string, y: string)
    ensures p + (x + y) == (p + x) + y
  {
  }

  lemma TailOfConcat(a: string, b: string)
    requires |a| > 0
    ensures (a + b)[1..] == a[1..] + b
  {
  }

  /** A leading other character becomes `_` and the rest of its run is skipped. */
  lemma CollapseHead(s: string)
    requires |s| > 0 && !IsIdChar(s[0])
    ensures CollapseRuns(s) == "_" + CollapseRuns(SkipOthers(s[1..]))
  {
  }

  function StripLeading(s: string): (r: string)
    ensures |r| <= |s| && r == s[|s| - |r|..]
    ensures |r| > 0 ==> r[0] != '_'
  {
    if |s| > 0 && s[0] == '_' then StripLeading(s[1..]) else s
  }

  function StripTrailing(s: string): (r: string)
    ensures |r| <= |s| && r == s[..|r|]
    ensures |r| > 0 ==> r[|r| - 1] != '_'
  {
    if |s| > 0 && s[|s| - 1] == '_' then StripTrailing(s[..|s| - 1]) else s
  }

  /** `replace(/^_+|_+$/g, "")`. */
  function StripUnderscores(s: string): (r: string)
    ensures AllIdChars(s) ==> AllIdChars(r)
    ensures |r| > 0 ==> r[0] != '_' && r[|r| - 1] != '_'
    ensures (|s| == 0 || (s[0] != '_' && s[|s| - 1] != '_')) ==> r == s
  {
    var a := StripLeading(s);
    var r := StripTrailing(a);
    assert |r| > 0 ==> r[0] == a[0];
    r
  }

  /** The shape every sanitised id part has. */
  predicate IsCleanPart(s: string)
  {
    |s| > 0 && AllIdChars(s) && s[0] != '_' && s[|s| - 1] != '_'
  }

  /** `sanitizeIdPart`: trimmed, lower-cased, runs of other characters as `_`, no `_` at the ends; "item" if nothing is left. */
  function SanitizeIdPart(value: string): (r: string)
    ensures IsCleanPart(r)
  {
    var collapsed := CollapseRuns(ToLowerCase(Trim(value)));
    var normalized := StripUnderscores(collapsed);
    StrippedClean(collapsed);
    ItemClean();
    if |normalized| == 0 then "item" else normalized
  }

  lemma StrippedClean(c: string)
    requires AllIdChars(c)
    ensures |StripUnderscores(c)| == 0 || IsCleanPart(StripUnderscores(c))
  {
  }

  lemma ItemClean()
    ensures IsCleanPart("item")
  {
    var s := "item";
    assert forall i :: 0 <= i < |s| ==> IsLower(s[i]);
  }

  /** A character whose lower-case form is an id character is no white space. */
  lemma IdCharNoSpace(c: char)
    requires IsIdChar(ToLower(c))
    ensures !IsJsSpace(c)
  {
  }

  /** A word whose lower-case form has the clean shape is sanitised to that form. */
  lemma SanitizeWord(a: string)
    requires IsCleanPart(Lower(a))
    ensures SanitizeIdPart(a) == Lower(a)
  {
    IdCharNoSpace(a[0]);
    IdCharNoSpace(a[|a| - 1]);
    TrimNoop(a);
  }

  /**
   * Two words around a run of characters that lower-case to no id character
   * (`Living Room`, `Büro - Ost`) become the two lower-cased words joined
   * by one `_`.
   */
  lemma SanitizeJoinsWords(a: string, o: string, b: string)
    requires IsCleanPart(Lower(a)) && IsCleanPart(Lower(b))
    requires |o| > 0 && NoIdChars(Lower(o))
    ensures SanitizeIdPart(a + o + b) == Lower(a) + "_" + Lower(b)
  {
    var s := a + o + b;
    IdCharNoSpace(a[0]);
    assert s[0] == a[0];
    IdCharNoSpace(b[|b| - 1]);
    assert s[|s| - 1] == b[|b| - 1];
    TrimNoop(s);
    var la, lo, lb := Lower(a), Lower(o), Lower(b);
    assert Lower(s) == la + (lo + lb);
    CollapseJoin(la, lo, lb);
    var c := la + "_" + lb;
    assert c[0] == la[0] && c[|c| - 1] == lb[|lb| - 1];
  }

  /** Two clean words around a run of other characters collapse to the words joined by `_`. */
  lemma CollapseJoin(la: string, lo: string, lb: string)
    requires IsCleanPart(la) && IsCleanPart(lb)
    requires |lo| > 0 && NoIdChars(lo)
    ensures CollapseRuns(la + (lo + lb)) == la + "_" + lb
  {
    var tail := lo + lb;
    CollapseOthers(lo);
    assert IsIdChar(lb[0]);
    CollapseSplit(lo, lb);
    assert CollapseRuns(lb) == lb;
    assert CollapseRuns(tail) == "_" + lb;
    assert IsIdChar(la[|la| - 1]);
    CollapseSplit(la, tail);
    assert CollapseRuns(la) == la;
    ConcatAssoc(la, "_", lb);
  }

  /** A value with no character that lower-cases to an id character gives `item`. */
  lemma SanitizeNothingLeft(value: string)
    requires NoIdChars(Lower(value))
    ensures SanitizeIdPart(value) == "item"
  {
    var t0 := TrimStart(value);
    LowerPieceNoIdChars(value, t0);
    LowerPieceNoIdChars(t0, TrimEnd(t0));
    var l := Lower(Trim(value));
    if |l| > 0 {
      CollapseOthers(l);
    }
  }

  /** A prefix or suffix of a text without id characters has none either. */
  lemma LowerPieceNoIdChars(x: string, y: string)
    requires NoIdChars(Lower(x)) && |y| <= |x|
    requires y == x[|x| - |y|..] || y == x[..|y|]
    ensures NoIdChars(Lower(y))
  {
    var d := if y == x[|x| - |y|..] then |x| - |y| else 0;
    forall i | 0 <= i < |y|
      ensures !IsIdChar(Lower(y)[i])
    {
      assert y[i] == x[d + i];
      assert Lower(y)[i] == Lower(x)[d + i];
    }
  }

  /** Two id parts joined by `_` use only id characters. */
  lemma JoinIdChars(a: string, b: string)
    requires AllIdChars(a) && AllIdChars(b)
    ensures AllIdChars(a + "_" + b) && |a + "_" + b| == |a| + |b| + 1
  {
    var s := a + "_" + b;
    forall i | 0 <= i < |s|
      ensures IsIdChar(s[i])
    {
      if i < |a| {
        assert s[i] == a[i];
      } else if i > |a| {
        assert s[i] == b[i - |a| - 1];
      }
    }
  }

  /** A part that already has the sanitised shape comes back unchanged. */
  lemma SanitizeKeepsCleanPart(s: string)
    requires IsCleanPart(s)
    ensures SanitizeIdPart(s) == s
  {
    TrimNoop(s);
    LowerNoop(s);
    assert CollapseRuns(s) == s;
  }

  /** Sanitising twice is sanitising once. */
  lemma SanitizeIdempotent(value: string)
    ensures SanitizeIdPart(SanitizeIdPart(value)) == SanitizeIdPart(value)
  {
    SanitizeKeepsCleanPart(SanitizeIdPart(value));
  }

  /** `value || fallback` for strings. */
  function OrText(value: string, fallback: string): (r: string)
    ensures r != "" || fallback == ""
  {
    if value != "" then value else fallback
  }

  /** The prefix of `createWidgetIdForPage`: the sanitised page id (or title, or "page") and widget type (or "widget"). */
  function WidgetIdPrefix(pageId: string, pageTitle: string, widgetType: string): (r: string)
    ensures |r| >= 3 && AllIdChars(r)
  {
    var page := SanitizeIdPart(OrText(pageId, OrText(pageTitle, "page")));
    var kind := SanitizeIdPart(OrText(widgetType, "widget"));
    JoinIdChars(page, kind);
    page + "_" + kind
  }

  /** `createWidgetIdForPage`: `<page>_<type>_<n>` with the lowest n no widget of any page uses. */
  function CreateWidgetId(pageId: string, pageTitle: string, widgetType: string, allWidgetIds: set<string>): (r: string)
    ensures r !in allWidgetIds
    ensures exists k :: (1 <= k <= |allWidgetIds| + 1 && r == Candidate(WidgetIdPrefix(pageId, pageTitle, widgetType), k)
      && forall j :: 1 <= j < k ==> Candidate(WidgetIdPrefix(pageId, pageTitle, widgetType), j) in allWidgetIds)
  {
    UniqueId(WidgetIdPrefix(pageId, pageTitle, widgetType), allWidgetIds)
  }
}

=== FILE: editor_search.dfy ===
/**
 * The editor's entity search: the `domain.fragment` search syntax, the local
 * suggestion filter, and the request counter that lets only the newest
 * autocomplete request update the suggestion list.
 */
module EditorSearch {
  import opened Wrappers
  import opened CStr
  import opened JsText
  import opened Json
  import opened EditorEntities

  const AutocompleteMaxItems: int := 24

  /** `normalizeEntitySearchTerm`: the trimmed text after the first `*`, or the whole trimmed text. */
  function NormalizeSearchTerm(v: Option<string>): (r: string)
    ensures v.None? ==> r == ""
    ensures v.Some? && IndexOf(Trim(v.value), '*').None? ==> r == Trim(v.value)
    ensures v.Some? && IndexOf(Trim(v.value), '*').Some? ==>
      r == Trim(Trim(v.value)[IndexOf(Trim(v.value), '*').value + 1..])
    ensures Trim(r) == r
  {
    match v
    case None => ""
    case Some(s) =>
      var trimmed := Trim(s);
      TrimIdempotent(s);
      if |trimmed| == 0 then ""
      else match IndexOf(trimmed, '*')
        case None => trimmed
        case Some(k) =>
          TrimIdempotent(trimmed[k + 1..]);
          Trim(trimmed[k + 1..])
  }

  /** `/^[a-z0-9_]+$/`. */
  predicate IsDomainToken(s: string)
  {
    |s| > 0 && forall i :: 0 <= i < |s| ==> IsLower(s[i]) || IsDigit(s[i]) || s[i] == '_'
  }

  datatype SearchQuery = SearchQuery(domain: string, search: string)

  /** The text before the first `.` of the trimmed input, trimmed and lower-cased, when it is a domain. */
  function ExplicitDomain(value: string): (r: Option<string>)
    ensures r.Some? ==> IsDomainToken(r.value)
    ensures r.Some? <==> (IndexOf(value, '.').Some? && IndexOf(value, '.').value > 0
      && IsDomainToken(ToLowerCase(Trim(value[..IndexOf(value, '.').value]))))
  {
    match IndexOf(value, '.')
    case None => None
    case Some(k) =>
      if k > 0 && IsDomainToken(ToLowerCase(Trim(value[..k]))) then Some(ToLowerCase(Trim(value[..k]))) else None
  }

  /** `parseEntitySearchInput`. */
  function ParseSearchInput(raw: Option<string>, fallback: Option<string>): (r: SearchQuery)
    ensures var value := if raw.Some? then Trim(raw.value) else "";
      match ExplicitDomain(value)
      case Some(d) =>
        r.domain == d && r.search == NormalizeSearchTerm(Some(value[IndexOf(value, '.').value + 1..]))
      case None =>
        && r.domain == (if fallback.Some? then ToLowerCase(Trim(fallback.value)) else "")
        && r.search == NormalizeSearchTerm(Some(value))
    ensures Trim(r.search) == r.search
  {
    var value := if raw.Some? then Trim(raw.value) else "";
    var domain := if fallback.Some? then ToLowerCase(Trim(fallback.value)) else "";
    match ExplicitDomain(value)
    case Some(d) => SearchQuery(d, NormalizeSearchTerm(Some(value[IndexOf(value, '.').value + 1..])))
    case None => SearchQuery(domain, NormalizeSearchTerm(Some(value)))
  }

  /** A domain typed before the dot wins over the widget's domain; the rest is the search. */
  lemma ParseExplicitDomain(d: string, rest: string, fallback: Option<string>)
    requires IsDomainToken(d) && '.' !in d
    requires Trim(d + "." + rest) == d + "." + rest
    ensures ParseSearchInput(Some(d + "." + rest), fallback) == SearchQuery(d, NormalizeSearchTerm(Some(rest)))
  {
    DomainBeforeDot(d, rest);
  }

  lemma DomainBeforeDot(d: string, rest: string)
    requires IsDomainToken(d) && '.' !in d
    ensures var value := d + "." + rest;
      IndexOf(value, '.') == Some(|d|) && ExplicitDomain(value) == Some(d) && value[|d| + 1..] == rest
  {
    var value := d + "." + rest;
    assert value[..|d|] == d;
    IndexOfAt(value, '.', |d|);
    LowerNoop(d);
    TrimNoop(d);
    assert value[|d| + 1..] == rest;
  }

  /** A `*` drops everything up to it: `"*living"` searches for `"living"`. */
  lemma WildcardDropsPrefix(before: string, after: string)
    requires Trim(before + "*" + after) == before + "*" + after && '*' !in before
    ensures NormalizeSearchTerm(Some(before + "*" + after)) == Trim(after)
  {
    var t := before + "*" + after;
    assert t[..|before|] == before;
    IndexOfAt(t, '*', |before|);
    assert t[|before| + 1..] == after;
  }

  /** `entityContainsSearch`: case-insensitive substring of the id or the name. */
  predicate ContainsSearch(e: Entity, search: string)
  {
    search == "" || Contains(ToLowerCase(IdText(e)), ToLowerCase(search)) || Contains(ToLowerCase(e.name), ToLowerCase(search))
  }

  /** The entries the local filter keeps, before the item cap. */
  predicate Qualifies(e: Entity, domain: string, search: string)
  {
    e.id.Some? && |e.id.value| > 0 && (domain == "" || InDomain(e.id.value, domain)) && ContainsSearch(e, search)
  }

  /** All qualifying entries of `source`, in source order. */
  function Qualifying(source: seq<Entity>, domain: string, search: string): (r: seq<Entity>)
    ensures forall e :: e in r ==> e in source && Qualifies(e, domain, search)
    ensures |r| <= |source|
  {
    if |source| == 0 then []
    else
      var last := source[|source| - 1];
      Qualifying(source[..|source| - 1], domain, search) + (if Qualifies(last, domain, search) then [last] else [])
  }

  /** One more source entry adds itself to the qualifying list exactly when it qualifies. */
  lemma QualifyingStep(source: seq<Entity>, i: nat, domain: string, search: string)
    requires i < |source|
    ensures Qualifying(source[..i + 1], domain, search)
      == Qualifying(source[..i], domain, search) + (if Qualifies(source[i], domain, search) then [source[i]] else [])
  {
    assert source[..i + 1][..i] == source[..i];
  }

  lemma {:induction false} QualifyingPrefix(source: seq<Entity>, i: nat, domain: string, search: string)
    requires i <= |source|
    ensures var p := Qualifying(source[..i], domain, search);
      |p| <= |Qualifying(source, domain, search)| && Qualifying(source, domain, search)[..|p|] == p
    decreases |source| - i
  {
    if i < |source| {
      QualifyingPrefix(source, i + 1, domain, search);
      QualifyingStep(source, i, domain, search);
      var p := Qualifying(source[..i], domain, search);
      var p1 := Qualifying(source[..i + 1], domain, search);
      var q := Qualifying(source, domain, search);
      assert p1[..|p|] == p;
      assert q[..|p1|] == p1;
      assert q[..|p|] == p1[..|p|];
    } else {
      assert source[..i] == source;
    }
  }

  /** Once the list collected from the first `i` entries is as long as the cap, it is the capped prefix of the whole list. */
  lemma CapReached(source: seq<Entity>, i: nat, domain: string, search: string, maxItems: int)
    requires i <= |source|
    requires |Qualifying(source[..i], domain, search)| == Cap(maxItems)
    ensures var q := Qualifying(source, domain, search);
      Qualifying(source[..i], domain, search) == q[..Min(|q|, Cap(maxItems))]
  {
    QualifyingPrefix(source, i, domain, search);
  }

  /** While the whole qualifying list is shorter than the cap, the capped prefix is the whole list. */
  lemma CapNotReached(source: seq<Entity>, domain: string, search: string, maxItems: int)
    requires |Qualifying(source, domain, search)| < Cap(maxItems)
    ensures var q := Qualifying(source, domain, search);
      q == q[..Min(|q|, Cap(maxItems))]
  {
  }

  /** How many suggestions the loop collects before it breaks: at least one, whatever `maxItems` is. */
  function Cap(maxItems: int): nat
  {
    if maxItems < 1 then 1 else maxItems
  }

  /** `filterLocalEntitySuggestions`: the first `Cap(maxItems)` qualifying entries, in source order. */
  method FilterLocalSuggestions(source: seq<Entity>, domain: string, search: string, maxItems: int)
    returns (results: seq<Entity>)
    ensures var q := Qualifying(source, domain, search);
      results == q[..Min(|q|, Cap(maxItems))]
  {
    results := [];
    var i := 0;
    while i < |source|
      invariant 0 <= i <= |source|
      invariant results == Qualifying(source[..i], domain, search)
      invariant |results| < Cap(maxItems)
    {
      var e := source[i];
      QualifyingStep(source, i, domain, search);
      var keep := Qualifies(e, domain, search);
      if keep {
        results := results + [e];
        if |results| >= maxItems {
          CapReached(source, i + 1, domain, search, maxItems);
          return;
        }
      }
      i := i + 1;
    }
    assert source[..i] == source;
    CapNotReached(source, domain, search, maxItems);
  }

  /** The local suggestions never exceed the cap, lie in the requested domain and match the search. */
  lemma LocalSuggestionsBounded(source: seq<Entity>, domain: string, search: string, results: seq<Entity>)
    requires var q := Qualifying(source, domain, search); results == q[..Min(|q|, Cap(AutocompleteMaxItems))]
    ensures |results| <= AutocompleteMaxItems
    ensures forall e :: e in results ==> e in source && (domain == "" || InDomain(IdText(e), domain))
  {
    var q := Qualifying(source, domain, search);
    forall e | e in results
      ensures e in source && (domain == "" || InDomain(IdText(e), domain))
    {
      assert e in q;
    }
  }

  /** `setEntityOptionsList`: the ids it shows, skipping entries without a non-empty string id. */
  function OptionIds(entities: seq<Entity>): (r: seq<string>)
    ensures |r| <= |entities|
    ensures forall i :: 0 <= i < |r| ==> |r[i]| > 0
  {
    if |entities| == 0 then []
    else
      var rest := OptionIds(entities[1..]);
      match entities[0].id
      case Some(id) => if |id| > 0 then [id] + rest else rest
      case None => rest
  }

  /** One of the two autocomplete fields: its request counter, its debounce timer, the suggestions shown. */
  datatype Field = Field(requestSeq: nat, timerPending: bool, options: seq<string>)

  datatype Kind = Primary | Secondary

  /** The inspector state a run reads. */
  datatype Inspector = Inspector(widgetType: string, sliderDomain: Option<Value>, buttonMode: Option<Value>)

  /** The remote query a run issues, tagged with the counter value it was issued under. */
  datatype Query = Query(tag: nat, domain: string, search: string)

  /** What a run leaves behind: the field after its synchronous part and the remote query, if any. */
  datatype RunResult = RunResult(field: Field, query: Option<Query>)

  /** `primaryEntitySource`. */
  function PrimarySource(catalog: seq<Entity>, ins: Inspector): seq<Entity>
  {
    var typed := ListForWidgetType(catalog, ins.widgetType, ins.sliderDomain, ins.buttonMode);
    if |typed| > 0 then typed else catalog
  }

  /** The domain a run falls back to when the input names none. */
  function FallbackDomain(kind: Kind, ins: Inspector): string
  {
    if kind.Secondary? then "sensor" else ExpectedDomain(ins.widgetType, ins.sliderDomain, ins.buttonMode)
  }

  /** The domains a run accepts; an empty list accepts any. */
  function AllowedFor(kind: Kind, ins: Inspector): seq<string>
  {
    if kind.Secondary? then ["sensor"] else AllowedDomains(ins.widgetType, ins.sliderDomain, ins.buttonMode)
  }

  /** The domain and search text a run derives from the field's input. */
  function RunQuery(kind: Kind, raw: string, ins: Inspector): SearchQuery
  {
    ParseSearchInput(Some(raw), Some(FallbackDomain(kind, ins)))
  }

  /** An explicit domain outside a non-empty allowed list. */
  predicate Rejected(domain: string, allowed: seq<string>)
  {
    domain != "" && |allowed| > 0 && domain !in allowed
  }

  /** The suggestions a run shows locally: the ids of the first qualifying entries of its source, up to the cap. */
  function LocalIds(kind: Kind, catalog: seq<Entity>, ins: Inspector, q: SearchQuery): seq<string>
  {
    var all := Qualifying(SourceFor(kind, catalog, ins), q.domain, q.search);
    OptionIds(all[..Min(|all|, AutocompleteMaxItems)])
  }

  /**
   * The synchronous part of `run`: the counter advances; an explicit domain
   * outside the allowed list empties the suggestions; otherwise the local
   * matches are shown and a remote query goes out when there is a domain or
   * at least two characters of search text.
   */
  method Run(field: Field, kind: Kind, raw: string, catalog: seq<Entity>, ins: Inspector) returns (out: RunResult)
    ensures out.field.requestSeq == field.requestSeq + 1
    ensures out.field.timerPending == field.timerPending
    ensures |out.field.options| <= AutocompleteMaxItems
    ensures var q := RunQuery(kind, raw, ins);
      Rejected(q.domain, AllowedFor(kind, ins)) ==> out.field.options == [] && out.query.None?
    ensures var q := RunQuery(kind, raw, ins);
      !Rejected(q.domain, AllowedFor(kind, ins)) ==> out.field.options == LocalIds(kind, catalog, ins, q)
    ensures var q := RunQuery(kind, raw, ins);
      out.query.Some? <==> !Rejected(q.domain, AllowedFor(kind, ins)) && (q.domain != "" || |q.search| >= 2)
    ensures out.query.Some? ==>
      out.query.value == Query(out.field.requestSeq, RunQuery(kind, raw, ins).domain, RunQuery(kind, raw, ins).search)
  {
    var requestSeq := field.requestSeq + 1;
    var q := RunQuery(kind, raw, ins);
    if Rejected(q.domain, AllowedFor(kind, ins)) {
      return RunResult(field.(requestSeq := requestSeq, options := []), None);
    }
    var options := LocalOptions(SourceFor(kind, catalog, ins), q);
    var shown := field.(requestSeq := requestSeq, options := options);
    if |q.domain| > 0 || |q.search| >= 2 {
      return RunResult(shown, Some(Query(requestSeq, q.domain, q.search)));
    }
    return RunResult(shown, None);
  }

  /** The catalog a run searches locally. */
  function SourceFor(kind: Kind, catalog: seq<Entity>, ins: Inspector): seq<Entity>
  {
    if kind.Secondary? then ListByDomain(catalog, "sensor") else PrimarySource(catalog, ins)
  }

  /** The ids a run shows before any remote answer. */
  method LocalOptions(source: seq<Entity>, q: SearchQuery) returns (options: seq<string>)
    ensures var all := Qualifying(source, q.domain, q.search);
      options == OptionIds(all[..Min(|all|, AutocompleteMaxItems)])
    ensures |options| <= AutocompleteMaxItems
  {
    var local := FilterLocalSuggestions(source, q.domain, q.search, AutocompleteMaxItems);
    LocalSuggestionsBounded(source, q.domain, q.search, local);
    options := OptionIds(local);
  }

  /** A remote answer: shown only when it is non-empty and no newer run has started since the query. */
  function Respond(field: Field, query: Query, results: seq<Entity>): (r: Field)
    ensures query.tag != field.requestSeq ==> r == field
    ensures |results| == 0 ==> r == field
    ensures query.tag == field.requestSeq && |results| > 0 ==> r == field.(options := OptionIds(results))
    ensures r.requestSeq == field.requestSeq && r.timerPending == field.timerPending
  {
    if query.tag != field.requestSeq then field
    else if |results| == 0 then field
    else field.(options := OptionIds(results))
  }

  /**
   * Two queries answered out of order: whatever the older answer holds, the
   * suggestions end as the newer answer's (when non-empty).
   */
  lemma NewerAnswerWins(field: Field, older: Query, newer: Query, oldResults: seq<Entity>, newResults: seq<Entity>)
    requires older.tag < newer.tag == field.requestSeq
    requires |newResults| > 0
    ensures Respond(Respond(field, newer, newResults), older, oldResults).options == OptionIds(newResults)
    ensures Respond(Respond(field, older, oldResults), newer, newResults).options == OptionIds(newResults)
  {
  }

  /** An answer to a query that a later run has superseded changes nothing. */
  lemma StaleAnswerIgnored(field: Field, query: Query, results: seq<Entity>)
    requires query.tag < field.requestSeq
    ensures Respond(field, query, results) == field
  {
  }

  /** Scheduling with debounce: any pending timer is replaced by a new one. */
  function Schedule(field: Field): (r: Field)
    ensures r.timerPending && r.requestSeq == field.requestSeq && r.options == field.options
  {
    field.(timerPending := true)
  }

  /**
   * `scheduleEntityAutocomplete`: a disabled input (or a missing input or
   * list element) is left alone; otherwise any pending timer is cleared, and
   * the run starts at once when `immediate` is set, or a new timer is armed.
   */
  method ScheduleAutocomplete(field: Field, kind: Kind, disabled: bool, immediate: bool, raw: string,
                              catalog: seq<Entity>, ins: Inspector) returns (out: RunResult)
    ensures disabled ==> out == RunResult(field, None)
    ensures !disabled && !immediate ==> out == RunResult(Schedule(field), None)
    ensures !disabled && immediate ==>
      && !out.field.timerPending && out.field.requestSeq == field.requestSeq + 1
      && (var q := RunQuery(kind, raw, ins);
          !Rejected(q.domain, AllowedFor(kind, ins)) ==> out.field.options == LocalIds(kind, catalog, ins, q))
  {
    if disabled {
      return RunResult(field, None);
    }
    if !immediate {
      return RunResult(Schedule(field), None);
    }
    out := Run(field.(timerPending := false), kind, raw, catalog, ins);
  }

  /** The debounce timer firing clears the pending flag before the run starts. */
  method TimerFires(field: Field, kind: Kind, raw: string, catalog: seq<Entity>, ins: Inspector) returns (out: RunResult)
    requires field.timerPending
    ensures !out.field.timerPending
    ensures out.field.requestSeq == field.requestSeq + 1
  {
    out := Run(field.(timerPending := false), kind, raw, catalog, ins);
  }
}

=== FILE: graph_widget.dfy ===
/**
 * The integer logic of the graph widget: its configuration clamps, the
 * duration label, the history file name, the per-minute sample history and
 * the panning offset. Sample values are floats in the firmware and an
 * abstract type `V` here; "the same value" is equality of `V`.
 */
module GraphWidget {
  import opened Wrappers
  import opened CStr

  const PointsMin: int := 16
  const PointsMax: int := 64
  const TimeWindowMin: int := 1
  const TimeWindowMax: int := 1440
  const DefaultTimeWindow: int := 120
  const BucketSec: nat := 60
  const RetentionMin: nat := 1440
  const RetentionSec: nat := RetentionMin * 60
  const MaxSamples: nat := RetentionSec / BucketSec
  const ValidEpochMin: nat := 1609459200

  /** `graph_clamp_point_count`: no chart for a non-positive count, else 16..64. */
  function ClampPointCount(configured: int): (n: int)
    ensures configured <= 0 ==> n == 0
    ensures configured > 0 ==> PointsMin <= n <= PointsMax
    ensures PointsMin <= configured <= PointsMax ==> n == configured
  {
    if configured <= 0 then 0
    else if configured < PointsMin then PointsMin
    else if configured > PointsMax then PointsMax
    else configured
  }

  /** `graph_clamp_time_window_min`: 120 for a non-positive window, else 1..1440. */
  function ClampTimeWindowMin(configured: int): (n: int)
    ensures configured <= 0 ==> n == DefaultTimeWindow
    ensures TimeWindowMin <= n <= TimeWindowMax
    ensures TimeWindowMin <= configured <= TimeWindowMax ==> n == configured
  {
    if configured <= 0 then DefaultTimeWindow
    else if configured < TimeWindowMin then TimeWindowMin
    else if configured > TimeWindowMax then TimeWindowMax
    else configured
  }

  /** Both clamps leave their own results alone. */
  lemma ClampsIdempotent(configured: int)
    ensures ClampPointCount(ClampPointCount(configured)) == ClampPointCount(configured)
    ensures ClampTimeWindowMin(ClampTimeWindowMin(configured)) == ClampTimeWindowMin(configured)
  {
  }

  /** The text `graph_format_duration` prints before it is cut to the buffer. */
  function DurationText(minutes: int): string
  {
    if minutes < 60 then IntToDec(minutes) + "m"
    else if minutes % 60 == 0 then NatToDec(minutes / 60) + "h"
    else NatToDec(minutes / 60) + "h" + Dec2(minutes % 60) + "m"
  }

  /** `graph_format_duration`: nothing is written into a zero-sized buffer. */
  function FormatDuration(minutes: int, size: nat): (r: Option<string>)
    ensures size == 0 <==> r.None?
    ensures r.Some? ==> |r.value| < size && StartsWith(DurationText(minutes), r.value)
  {
    if size == 0 then None else Some(Fit(DurationText(minutes), size))
  }

  /** Reads a duration label back: `<n>m`, `<n>h` or `<n>h<mm>m`. */
  function DurationValue(t: string): Option<int>
  {
    var k := DigitRun(t);
    var v := DigitsValue(t[..k]);
    if k == 0 then None
    else if t[k..] == "m" then Some(v)
    else if t[k..] == "h" then Some(v * 60)
    else if |t| == k + 4 && t[k] == 'h' && IsDigit(t[k + 1]) && IsDigit(t[k + 2]) && t[k + 3] == 'm' then
      Some(v * 60 + DigitsValue(t[k + 1..k + 3]))
    else None
  }

  /** Every non-negative duration label reads back as its number of minutes. */
  lemma DurationRoundTrip(minutes: nat)
    ensures DurationValue(DurationText(minutes)) == Some(minutes)
  {
    var t := DurationText(minutes);
    if minutes < 60 {
      var d := NatToDec(minutes);
      assert t == d + "m";
      DigitRunThen(d, "m");
      assert t[..|d|] == d && t[|d|..] == "m";
      NatToDecRoundTrip(minutes);
    } else {
      var d := NatToDec(minutes / 60);
      NatToDecRoundTrip(minutes / 60);
      if minutes % 60 == 0 {
        assert t == d + "h";
        DigitRunThen(d, "h");
        assert t[..|d|] == d && t[|d|..] == "h";
      } else {
        var m := Dec2(minutes % 60);
        Dec2Value(minutes % 60);
        assert t == d + ("h" + m + "m");
        DigitRunThen(d, "h" + m + "m");
        assert t[..|d|] == d;
        assert t[|d| + 1..|d| + 3] == m;
      }
    }
  }

  lemma Dec2Value(n: nat)
    requires n < 100
    ensures |Dec2(n)| == 2 && DigitsValue(Dec2(n)) == n
  {
    if n < 10 {
      assert Dec2(n) == ['0', DigitChar(n)];
      assert Dec2(n)[..1] == "0";
      assert DigitsValue("0") == 0 by { assert "0"[..0] == []; }
      assert DigitValue(DigitChar(n)) == n;
    } else {
      var d := NatToDec(n);
      assert d == NatToDec(n / 10) + [DigitChar(n % 10)];
      assert n / 10 < 10;
      assert NatToDec(n / 10) == [DigitChar(n / 10)];
      assert d[..1] == NatToDec(n / 10);
      assert DigitsValue(d[..1]) == n / 10 by {
        assert d[..1][..0] == [];
      }
      assert DigitsValue(d) == (n / 10) * 10 + n % 10;
    }
  }

  predicate IsSafeIdChar(c: char)
  {
    IsAlnum(c) || c == '_' || c == '-'
  }

  function SafeIdChar(c: char): char
  {
    if IsSafeIdChar(c) then c else '_'
  }

  /**
   * `graph_sanitize_widget_id`: the id cut to the buffer with every other
   * character replaced by `_`; an empty (or missing) id becomes "graph".
   */
  function SanitizeWidgetId(widgetId: Option<string>, size: nat): (r: string)
    requires size > 0
    ensures |r| < size
    ensures forall i :: 0 <= i < |r| ==> IsSafeIdChar(r[i]) || (size <= 5 && r == Fit("graph", size))
    ensures var s := if widgetId.Some? then widgetId.value else "";
      Min(|s|, size - 1) > 0 ==>
        |r| == Min(|s|, size - 1) && forall i :: 0 <= i < |r| ==> r[i] == SafeIdChar(s[i])
    ensures var s := if widgetId.Some? then widgetId.value else "";
      Min(|s|, size - 1) == 0 ==> r == Fit("graph", size)
  {
    var s := if widgetId.Some? then widgetId.value else "";
    var kept := Fit(s, size);
    var out := seq(|kept|, i requires 0 <= i < |kept| => SafeIdChar(kept[i]));
    if |out| == 0 then Fit("graph", size) else out
  }

  /** Sanitising a sanitised name changes nothing. */
  lemma SanitizeIdempotent(widgetId: Option<string>, size: nat)
    requires size > 0
    ensures SanitizeWidgetId(Some(SanitizeWidgetId(widgetId, size)), size) == SanitizeWidgetId(widgetId, size)
  {
    var r := SanitizeWidgetId(widgetId, size);
    var r2 := SanitizeWidgetId(Some(r), size);
    if |r| > 0 {
      assert forall i :: 0 <= i < |r| ==> SafeIdChar(r[i]) == r[i];
    }
  }

  // ---------------------------------------------------------------------------
  // The history: one sample per minute bucket, oldest first.

  datatype Sample<V> = Sample(bucket: nat, value: V)

  predicate Increasing<V>(h: seq<Sample<V>>)
  {
    forall i, j :: 0 <= i < j < |h| ==> h[i].bucket < h[j].bucket
  }

  predicate ValidHistory<V>(h: seq<Sample<V>>)
  {
    Increasing(h) && |h| <= MaxSamples
  }

  /** `graph_history_drop_oldest`. */
  function DropOldest<V>(h: seq<Sample<V>>, n: int): (r: seq<Sample<V>>)
    ensures n <= 0 ==> r == h
    ensures n >= |h| ==> r == []
    ensures 0 < n < |h| ==> r == h[n..]
  {
    if n <= 0 || |h| == 0 then h
    else if n >= |h| then []
    else h[n..]
  }

  /** How many leading samples are older than `keepAfter`. */
  function LeadingOlder<V>(h: seq<Sample<V>>, keepAfter: nat): (d: nat)
    ensures d <= |h|
    ensures forall i :: 0 <= i < d ==> h[i].bucket < keepAfter
    ensures d < |h| ==> h[d].bucket >= keepAfter
  {
    if |h| == 0 || h[0].bucket >= keepAfter then 0 else 1 + LeadingOlder(h[1..], keepAfter)
  }

  /**
   * `graph_history_trim_retention`: drops the leading samples older than a
   * day before `newest`; nothing is dropped while `newest` is within the
   * first day.
   */
  function TrimRetention<V>(h: seq<Sample<V>>, newest: nat): (r: seq<Sample<V>>)
    ensures newest <= RetentionSec ==> r == h
    ensures newest > RetentionSec ==>
      r == h[LeadingOlder(h, newest - RetentionSec)..]
  {
    if |h| == 0 || newest == 0 || newest <= RetentionSec then h
    else DropOldest(h, LeadingOlder(h, newest - RetentionSec))
  }

  /** On an increasing history, trimming keeps exactly the samples at most a day older than `newest`. */
  lemma TrimKeepsRecent<V>(h: seq<Sample<V>>, newest: nat)
    requires Increasing(h) && newest > RetentionSec
    ensures forall s :: s in TrimRetention(h, newest) <==> s in h && s.bucket >= newest - RetentionSec
  {
    var d := LeadingOlder(h, newest - RetentionSec);
    forall s | s in h && s.bucket >= newest - RetentionSec
      ensures s in h[d..]
    {
      var i :| 0 <= i < |h| && h[i] == s;
      assert i >= d;
      assert h[d..][i - d] == s;
    }
    forall s | s in h[d..]
      ensures s.bucket >= newest - RetentionSec
    {
      var i :| 0 <= i < |h[d..]| && h[d..][i] == s;
      assert h[d + i] == s;
    }
  }

  datatype Update<V> = Update(changed: bool, appended: bool, history: seq<Sample<V>>)

  /**
   * `graph_history_append_or_update`: bucket 0 and buckets before the last
   * are refused, the last bucket's value is replaced when it differs, and a
   * newer bucket is appended (after dropping the oldest sample of a full
   * history) and then the history is trimmed to a day.
   */
  function AppendOrUpdate<V(==,!new)>(h: seq<Sample<V>>, bucket: nat, value: V): (u: Update<V>)
    requires ValidHistory(h)
    ensures ValidHistory(u.history)
    ensures !u.changed ==> u.history == h && !u.appended
    ensures bucket == 0 || (|h| > 0 && bucket < h[|h| - 1].bucket) ==> !u.changed
    ensures bucket != 0 && |h| > 0 && bucket == h[|h| - 1].bucket ==>
      !u.appended && (u.changed <==> h[|h| - 1].value != value)
      && (u.changed ==> u.history == h[..|h| - 1] + [Sample(bucket, value)])
    ensures u.appended <==> bucket != 0 && (|h| == 0 || bucket > h[|h| - 1].bucket)
    ensures u.changed ==> |u.history| > 0 && u.history[|u.history| - 1] == Sample(bucket, value)
    ensures u.appended ==> forall s :: s in u.history <==>
      s == Sample(bucket, value)
      || (s in h && s.bucket + RetentionSec >= bucket && !(|h| >= MaxSamples && s == h[0]))
  {
    if bucket == 0 then Update(false, false, h)
    else if |h| > 0 && h[|h| - 1].bucket == bucket then
      if h[|h| - 1].value == value then Update(false, false, h)
      else
        var r := h[..|h| - 1] + [Sample(bucket, value)];
        assert forall i :: 0 <= i < |h| ==> r[i].bucket == h[i].bucket;
        Update(true, false, r)
    else if |h| > 0 && bucket < h[|h| - 1].bucket then Update(false, false, h)
    else Update(true, true, AppendNewer(h, bucket, value))
  }

  /** A newer bucket goes at the end, after the oldest sample of a full history; then the history is trimmed to a day. */
  function AppendNewer<V(!new)>(h: seq<Sample<V>>, bucket: nat, value: V): (r: seq<Sample<V>>)
    requires ValidHistory(h) && bucket > 0 && (|h| == 0 || bucket > h[|h| - 1].bucket)
    ensures ValidHistory(r) && |r| > 0 && r[|r| - 1] == Sample(bucket, value)
    ensures forall s :: s in r <==>
      s == Sample(bucket, value)
      || (s in h && s.bucket + RetentionSec >= bucket && !(|h| >= MaxSamples && s == h[0]))
  {
    AppendValid(h, Sample(bucket, value));
    AppendMembers(h, Sample(bucket, value));
    TrimRetention(MakeRoom(h) + [Sample(bucket, value)], bucket)
  }

  /** A full history gives up its oldest sample before an append. */
  function MakeRoom<V>(h: seq<Sample<V>>): seq<Sample<V>>
  {
    if |h| >= MaxSamples then DropOldest(h, 1) else h
  }

  /** An append keeps the history valid and ends it with the new sample. */
  lemma AppendValid<V>(h: seq<Sample<V>>, x: Sample<V>)
    requires ValidHistory(h) && (|h| == 0 || x.bucket > h[|h| - 1].bucket)
    ensures Increasing(MakeRoom(h) + [x])
    ensures ValidHistory(TrimRetention(MakeRoom(h) + [x], x.bucket))
    ensures |TrimRetention(MakeRoom(h) + [x], x.bucket)| > 0
    ensures TrimRetention(MakeRoom(h) + [x], x.bucket)[|TrimRetention(MakeRoom(h) + [x], x.bucket)| - 1] == x
  {
    var h1 := MakeRoom(h);
    SuffixIncreasing(h, |h| - |h1|);
    assert h1 == h[|h| - |h1|..];
    AppendIncreasing(h1, x);
    TrimmedStaysValid(h1 + [x], x.bucket);
  }

  /** The samples kept by an append: the new one, and the old ones not dropped for room or for age. */
  lemma AppendMembers<V>(h: seq<Sample<V>>, x: Sample<V>)
    requires Increasing(h)
    requires Increasing(MakeRoom(h) + [x])
    ensures forall s :: s in TrimRetention(MakeRoom(h) + [x], x.bucket) <==>
      s == x || (s in h && s.bucket + RetentionSec >= x.bucket && !(|h| >= MaxSamples && s == h[0]))
  {
    var h1 := MakeRoom(h);
    DropFirstMembers(h, h1);
    if x.bucket > RetentionSec {
      TrimKeepsRecent(h1 + [x], x.bucket);
    }
  }

  /** Dropping the oldest sample of a full history removes exactly that sample. */
  lemma DropFirstMembers<V>(h: seq<Sample<V>>, h1: seq<Sample<V>>)
    requires Increasing(h)
    requires h1 == MakeRoom(h)
    ensures forall s :: s in h1 <==> s in h && !(|h| >= MaxSamples && s == h[0])
  {
    if |h| >= MaxSamples {
      assert h1 == h[1..];
      forall s | s in h && s != h[0]
        ensures s in h1
      {
        var i :| 0 <= i < |h| && h[i] == s;
        assert h1[i - 1] == s;
      }
      forall s | s in h1
        ensures s != h[0]
      {
        var i :| 0 <= i < |h1| && h1[i] == s;
        assert h[i + 1] == s;
      }
    }
  }

  /** Dropping leading samples keeps a history increasing. */
  lemma SuffixIncreasing<V>(h: seq<Sample<V>>, d: nat)
    requires Increasing(h) && d <= |h|
    ensures Increasing(h[d..])
  {
    var r := h[d..];
    forall i, j | 0 <= i < j < |r|
      ensures r[i].bucket < r[j].bucket
    {
      assert r[i] == h[d + i] && r[j] == h[d + j];
    }
  }

  /** A sample newer than the last one extends an increasing history. */
  lemma AppendIncreasing<V>(h: seq<Sample<V>>, s: Sample<V>)
    requires Increasing(h) && (|h| == 0 || s.bucket > h[|h| - 1].bucket)
    ensures Increasing(h + [s])
  {
    var r := h + [s];
    forall i, j | 0 <= i < j < |r|
      ensures r[i].bucket < r[j].bucket
    {
      if j == |h| {
        assert r[i] == h[i];
        assert i == |h| - 1 || h[i].bucket < h[|h| - 1].bucket;
      } else {
        assert r[i] == h[i] && r[j] == h[j];
      }
    }
  }

  lemma TrimmedStaysValid<V>(h: seq<Sample<V>>, newest: nat)
    requires Increasing(h) && |h| > 0 && h[|h| - 1].bucket == newest
    ensures var r := TrimRetention(h, newest);
      Increasing(r) && |r| <= |h| && |r| > 0 && r[|r| - 1] == h[|h| - 1]
  {
    if newest > RetentionSec {
      var d := LeadingOlder(h, newest - RetentionSec);
      assert d < |h|;
      SuffixIncreasing(h, d);
    }
  }

  /**
   * The check `graph_history_load` applies to a file's samples (read as a
   * parameter): more than a day of samples or a timestamp that does not grow
   * rejects the file; an accepted history is trimmed to its newest sample.
   */
  function LoadHistory<V>(samples: seq<Sample<V>>): (r: Option<seq<Sample<V>>>)
    ensures r.Some? <==> |samples| <= MaxSamples && Increasing(samples)
    ensures r.Some? ==> ValidHistory(r.value)
    ensures r.Some? && |samples| > 0 ==> r.value == TrimRetention(samples, samples[|samples| - 1].bucket)
  {
    if |samples| > MaxSamples then None
    else if exists i :: 1 <= i < |samples| && samples[i].bucket <= samples[i - 1].bucket then None
    else
      AdjacentIncreasing(samples);
      if |samples| > 0 then
        TrimmedStaysValid(samples, samples[|samples| - 1].bucket);
        Some(TrimRetention(samples, samples[|samples| - 1].bucket))
      else Some(samples)
  }

  /** Growing between neighbours is growing throughout. */
  lemma {:induction false} AdjacentIncreasing<V>(s: seq<Sample<V>>)
    ensures Increasing(s) <==> forall i :: 1 <= i < |s| ==> s[i - 1].bucket < s[i].bucket
  {
    if forall i :: 1 <= i < |s| ==> s[i - 1].bucket < s[i].bucket {
      forall i, j | 0 <= i < j < |s|
        ensures s[i].bucket < s[j].bucket
      {
        StepUp(s, i, j);
      }
    }
  }

  lemma {:induction false} StepUp<V>(s: seq<Sample<V>>, i: nat, j: nat)
    requires i < j < |s| && forall k :: 1 <= k < |s| ==> s[k - 1].bucket < s[k].bucket
    ensures s[i].bucket < s[j].bucket
    decreases j - i
  {
    if i + 1 < j {
      StepUp(s, i + 1, j);
    }
  }

  /**
   * `graph_current_bucket_ts` with the clock as a parameter: 0 before
   * 2021-01-01 (the epoch is read as 32 bits), else the start of the minute.
   */
  function CurrentBucketTs(now: int): (b: nat)
    ensures now < 0 || now % 0x1_0000_0000 < ValidEpochMin ==> b == 0
    ensures now >= 0 && now % 0x1_0000_0000 >= ValidEpochMin ==>
      b % BucketSec == 0 && ValidEpochMin <= b <= now && now % 0x1_0000_0000 - b < BucketSec
  {
    if now < 0 then 0
    else
      var u := now % 0x1_0000_0000;
      if u < ValidEpochMin then 0 else u - u % BucketSec
  }

  /** `graph_max_history_offset_min`: whole minutes back to the oldest sample, at most a day. */
  function MaxHistoryOffsetMin<V>(h: seq<Sample<V>>, nowBucket: nat): (m: nat)
    ensures m <= RetentionMin
    ensures |h| == 0 || nowBucket == 0 || nowBucket <= h[0].bucket ==> m == 0
    ensures |h| > 0 && nowBucket > h[0].bucket ==> m == Min((nowBucket - h[0].bucket) / 60, RetentionMin)
  {
    if |h| == 0 || nowBucket == 0 || nowBucket <= h[0].bucket then 0
    else Min((nowBucket - h[0].bucket) / 60, RetentionMin)
  }

  /** `graph_pan_step_min`: an eighth of the window, 1..60 minutes. */
  function PanStepMin(timeWindowMin: int): (s: int)
    ensures 1 <= s <= 60
    ensures 8 <= timeWindowMin <= 480 ==> s == timeWindowMin / 8
  {
    var step := if timeWindowMin >= 0 then timeWindowMin / 8 else -((-timeWindowMin) / 8);
    if step < 1 then 1 else if step > 60 then 60 else step
  }

  /** The new offset and whether the chart is rebuilt. */
  datatype Pan = Pan(offset: int, rebuild: bool)

  /**
   * `graph_pan_history`: older moves back by a step but not past the oldest
   * sample, newer moves forward but not past now; the chart is rebuilt only
   * when the offset changes.
   */
  function PanHistory(offset: int, older: bool, step: int, maxOffset: nat): (p: Pan)
    requires step >= 1
    ensures p.rebuild <==> p.offset != offset
    ensures older ==> p.offset <= maxOffset && (offset <= maxOffset ==> p.offset >= offset)
    ensures !older ==> p.offset >= 0 && (offset >= 0 ==> p.offset <= offset)
    ensures 0 <= offset <= maxOffset ==> 0 <= p.offset <= maxOffset
  {
    var next := if older then Min(offset + step, maxOffset) else Max(offset - step, 0);
    Pan(next, next != offset)
  }

  /** Panning back and then forward by the same step returns to the start when no bound was hit. */
  lemma PanBackAndForth(offset: int, step: int, maxOffset: nat)
    requires step >= 1 && 0 <= offset && offset + step <= maxOffset
    ensures PanHistory(PanHistory(offset, true, step, maxOffset).offset, false, step, maxOffset).offset == offset
  {
  }
}

=== FILE: ha_client.dfy ===
/**
 * The pure policies of the Home Assistant client: the background budget
 * level and the tables it selects, the priority re-sync queue, the endpoint
 * parser, the layout entity signature, the state a service call is expected
 * to produce and the WebSocket restart back-off. The functions take their
 * thresholds and tables as parameters; the constants `ha_client.c` defines
 * for them are `FirmwareBudget`, the three interval tables and the restart
 * constants below, and the firmware lemmas state the policies with them.
 */
module HaClient {
  import opened Wrappers
  import opened CStr
  import HaWs

  datatype Level = Normal | Pressure | Protect | Critical

  function Rank(l: Level): nat
  {
    match l
    case Normal => 0
    case Pressure => 1
    case Protect => 2
    case Critical => 3
  }

  function MaxLevel(a: Level, b: Level): (r: Level)
    ensures Rank(r) == Max(Rank(a), Rank(b))
  {
    if Rank(a) >= Rank(b) then a else b
  }

  /** The heap thresholds (bytes), queue-fill thresholds (percent) and error-streak thresholds. */
  datatype BudgetConfig = BudgetConfig(
    heapCritical: nat, heapProtect: nat, heapPressure: nat,
    queueCritical: nat, queueProtect: nat, queuePressure: nat,
    streakTransport: nat, streakWifi: nat)

  /** The level free heap and queue fill call for, the most severe first. */
  function HeapQueueLevel(b: BudgetConfig, freeInternal: nat, queueFillPct: nat): (l: Level)
    ensures l == Critical <==> freeInternal < b.heapCritical || queueFillPct >= b.queueCritical
    ensures Rank(l) >= Rank(Protect) <==>
      (freeInternal < b.heapCritical || queueFillPct >= b.queueCritical
       || freeInternal < b.heapProtect || queueFillPct >= b.queueProtect)
    ensures Rank(l) >= Rank(Pressure) <==>
      (freeInternal < b.heapCritical || queueFillPct >= b.queueCritical
       || freeInternal < b.heapProtect || queueFillPct >= b.queueProtect
       || freeInternal < b.heapPressure || queueFillPct >= b.queuePressure)
  {
    if freeInternal < b.heapCritical || queueFillPct >= b.queueCritical then Critical
    else if freeInternal < b.heapProtect || queueFillPct >= b.queueProtect then Protect
    else if freeInternal < b.heapPressure || queueFillPct >= b.queuePressure then Pressure
    else Normal
  }

  /**
   * `ha_client_eval_bg_budget_level`: the heap/queue level, raised (never
   * lowered) to critical by a transport-recovery error streak and to at
   * least protect by a Wi-Fi-recovery one.
   */
  function EvalBgBudgetLevel(b: BudgetConfig, freeInternal: nat, queueFillPct: nat, errorStreak: nat): (l: Level)
    ensures Rank(l) >= Rank(HeapQueueLevel(b, freeInternal, queueFillPct))
    ensures errorStreak >= b.streakTransport ==> l == Critical
    ensures b.streakWifi <= errorStreak < b.streakTransport ==>
      l == MaxLevel(HeapQueueLevel(b, freeInternal, queueFillPct), Protect)
    ensures errorStreak < b.streakWifi && errorStreak < b.streakTransport ==>
      l == HeapQueueLevel(b, freeInternal, queueFillPct)
  {
    var level := HeapQueueLevel(b, freeInternal, queueFillPct);
    if errorStreak >= b.streakTransport then Critical
    else if errorStreak >= b.streakWifi then (if Rank(level) < Rank(Protect) then Protect else level)
    else level
  }

  /** The firmware's marks: 5, 8 and 12 KiB of heap, 75, 50 and 25 percent of queue fill, streaks of 4 and 3. */
  const FirmwareBudget: BudgetConfig := BudgetConfig(5 * 1024, 8 * 1024, 12 * 1024, 75, 50, 25, 4, 3)

  /** The firmware's level, spelt out with its own constants. */
  lemma FirmwareLevel(freeInternal: nat, queueFillPct: nat, errorStreak: nat)
    ensures var l := EvalBgBudgetLevel(FirmwareBudget, freeInternal, queueFillPct, errorStreak);
      && (l == Critical <==> freeInternal < 5120 || queueFillPct >= 75 || errorStreak >= 4)
      && (l == Protect <==>
            !(freeInternal < 5120 || queueFillPct >= 75 || errorStreak >= 4)
            && (freeInternal < 8192 || queueFillPct >= 50 || errorStreak == 3))
      && (l == Normal <==> freeInternal >= 12288 && queueFillPct < 25 && errorStreak < 3)
  {
  }

  /** Less free heap, a fuller queue or a longer error streak never lowers the level. */
  lemma EvalMonotone(b: BudgetConfig, free1: nat, fill1: nat, streak1: nat, free2: nat, fill2: nat, streak2: nat)
    requires free1 >= free2 && fill1 <= fill2 && streak1 <= streak2
    ensures Rank(EvalBgBudgetLevel(b, free1, fill1, streak1)) <= Rank(EvalBgBudgetLevel(b, free2, fill2, streak2))
  {
    var l1 := HeapQueueLevel(b, free1, fill1);
    var l2 := HeapQueueLevel(b, free2, fill2);
    assert Rank(l1) <= Rank(l2);
  }

  /** One interval per level (the initial, priority and periodic tables each have this shape). */
  datatype IntervalTable = IntervalTable(normal: int, pressure: int, protect: int, critical: int)

  /** `ha_client_interval_{initial,priority,periodic}_step_ms`. */
  function IntervalStep(t: IntervalTable, l: Level): (ms: int)
    ensures l == Normal ==> ms == t.normal
    ensures l == Pressure ==> ms == t.pressure
    ensures l == Protect ==> ms == t.protect
    ensures l == Critical ==> ms == t.critical
  {
    match l
    case Normal => t.normal
    case Pressure => t.pressure
    case Protect => t.protect
    case Critical => t.critical
  }

  /** A table whose entries grow with the severity gives steps that grow with the level. */
  lemma IntervalStepMonotone(t: IntervalTable, a: Level, b: Level)
    requires t.normal <= t.pressure <= t.protect <= t.critical && Rank(a) <= Rank(b)
    ensures IntervalStep(t, a) <= IntervalStep(t, b)
  {
  }

  /** The three tables `ha_client.c` defines, in milliseconds. */
  const InitialTable: IntervalTable := IntervalTable(200, 500, 1500, 3000)
  const PriorityTable: IntervalTable := IntervalTable(300, 700, 1500, 3000)
  const PeriodicTable: IntervalTable := IntervalTable(1800000, 2700000, 3600000, 5400000)

  /** With the firmware's own tables, none of the three steps shrinks as the level rises. */
  lemma FirmwareStepsMonotone(a: Level, b: Level)
    requires Rank(a) <= Rank(b)
    ensures IntervalStep(InitialTable, a) <= IntervalStep(InitialTable, b)
    ensures IntervalStep(PriorityTable, a) <= IntervalStep(PriorityTable, b)
    ensures IntervalStep(PeriodicTable, a) <= IntervalStep(PeriodicTable, b)
  {
    IntervalStepMonotone(InitialTable, a, b);
    IntervalStepMonotone(PriorityTable, a, b);
    IntervalStepMonotone(PeriodicTable, a, b);
  }

  /** Under every level, the periodic re-sync waits at least half an hour and the other two at most three seconds. */
  lemma FirmwareStepRanges(l: Level)
    ensures 200 <= IntervalStep(InitialTable, l) <= 3000
    ensures 300 <= IntervalStep(PriorityTable, l) <= 3000
    ensures 1800000 <= IntervalStep(PeriodicTable, l) <= 5400000
  {
  }

  /** `ha_client_http_open_budget_per_minute`: 120, 40, 12 and 4 HTTP opens. */
  function HttpOpenBudgetPerMinute(l: Level): (n: nat)
    ensures 4 <= n <= 120
    ensures n == 120 <==> l == Normal
    ensures n == 40 <==> l == Pressure
    ensures n == 12 <==> l == Protect
    ensures n == 4 <==> l == Critical
  {
    match l
    case Normal => 120
    case Pressure => 40
    case Protect => 12
    case Critical => 4
  }

  /** A more severe level never allows more HTTP opens. */
  lemma HttpBudgetNonIncreasing(a: Level, b: Level)
    requires Rank(a) <= Rank(b)
    ensures HttpOpenBudgetPerMinute(a) >= HttpOpenBudgetPerMinute(b)
  {
  }

  // ---------------------------------------------------------------------------
  // The priority re-sync queue: 16 slots used as a ring.

  const QueueLen: nat := 16

  datatype SyncQueue = SyncQueue(slots: seq<string>, head: nat, tail: nat, count: nat)

  predicate QueueInv(q: SyncQueue)
  {
    && |q.slots| == QueueLen && q.head < QueueLen && q.tail < QueueLen && q.count <= QueueLen
    && q.tail == (q.head + q.count) % QueueLen
  }

  function EmptyQueue(): (q: SyncQueue)
    ensures QueueInv(q) && Pending(q) == []
  {
    SyncQueue(seq(QueueLen, _ => ""), 0, 0, 0)
  }

  /** The queued ids, oldest first. */
  function Pending(q: SyncQueue): (p: seq<string>)
    requires QueueInv(q)
    ensures |p| == q.count
    ensures forall i :: 0 <= i < q.count ==> p[i] == q.slots[(q.head + i) % QueueLen]
  {
    seq(q.count, i requires 0 <= i < q.count => q.slots[(q.head + i) % QueueLen])
  }

  /** `..._priority_sync_queue_contains_locked`: an empty id is never queued. */
  predicate QueueContains(q: SyncQueue, id: string, maxLen: nat)
    requires QueueInv(q)
  {
    id != "" && exists i :: 0 <= i < |Pending(q)| && SameUpTo(Pending(q)[i], id, maxLen)
  }

  /**
   * `..._priority_sync_queue_push_locked`: an empty or already queued id is
   * ignored; otherwise a full queue first drops its oldest entry, and the id
   * (cut to the entry buffer) joins at the back.
   */
  function Push(q: SyncQueue, id: string, maxLen: nat): (r: SyncQueue)
    requires QueueInv(q) && maxLen > 0
    ensures QueueInv(r)
    ensures id == "" || QueueContains(q, id, maxLen) ==> r == q
    ensures !(id == "" || QueueContains(q, id, maxLen)) ==>
      Pending(r) == (if q.count == QueueLen then Pending(q)[1..] else Pending(q)) + [Fit(id, maxLen)]
  {
    if id == "" || QueueContains(q, id, maxLen) then q
    else
      var q1 := if q.count >= QueueLen then q.(head := (q.head + 1) % QueueLen, count := q.count - 1) else q;
      var r := SyncQueue(q1.slots[q1.tail := Fit(id, maxLen)], q1.head, (q1.tail + 1) % QueueLen, q1.count + 1);
      PushPending(q, q1, r, Fit(id, maxLen));
      r
  }

  lemma PushPending(q: SyncQueue, q1: SyncQueue, r: SyncQueue, x: string)
    requires QueueInv(q)
    requires q1 == if q.count >= QueueLen then q.(head := (q.head + 1) % QueueLen, count := q.count - 1) else q
    requires r == SyncQueue(q1.slots[q1.tail := x], q1.head, (q1.tail + 1) % QueueLen, q1.count + 1)
    ensures QueueInv(q1) && QueueInv(r)
    ensures Pending(q1) == (if q.count == QueueLen then Pending(q)[1..] else Pending(q))
    ensures Pending(r) == Pending(q1) + [x]
  {
    if q.count == QueueLen {
      DropOldest(q, q1);
    }
    AppendAtTail(q1, r, x);
  }

  lemma DropOldest(q: SyncQueue, q1: SyncQueue)
    requires QueueInv(q) && q.count == QueueLen
    requires q1 == q.(head := (q.head + 1) % QueueLen, count := q.count - 1)
    ensures QueueInv(q1) && Pending(q1) == Pending(q)[1..]
  {
    forall i | 0 <= i < q1.count
      ensures Pending(q1)[i] == Pending(q)[1..][i]
    {
      SlotStep(q.head, i);
    }
  }

  lemma AppendAtTail(q1: SyncQueue, r: SyncQueue, x: string)
    requires QueueInv(q1) && q1.count < QueueLen
    requires r == SyncQueue(q1.slots[q1.tail := x], q1.head, (q1.tail + 1) % QueueLen, q1.count + 1)
    ensures QueueInv(r) && Pending(r) == Pending(q1) + [x]
  {
    assert r.tail == (r.head + r.count) % QueueLen by { SlotStep(q1.head, q1.count); }
    forall i | 0 <= i < r.count
      ensures Pending(r)[i] == (Pending(q1) + [x])[i]
    {
      AppendAtTailAt(q1, r, x, i);
    }
  }

  lemma AppendAtTailAt(q1: SyncQueue, r: SyncQueue, x: string, i: nat)
    requires QueueInv(q1) && q1.count < QueueLen && QueueInv(r)
    requires r == SyncQueue(q1.slots[q1.tail := x], q1.head, (q1.tail + 1) % QueueLen, q1.count + 1)
    requires i < r.count
    ensures Pending(r)[i] == (Pending(q1) + [x])[i]
  {
    SlotsDiffer(q1.head, i, q1.count);
    if i < q1.count {
      assert Pending(r)[i] == r.slots[(q1.head + i) % QueueLen];
    }
  }

  /** Moving the head one slot on is the same as looking one entry further. */
  lemma SlotStep(h: nat, i: nat)
    requires h < QueueLen && i < QueueLen
    ensures ((h + 1) % QueueLen + i) % QueueLen == (h + (i + 1)) % QueueLen
  {
    if h + 1 == QueueLen {
      assert (h + 1) % QueueLen == 0;
    }
  }

  /** Distinct positions of a queue that is not full sit in distinct slots. */
  lemma SlotsDiffer(h: nat, i: nat, c: nat)
    requires h < QueueLen && i <= c < QueueLen
    ensures (h + i) % QueueLen == (h + c) % QueueLen <==> i == c
  {
    assert (h + i) % QueueLen == (if h + i < QueueLen then h + i else h + i - QueueLen);
    assert (h + c) % QueueLen == (if h + c < QueueLen then h + c else h + c - QueueLen);
  }

  /** `..._priority_sync_queue_pop_locked`: the oldest id, cut to the output buffer; an empty queue fails. */
  function Pop(q: SyncQueue, outLen: nat): (r: Option<(string, SyncQueue)>)
    requires QueueInv(q)
    ensures r.None? <==> outLen == 0 || q.count == 0
    ensures r.Some? ==>
      && QueueInv(r.value.1)
      && r.value.0 == Fit(Pending(q)[0], outLen)
      && Pending(r.value.1) == Pending(q)[1..]
      && (r.value.1.count == 0 ==> r.value.1.tail == r.value.1.head)
  {
    if outLen == 0 || q.count == 0 then None
    else
      var out := Fit(q.slots[q.head], outLen);
      var head := (q.head + 1) % QueueLen;
      var r := SyncQueue(q.slots[q.head := ""], head, if q.count - 1 == 0 then head else q.tail, q.count - 1);
      PopPending(q, r);
      Some((out, r))
  }

  lemma PopPending(q: SyncQueue, r: SyncQueue)
    requires QueueInv(q) && q.count > 0
    requires r == SyncQueue(q.slots[q.head := ""], (q.head + 1) % QueueLen,
                            if q.count - 1 == 0 then (q.head + 1) % QueueLen else q.tail, q.count - 1)
    ensures QueueInv(r) && Pending(r) == Pending(q)[1..]
  {
    SlotStep(q.head, q.count - 1);
    forall i | 0 <= i < r.count
      ensures Pending(r)[i] == Pending(q)[1..][i]
    {
      PopPendingAt(q, r, i);
    }
  }

  lemma PopPendingAt(q: SyncQueue, r: SyncQueue, i: nat)
    requires QueueInv(q) && q.count > 0 && QueueInv(r)
    requires r == SyncQueue(q.slots[q.head := ""], (q.head + 1) % QueueLen,
                            if q.count - 1 == 0 then (q.head + 1) % QueueLen else q.tail, q.count - 1)
    requires i < r.count
    ensures Pending(r)[i] == Pending(q)[1..][i]
  {
    SlotStep(q.head, i);
    SlotsDiffer(q.head, 0, i + 1);
    assert Pending(q)[1..][i] == q.slots[(q.head + (i + 1)) % QueueLen];
  }

  /** No two queued entries are the same. */
  predicate Distinct(q: SyncQueue)
    requires QueueInv(q)
  {
    forall i, j :: 0 <= i < j < |Pending(q)| ==> Pending(q)[i] != Pending(q)[j]
  }

  /** Every queued entry fits its `maxLen`-byte buffer. */
  predicate Short(q: SyncQueue, maxLen: nat)
    requires QueueInv(q)
  {
    forall i :: 0 <= i < |Pending(q)| ==> |Pending(q)[i]| < maxLen
  }

  /** Pushing an id that fits the entry buffer keeps the queue free of duplicates. */
  lemma PushKeepsDistinct(q: SyncQueue, id: string, maxLen: nat)
    requires QueueInv(q) && maxLen > 0 && Distinct(q) && Short(q, maxLen) && |id| < maxLen
    ensures Distinct(Push(q, id, maxLen)) && Short(Push(q, id, maxLen), maxLen)
  {
    var r := Push(q, id, maxLen);
    if !(id == "" || QueueContains(q, id, maxLen)) {
      var p := Pending(q);
      var kept := if q.count == QueueLen then p[1..] else p;
      assert Fit(id, maxLen) == id;
      forall i | 0 <= i < |kept|
        ensures kept[i] != id && |kept[i]| < maxLen
      {
        var k := if q.count == QueueLen then i + 1 else i;
        assert kept[i] == p[k];
        SameUpToShort(p[k], id, maxLen);
      }
      assert Pending(r) == kept + [id];
    }
  }

  // ---------------------------------------------------------------------------

  /** `ha_client_parse_ws_endpoint`: the same grammar as `parse_ws_uri`, without the path. */
  function ParseWsEndpoint(url: string, hostSize: nat): (r: Option<(bool, string, int)>)
    ensures r.Some? <==> HaWs.ParseWsUri(url, hostSize).Some?
    ensures r.Some? ==> r.value == (HaWs.ParseWsUri(url, hostSize).value.secure,
                                    HaWs.ParseWsUri(url, hostSize).value.host,
                                    HaWs.ParseWsUri(url, hostSize).value.port)
  {
    match HaWs.ParseWsUri(url, hostSize)
    case None => None
    case Some(e) => Some((e.secure, e.host, e.port))
  }

  // ---------------------------------------------------------------------------
  // The layout entity signature.

  /** `strncmp` order on NUL-free texts: byte-wise, a proper prefix first. */
  predicate LexLess(a: string, b: string)
    decreases |a|
  {
    |b| > 0 && (|a| == 0 || a[0] < b[0] || (a[0] == b[0] && LexLess(a[1..], b[1..])))
  }

  predicate LexLe(a: string, b: string)
  {
    a == b || LexLess(a, b)
  }

  lemma {:induction false} LexTotal(a: string, b: string)
    ensures LexLe(a, b) || LexLe(b, a)
    decreases |a|
  {
    if |a| > 0 && |b| > 0 && a[0] == b[0] {
      LexTotal(a[1..], b[1..]);
      if a[1..] == b[1..] {
        assert a == [a[0]] + a[1..] && b == [b[0]] + b[1..];
      }
    }
  }

  lemma {:induction false} LexAntisymmetric(a: string, b: string)
    requires LexLess(a, b)
    ensures !LexLess(b, a) && a != b
    decreases |a|
  {
    if |a| > 0 && a[0] == b[0] {
      LexAntisymmetric(a[1..], b[1..]);
    }
  }

  lemma {:induction false} LexTransitive(a: string, b: string, c: string)
    requires LexLess(a, b) && LexLess(b, c)
    ensures LexLess(a, c)
    decreases |a|
  {
    if |a| > 0 && a[0] == b[0] && b[0] == c[0] {
      LexTransitive(a[1..], b[1..], c[1..]);
    }
  }

  predicate Sorted(s: seq<string>)
  {
    forall i, j :: 0 <= i < j < |s| ==> LexLe(s[i], s[j])
  }

  function Insert(x: string, s: seq<string>): (r: seq<string>)
    requires Sorted(s)
    ensures Sorted(r) && multiset(r) == multiset(s) + multiset{x}
  {
    if |s| == 0 then [x]
    else if LexLe(x, s[0]) then
      FrontBelow(x, s);
      SortedCons(x, s);
      [x] + s
    else
      LexTotal(x, s[0]);
      var t := Insert(x, s[1..]);
      assert s == [s[0]] + s[1..];
      BelowAllOf(s[0], s[1..], x, t);
      SortedCons(s[0], t);
      [s[0]] + t
  }

  /** A text at most the head of a sorted sequence is at most every entry. */
  lemma FrontBelow(x: string, s: seq<string>)
    requires Sorted(s) && |s| > 0 && LexLe(x, s[0])
    ensures forall j :: 0 <= j < |s| ==> LexLe(x, s[j])
  {
    forall j | 0 < j < |s|
      ensures LexLe(x, s[j])
    {
      if x != s[0] && s[0] != s[j] { LexTransitive(x, s[0], s[j]); }
    }
  }

  lemma SortedCons(x: string, s: seq<string>)
    requires Sorted(s) && forall j :: 0 <= j < |s| ==> LexLe(x, s[j])
    ensures Sorted([x] + s)
  {
    var r := [x] + s;
    forall i, j | 0 <= i < j < |r|
      ensures LexLe(r[i], r[j])
    {
      assert r[j] == s[j - 1];
      if i > 0 { assert r[i] == s[i - 1]; }
    }
  }

  /** The head of a sorted sequence is at most every entry of its tail with one more text above it inserted. */
  lemma BelowAllOf(y: string, u: seq<string>, x: string, t: seq<string>)
    requires Sorted([y] + u) && LexLe(y, x) && multiset(t) == multiset(u) + multiset{x}
    ensures forall j :: 0 <= j < |t| ==> LexLe(y, t[j])
  {
    forall j | 0 <= j < |t|
      ensures LexLe(y, t[j])
    {
      assert t[j] in multiset(t);
      if t[j] != x {
        assert t[j] in multiset(u);
        assert t[j] in u;
        var k :| 0 <= k < |u| && u[k] == t[j];
        assert ([y] + u)[0] == y && ([y] + u)[k + 1] == t[j];
      }
    }
  }

  /** The order `qsort` leaves the ids in (a sorted order of equal texts is unique). */
  function SortIds(s: seq<string>): (r: seq<string>)
    ensures Sorted(r) && multiset(r) == multiset(s)
  {
    if |s| == 0 then [] else
      assert s == [s[0]] + s[1..];
      Insert(s[0], SortIds(s[1..]))
  }

  /** Two sorted sequences of the same texts are the same sequence. */
  lemma {:induction false} SortedUnique(a: seq<string>, b: seq<string>)
    requires Sorted(a) && Sorted(b) && multiset(a) == multiset(b)
    ensures a == b
    decreases |a|
  {
    if |a| > 0 {
      assert |b| == |multiset(b)| == |a|;
      assert a[0] in multiset(b) && b[0] in multiset(a);
      var i :| 0 <= i < |b| && b[i] == a[0];
      var j :| 0 <= j < |a| && a[j] == b[0];
      if i > 0 { assert LexLe(b[0], b[i]); }
      if j > 0 { assert LexLe(a[0], a[j]); }
      if a[0] != b[0] { LexAntisymmetric(a[0], b[0]); }
      assert a[0] == b[0];
      assert a == [a[0]] + a[1..] && b == [b[0]] + b[1..];
      assert multiset(a) == multiset{a[0]} + multiset(a[1..]);
      assert multiset(b) == multiset{b[0]} + multiset(b[1..]);
      forall x
        ensures multiset(a[1..])[x] == multiset(b[1..])[x]
      {
        assert multiset(a)[x] == multiset(b)[x];
      }
      assert multiset(a[1..]) == multiset(b[1..]);
      SortedUnique(a[1..], b[1..]);
    }
  }

  const FnvOffset: bv32 := 2166136261
  const FnvPrime: bv32 := 16777619

  /** The byte a character of an entity id is stored as. */
  function Byte(c: char): bv32
  {
    ((c as int) % 256) as bv32
  }

  /** FNV-1a over the bytes of one id. */
  function HashText(h: bv32, s: string): bv32
    decreases |s|
  {
    if |s| == 0 then h else HashText((h ^ Byte(s[0])) * FnvPrime, s[1..])
  }

  /** Each id hashed, then the 0xFF delimiter. */
  function HashIds(h: bv32, ids: seq<string>): bv32
    decreases |ids|
  {
    if |ids| == 0 then h else HashIds((HashText(h, ids[0]) ^ 0xFF) * FnvPrime, ids[1..])
  }

  /** `ha_client_layout_entity_signature`: 0 for no ids, else FNV-1a of the sorted ids. */
  function LayoutEntitySignature(ids: seq<string>): (r: bv32)
    ensures |ids| == 0 ==> r == 0
    ensures |ids| > 0 ==> r == HashIds(FnvOffset, SortIds(ids))
  {
    if |ids| == 0 then 0 else HashIds(FnvOffset, SortIds(ids))
  }

  /** The signature depends on which ids the layout binds, not on their order. */
  lemma SignatureOrderIndependent(a: seq<string>, b: seq<string>)
    requires multiset(a) == multiset(b)
    ensures LayoutEntitySignature(a) == LayoutEntitySignature(b)
  {
    assert |a| == |multiset(a)| == |b|;
    SortedUnique(SortIds(a), SortIds(b));
  }

  // ---------------------------------------------------------------------------

  /**
   * `ha_client_expected_state_from_service`: the state a service call should
   * lead to. A toggle is predicted only for a named entity whose current
   * state is on or off.
   */
  function ExpectedStateFromService(service: string, entityId: string, current: string): (r: Option<string>)
    ensures r.Some? ==> r.value in {"on", "off", "open", "closed"}
    ensures service !in {"turn_on", "turn_off", "open_cover", "close_cover", "toggle"} ==> r.None?
    ensures service == "toggle" ==> (r.Some? <==> entityId != "" && current in {"on", "off"})
    ensures service == "toggle" && r.Some? ==> r.value != current
  {
    if service == "" then None
    else if service == "turn_on" then Some("on")
    else if service == "turn_off" then Some("off")
    else if service == "open_cover" then Some("open")
    else if service == "close_cover" then Some("closed")
    else if service == "toggle" && entityId != "" && current != "" then
      if current == "on" then Some("off")
      else if current == "off" then Some("on")
      else None
    else None
  }

  /** Toggling twice predicts the state the entity started in. */
  lemma ToggleTwice(entityId: string, current: string)
    requires entityId != "" && current in {"on", "off"}
    ensures ExpectedStateFromService("toggle", entityId, ExpectedStateFromService("toggle", entityId, current).value)
      == Some(current)
  {
  }

  // ---------------------------------------------------------------------------

  function Pow2(k: nat): (r: nat)
    ensures r >= 1
  {
    if k == 0 then 1 else 2 * Pow2(k - 1)
  }

  /** The restart wait before jitter: the base doubled once per error (at most four times), capped. */
  function BackoffBase(base: int, cap: int, streak: nat): int
  {
    if streak == 0 then base else Min(base * Pow2(Min(streak, 4)), cap)
  }

  /**
   * The WebSocket restart wait of the client task: `base` doubled `min(streak,
   * 4)` times, stopping at `cap`, plus `random % (jitter + 1)`. `random`
   * stands for `esp_random()`.
   */
  method WsRestartWait(base: int, cap: int, streak: nat, jitter: nat, random: nat) returns (wait: int)
    requires base > 0
    ensures wait == BackoffBase(base, cap, streak) + random % (jitter + 1)
    ensures base <= cap ==> base <= wait - random % (jitter + 1) <= cap
  {
    wait := base;
    if streak > 0 {
      var steps := if streak > 4 then 4 else streak;
      var i := 0;
      var capped := false;
      while i < steps && !capped
        invariant 0 <= i <= steps
        invariant !capped ==> wait == base * Pow2(i) && (i > 0 ==> wait < cap)
        invariant capped ==> wait == cap && base * Pow2(steps) >= cap
        decreases steps - i, if capped then 0 else 1
      {
        DoubleStep(base, i);
        wait := wait * 2;
        if wait >= cap {
          CapStays(base, cap, i + 1, steps);
          wait := cap;
          capped := true;
        } else {
          i := i + 1;
        }
      }
      PowAtLeast(base, steps);
    }
    wait := wait + (random % (jitter + 1));
  }

  /** `HA_WS_RESTART_INTERVAL_MS`, `HA_WS_RESTART_INTERVAL_MAX_MS` and `HA_WS_RESTART_JITTER_MS`. */
  const RestartIntervalMs: int := 12000
  const RestartIntervalMaxMs: int := 30000
  const RestartJitterMs: nat := 1000

  /** With the firmware's constants the wait before jitter is 12 s, then 24 s, then 30 s from the second error on. */
  lemma FirmwareBackoff(streak: nat)
    ensures BackoffBase(RestartIntervalMs, RestartIntervalMaxMs, streak)
      == if streak == 0 then 12000 else if streak == 1 then 24000 else 30000
  {
    if streak >= 2 {
      Pow2Monotone(2, Min(streak, 4));
      assert Pow2(2) == 4;
    }
  }

  lemma DoubleStep(base: int, i: nat)
    ensures base * Pow2(i) * 2 == base * Pow2(i + 1)
  {
    assert Pow2(i + 1) == 2 * Pow2(i);
  }

  lemma PowAtLeast(base: int, k: nat)
    requires base > 0
    ensures base * Pow2(k) >= base
  {
    assert base * Pow2(k) >= base * 1;
  }

  /** Once the doubling reaches the cap, further doublings stay above it. */
  lemma {:induction false} CapStays(base: int, cap: int, i: nat, steps: nat)
    requires base > 0 && base * Pow2(i) >= cap && i <= steps
    ensures base * Pow2(steps) >= cap
    decreases steps - i
  {
    if i < steps {
      assert Pow2(i + 1) == 2 * Pow2(i);
      assert base * Pow2(i + 1) == 2 * (base * Pow2(i));
      CapStays(base, cap, i + 1, steps);
    }
  }

  /** A longer error streak never shortens the wait. */
  lemma BackoffMonotone(base: int, cap: int, s1: nat, s2: nat)
    requires 0 < base <= cap && s1 <= s2
    ensures BackoffBase(base, cap, s1) <= BackoffBase(base, cap, s2)
  {
    if s1 > 0 {
      Pow2Monotone(Min(s1, 4), Min(s2, 4));
      assert base * Pow2(Min(s1, 4)) <= base * Pow2(Min(s2, 4));
    } else if s2 > 0 {
      assert base * Pow2(Min(s2, 4)) >= base * 1;
    }
  }

  lemma {:induction false} Pow2Monotone(a: nat, b: nat)
    requires a <= b
    ensures Pow2(a) <= Pow2(b)
    decreases b
  {
    if a < b { Pow2Monotone(a, b - 1); }
  }
}

=== FILE: ha_model.dfy ===
/**
 * The firmware's Home Assistant model: a bounded entity table, a bounded
 * state table and a revision counter that counts state changes. Texts are
 * compared whole; every stored text is shorter than its buffer, so the
 * `strncmp` comparisons of the source coincide with equality.
 */
module HaModel {
  import opened Wrappers
  import opened CStr

  datatype Entity = Entity(id: string, name: string, domain: string, unit: string, deviceClass: string,
                           supportedFeatures: nat, icon: string)

  datatype State = State(entityId: string, state: string, attributes: string, lastChangedMs: int)

  /** The capacities of the two tables and the sizes of the text buffers a stub entity is built into. */
  datatype Capacity = Capacity(maxEntities: nat, maxStates: nat, idSize: nat, nameSize: nat)

  datatype Model = Model(entities: seq<Entity>, states: seq<State>, revision: nat)

  datatype Status = Done | InvalidArg | NoMem

  const Uint32Modulus: nat := 0x1_0000_0000

  /** `s_state_revision++` on a `uint32_t`. */
  function Bump(revision: nat): nat
  {
    (revision + 1) % Uint32Modulus
  }

  predicate UniqueEntityIds(es: seq<Entity>)
  {
    forall i, j :: 0 <= i < j < |es| ==> es[i].id != es[j].id
  }

  predicate UniqueStateIds(ss: seq<State>)
  {
    forall i, j :: 0 <= i < j < |ss| ==> ss[i].entityId != ss[j].entityId
  }

  /** What the model's operations keep true. */
  predicate Valid(c: Capacity, m: Model)
  {
    && |m.entities| <= c.maxEntities && |m.states| <= c.maxStates
    && UniqueEntityIds(m.entities) && UniqueStateIds(m.states)
    && m.revision < Uint32Modulus
  }

  /** `safe_copy_cstr`: at most `size - 1` characters; a null source gives "". */
  function SafeCopy(src: Option<string>, size: nat): (r: string)
    requires size > 0
    ensures |r| < size
    ensures src.None? ==> r == ""
    ensures src.Some? ==> StartsWith(src.value, r) && |r| == Min(|src.value|, size - 1)
  {
    match src
    case None => ""
    case Some(s) => Fit(s, size)
  }

  /** A case-insensitive match of `needle` at position `i` of `hay`. */
  predicate MatchesAt(hay: string, needle: string, i: nat)
  {
    i + |needle| <= |hay| && forall j :: 0 <= j < |needle| ==> ToLower(hay[i + j]) == ToLower(needle[j])
  }

  function AnyMatchFrom(hay: string, needle: string, i: nat): (r: bool)
    requires |needle| <= |hay|
    ensures r <==> exists k :: i <= k <= |hay| - |needle| && MatchesAt(hay, needle, k)
    decreases |hay| - i
  {
    if i > |hay| - |needle| then false
    else MatchesAt(hay, needle, i) || AnyMatchFrom(hay, needle, i + 1)
  }

  /** `contains_case_insensitive`: an empty or null needle is found anywhere, a null haystack holds nothing else. */
  function ContainsCaseInsensitive(hay: Option<string>, needle: Option<string>): (r: bool)
    ensures needle.None? || needle.value == "" ==> r
    ensures needle.Some? && needle.value != "" && hay.None? ==> !r
    ensures needle.Some? && hay.Some? ==>
      (r <==> exists k :: 0 <= k <= |hay.value| - |needle.value| && MatchesAt(hay.value, needle.value, k))
  {
    if needle.None? then true
    else if needle.value == "" then
      if hay.Some? then assert MatchesAt(hay.value, needle.value, 0); true else true
    else if hay.None? then false
    else if |needle.value| > |hay.value| then false
    else AnyMatchFrom(hay.value, needle.value, 0)
  }

  /** Case-insensitive search reduces to a plain search of the lower-cased texts. */
  lemma ContainsIsLowerSearch(hay: string, needle: string)
    requires needle != ""
    ensures ContainsCaseInsensitive(Some(hay), Some(needle)) <==> Contains(Lower(hay), Lower(needle))
  {
    var h, n := Lower(hay), Lower(needle);
    if ContainsCaseInsensitive(Some(hay), Some(needle)) {
      var k :| 0 <= k <= |hay| - |needle| && MatchesAt(hay, needle, k);
      assert h[k..k + |n|] == n;
      assert OccursAt(h, n, k);
    }
    if Contains(h, n) {
      var k :| 0 <= k <= |h| && OccursAt(h, n, k);
      forall j | 0 <= j < |needle|
        ensures ToLower(hay[k + j]) == ToLower(needle[j])
      {
        assert h[k..k + |n|][j] == n[j];
      }
      assert MatchesAt(hay, needle, k);
    }
  }

  /** `fill_domain`: the text before the first dot, cut to the buffer, or "unknown" without a dot. */
  function FillDomain(entityId: string, size: nat): (r: string)
    requires size > 0
    ensures |r| < size
    ensures '.' !in entityId ==> r == Fit("unknown", size)
    ensures '.' in entityId ==>
      (StartsWith(entityId, r) && '.' !in r && (|r| == size - 1 || (|r| < |entityId| && entityId[|r|] == '.')))
  {
    match IndexOf(entityId, '.')
    case None => Fit("unknown", size)
    case Some(k) =>
      var r := Fit(entityId[..k], size);
      assert forall i :: 0 <= i < |r| ==> r[i] == entityId[i];
      r
  }

  function FindEntity(es: seq<Entity>, id: string): (r: Option<nat>)
    ensures r.Some? ==> r.value < |es| && es[r.value].id == id
    ensures r.Some? ==> forall i :: 0 <= i < r.value ==> es[i].id != id
    ensures r.None? <==> forall i :: 0 <= i < |es| ==> es[i].id != id
  {
    if |es| == 0 then None
    else if es[0].id == id then Some(0)
    else match FindEntity(es[1..], id)
      case None => None
      case Some(k) => Some(k + 1)
  }

  function FindState(ss: seq<State>, id: string): (r: Option<nat>)
    ensures r.Some? ==> r.value < |ss| && ss[r.value].entityId == id
    ensures r.Some? ==> forall i :: 0 <= i < r.value ==> ss[i].entityId != id
    ensures r.None? <==> forall i :: 0 <= i < |ss| ==> ss[i].entityId != id
  {
    if |ss| == 0 then None
    else if ss[0].entityId == id then Some(0)
    else match FindState(ss[1..], id)
      case None => None
      case Some(k) => Some(k + 1)
  }

  /** `ha_model_upsert_entity`: replace the record with the same id in place, else append while there is room. */
  function UpsertEntity(c: Capacity, m: Model, e: Entity): (r: (Status, Model))
    ensures e.id == "" ==> r == (InvalidArg, m)
    ensures e.id != "" && FindEntity(m.entities, e.id).Some? ==>
      r == (Done, m.(entities := m.entities[FindEntity(m.entities, e.id).value := e]))
    ensures e.id != "" && FindEntity(m.entities, e.id).None? && |m.entities| >= c.maxEntities ==> r == (NoMem, m)
    ensures e.id != "" && FindEntity(m.entities, e.id).None? && |m.entities| < c.maxEntities ==>
      r == (Done, m.(entities := m.entities + [e]))
    ensures Valid(c, m) ==> Valid(c, r.1)
    ensures r.1.states == m.states && r.1.revision == m.revision
  {
    if e.id == "" then (InvalidArg, m)
    else match FindEntity(m.entities, e.id)
      case Some(k) =>
        var es := m.entities[k := e];
        assert forall i :: 0 <= i < |es| ==> es[i].id == m.entities[i].id;
        (Done, m.(entities := es))
      case None =>
        if |m.entities| >= c.maxEntities then (NoMem, m)
        else (Done, m.(entities := m.entities + [e]))
  }

  /** The entity `ha_model_upsert_state` adds for a state of an unknown entity: named by its id, with its domain. */
  function Stub(c: Capacity, entityId: string): Entity
    requires c.idSize > 0 && c.nameSize > 0
  {
    Entity(SafeCopy(Some(entityId), c.idSize), SafeCopy(Some(entityId), c.nameSize), FillDomain(entityId, c.nameSize),
           "", "", 0, "")
  }

  /** Adds the stub when no entity has the id and there is room. */
  function WithStub(c: Capacity, es: seq<Entity>, entityId: string): (r: seq<Entity>)
    requires c.idSize > 0 && c.nameSize > 0
    ensures FindEntity(es, entityId).None? && |es| < c.maxEntities ==> r == es + [Stub(c, entityId)]
    ensures !(FindEntity(es, entityId).None? && |es| < c.maxEntities) ==> r == es
  {
    if FindEntity(es, entityId).None? && |es| < c.maxEntities then es + [Stub(c, entityId)] else es
  }

  /**
   * `ha_model_upsert_state`: an identical state changes nothing; a new or
   * changed one is stored, adds the stub entity when there is none, and
   * bumps the revision once; a full table is an error with nothing changed.
   */
  function UpsertState(c: Capacity, m: Model, st: State): (r: (Status, Model))
    requires c.idSize > 0 && c.nameSize > 0
    ensures st.entityId == "" ==> r == (InvalidArg, m)
    ensures st.entityId != "" && FindState(m.states, st.entityId).Some? && m.states[FindState(m.states, st.entityId).value] == st ==>
      r == (Done, m)
    ensures st.entityId != "" && FindState(m.states, st.entityId).None? && |m.states| >= c.maxStates ==> r == (NoMem, m)
    ensures r.0 == Done && r.1 != m ==>
      && r.1.revision == Bump(m.revision)
      && GetState(r.1, st.entityId) == Some(st)
      && r.1.entities == WithStub(c, m.entities, st.entityId)
    ensures r.0 != Done ==> r.1 == m
    ensures Valid(c, m) && c.idSize > |st.entityId| ==> Valid(c, r.1)
  {
    if st.entityId == "" then (InvalidArg, m)
    else match FindState(m.states, st.entityId)
      case Some(k) =>
        if m.states[k] == st then (Done, m)
        else
          var ss := m.states[k := st];
          assert forall i :: 0 <= i < |ss| ==> ss[i].entityId == m.states[i].entityId;
          StoredIsFound(ss, k);
          StubKeepsUnique(c, m.entities, st.entityId);
          (Done, Model(WithStub(c, m.entities, st.entityId), ss, Bump(m.revision)))
      case None =>
        if |m.states| >= c.maxStates then (NoMem, m)
        else
          var ss := m.states + [st];
          StoredIsFound(ss, |m.states|);
          StubKeepsUnique(c, m.entities, st.entityId);
          (Done, Model(WithStub(c, m.entities, st.entityId), ss, Bump(m.revision)))
  }

  lemma StoredIsFound(ss: seq<State>, k: nat)
    requires k < |ss| && forall i :: 0 <= i < k ==> ss[i].entityId != ss[k].entityId
    ensures FindState(ss, ss[k].entityId) == Some(k)
  {
    if k > 0 {
      StoredIsFound(ss[1..], k - 1);
    }
  }

  lemma StubKeepsUnique(c: Capacity, es: seq<Entity>, entityId: string)
    requires c.idSize > 0 && c.nameSize > 0
    ensures UniqueEntityIds(es) && c.idSize > |entityId| ==> UniqueEntityIds(WithStub(c, es, entityId))
  {
  }

  /** `ha_model_get_state`: the stored state of the entity, if any. */
  function GetState(m: Model, entityId: string): (r: Option<State>)
    ensures r.Some? <==> exists i :: 0 <= i < |m.states| && m.states[i].entityId == entityId
    ensures r.Some? ==> r.value in m.states && r.value.entityId == entityId
  {
    match FindState(m.states, entityId)
    case None => None
    case Some(k) => Some(m.states[k])
  }

  /** Storing a state and reading it back gives that state (when the table has room or already holds the id). */
  lemma UpsertThenGet(c: Capacity, m: Model, st: State)
    requires c.idSize > 0 && c.nameSize > 0 && Valid(c, m) && st.entityId != ""
    requires FindState(m.states, st.entityId).Some? || |m.states| < c.maxStates
    ensures GetState(UpsertState(c, m, st).1, st.entityId) == Some(st)
  {
    match FindState(m.states, st.entityId)
    case Some(k) =>
      if m.states[k] == st {
        assert GetState(m, st.entityId) == Some(st);
      }
    case None =>
  }

  /** Storing the same state twice bumps the revision at most once. */
  lemma UpsertStateTwice(c: Capacity, m: Model, st: State)
    requires c.idSize > 0 && c.nameSize > 0 && Valid(c, m) && c.idSize > |st.entityId|
    requires FindState(m.states, st.entityId).Some? || |m.states| < c.maxStates
    ensures var once := UpsertState(c, m, st).1;
      UpsertState(c, once, st) == (if st.entityId == "" then InvalidArg else Done, once)
  {
    var once := UpsertState(c, m, st).1;
    if st.entityId != "" {
      UpsertThenGet(c, m, st);
      var k := FindState(once.states, st.entityId).value;
      assert once.states[k] == st;
    }
  }

  /** The entity passes the domain filter and its id or name holds the search text. */
  predicate Listed(e: Entity, domainFilter: Option<string>, search: Option<string>)
  {
    && (domainFilter.None? || domainFilter.value == "" || domainFilter.value == e.domain)
    && (ContainsCaseInsensitive(Some(e.id), search) || ContainsCaseInsensitive(Some(e.name), search))
  }

  /** Every listed entity, in table order. */
  function AllListed(es: seq<Entity>, domainFilter: Option<string>, search: Option<string>): (r: seq<Entity>)
    ensures |r| <= |es|
  {
    if |es| == 0 then []
    else
      var last := es[|es| - 1];
      AllListed(es[..|es| - 1], domainFilter, search) + (if Listed(last, domainFilter, search) then [last] else [])
  }

  /** The listing holds exactly the table's entities that pass the filter. */
  lemma {:induction false} AllListedMembers(es: seq<Entity>, domainFilter: Option<string>, search: Option<string>)
    ensures forall e :: e in AllListed(es, domainFilter, search) <==> e in es && Listed(e, domainFilter, search)
  {
    if |es| > 0 {
      AllListedMembers(es[..|es| - 1], domainFilter, search);
      assert es == es[..|es| - 1] + [es[|es| - 1]];
    }
  }

  /** One more table entry adds itself to the listing exactly when it passes the filter. */
  lemma ListedStep(es: seq<Entity>, i: nat, domainFilter: Option<string>, search: Option<string>)
    requires i < |es|
    ensures AllListed(es[..i + 1], domainFilter, search)
      == AllListed(es[..i], domainFilter, search) + (if Listed(es[i], domainFilter, search) then [es[i]] else [])
  {
    assert es[..i + 1][..i] == es[..i];
  }

  /** What the loop of `ha_model_list_entities` holds when it stops is the capped listing. */
  lemma ListedResult(es: seq<Entity>, i: nat, domainFilter: Option<string>, search: Option<string>, maxOut: nat)
    requires i <= |es|
    requires |AllListed(es[..i], domainFilter, search)| <= maxOut
    requires i < |es| ==> |AllListed(es[..i], domainFilter, search)| == maxOut
    ensures var all := AllListed(es, domainFilter, search);
      AllListed(es[..i], domainFilter, search) == all[..Min(maxOut, |all|)]
  {
    ListedPrefix(es, i, domainFilter, search);
    if i == |es| {
      assert es[..i] == es;
    }
  }

  /** `ha_model_list_entities`: the first `maxOut` listed entities, in table order. */
  method ListEntities(m: Model, domainFilter: Option<string>, search: Option<string>, maxOut: nat)
    returns (out: seq<Entity>)
    ensures out == AllListed(m.entities, domainFilter, search)[..Min(maxOut, |AllListed(m.entities, domainFilter, search)|)]
    ensures |out| <= maxOut
    ensures forall e :: e in out ==> e in m.entities && Listed(e, domainFilter, search)
  {
    out := [];
    var i := 0;
    while i < |m.entities| && |out| < maxOut
      invariant 0 <= i <= |m.entities|
      invariant out == AllListed(m.entities[..i], domainFilter, search)
      invariant |out| <= maxOut
    {
      ListedStep(m.entities, i, domainFilter, search);
      if Listed(m.entities[i], domainFilter, search) {
        out := out + [m.entities[i]];
      }
      i := i + 1;
    }
    ListedResult(m.entities, i, domainFilter, search, maxOut);
    AllListedMembers(m.entities, domainFilter, search);
  }

  /** The entities listed from a prefix of the table are a prefix of those listed from all of it. */
  lemma {:induction false} ListedPrefix(es: seq<Entity>, i: nat, domainFilter: Option<string>, search: Option<string>)
    requires i <= |es|
    ensures var all := AllListed(es, domainFilter, search);
      var part := AllListed(es[..i], domainFilter, search);
      |part| <= |all| && all[..|part|] == part
  {
    if i < |es| {
      var init := es[..|es| - 1];
      ListedPrefix(init, i, domainFilter, search);
      assert init[..i] == es[..i];
      var part := AllListed(es[..i], domainFilter, search);
      var mid := AllListed(init, domainFilter, search);
      var all := AllListed(es, domainFilter, search);
      assert all[..|mid|] == mid;
      assert all[..|part|] == mid[..|part|];
    } else {
      assert es[..i] == es;
    }
  }

  /** `ha_model_reset`: both tables emptied, the revision bumped. */
  function Reset(m: Model): (r: Model)
    ensures r.entities == [] && r.states == [] && r.revision == Bump(m.revision)
    ensures forall id :: GetState(r, id).None?
  {
    Model([], [], Bump(m.revision))
  }
}

=== FILE: ha_ws.dfy ===
/**
 * The WebSocket URL grammar of the Home Assistant connection: a `ws://` or
 * `wss://` scheme, an authority whose last colon may carry a port, and an
 * optional path.
 */
module HaWs {
  import opened Wrappers
  import opened CStr

  datatype Endpoint = Endpoint(secure: bool, host: string, port: int, path: string)

  /** The scheme's security and the length of its text, when the URL has one of the two schemes. */
  function Scheme(uri: string): (r: Option<(bool, nat)>)
    ensures r.Some? ==> r.value.1 <= |uri|
  {
    if StartsWith(uri, "wss://") then Some((true, 6))
    else if StartsWith(uri, "ws://") then Some((false, 5))
    else None
  }

  /** The text after `://` up to the first `/`. */
  function Authority(rest: string): (a: string)
    ensures StartsWith(rest, a) && '/' !in a
    ensures |a| < |rest| ==> rest[|a|] == '/'
  {
    match IndexOf(rest, '/')
    case None => rest
    case Some(k) => rest[..k]
  }

  /** The port written after the authority's last colon replaces the default only when it is 1..65535. */
  function PortAfter(rest: string, authority: string, defaultPort: int): (p: int)
    requires StartsWith(rest, authority)
    ensures p == defaultPort || 1 <= p <= 65535
  {
    match LastIndexOf(authority, ':')
    case None => defaultPort
    case Some(c) =>
      if c + 1 < |authority| && 0 < Atoi(rest[c + 1..]) <= 65535 then Atoi(rest[c + 1..]) else defaultPort
  }

  /** The authority before its last colon (a host may itself hold colons). */
  function HostOf(authority: string): (h: string)
    ensures StartsWith(authority, h)
    ensures |h| < |authority| ==> authority[|h|] == ':' && ':' !in authority[|h| + 1..]
    ensures ':' !in authority ==> h == authority
  {
    match LastIndexOf(authority, ':')
    case None => authority
    case Some(c) => authority[..c]
  }

  /**
   * `parse_ws_uri`: the scheme fixes security and the default port (443 or
   * 80), the path is the text from the first `/` after the scheme (or "/"),
   * the host is the authority before its last colon and must be non-empty and
   * fit a buffer of `hostSize` bytes.
   */
  function ParseWsUri(uri: string, hostSize: nat): (r: Option<Endpoint>)
    ensures Scheme(uri).None? ==> r.None?
    ensures r.Some? ==>
      && Scheme(uri).Some? && r.value.secure == Scheme(uri).value.0
      && 0 < |r.value.host| < hostSize && '/' !in r.value.host
      && (r.value.port == (if r.value.secure then 443 else 80) || 1 <= r.value.port <= 65535)
      && |r.value.path| > 0 && r.value.path[0] == '/'
  {
    match Scheme(uri)
    case None => None
    case Some((secure, k)) =>
      var rest := uri[k..];
      var authority := Authority(rest);
      var path := if |authority| < |rest| then rest[|authority|..] else "/";
      var host := HostOf(authority);
      assert forall i :: 0 <= i < |host| ==> host[i] == authority[i];
      if |authority| == 0 || |host| == 0 || |host| >= hostSize then None
      else Some(Endpoint(secure, host, PortAfter(rest, authority, if secure then 443 else 80), path))
  }

  /** Writes the URL of an endpoint, the port always spelled out. */
  function FormatWsUri(e: Endpoint): string
    requires e.port >= 0
  {
    (if e.secure then "wss://" else "ws://") + e.host + ":" + NatToDec(e.port) + e.path
  }

  /** Parsing a written endpoint gives it back, for a non-empty host without `/` that fits its buffer. */
  lemma ParseFormatRoundTrip(e: Endpoint, hostSize: nat)
    requires 0 < |e.host| < hostSize && '/' !in e.host
    requires 1 <= e.port <= 65535 && |e.path| > 0 && e.path[0] == '/'
    ensures ParseWsUri(FormatWsUri(e), hostSize) == Some(e)
  {
    var authority := e.host + ":" + NatToDec(e.port);
    var rest := authority + e.path;
    SchemeOf(e);
    AuthorityOf(e.host, e.port, e.path);
    assert Authority(rest) == authority;
    assert rest[|authority|..] == e.path;
    HostAndPortOf(e.host, e.port, e.path);
    assert HostOf(authority) == e.host;
    assert PortAfter(rest, authority, if e.secure then 443 else 80) == e.port;
  }

  lemma SchemeOf(e: Endpoint)
    requires e.port >= 0
    ensures var k := if e.secure then 6 else 5;
      && Scheme(FormatWsUri(e)) == Some((e.secure, k))
      && FormatWsUri(e)[k..] == e.host + ":" + NatToDec(e.port) + e.path
  {
    var rest := e.host + ":" + NatToDec(e.port) + e.path;
    var uri := (if e.secure then "wss://" else "ws://") + rest;
    assert FormatWsUri(e) == uri;
    if e.secure {
      assert uri[..6] == "wss://";
    } else {
      assert uri[2] == ':';
      assert uri[..5] == "ws://";
    }
  }

  lemma AuthorityOf(host: string, port: nat, path: string)
    requires '/' !in host && |path| > 0 && path[0] == '/'
    ensures Authority(host + ":" + NatToDec(port) + path) == host + ":" + NatToDec(port)
  {
    var d := NatToDec(port);
    var authority := host + ":" + d;
    var rest := authority + path;
    assert forall i :: 0 <= i < |authority| ==> authority[i] != '/' by {
      assert forall i :: 0 <= i < |d| ==> IsDigit(d[i]);
      assert forall i :: |host| < i < |authority| ==> authority[i] == d[i - |host| - 1];
    }
    assert rest[..|authority|] == authority;
    IndexOfAt(rest, '/', |authority|);
  }

  lemma HostAndPortOf(host: string, port: nat, path: string)
    requires |path| > 0 && path[0] == '/'
    ensures var authority := host + ":" + NatToDec(port);
      && HostOf(authority) == host
      && (1 <= port <= 65535 ==> forall p :: PortAfter(authority + path, authority, p) == port)
  {
    var d := NatToDec(port);
    var authority := host + ":" + d;
    LastColonBeforeDigits(host, d);
    assert authority[..|host|] == host;
    assert (authority + path)[|host| + 1..] == d + path;
    StrtolOfDecThen(port, path);
  }

  /** The colon before a run of digits is the last colon. */
  lemma LastColonBeforeDigits(host: string, d: string)
    requires AllDigits(d)
    ensures LastIndexOf(host + ":" + d, ':') == Some(|host|)
  {
    var authority := host + ":" + d;
    assert authority[|host| + 1..] == d;
    assert ':' !in d by {
      assert forall i :: 0 <= i < |d| ==> IsDigit(d[i]);
    }
    LastIndexOfAt(authority, ':', |host|);
  }
}

=== FILE: heating_tile.dfy ===
/**
 * The heating tile's logic: when a climate state counts as on, the status
 * text and the label it becomes, the integer layout of the arc and the
 * labels, which entity's update reaches which field, and the click's
 * rollback. Temperatures are floating point and stay an abstract type `T`.
 */
module HeatingTile {
  import opened Wrappers
  import opened CStr

  /** The `char status_text[32]` buffers of the context and of the extracted values. */
  const StatusBuffer: nat := 32

  /** The `char text[40]` buffer of the status label. */
  const LabelBuffer: nat := 40

  const ArcSizeMin: int := 140
  const ArcSizeMax: int := 340

  /** `heating_state_is_on`: everything but no text, empty text, `off`, `unavailable` and `unknown`. */
  predicate StateIsOn(state: Option<string>)
  {
    state.Some? && state.value !in {"", "off", "unavailable", "unknown"}
  }

  /**
   * The status text `heating_extract_climate_values` settles on: a non-empty
   * `hvac_action` string, else the state text, cut to the status buffer.
   */
  function ExtractStatus(state: string, hvacAction: Option<string>): (r: string)
    ensures |r| < StatusBuffer
    ensures hvacAction.Some? && hvacAction.value != "" ==> StartsWith(hvacAction.value, r)
    ensures (hvacAction.None? || hvacAction.value == "") ==> StartsWith(state, r)
    ensures r == "" <==> (hvacAction.None? || hvacAction.value == "") && state == ""
  {
    if hvacAction.Some? && hvacAction.value != "" then Fit(hvacAction.value, StatusBuffer)
    else Fit(state, StatusBuffer)
  }

  /** One character of the label text: `_` becomes a space and ASCII upper case becomes lower. */
  function LabelChar(c: char): char
  {
    if c == '_' then ' ' else ToLower(c)
  }

  /** What the status label shows: a translation (key and fallback) or the text itself. */
  datatype Label = Translated(key: string, fallback: string) | Literal(text: string)

  /**
   * `heating_set_status_label`: a non-empty status is lower-cased with `_`
   * read as a space (at most 39 characters); the four known words get their
   * translations and anything else is shown as it reads. An empty status
   * shows "heating active" when on and "OFF" when off.
   */
  function StatusLabel(isOn: bool, status: string): (l: Label)
    ensures status == "" ==>
      l == (if isOn then Translated("heating.active", "heating active") else Translated("common.off", "OFF"))
    ensures l.Literal? ==>
      && |l.text| == Min(|status|, LabelBuffer - 1) && status != ""
      && (forall i :: 0 <= i < |l.text| ==> l.text[i] == LabelChar(status[i]))
      && l.text !in {"on", "off", "unavailable", "heating"}
    ensures status != "" && l.Translated? ==>
      Fit(seq(|status|, i requires 0 <= i < |status| => LabelChar(status[i])), LabelBuffer)
        in {"on", "off", "unavailable", "heating"}
  {
    if status == "" then
      if isOn then Translated("heating.active", "heating active") else Translated("common.off", "OFF")
    else
      var text := Fit(seq(|status|, i requires 0 <= i < |status| => LabelChar(status[i])), LabelBuffer);
      if text == "on" then Translated("common.on", "ON")
      else if text == "off" then Translated("common.off", "OFF")
      else if text == "unavailable" then Translated("common.unavailable", "unavailable")
      else if text == "heating" then Translated("heating.active", "heating active")
      else Literal(text)
  }

  /** Spelling differences in case and `_` do not change which label a status gets. */
  lemma StatusLabelSpellings(isOn: bool)
    ensures StatusLabel(isOn, "HEATING") == StatusLabel(isOn, "heating") == Translated("heating.active", "heating active")
    ensures StatusLabel(isOn, "Off") == Translated("common.off", "OFF")
    ensures StatusLabel(isOn, "preheating") == Literal("preheating")
    ensures StatusLabel(isOn, "fan_only") == Literal("fan only")
  {
    var h := seq(|"HEATING"|, i requires 0 <= i < |"HEATING"| => LabelChar("HEATING"[i]));
    assert h == "heating";
    var h2 := seq(|"heating"|, i requires 0 <= i < |"heating"| => LabelChar("heating"[i]));
    assert h2 == "heating";
    var o := seq(|"Off"|, i requires 0 <= i < |"Off"| => LabelChar("Off"[i]));
    assert o == "off";
    var p := seq(|"preheating"|, i requires 0 <= i < |"preheating"| => LabelChar("preheating"[i]));
    assert p == "preheating";
    var f := seq(|"fan_only"|, i requires 0 <= i < |"fan_only"| => LabelChar("fan_only"[i]));
    assert f == "fan only";
  }

  /** The positions `heating_apply_layout` gives the arc and the three labels. */
  datatype Layout = Layout(arcSize: int, arcY: int, targetY: int, actualY: int, statusY: int)

  /**
   * `heating_apply_layout`: the arc is the smaller of the card's width less
   * 38 and height less 70, clamped to 140..340, and its offset is kept within
   * half the spare height; the labels stack below the arc's centre, the
   * readout at least 30 above the status line and the target at least 36
   * above the readout, but never above y = 90.
   */
  function ApplyLayout(cardW: int, cardH: int): (l: Layout)
    ensures ArcSizeMin <= l.arcSize <= ArcSizeMax
    ensures l.arcSize == Max(ArcSizeMin, Min(ArcSizeMax, Min(cardW - 38, cardH - 70)))
    ensures var yMax := CDiv(cardH, 2) - 8 - CDiv(l.arcSize, 2);
      yMax >= 0 ==> -yMax <= l.arcY <= yMax
    ensures l.statusY == cardH - 34
    ensures l.actualY <= l.statusY - 30
    ensures l.targetY >= 90
    ensures l.targetY > 90 ==> l.targetY <= l.actualY - 36
  {
    var arc := if cardW - 38 > cardH - 70 then cardH - 70 else cardW - 38;
    var arc := if arc < ArcSizeMin then ArcSizeMin else arc;
    var arc := if arc > ArcSizeMax then ArcSizeMax else arc;
    var arcY := if cardH >= 320 then 22 else if cardH >= 280 then 18 else 16;
    var yMax := CDiv(cardH, 2) - 8 - CDiv(arc, 2);
    var arcY := if arcY > yMax then yMax else arcY;
    var arcY := if arcY < -yMax then -yMax else arcY;
    var center := CDiv(cardH, 2) + arcY;
    var target := center + (if cardH >= 300 then 8 else 6);
    var actual := target + (if cardH >= 300 then 46 else 40);
    var status := cardH - 34;
    var actual := if actual > status - 30 then status - 30 else actual;
    var target := if target > actual - 36 then actual - 36 else target;
    var target := if target < 90 then 90 else target;
    Layout(arc, arcY, target, actual, status)
  }

  /** On a card tall enough the arc keeps its preferred offset. */
  lemma LayoutRoomyCard(cardW: int, cardH: int)
    requires cardH >= 400 && cardW >= 100
    ensures ApplyLayout(cardW, cardH).arcY == 22
  {
  }

  /** The entities a tile listens to; the sensor id may be empty. */
  datatype Binding = Binding(climateId: string, sensorId: string)

  /**
   * What a climate state carries after extraction: the state text, the
   * `hvac_action` attribute if it is a string, and the (clamped, abstract)
   * target and current temperatures.
   */
  datatype ClimateReading<T> = ClimateReading(
    state: string, hvacAction: Option<string>, target: T, current: T, hasCurrent: bool)

  /** The tile context fields the logic touches. */
  datatype Heating<T> = Heating(isOn: bool, target: T, current: T, hasCurrent: bool, status: string)

  /**
   * `w_heating_tile_apply_state`: an update for the climate entity sets the
   * on flag, the target and the status, and the current temperature only
   * when no sensor is configured; an update for the configured sensor sets
   * only the current temperature; anything else is ignored. Ids compare with
   * `strncmp` over `maxIdLen` characters.
   */
  function ApplyState<T>(h: Heating<T>, b: Binding, entityId: string, maxIdLen: nat,
                         climate: ClimateReading<T>, sensorTemp: Option<T>): (r: Heating<T>)
    ensures SameUpTo(entityId, b.climateId, maxIdLen) ==>
      && (r.isOn <==> StateIsOn(Some(climate.state))) && r.target == climate.target
      && r.status == ExtractStatus(climate.state, climate.hvacAction)
      && (b.sensorId == "" ==> r.current == climate.current && r.hasCurrent == climate.hasCurrent)
      && (b.sensorId != "" ==> r.current == h.current && r.hasCurrent == h.hasCurrent)
    ensures !SameUpTo(entityId, b.climateId, maxIdLen) && b.sensorId != "" && SameUpTo(entityId, b.sensorId, maxIdLen) ==>
      && r == h.(hasCurrent := sensorTemp.Some?, current := if sensorTemp.Some? then sensorTemp.value else h.current)
    ensures !SameUpTo(entityId, b.climateId, maxIdLen) && (b.sensorId == "" || !SameUpTo(entityId, b.sensorId, maxIdLen)) ==>
      r == h
  {
    if SameUpTo(entityId, b.climateId, maxIdLen) then
      var h := h.(isOn := StateIsOn(Some(climate.state)), target := climate.target,
                  status := Fit(ExtractStatus(climate.state, climate.hvacAction), StatusBuffer));
      if b.sensorId == "" then h.(hasCurrent := climate.hasCurrent, current := climate.current) else h
    else if b.sensorId != "" && SameUpTo(entityId, b.sensorId, maxIdLen) then
      h.(hasCurrent := sensorTemp.Some?, current := if sensorTemp.Some? then sensorTemp.value else h.current)
    else h
  }

  /** A sensor update never touches the on flag, the target or the status. */
  lemma SensorUpdateKeepsClimateFields<T>(h: Heating<T>, b: Binding, entityId: string, maxIdLen: nat,
                                           climate: ClimateReading<T>, sensorTemp: Option<T>)
    requires !SameUpTo(entityId, b.climateId, maxIdLen)
    ensures var r := ApplyState(h, b, entityId, maxIdLen, climate, sensorTemp);
      r.isOn == h.isOn && r.target == h.target && r.status == h.status
  {
  }

  /**
   * A click on the card: the tile flips and shows `on`/`off` at once; when
   * the toggle call fails, the previous flag and status text come back.
   */
  function Click<T>(h: Heating<T>, callOk: bool): (r: Heating<T>)
    ensures callOk ==> r == h.(isOn := !h.isOn, status := if h.isOn then "off" else "on")
    ensures !callOk ==> r.isOn == h.isOn && r.status == Fit(h.status, StatusBuffer)
    ensures !callOk && |h.status| < StatusBuffer ==> r == h
  {
    var next := h.(isOn := !h.isOn, status := if h.isOn then "off" else "on");
    if callOk then next else next.(isOn := h.isOn, status := Fit(h.status, StatusBuffer))
  }

  /** `w_heating_tile_mark_unavailable`: off, no current temperature, status `unavailable`. */
  function MarkUnavailable<T>(h: Heating<T>): (r: Heating<T>)
    ensures !r.isOn && !r.hasCurrent && r.status == "unavailable"
    ensures r.target == h.target && r.current == h.current
    ensures StatusLabel(r.isOn, r.status) == Translated("common.unavailable", "unavailable")
  {
    var r := h.(isOn := false, hasCurrent := false, status := "unavailable");
    assert seq(|r.status|, i requires 0 <= i < |r.status| => LabelChar(r.status[i])) == "unavailable";
    r
  }
}

=== FILE: hex_rgb.dfy ===
/**
 * The firmware's hex colour grammar: an optional `#`, `0x` or `0X`, then
 * exactly six hex digits of either case, packed as 0xRRGGBB. The layout
 * validator, the graph widget and the slider widget each carry an identical
 * copy of it.
 */
module HexRgb {
  import opened Wrappers
  import opened CStr

  predicate AllHex(s: string)
  {
    forall i :: 0 <= i < |s| ==> IsHexDigit(s[i])
  }

  /** What is left after the optional `#` or `0x`/`0X` prefix. */
  function ColorBody(text: string): (r: string)
    ensures |r| <= |text|
  {
    if |text| > 0 && text[0] == '#' then text[1..]
    else if |text| > 1 && text[0] == '0' && (text[1] == 'x' || text[1] == 'X') then text[2..]
    else text
  }

  /** `is_valid_hex_rgb_color` (and the acceptance test of the two parsers). */
  predicate IsValidHexRgb(text: string)
  {
    |text| > 0 && |ColorBody(text)| == 6 && AllHex(ColorBody(text))
  }

  /** The accepted spellings, stated without the stripping step. */
  lemma IsValidHexRgbSpellings(text: string)
    ensures IsValidHexRgb(text) <==>
      || (|text| == 6 && AllHex(text))
      || (|text| == 7 && text[0] == '#' && AllHex(text[1..]))
      || (|text| == 8 && text[0] == '0' && (text[1] == 'x' || text[1] == 'X') && AllHex(text[2..]))
  {
    if |text| == 6 && AllHex(text) {
      assert text[0] != '#' && !(text[0] == '0' && (text[1] == 'x' || text[1] == 'X')) by {
        assert IsHexDigit(text[0]) && IsHexDigit(text[1]);
      }
    }
    if |text| == 7 && text[0] == '#' {
      assert ColorBody(text) == text[1..];
    }
  }

  function Nibble(c: char): (v: nat)
    requires IsHexDigit(c)
    ensures v < 16
  {
    if IsDigit(c) then c as int - '0' as int
    else if 'a' <= c <= 'f' then 10 + (c as int - 'a' as int)
    else 10 + (c as int - 'A' as int)
  }

  function HexDigitChar(d: nat): (c: char)
    requires d < 16
    ensures IsHexDigit(c) && Nibble(c) == d
  {
    if d < 10 then ('0' as int + d) as char else ('a' as int + d - 10) as char
  }

  /** The six digits as one 24-bit number, most significant first. */
  function Pack(s: string): (v: nat)
    requires |s| == 6 && AllHex(s)
    ensures v < 0x100_0000
  {
    ((((Nibble(s[0]) * 16 + Nibble(s[1])) * 16 + Nibble(s[2])) * 16 + Nibble(s[3])) * 16 + Nibble(s[4])) * 16 + Nibble(s[5])
  }

  /** `graph_parse_hex_color` and `slider_parse_hex_color`: the packed colour of an accepted text. */
  function ParseHexRgb(text: string): (r: Option<nat>)
    ensures r.Some? <==> IsValidHexRgb(text)
    ensures r.Some? ==> r.value < 0x100_0000
  {
    if !IsValidHexRgb(text) then None else Some(Pack(ColorBody(text)))
  }

  /** `#rrggbb` in lower case, the form the editor writes. */
  function FormatHexRgb(v: nat): (s: string)
    requires v < 0x100_0000
    ensures |s| == 7 && s[0] == '#' && AllHex(s[1..])
  {
    var q1 := v / 16;
    var q2 := q1 / 16;
    var q3 := q2 / 16;
    var q4 := q3 / 16;
    var q5 := q4 / 16;
    ['#', HexDigitChar(q5 % 16), HexDigitChar(q4 % 16), HexDigitChar(q3 % 16),
     HexDigitChar(q2 % 16), HexDigitChar(q1 % 16), HexDigitChar(v % 16)]
  }

  /** Parsing the written form of a colour gives the colour back. */
  lemma ParseFormatRoundTrip(v: nat)
    requires v < 0x100_0000
    ensures ParseHexRgb(FormatHexRgb(v)) == Some(v)
  {
    var s := FormatHexRgb(v);
    assert ColorBody(s) == s[1..];
    var q1 := v / 16;
    var q2 := q1 / 16;
    var q3 := q2 / 16;
    var q4 := q3 / 16;
    var q5 := q4 / 16;
    assert v == q1 * 16 + v % 16;
    assert q1 == q2 * 16 + q1 % 16;
    assert q2 == q3 * 16 + q2 % 16;
    assert q3 == q4 * 16 + q3 % 16;
    assert q4 == q5 * 16 + q4 % 16;
    assert q5 < 16;
    assert Pack(s[1..]) == ((((q5 * 16 + q4 % 16) * 16 + q3 % 16) * 16 + q2 % 16) * 16 + q1 % 16) * 16 + v % 16;
  }

  /** The prefix does not matter: `#`, `0x`, `0X` and a bare body give the same colour. */
  lemma PrefixIrrelevant(body: string)
    requires |body| == 6 && AllHex(body)
    ensures ParseHexRgb("#" + body) == ParseHexRgb("0x" + body) == ParseHexRgb("0X" + body) == ParseHexRgb(body)
    ensures ParseHexRgb(body).Some?
  {
    assert ColorBody("#" + body) == body;
    assert ColorBody("0x" + body) == body;
    assert ColorBody("0X" + body) == body;
    assert IsHexDigit(body[0]) && IsHexDigit(body[1]);
    assert ColorBody(body) == body;
  }
}

=== FILE: http_guard.dfy ===
/**
 * The guard in front of every HTTP handler: a token bucket per client, kept
 * in a table of 16 slots, and a limit of two requests handled at once. The
 * clock, the peer address and the counting semaphore are parameters.
 */
module HttpGuard {
  import opened Wrappers

  const MaxActiveRequests: nat := 2
  const MaxClients: nat := 16
  const RatePerSec: nat := 5
  const Burst: nat := 10

  /** A bucket holds up to `Burst` requests, counted in thousandths. */
  const BurstMilli: nat := Burst * 1000

  /** One request costs one token. */
  const Cost: nat := 1000

  /** `INT64_MAX`, the starting point of the search for the oldest slot. */
  const Int64Max: int := 0x7fff_ffff_ffff_ffff

  /** A slot of the table; `key` is the client key, `tokens` in thousandths. */
  datatype Bucket = Bucket(used: bool, key: nat, tokens: int, lastRefill: int, lastSeen: int)

  type Table = seq<Bucket>

  /** The table as the guard keeps it: 16 slots, tokens within the burst, one slot per client. */
  predicate Valid(t: Table)
  {
    && |t| == MaxClients
    && (forall i :: 0 <= i < |t| && t[i].used ==> 0 <= t[i].tokens <= BurstMilli)
    && (forall i, j :: 0 <= i < j < |t| && t[i].used && t[j].used ==> t[i].key != t[j].key)
  }

  /** `http_guard_init`: every slot unused. */
  function Init(): (t: Table)
    ensures Valid(t)
    ensures forall i :: 0 <= i < |t| ==> !t[i].used
  {
    seq(MaxClients, i => Bucket(false, 0, 0, 0, 0))
  }

  /** The first used slot holding the key. */
  function FindKey(t: Table, key: nat): (r: Option<nat>)
    ensures r.Some? ==> r.value < |t| && t[r.value].used && t[r.value].key == key
    ensures r.Some? ==> forall j :: 0 <= j < r.value ==> !(t[j].used && t[j].key == key)
    ensures r.None? <==> forall j :: 0 <= j < |t| ==> !(t[j].used && t[j].key == key)
  {
    if |t| == 0 then None
    else
      var r := FindKey(t[..|t| - 1], key);
      if r.Some? then r
      else if t[|t| - 1].used && t[|t| - 1].key == key then Some(|t| - 1)
      else None
  }

  /** The first unused slot. */
  function FirstFree(t: Table): (r: Option<nat>)
    ensures r.Some? ==> r.value < |t| && !t[r.value].used
    ensures r.Some? ==> forall j :: 0 <= j < r.value ==> t[j].used
    ensures r.None? <==> forall j :: 0 <= j < |t| ==> t[j].used
  {
    if |t| == 0 then None
    else
      var r := FirstFree(t[..|t| - 1]);
      if r.Some? then r
      else if !t[|t| - 1].used then Some(|t| - 1)
      else None
  }

  /**
   * The slot to evict: the first used slot seen least recently. A slot whose
   * time is `INT64_MAX` or later never beats the starting point of the search.
   */
  function Oldest(t: Table): (r: Option<nat>)
    ensures r.Some? ==> r.value < |t| && t[r.value].used && t[r.value].lastSeen < Int64Max
    ensures r.Some? ==> forall j :: 0 <= j < |t| && t[j].used ==> t[r.value].lastSeen <= t[j].lastSeen
    ensures r.Some? ==> forall j :: 0 <= j < r.value && t[j].used ==> t[r.value].lastSeen < t[j].lastSeen
    ensures r.None? <==> forall j :: 0 <= j < |t| && t[j].used ==> t[j].lastSeen >= Int64Max
  {
    if |t| == 0 then None
    else
      var r := Oldest(t[..|t| - 1]);
      var b := t[|t| - 1];
      var best := if r.Some? then t[r.value].lastSeen else Int64Max;
      if b.used && b.lastSeen < best then Some(|t| - 1) else r
  }

  /** The slot a request from `key` is counted in: its own, else the first free one, else the oldest. */
  function SlotFor(t: Table, key: nat): (r: Option<nat>)
    ensures r.Some? ==> r.value < |t|
    ensures FindKey(t, key).Some? ==> r == FindKey(t, key)
    ensures r.None? <==> FindKey(t, key).None? && FirstFree(t).None? && Oldest(t).None?
  {
    if FindKey(t, key).Some? then FindKey(t, key)
    else if FirstFree(t).Some? then FirstFree(t)
    else Oldest(t)
  }

  /**
   * The bucket after the refill at `now`: five thousandths per elapsed
   * millisecond, up to the burst; a clock that has not moved forward adds
   * nothing and keeps the refill time.
   */
  function Refill(b: Bucket, now: int): (r: Bucket)
    ensures now - b.lastRefill <= 0 ==> r == b
    ensures now - b.lastRefill > 0 ==>
      r == b.(tokens := if b.tokens + (now - b.lastRefill) * RatePerSec > BurstMilli then BurstMilli
                        else b.tokens + (now - b.lastRefill) * RatePerSec,
              lastRefill := now)
    ensures 0 <= b.tokens <= BurstMilli ==> b.tokens <= r.tokens <= BurstMilli
  {
    var elapsed := now - b.lastRefill;
    if elapsed > 0 then
      var tokens := b.tokens + elapsed * RatePerSec;
      b.(tokens := if tokens > BurstMilli then BurstMilli else tokens, lastRefill := now)
    else b
  }

  /** The slot as `rate_limit_allow` finds it: a slot taken for a new client starts full. */
  function Claimed(t: Table, key: nat, i: nat, now: int): (b: Bucket)
    requires i < |t|
  {
    if FindKey(t, key).Some? then t[i] else Bucket(true, key, BurstMilli, now, now)
  }

  /**
   * `rate_limit_allow` at time `now`: the request is refused when no slot can
   * be had; otherwise its slot is claimed, refilled and marked seen at `now`,
   * and the request passes when a whole token is left, which it then costs.
   * No other slot changes.
   */
  function Allow(t: Table, key: nat, now: int): (r: (bool, Table))
    ensures |r.1| == |t|
    ensures SlotFor(t, key).None? ==> r == (false, t)
    ensures SlotFor(t, key).Some? ==> var i := SlotFor(t, key).value;
      var b := Refill(Claimed(t, key, i, now), now);
      && (r.0 <==> b.tokens >= Cost)
      && r.1[i] == b.(lastSeen := now, tokens := if r.0 then b.tokens - Cost else b.tokens)
      && (forall j :: 0 <= j < |t| && j != i ==> r.1[j] == t[j])
  {
    var s := SlotFor(t, key);
    if s.None? then (false, t)
    else
      var b := Refill(Claimed(t, key, s.value, now), now).(lastSeen := now);
      if b.tokens < Cost then (false, t[s.value := b])
      else (true, t[s.value := b.(tokens := b.tokens - Cost)])
  }

  /** Allowing or refusing keeps the table valid, and the client ends up in it. */
  lemma AllowKeepsValid(t: Table, key: nat, now: int)
    requires Valid(t)
    ensures Valid(Allow(t, key, now).1)
    ensures SlotFor(t, key).Some? ==> FindKey(Allow(t, key, now).1, key).Some?
  {
    var r := Allow(t, key, now);
    var s := SlotFor(t, key);
    if s.None? {
      return;
    }
    var i := s.value;
    assert r.1[i].used && r.1[i].key == key;
    forall a, c | 0 <= a < c < |r.1| && r.1[a].used && r.1[c].used
      ensures r.1[a].key != r.1[c].key
    {
      if a == i && FindKey(t, key).None? {
        assert r.1[c] == t[c];
      } else if c == i && FindKey(t, key).None? {
        assert r.1[a] == t[a];
      }
    }
  }

  /** A client new to a table with a free slot always passes, leaving nine tokens. */
  lemma NewClientPasses(t: Table, key: nat, now: int)
    requires FindKey(t, key).None? && FirstFree(t).Some?
    ensures var r := Allow(t, key, now);
      r.0 && r.1[FirstFree(t).value].tokens == BurstMilli - Cost
  {
  }

  /** A known client that waited 200 ms since its last refill always passes again. */
  lemma WaitRefills(t: Table, key: nat, now: int)
    requires Valid(t) && FindKey(t, key).Some?
    requires now - t[FindKey(t, key).value].lastRefill >= 1000 / RatePerSec
    ensures Allow(t, key, now).0
  {
  }

  /** `n` requests of the same client at the same instant. */
  function Repeat(t: Table, key: nat, now: int, n: nat): (r: (nat, Table))
    ensures r.0 <= n
    decreases n
  {
    if n == 0 then (0, t)
    else
      var a := Allow(t, key, now);
      var rest := Repeat(a.1, key, now, n - 1);
      ((if a.0 then 1 else 0) + rest.0, rest.1)
  }

  /** Requests at one instant from a slot with `k` whole tokens: the first `k` pass, the rest are refused. */
  lemma {:induction false} RepeatFromTokens(t: Table, key: nat, now: int, n: nat, k: nat)
    requires FindKey(t, key).Some?
    requires var b := t[FindKey(t, key).value];
      b.lastRefill == now && b.tokens == k * Cost
    ensures Repeat(t, key, now, n).0 == if n <= k then n else k
    decreases n
  {
    if n > 0 {
      var i := FindKey(t, key).value;
      var a := Allow(t, key, now);
      assert a.1[i].key == key && a.1[i].used;
      forall j | 0 <= j < i ensures !(a.1[j].used && a.1[j].key == key) {
        assert a.1[j] == t[j];
      }
      assert FindKey(a.1, key) == Some(i);
      if k > 0 {
        assert a.0 && a.1[i].tokens == (k - 1) * Cost;
        RepeatFromTokens(a.1, key, now, n - 1, k - 1);
      } else {
        assert !a.0 && a.1[i].tokens == 0;
        RepeatFromTokens(a.1, key, now, n - 1, 0);
      }
    }
  }

  /** A burst: a new client gets exactly ten of any number of requests made at one instant. */
  lemma BurstOfTen(t: Table, key: nat, now: int, n: nat)
    requires FindKey(t, key).None? && FirstFree(t).Some?
    ensures Repeat(t, key, now, n).0 == if n <= Burst then n else Burst
  {
    if n > 0 {
      var i := FirstFree(t).value;
      var a := Allow(t, key, now);
      forall j | 0 <= j < i ensures !(a.1[j].used && a.1[j].key == key) {
        assert a.1[j] == t[j];
      }
      assert FindKey(a.1, key) == Some(i);
      assert a.0 && a.1[i].tokens == (Burst - 1) * Cost;
      RepeatFromTokens(a.1, key, now, n - 1, Burst - 1);
    }
  }

  /** With a slot to count in, `Allow` refills it, marks it seen and charges it when a whole token is left. */
  lemma AllowAt(t: Table, key: nat, now: int)
    requires SlotFor(t, key).Some?
    ensures var i := SlotFor(t, key).value;
      var b := Refill(Claimed(t, key, i, now), now).(lastSeen := now);
      Allow(t, key, now) == if b.tokens < Cost then (false, t[i := b]) else (true, t[i := b.(tokens := b.tokens - Cost)])
  {
  }

  /** One more slot extends the three searches of the scan loop. */
  lemma ScanStep(t: Table, i: nat, key: nat)
    requires i < |t|
    ensures var r := FindKey(t[..i], key);
      FindKey(t[..i + 1], key) == if r.Some? then r else if t[i].used && t[i].key == key then Some(i) else None
    ensures var r := FirstFree(t[..i]);
      FirstFree(t[..i + 1]) == if r.Some? then r else if !t[i].used then Some(i) else None
    ensures var r := Oldest(t[..i]);
      var best := if r.Some? then t[r.value].lastSeen else Int64Max;
      Oldest(t[..i + 1]) == if t[i].used && t[i].lastSeen < best then Some(i) else r
  {
    assert t[..i + 1][..i] == t[..i];
  }

  /** The first slot holding `key` is the one the whole table's search finds. */
  lemma FoundAt(t: Table, i: nat, key: nat)
    requires i < |t| && t[i].used && t[i].key == key && FindKey(t[..i], key).None?
    ensures FindKey(t, key) == Some(i)
  {
    assert forall j :: 0 <= j < i ==> t[..i][j] == t[j];
  }

  /** `rate_limit_allow` as written: the slot search, then the refill and the charge on the slot found. */
  method AllowScan(t: Table, key: nat, now: int) returns (allowed: bool, t2: Table)
    ensures (allowed, t2) == Allow(t, key, now)
  {
    var idx := ScanSlot(t, key);
    if idx.None? {
      return false, t;
    }
    AllowAt(t, key, now);
    var b := Refill(Claimed(t, key, idx.value, now), now).(lastSeen := now);
    if b.tokens < Cost {
      allowed, t2 := false, t[idx.value := b];
    } else {
      allowed, t2 := true, t[idx.value := b.(tokens := b.tokens - Cost)];
    }
  }

  /**
   * The slot search of `rate_limit_allow`: one pass that stops at the
   * client's own slot and otherwise remembers the first free slot and the
   * least recently seen used one.
   */
  method ScanSlot(t: Table, key: nat) returns (idx: Option<nat>)
    ensures idx == SlotFor(t, key)
  {
    var freeIdx: Option<nat> := None;
    var oldestIdx: Option<nat> := None;
    var oldestSeen := Int64Max;
    var i := 0;
    while i < |t|
      invariant 0 <= i <= |t|
      invariant FindKey(t[..i], key).None?
      invariant freeIdx == FirstFree(t[..i])
      invariant oldestIdx == Oldest(t[..i])
      invariant oldestSeen == if oldestIdx.Some? then t[oldestIdx.value].lastSeen else Int64Max
    {
      ScanStep(t, i, key);
      if t[i].used {
        if t[i].key == key {
          FoundAt(t, i, key);
          return Some(i);
        }
        if t[i].lastSeen < oldestSeen {
          oldestSeen := t[i].lastSeen;
          oldestIdx := Some(i);
        }
      } else if freeIdx.None? {
        freeIdx := Some(i);
      }
      i := i + 1;
    }
    assert t[..|t|] == t;
    idx := if freeIdx.Some? then freeIdx else oldestIdx;
  }

  /** What `http_guard_handle` answers. */
  datatype Reply = InvalidArgument | InitFailed | TooManyRequests | ServerBusy | Handled

  function Status(r: Reply): int
  {
    match r
    case InvalidArgument => 0
    case InitFailed => 503
    case TooManyRequests => 429
    case ServerBusy => 503
    case Handled => 200
  }

  /**
   * `http_guard_handle`: a missing request or handler is an argument error;
   * a failed initialisation answers 503; the rate limit is asked next and a
   * refusal answers 429; then a free slot among the two active ones is
   * needed, else 503 "busy". The handler runs only when both let it through,
   * and its slot is given back afterwards.
   */
  function Handle(hasRequest: bool, initOk: bool, t: Table, key: nat, now: int, freeSlots: nat)
    : (r: (Reply, Table, nat))
    ensures r.0 == Handled <==> hasRequest && initOk && Allow(t, key, now).0 && freeSlots > 0
    ensures r.0 == TooManyRequests <==> hasRequest && initOk && !Allow(t, key, now).0
    ensures r.2 == freeSlots
    ensures hasRequest && initOk ==> r.1 == Allow(t, key, now).1
    ensures !(hasRequest && initOk) ==> r.1 == t
    ensures r.0 != InvalidArgument ==> Status(r.0) in {200, 429, 503}
  {
    if !hasRequest then (InvalidArgument, t, freeSlots)
    else if !initOk then (InitFailed, t, freeSlots)
    else
      var a := Allow(t, key, now);
      if !a.0 then (TooManyRequests, a.1, freeSlots)
      else if freeSlots == 0 then (ServerBusy, a.1, freeSlots)
      else (Handled, a.1, freeSlots)
  }

  /** The peer of a request as `req_client_key` sees it. */
  datatype Peer = NoPeer | Ipv4(addr: bv32) | Ipv6(bytes: seq<bv8>) | OtherFamily

  /** 32-bit FNV-1a over the bytes, starting from `h`. */
  function Fnv1a(h: bv32, bytes: seq<bv8>): bv32
    decreases |bytes|
  {
    if |bytes| == 0 then h
    else Fnv1a((h ^ (bytes[0] as bv32)) * 16777619, bytes[1..])
  }

  /**
   * `req_client_key`: the IPv4 address itself, the FNV-1a hash of the 16
   * bytes of an IPv6 address, and 0 for anything else, so that all such
   * peers share one bucket.
   */
  function ClientKey(p: Peer): (k: nat)
    ensures k < 0x1_0000_0000
    ensures p.Ipv4? ==> k == p.addr as nat
    ensures p.NoPeer? || p.OtherFamily? || (p.Ipv6? && |p.bytes| != 16) ==> k == 0
  {
    match p
    case Ipv4(a) => a as nat
    case Ipv6(bytes) => if |bytes| == 16 then Fnv1a(2166136261, bytes) as nat else 0
    case _ => 0
  }
}

=== FILE: i18n_store.dfy ===
/**
 * The language bookkeeping of the translation store: which language codes are
 * valid, how user input becomes a code, the three built-in languages, and the
 * list of languages offered (built-ins first, then every `<code>.json` file of
 * the translation directory whose name is a valid code). The directory listing
 * is an input; reading and writing translation files is not part of this model.
 */
module I18nStore {
  import opened Wrappers
  import opened CStr

  /** A character a language code may use: lower-case letter, digit, `-` or `_`. */
  predicate CodeChar(c: char)
  {
    IsLower(c) || IsDigit(c) || c == '-' || c == '_'
  }

  /** `i18n_store_is_valid_language_code` with `APP_UI_LANGUAGE_MAX_LEN` as `maxLen`. */
  predicate IsValidLanguageCode(code: string, maxLen: nat)
  {
    2 <= |code| < maxLen && forall i :: 0 <= i < |code| ==> CodeChar(code[i])
  }

  /**
   * `i18n_store_normalize_language_code` into a buffer of `outLen` bytes:
   * leading white space is skipped and the first word is lower-cased; it
   * fails without input, without a word, when the word does not fit the
   * buffer, or when the lower-cased word is not a valid code.
   */
  function NormalizeLanguageCode(input: Option<string>, outLen: nat, maxLen: nat): (r: Option<string>)
    ensures r.Some? ==> input.Some? && 0 < |r.value| < outLen && IsValidLanguageCode(r.value, maxLen)
    ensures input.None? || outLen == 0 ==> r.None?
  {
    if input.None? || outLen == 0 then None
    else
      var t := input.value;
      var i := SpaceRun(t);
      var w := WordRun(t[i..]);
      CodeOfWord(t[i..i + w], outLen, maxLen)
  }

  /**
   * The code is the first word after the leading white space, lower-cased;
   * the word ends at the end of the input or at white space, and normalising
   * succeeds exactly when the word is not empty, fits the buffer and
   * lower-cases to a valid code.
   */
  lemma NormalizeFirstWord(t: string, outLen: nat, maxLen: nat)
    requires outLen > 0
    ensures var i := SpaceRun(t); var w := WordRun(t[i..]);
      && i + w <= |t| && (i + w == |t| || IsSpace(t[i + w]))
      && NormalizeLanguageCode(Some(t), outLen, maxLen)
           == if 0 < w < outLen && IsValidLanguageCode(Lower(t[i..i + w]), maxLen) then Some(Lower(t[i..i + w])) else None
  {
    var i := SpaceRun(t);
    var w := WordRun(t[i..]);
    assert NormalizeLanguageCode(Some(t), outLen, maxLen) == CodeOfWord(t[i..i + w], outLen, maxLen);
    WordEnd(t, i);
  }

  /** The lower-cased word, when it is not empty, fits the buffer and is a valid code. */
  function CodeOfWord(word: string, outLen: nat, maxLen: nat): (r: Option<string>)
    ensures r.Some? <==> 0 < |word| < outLen && IsValidLanguageCode(Lower(word), maxLen)
    ensures r.Some? ==> r.value == Lower(word) && |r.value| == |word|
  {
    if |word| >= outLen || |word| == 0 then None
    else if IsValidLanguageCode(Lower(word), maxLen) then Some(Lower(word))
    else None
  }

  /** The word starting at `i` ends at the end of `s` or at a white-space character. */
  lemma WordEnd(s: string, i: nat)
    requires i <= |s|
    ensures var w := WordRun(s[i..]);
      i + w <= |s| && (i + w == |s| || IsSpace(s[i + w]))
  {
    var w := WordRun(s[i..]);
    if i + w < |s| {
      assert s[i..][w] == s[i + w];
    }
  }

  /** A valid code that fits the buffer is its own normal form. */
  lemma NormalizeValidCode(code: string, outLen: nat, maxLen: nat)
    requires IsValidLanguageCode(code, maxLen) && |code| < outLen
    ensures NormalizeLanguageCode(Some(code), outLen, maxLen) == Some(code)
  {
    assert !IsSpace(code[0]);
    assert SpaceRun(code) == 0;
    assert code[0..] == code;
    WordRunAll(code);
    assert code[0..|code|] == code;
    LowerNoop(code);
  }

  lemma {:induction false} WordRunAll(s: string)
    requires forall i :: 0 <= i < |s| ==> !IsSpace(s[i])
    ensures WordRun(s) == |s|
  {
    if |s| > 0 { WordRunAll(s[1..]); }
  }

  /** Normalising a successful result again gives it back unchanged. */
  lemma NormalizeIdempotent(input: Option<string>, outLen: nat, maxLen: nat)
    requires NormalizeLanguageCode(input, outLen, maxLen).Some?
    ensures var c := NormalizeLanguageCode(input, outLen, maxLen).value;
      NormalizeLanguageCode(Some(c), outLen, maxLen) == Some(c)
  {
    NormalizeValidCode(NormalizeLanguageCode(input, outLen, maxLen).value, outLen, maxLen);
  }

  /** The languages whose translations are compiled in. */
  datatype Builtin = German | English | Spanish

  /** `i18n_store_is_builtin_language`. */
  predicate IsBuiltin(code: Option<string>)
  {
    code.Some? && code.value in {"de", "en", "es"}
  }

  /** `i18n_store_builtin_translation_json`: which built-in table a code selects, if any. */
  function BuiltinTranslation(code: Option<string>): (r: Option<Builtin>)
    ensures r.Some? <==> IsBuiltin(code)
    ensures r == Some(German) <==> code == Some("de")
    ensures r == Some(English) <==> code == Some("en")
    ensures r == Some(Spanish) <==> code == Some("es")
  {
    if code == Some("de") then Some(German)
    else if code == Some("es") then Some(Spanish)
    else if code == Some("en") then Some(English)
    else None
  }

  /** A list of codes as the store keeps it: each fits its buffer and none repeats. */
  predicate WellListed(codes: seq<string>, maxLen: nat)
  {
    && (forall i :: 0 <= i < |codes| ==> |codes[i]| < maxLen)
    && (forall i, j :: 0 <= i < j < |codes| ==> codes[i] != codes[j])
  }

  /**
   * `i18n_store_add_language`: a missing or empty code, one already listed
   * (under `strncmp` over the buffer), or a full list is refused; otherwise
   * the code is appended, cut to its buffer.
   */
  function AddLanguage(codes: seq<string>, maxCodes: nat, maxLen: nat, code: Option<string>): (res: (seq<string>, bool))
    requires maxLen > 0
    ensures res.1 <==> && code.Some? && code.value != "" && |codes| < maxCodes
                       && forall i :: 0 <= i < |codes| ==> !SameUpTo(codes[i], code.value, maxLen)
    ensures res.1 ==> res.0 == codes + [Fit(code.value, maxLen)]
    ensures !res.1 ==> res.0 == codes
  {
    if code.None? || code.value == "" then (codes, false)
    else if exists i :: 0 <= i < |codes| && SameUpTo(codes[i], code.value, maxLen) then (codes, false)
    else if |codes| >= maxCodes then (codes, false)
    else (codes + [Fit(code.value, maxLen)], true)
  }

  /**
   * Adding a code that fits its buffer keeps the list well formed and within
   * `maxCodes`; afterwards the code is listed unless the list was full.
   */
  lemma AddLanguageKeepsList(codes: seq<string>, maxCodes: nat, maxLen: nat, code: string)
    requires maxLen > 0 && WellListed(codes, maxLen) && |codes| <= maxCodes
    requires code != "" && |code| < maxLen
    ensures var r := AddLanguage(codes, maxCodes, maxLen, Some(code)).0;
      && WellListed(r, maxLen) && |r| <= maxCodes
      && (|codes| < maxCodes ==> code in r)
  {
    forall i | 0 <= i < |codes| ensures SameUpTo(codes[i], code, maxLen) <==> codes[i] == code {
      SameUpToShort(codes[i], code, maxLen);
    }
  }

  /**
   * The code a directory entry contributes to the listing: names of more
   * than five characters ending in `.json` whose base fits the code buffer
   * and normalises to a valid code.
   */
  function CodeFromName(name: string, maxLen: nat): (r: Option<string>)
    ensures r.Some? ==> EndsWith(name, ".json") && |name| > 5 && IsValidLanguageCode(r.value, maxLen)
    ensures r.Some? ==> r == NormalizeLanguageCode(Some(name[..|name| - 5]), maxLen, maxLen)
  {
    if |name| <= 5 || name == "." || name == ".." || !EndsWith(name, ".json") then None
    else if |name| - 5 >= maxLen then None
    else NormalizeLanguageCode(Some(name[..|name| - 5]), maxLen, maxLen)
  }

  /** The file a translation is saved under, `<code>.json`, lists that code again. */
  lemma CodeFromFileName(code: string, maxLen: nat)
    requires IsValidLanguageCode(code, maxLen)
    ensures CodeFromName(code + ".json", maxLen) == Some(code)
  {
    var name := code + ".json";
    assert name[..|name| - 5] == code;
    assert name[|name| - 5..] == ".json";
    assert name != "." && name != "..";
    NormalizeValidCode(code, maxLen, maxLen);
  }

  /** Some directory entry's name yields `code`. */
  predicate FromEntry(code: string, names: seq<string>, maxLen: nat)
  {
    exists j :: 0 <= j < |names| && CodeFromName(names[j], maxLen) == Some(code)
  }

  /** The listing loop over the directory entries, in the order the directory returns them. */
  function AddNames(codes: seq<string>, names: seq<string>, maxCodes: nat, maxLen: nat): (r: seq<string>)
    requires maxLen > 0 && WellListed(codes, maxLen) && |codes| <= maxCodes
    ensures WellListed(r, maxLen) && |codes| <= |r| <= maxCodes && r[..|codes|] == codes
    ensures forall i :: |codes| <= i < |r| ==>
      FromEntry(r[i], names, maxLen)
    ensures |r| < maxCodes ==>
      forall j :: 0 <= j < |names| && CodeFromName(names[j], maxLen).Some? ==> CodeFromName(names[j], maxLen).value in r
    decreases |names|
  {
    if |names| == 0 then codes
    else
      var c := CodeFromName(names[0], maxLen);
      var next := AddCode(codes, maxCodes, maxLen, c);
      var r := AddNames(next, names[1..], maxCodes, maxLen);
      assert r[..|codes|] == codes by { assert r[..|next|][..|codes|] == r[..|codes|]; }
      NamesOrigin(codes, next, r, names, maxLen);
      NamesCovered(codes, next, r, names, maxCodes, maxLen);
      r
  }

  /** One directory entry's step of the listing: its code, if any, is added. */
  function AddCode(codes: seq<string>, maxCodes: nat, maxLen: nat, c: Option<string>): (next: seq<string>)
    requires maxLen > 0 && WellListed(codes, maxLen) && |codes| <= maxCodes
    requires c.Some? ==> c.value != "" && |c.value| < maxLen
    ensures WellListed(next, maxLen) && |codes| <= |next| <= maxCodes && next[..|codes|] == codes
    ensures forall i :: |codes| <= i < |next| ==> c == Some(next[i])
    ensures c.Some? && |codes| < maxCodes ==> c.value in next
  {
    if c.None? then codes
    else
      AddLanguageKeepsList(codes, maxCodes, maxLen, c.value);
      AddLanguage(codes, maxCodes, maxLen, c).0
  }

  /** Every code past the old ones comes from some entry. */
  lemma NamesOrigin(codes: seq<string>, next: seq<string>, r: seq<string>, names: seq<string>, maxLen: nat)
    requires |names| > 0 && |codes| <= |next| <= |r| && r[..|next|] == next
    requires forall i :: |codes| <= i < |next| ==> CodeFromName(names[0], maxLen) == Some(next[i])
    requires forall i :: |next| <= i < |r| ==>
      FromEntry(r[i], names[1..], maxLen)
    ensures forall i :: |codes| <= i < |r| ==>
      FromEntry(r[i], names, maxLen)
  {
    forall i | |codes| <= i < |r|
      ensures FromEntry(r[i], names, maxLen)
    {
      if i < |next| {
        assert r[i] == r[..|next|][i] == next[i];
        assert CodeFromName(names[0], maxLen) == Some(r[i]);
      } else {
        var j :| 0 <= j < |names[1..]| && CodeFromName(names[1..][j], maxLen) == Some(r[i]);
        assert names[1..][j] == names[j + 1];
        assert CodeFromName(names[j + 1], maxLen) == Some(r[i]);
        assert FromEntry(r[i], names, maxLen);
      }
    }
  }

  /** Short of the cap, every entry's code is listed. */
  lemma NamesCovered(codes: seq<string>, next: seq<string>, r: seq<string>, names: seq<string>, maxCodes: nat, maxLen: nat)
    requires |names| > 0 && |codes| <= |next| <= |r| && r[..|next|] == next
    requires CodeFromName(names[0], maxLen).Some? && |codes| < maxCodes ==> CodeFromName(names[0], maxLen).value in next
    requires |r| < maxCodes ==>
      forall j :: 0 <= j < |names[1..]| && CodeFromName(names[1..][j], maxLen).Some? ==> CodeFromName(names[1..][j], maxLen).value in r
    ensures |r| < maxCodes ==>
      forall j :: 0 <= j < |names| && CodeFromName(names[j], maxLen).Some? ==> CodeFromName(names[j], maxLen).value in r
  {
    if |r| < maxCodes {
      var c := CodeFromName(names[0], maxLen);
      if c.Some? {
        var k :| 0 <= k < |next| && next[k] == c.value;
        assert r[..|next|][k] == c.value;
      }
      forall j | 1 <= j < |names| && CodeFromName(names[j], maxLen).Some?
        ensures CodeFromName(names[j], maxLen).value in r
      {
        assert names[1..][j - 1] == names[j];
      }
    }
  }

  /** What the directory holds as far as the listing can tell. */
  datatype Directory =
    | Unavailable              // the directory can neither be found nor created
    | OpenFailed(missing: bool) // `opendir` failed; `missing` when `errno` is `ENOENT`
    | Entries(names: seq<string>)

  datatype Listing = InvalidArg | Listed(codes: seq<string>, ok: bool)

  /** The built-in codes, in the order they are listed. */
  const BuiltinCodes: seq<string> := ["de", "en", "es"]

  /**
   * `i18n_store_list_languages`: no room for any code is an invalid
   * argument; otherwise the built-ins come first (as far as they fit), then
   * the codes of the translation files, each once. A failed `opendir` is an
   * error unless the directory is simply missing.
   */
  function ListLanguages(maxCodes: nat, maxLen: nat, dir: Directory): (r: Listing)
    requires maxLen > 2
    ensures r == InvalidArg <==> maxCodes == 0
    ensures r.Listed? ==> var n := Min(3, maxCodes);
      && WellListed(r.codes, maxLen) && n <= |r.codes| <= maxCodes && r.codes[..n] == BuiltinCodes[..n]
      && (r.ok <==> !(dir.OpenFailed? && !dir.missing))
      && (!dir.Entries? ==> r.codes == BuiltinCodes[..n])
      && (dir.Entries? ==> forall i :: n <= i < |r.codes| ==>
            FromEntry(r.codes[i], dir.names, maxLen))
      && (dir.Entries? && |r.codes| < maxCodes ==>
            forall j :: 0 <= j < |dir.names| && CodeFromName(dir.names[j], maxLen).Some? ==>
              CodeFromName(dir.names[j], maxLen).value in r.codes)
  {
    if maxCodes == 0 then InvalidArg
    else
      var c3 := AddBuiltins(maxCodes, maxLen);
      match dir
      case Unavailable => Listed(c3, true)
      case OpenFailed(missing) => Listed(c3, missing)
      case Entries(names) => Listed(AddNames(c3, names, maxCodes, maxLen), true)
  }

  /** The three `i18n_store_add_language` calls for the built-ins: as many of them as fit, in order. */
  function AddBuiltins(maxCodes: nat, maxLen: nat): (c3: seq<string>)
    requires maxLen > 2
    ensures c3 == BuiltinCodes[..Min(3, maxCodes)] && WellListed(c3, maxLen)
  {
    var c1 := AddLanguage([], maxCodes, maxLen, Some("de")).0;
    var c2 := AddLanguage(c1, maxCodes, maxLen, Some("en")).0;
    SameUpToShort("de", "en", maxLen);
    SameUpToShort("de", "es", maxLen);
    SameUpToShort("en", "es", maxLen);
    AddLanguage(c2, maxCodes, maxLen, Some("es")).0
  }
}

=== FILE: js_text.dfy ===
/**
 * The JavaScript string operations the editor relies on: `trim`, `toLowerCase`,
 * `startsWith`, and `Number(...)` of a layout value.
 */
module JsText {
  import opened Wrappers
  import opened CStr
  import opened Json

  /** The characters `String.prototype.trim` removes (white space and line terminators). */
  predicate IsJsSpace(c: char)
  {
    c == ' ' || c == '\t' || c == '\n' || c == '\r' || c as int == 0x0B || c as int == 0x0C
    || c as int == 0xA0 || c as int == 0x1680 || 0x2000 <= c as int <= 0x200A
    || c as int == 0x2028 || c as int == 0x2029 || c as int == 0x202F || c as int == 0x205F
    || c as int == 0x3000 || c as int == 0xFEFF
  }

  function TrimStart(s: string): (r: string)
    ensures |r| <= |s| && r == s[|s| - |r|..]
    ensures |r| > 0 ==> !IsJsSpace(r[0])
    ensures forall i :: 0 <= i < |s| - |r| ==> IsJsSpace(s[i])
  {
    if |s| > 0 && IsJsSpace(s[0]) then TrimStart(s[1..]) else s
  }

  function TrimEnd(s: string): (r: string)
    ensures |r| <= |s| && r == s[..|r|]
    ensures |r| > 0 ==> !IsJsSpace(r[|r| - 1])
    ensures forall i :: |r| <= i < |s| ==> IsJsSpace(s[i])
  {
    if |s| > 0 && IsJsSpace(s[|s| - 1]) then TrimEnd(s[..|s| - 1]) else s
  }

  /** `s.trim()`: the string without leading and trailing white space. */
  function Trim(s: string): (r: string)
    ensures |r| == 0 || (!IsJsSpace(r[0]) && !IsJsSpace(r[|r| - 1]))
    ensures |r| <= |s|
  {
    TrimEnd(TrimStart(s))
  }

  lemma TrimStartNoop(s: string)
    requires |s| == 0 || !IsJsSpace(s[0])
    ensures TrimStart(s) == s
  {
  }

  lemma TrimEndNoop(s: string)
    requires |s| == 0 || !IsJsSpace(s[|s| - 1])
    ensures TrimEnd(s) == s
  {
  }

  /** A string with no white space at either end is its own trim. */
  lemma TrimNoop(s: string)
    requires |s| == 0 || (!IsJsSpace(s[0]) && !IsJsSpace(s[|s| - 1]))
    ensures Trim(s) == s
  {
    TrimStartNoop(s);
    TrimEndNoop(s);
  }

  /** Trimming a trimmed string changes nothing. */
  lemma TrimIdempotent(s: string)
    ensures Trim(Trim(s)) == Trim(s)
  {
    var r := Trim(s);
    TrimStartNoop(r);
    TrimEndNoop(r);
  }

  /** `toLowerCase` on the ASCII letters; other characters are kept. */
  function ToLowerCase(s: string): string
  {
    Lower(s)
  }

  lemma LowerIdempotent(s: string)
    ensures Lower(Lower(s)) == Lower(s)
  {
  }

  lemma LowerKeepsSpaces(s: string)
    ensures forall i :: 0 <= i < |s| ==> (IsJsSpace(Lower(s)[i]) <==> IsJsSpace(s[i]))
  {
  }

  /** Lower-casing and trimming commute, since no letter is white space. */
  lemma TrimLowerCommute(s: string)
    ensures Trim(Lower(s)) == Lower(Trim(s))
  {
    TrimStartLower(s);
    var t := TrimStart(s);
    assert TrimStart(Lower(s)) == Lower(t);
    TrimEndLower(t);
  }

  lemma {:induction false} TrimStartLower(s: string)
    ensures TrimStart(Lower(s)) == Lower(TrimStart(s))
  {
    if |s| > 0 && IsJsSpace(s[0]) {
      assert Lower(s)[1..] == Lower(s[1..]);
      TrimStartLower(s[1..]);
    }
  }

  lemma {:induction false} TrimEndLower(s: string)
    ensures TrimEnd(Lower(s)) == Lower(TrimEnd(s))
  {
    if |s| > 0 && IsJsSpace(s[|s| - 1]) {
      assert Lower(s)[..|s| - 1] == Lower(s[..|s| - 1]);
      TrimEndLower(s[..|s| - 1]);
    }
  }

  /** `10^n`. */
  function Pow10(n: nat): (r: nat)
    ensures r >= 1
  {
    if n == 0 then 1 else 10 * Pow10(n - 1)
  }

  /** `v * 10^e` for an exponent of either sign. */
  function Scale(v: real, e: int): real
  {
    if e >= 0 then v * Pow10(e) as real else v / Pow10(-e) as real
  }

  /** `DecimalDigits`: at least one digit, no separators. */
  predicate IsDigits(s: string)
  {
    |s| > 0 && AllDigits(s)
  }

  /** `SignedInteger` of an exponent part. */
  function SignedIntegerValue(s: string): Option<int>
  {
    if |s| > 0 && s[0] == '+' && IsDigits(s[1..]) then Some(DigitsValue(s[1..]))
    else if |s| > 0 && s[0] == '-' && IsDigits(s[1..]) then Some(0 - DigitsValue(s[1..]))
    else if IsDigits(s) then Some(DigitsValue(s))
    else None
  }

  /** The number `ip.fp` spells: the integer digits plus the fraction digits over a power of ten. */
  function PointValue(ip: string, fp: string): real
    requires AllDigits(ip) && AllDigits(fp)
  {
    DigitsValue(ip) as real + DigitsValue(fp) as real / Pow10(|fp|) as real
  }

  /**
   * The digits before and after the point of a mantissa: `12`, `12.`, `12.5`
   * and `.5` are mantissas, `.` and the empty text are not.
   */
  function MantissaValue(s: string): Option<real>
  {
    match IndexOf(s, '.')
    case None => if IsDigits(s) then Some(DigitsValue(s) as real) else None
    case Some(k) =>
      var ip := s[..k];
      var fp := s[k + 1..];
      if (|ip| == 0 || AllDigits(ip)) && (|fp| == 0 || AllDigits(fp)) && |ip| + |fp| > 0 then
        Some(PointValue(ip, fp))
      else None
  }

  /**
   * `StrUnsignedDecimalLiteral` other than `Infinity`: a mantissa, optionally
   * followed by `e` or `E` and a signed exponent.
   */
  function UnsignedDecimalValue(s: string): Option<real>
  {
    match IndexOf(Lower(s), 'e')
    case None => MantissaValue(s)
    case Some(k) =>
      match (MantissaValue(s[..k]), SignedIntegerValue(s[k + 1..]))
      case (Some(m), Some(e)) => Some(Scale(m, e))
      case _ => None
  }

  /** `StrDecimalLiteral`: an optional sign before an unsigned literal. */
  function DecimalValue(s: string): Option<real>
  {
    if |s| > 0 && s[0] == '+' then UnsignedDecimalValue(s[1..])
    else if |s| > 0 && s[0] == '-' then
      match UnsignedDecimalValue(s[1..])
      case Some(v) => Some(-v)
      case None => None
    else UnsignedDecimalValue(s)
  }

  /** A digit of base 2, 8 or 16, and its value. */
  predicate IsBaseDigit(c: char, base: nat)
  {
    if base == 16 then IsHexDigit(c) else '0' <= c && (c as int) < ('0' as int) + base
  }

  function BaseDigitValue(c: char): nat
  {
    if IsDigit(c) then c as int - '0' as int
    else if 'a' <= c <= 'f' then c as int - 'a' as int + 10
    else if 'A' <= c <= 'F' then c as int - 'A' as int + 10
    else 0
  }

  function BaseDigitsValue(s: string, base: nat): nat
  {
    if |s| == 0 then 0 else BaseDigitsValue(s[..|s| - 1], base) * base + BaseDigitValue(s[|s| - 1])
  }

  /** `NonDecimalIntegerLiteral`: `0x`, `0o` or `0b` (either case) and at least one digit; no sign. */
  function NonDecimalValue(s: string): Option<real>
  {
    if |s| < 3 || s[0] != '0' then None
    else
      var base := if s[1] in "xX" then 16 else if s[1] in "oO" then 8 else if s[1] in "bB" then 2 else 0;
      if base > 0 && forall i :: 2 <= i < |s| ==> IsBaseDigit(s[i], base) then Some(BaseDigitsValue(s[2..], base) as real)
      else None
  }

  /**
   * `Number(s)` for a string: white space trimmed, the empty text is 0, a
   * decimal or non-decimal literal is its value. Anything else, and the
   * spellings of `Infinity`, are not a finite number (`None`).
   */
  function StringToNumber(s: string): (r: Option<real>)
    ensures Trim(s) == "" ==> r == Some(0.0)
  {
    var t := Trim(s);
    if |t| == 0 then Some(0.0)
    else if NonDecimalValue(t).Some? then NonDecimalValue(t)
    else DecimalValue(t)
  }

  /**
   * `Number(v)` for a layout value, when the result is finite; `None` stands
   * for `NaN` and the infinities. `undefined` is `None` on input. An array
   * converts through its text: the empty array is 0, an array of one element
   * converts like that element's text, and two or more elements join with a
   * comma, which is never a number.
   */
  function ToNumber(v: Option<Value>): Option<real>
  {
    match v
    case None => None
    case Some(j) => ValueToNumber(j)
  }

  function ValueToNumber(j: Value): Option<real>
  {
    match j
    case Null => Some(0.0)
    case Bool(b) => Some(if b then 1.0 else 0.0)
    case Number(n) => Some(n)
    case Str(s) => StringToNumber(s)
    case Arr(items) =>
      if |items| == 0 then Some(0.0)
      else if |items| > 1 then None
      else ElementToNumber(items[0])
    case Obj(_) => None
  }

  /** The lone element of an array, through `String(element)`: `null` reads as the empty text. */
  function ElementToNumber(e: Value): Option<real>
  {
    match e
    case Null => Some(0.0)
    case Bool(_) => None
    case Number(n) => Some(n)
    case Str(s) => StringToNumber(s)
    case Arr(items) =>
      if |items| == 0 then Some(0.0)
      else if |items| > 1 then None
      else ElementToNumber(items[0])
    case Obj(_) => None
  }

  /** `Math.round`: the nearest integer, halves going up. */
  function JsRound(x: real): (r: int)
    ensures r as real - 0.5 <= x < r as real + 0.5
  {
    (x + 0.5).Floor
  }

  /** An integer is its own rounding. */
  lemma JsRoundInt(n: int)
    ensures JsRound(n as real) == n
  {
  }

  /** Every integer written in decimal reads back as itself. */
  lemma ToNumberOfDecimal(n: int)
    ensures StringToNumber(IntToDec(n)) == Some(n as real)
  {
    var d := NatToDec(if n < 0 then -n else n);
    NatToDecRoundTrip(if n < 0 then -n else n);
    if n < 0 {
      NegatedDigits(d);
    } else {
      TrimNoop(d);
      StringToNumberDigits(d);
    }
  }

  /** A minus sign before digits negates their value. */
  lemma NegatedDigits(d: string)
    requires IsDigits(d)
    ensures StringToNumber("-" + d) == Some(-(DigitsValue(d) as real))
  {
    OfDigits(d);
    var t := "-" + d;
    assert t[1..] == d && t[0] == '-' && t[|t| - 1] == d[|d| - 1];
    StringToNumberDecimal(t);
  }

  /** A digit string reads as its decimal value, and not as a non-decimal literal. */
  lemma OfDigits(d: string)
    requires IsDigits(d)
    ensures UnsignedDecimalValue(d) == Some(DigitsValue(d) as real)
    ensures DecimalValue(d) == Some(DigitsValue(d) as real)
    ensures NonDecimalValue(d).None?
  {
    NoSign(d);
    assert MantissaValue(d) == Some(DigitsValue(d) as real);
    assert IsDigit(d[0]);
    assert |d| >= 3 && d[0] == '0' ==> IsDigit(d[1]);
  }

  /** Digits alone, with any surrounding white space, convert to the integer they spell. */
  lemma StringToNumberDigits(s: string)
    requires IsDigits(Trim(s))
    ensures StringToNumber(s) == Some(DigitsValue(Trim(s)) as real)
  {
    OfDigits(Trim(s));
  }

  /** Surrounding white space never changes what a text converts to. */
  lemma StringToNumberTrim(s: string)
    ensures StringToNumber(Trim(s)) == StringToNumber(s)
  {
    TrimIdempotent(s);
  }

  /** Digits, a point and optional digits convert to the decimal fraction they spell. */
  lemma StringToNumberPointed(a: string, b: string)
    requires IsDigits(a) && AllDigits(b)
    ensures StringToNumber(a + "." + b)
      == Some(PointValue(a, b))
  {
    var t := a + "." + b;
    assert t[0] == a[0] && t[|t| - 1] == (if |b| > 0 then b[|b| - 1] else '.');
    TrimNoop(t);
    PointedNotPrefixed(a, b);
    PointedDecimal(a, b);
  }

  lemma PointedNotPrefixed(a: string, b: string)
    requires IsDigits(a) && AllDigits(b)
    ensures NonDecimalValue(a + "." + b).None?
  {
    var t := a + "." + b;
    assert t[0] == a[0];
    assert t[1] == (if |a| > 1 then a[1] else '.');
  }

  lemma PointedDecimal(a: string, b: string)
    requires IsDigits(a) && AllDigits(b)
    ensures DecimalValue(a + "." + b)
      == Some(PointValue(a, b))
  {
    var t := a + "." + b;
    assert t[0] == a[0];
    assert forall i :: 0 <= i < |t| ==> t[i] == '.' || IsDigit(t[i]);
    LowerNoop(t);
    assert 'e' !in t;
    assert UnsignedDecimalValue(t) == MantissaValue(t);
    PointedMantissa(a, b);
  }

  lemma PointedMantissa(a: string, b: string)
    requires IsDigits(a) && AllDigits(b)
    ensures MantissaValue(a + "." + b)
      == Some(PointValue(a, b))
  {
    var t := a + "." + b;
    var k := |a|;
    assert t[..k] == a;
    assert t[k + 1..] == b;
    assert '.' !in a;
    IndexOfAt(t, '.', k);
  }

  /** A digit string has no point and no exponent. */
  lemma NoSign(d: string)
    requires IsDigits(d)
    ensures IndexOf(d, '.').None? && IndexOf(Lower(d), 'e').None? && Lower(d) == d
  {
    assert forall i :: 0 <= i < |d| ==> d[i] != '.' && d[i] != 'e';
    assert Lower(d) == d;
  }

  /** Text with no surrounding space and no `0x`/`0o`/`0b` prefix converts as a decimal literal. */
  lemma StringToNumberDecimal(t: string)
    requires |t| > 0 && !IsJsSpace(t[0]) && !IsJsSpace(t[|t| - 1])
    requires |t| < 3 || t[0] != '0'
    ensures StringToNumber(t) == DecimalValue(t)
  {
    TrimNoop(t);
  }

  /** A decimal fraction with a point, padded with spaces. */
  lemma StringToNumberFraction()
    ensures StringToNumber(" 12.5 ") == Some(12.5)
  {
    TrimPadded();
    UnsignedFraction();
  }

  /** The same fraction without padding. */
  lemma StringToNumberPlainFraction()
    ensures StringToNumber("12.5") == Some(12.5)
  {
    StringToNumberDecimal("12.5");
    UnsignedFraction();
  }

  lemma UnsignedFraction()
    ensures UnsignedDecimalValue("12.5") == Some(12.5)
    ensures DecimalValue("12.5") == Some(12.5)
    ensures NonDecimalValue("12.5").None?
  {
    MantissaFraction();
    var t := "12.5";
    assert Lower(t) == t && 'e' !in t;
  }

  lemma TrimPadded()
    ensures Trim(" 12.5 ") == "12.5"
  {
    var s := " 12.5 ";
    assert s[1..] == "12.5 ";
    TrimStartNoop("12.5 ");
    assert TrimStart(s) == "12.5 ";
    assert "12.5 "[..4] == "12.5";
    TrimEndNoop("12.5");
    assert TrimEnd("12.5 ") == "12.5";
  }

  lemma MantissaFraction()
    ensures MantissaValue("12.5") == Some(12.5)
  {
    var t := "12.5";
    IndexOfAt(t, '.', 2);
    assert t[..2] == "12" && t[3..] == "5";
    assert "12"[..1] == "1" && "1"[..0] == "" && "5"[..0] == "";
    assert DigitsValue("12") == 12 && DigitsValue("5") == 5;
    assert Pow10(1) == 10;
  }

  /** A bare fraction with a sign. */
  lemma StringToNumberSignedFraction()
    ensures StringToNumber("-.5") == Some(-0.5)
  {
    var t := "-.5";
    TrimNoop(t);
    var u := t[1..];
    assert u == ".5";
    IndexOfAt(u, '.', 0);
    assert u[..0] == "" && u[1..] == "5" && DigitsValue("5") == 5;
    assert MantissaValue(u) == Some(0.5);
    assert Lower(u) == u && 'e' !in u;
    assert UnsignedDecimalValue(u) == Some(0.5);
  }

  /** A positive exponent. */
  lemma StringToNumberExponent()
    ensures StringToNumber("1e3") == Some(1000.0)
  {
    var t := "1e3";
    StringToNumberDecimal(t);
    assert Lower(t) == t;
    IndexOfAt(t, 'e', 1);
    assert t[..1] == "1" && t[2..] == "3";
    OfDigits("1");
    assert MantissaValue("1") == Some(1.0);
    assert SignedIntegerValue("3") == Some(3);
    assert Scale(1.0, 3) == 1000.0;
    assert UnsignedDecimalValue(t) == Some(1000.0);
  }

  /** A negative exponent, written with a capital. */
  lemma StringToNumberNegativeExponent()
    ensures StringToNumber("25E-1") == Some(2.5)
  {
    var t := "25E-1";
    StringToNumberDecimal(t);
    ExponentSplit();
    MantissaTwentyFive();
    assert SignedIntegerValue("-1") == Some(-1) by {
      assert "-1"[1..] == "1" && "1"[..0] == "";
    }
    assert Scale(25.0, -1) == 2.5;
    assert UnsignedDecimalValue(t) == Some(2.5);
  }

  lemma ExponentSplit()
    ensures IndexOf(Lower("25E-1"), 'e') == Some(2)
    ensures "25E-1"[..2] == "25" && "25E-1"[3..] == "-1"
  {
    assert Lower("25E-1") == "25e-1";
    IndexOfAt("25e-1", 'e', 2);
  }

  lemma MantissaTwentyFive()
    ensures MantissaValue("25") == Some(25.0)
  {
    NoSign("25");
    assert "25"[..1] == "2" && "2"[..0] == "";
    assert DigitsValue("25") == 25;
  }

  /** A hexadecimal literal. */
  lemma StringToNumberHex()
    ensures StringToNumber("0x1F") == Some(31.0)
  {
    TrimNoop("0x1F");
    assert "0x1F"[2..] == "1F" && "1F"[..1] == "1" && "1"[..0] == "";
    assert BaseDigitsValue("1F", 16) == 31;
  }

  /** Text with letters after the digits is `NaN`. */
  lemma StringToNumberRejectsUnit()
    ensures StringToNumber("12px") == None
  {
    var t := "12px";
    StringToNumberDecimal(t);
    assert Lower(t) == t;
    assert 'e' !in t && '.' !in t;
    assert !IsDigit(t[2]);
    assert MantissaValue(t) == None;
    assert UnsignedDecimalValue(t) == None;
  }

  /** A point without digits is `NaN`. */
  lemma StringToNumberRejectsPoint()
    ensures StringToNumber(".") == None
  {
    var t := ".";
    StringToNumberDecimal(t);
    IndexOfAt(t, '.', 0);
    assert t[..0] == "" && t[1..] == "";
    assert MantissaValue(t) == None;
    assert Lower(t) == t && 'e' !in t;
    assert UnsignedDecimalValue(t) == None;
  }

  /** Two array elements join with a comma, which is `NaN`. */
  lemma StringToNumberRejectsComma()
    ensures StringToNumber("1,2") == None
  {
    var t := "1,2";
    StringToNumberDecimal(t);
    assert Lower(t) == t && 'e' !in t && '.' !in t;
    assert !IsDigit(t[1]);
    assert MantissaValue(t) == None;
    assert UnsignedDecimalValue(t) == None;
  }
}

=== FILE: json.dfy ===
/**
 * A small algebraic picture of the JSON documents the firmware and the editor
 * exchange. Objects keep their members in document order; a lookup returns the
 * first member with the key, as `cJSON_GetObjectItemCaseSensitive` does.
 * Numbers carry their exact decimal value as a real.
 */
module Json {
  import opened Wrappers

  datatype Value =
    | Null
    | Bool(b: bool)
    | Number(n: real)
    | Str(s: string)
    | Arr(items: seq<Value>)
    | Obj(members: seq<Member>)

  datatype Member = Member(key: string, value: Value)

  const IntMax: int := 0x7FFF_FFFF
  const IntMin: int := -0x8000_0000

  /** C's `(int)` of a double in range: the fraction is dropped, toward zero. */
  function Truncate(x: real): (r: int)
    ensures x >= 0.0 ==> r as real <= x < r as real + 1.0
    ensures x < 0.0 ==> r as real - 1.0 < x <= r as real
  {
    if x >= 0.0 then x.Floor else -((-x).Floor)
  }

  /**
   * cJSON's `valueint` of a number: `INT_MAX` from `INT_MAX` up, `INT_MIN`
   * from `INT_MIN` down, and the truncated value between.
   */
  function ValueInt(x: real): (r: int)
    ensures IntMin <= r <= IntMax
    ensures x >= IntMax as real ==> r == IntMax
    ensures x <= IntMin as real ==> r == IntMin
    ensures IntMin as real < x < IntMax as real ==> r == Truncate(x)
  {
    if x >= IntMax as real then IntMax
    else if x <= IntMin as real then IntMin
    else Truncate(x)
  }

  /** A whole number within 32 bits is its own `valueint`; a fraction is cut toward zero. */
  lemma ValueIntExamples(n: int)
    requires IntMin <= n <= IntMax
    ensures ValueInt(n as real) == n
    ensures ValueInt(12.9) == 12 && ValueInt(-12.9) == -12
    ensures ValueInt(1000000000000.0) == IntMax
  {
  }

  /**
   * A sum of two `int`s as the firmware's 32-bit two's-complement arithmetic
   * leaves it: the exact value reduced into [INT_MIN, INT_MAX]. C calls the
   * overflow undefined; this is what wrapping hardware produces.
   */
  function Wrap32(x: int): (r: int)
    ensures IntMin <= r <= IntMax
    ensures (r - x) % 0x1_0000_0000 == 0
    ensures IntMin <= x <= IntMax ==> r == x
  {
    (x - IntMin) % 0x1_0000_0000 + IntMin
  }

  /** The value of the first member named `key`. */
  function Lookup(members: seq<Member>, key: string): (r: Option<Value>)
    ensures r.None? <==> forall i :: 0 <= i < |members| ==> members[i].key != key
  {
    if |members| == 0 then None
    else if members[0].key == key then Some(members[0].value)
    else
      var r := Lookup(members[1..], key);
      assert forall i :: 1 <= i < |members| ==> members[i] == members[1..][i - 1];
      r
  }

  /** Member `key` of an object; nothing for any other value. */
  function Get(j: Value, key: string): Option<Value>
  {
    if j.Obj? then Lookup(j.members, key) else None
  }

  predicate IsString(j: Option<Value>) { j.Some? && j.value.Str? }
  predicate IsNumber(j: Option<Value>) { j.Some? && j.value.Number? }
  predicate IsObject(j: Option<Value>) { j.Some? && j.value.Obj? }
  predicate IsArray(j: Option<Value>) { j.Some? && j.value.Arr? }
  predicate IsBool(j: Option<Value>) { j.Some? && j.value.Bool? }

  predicate HasKey(members: seq<Member>, key: string)
  {
    exists m :: m in members && m.key == key
  }

  /** Every member named `key` holds `v`, and there is at least one. */
  predicate AllValued(members: seq<Member>, key: string, v: Value)
  {
    HasKey(members, key) && forall m :: m in members && m.key == key ==> m.value == v
  }

  /**
   * JavaScript property assignment `o[key] = v`: an existing property keeps
   * its place and takes the new value, a new one is appended.
   */
  function Put(members: seq<Member>, key: string, v: Value): (r: seq<Member>)
    ensures Lookup(r, key) == Some(v)
    ensures HasKey(members, key) ==> |r| == |members|
    ensures !HasKey(members, key) ==> r == members + [Member(key, v)]
  {
    if HasKey(members, key) then
      var r := SetAll(members, key, v);
      assert forall m :: m in r ==> m in members || m == Member(key, v) by {
        forall m | m in r ensures m in members || m == Member(key, v) {
          var i :| 0 <= i < |r| && r[i] == m;
        }
      }
      assert forall m :: m in members && m.key != key ==> m in r by {
        forall m | m in members && m.key != key ensures m in r {
          var i :| 0 <= i < |members| && members[i] == m;
          assert r[i] == m;
        }
      }
      var m0 :| m0 in members && m0.key == key;
      var i0 :| 0 <= i0 < |members| && members[i0] == m0;
      assert r[i0] == Member(key, v);
      r
    else
      LookupAppend(members, Member(key, v));
      members + [Member(key, v)]
  }

  /** Gives every member named `key` the value `v`, in place. */
  function SetAll(members: seq<Member>, key: string, v: Value): (r: seq<Member>)
    ensures |r| == |members|
    ensures forall i :: 0 <= i < |r| ==> r[i] == (if members[i].key == key then Member(key, v) else members[i])
    ensures HasKey(members, key) ==> Lookup(r, key) == Some(v)
    ensures forall k :: k != key ==> Lookup(r, k) == Lookup(members, k)
  {
    if |members| == 0 then []
    else
      var rest := SetAll(members[1..], key, v);
      [if members[0].key == key then Member(key, v) else members[0]] + rest
  }

  lemma LookupAppend(members: seq<Member>, m: Member)
    ensures !HasKey(members, m.key) ==> Lookup(members + [m], m.key) == Some(m.value)
    ensures forall k :: k != m.key ==> Lookup(members + [m], k) == Lookup(members, k)
  {
    if |members| > 0 {
      assert (members + [m])[1..] == members[1..] + [m];
      LookupAppend(members[1..], m);
    }
  }

  /** Assigning one key leaves the lookup of every other key as it was. */
  lemma PutOther(members: seq<Member>, key: string, v: Value, k: string)
    requires k != key
    ensures Lookup(Put(members, key, v), k) == Lookup(members, k)
  {
    if !HasKey(members, key) { LookupAppend(members, Member(key, v)); }
  }

  /** Deleting one key leaves the lookup of every other key as it was. */
  /** `Put` leaves every other key's value as it was. */
  lemma PutOthers(members: seq<Member>, key: string, v: Value)
    ensures forall k :: k != key ==> Lookup(Put(members, key, v), k) == Lookup(members, k)
  {
    forall k | k != key {
      PutOther(members, key, v, k);
    }
  }

  lemma RemoveOther(members: seq<Member>, key: string, k: string)
    requires k != key
    ensures Lookup(Remove(members, key), k) == Lookup(members, k)
  {
    if |members| > 0 { RemoveOther(members[1..], key, k); }
  }

  /** Two assignments to distinct keys: each holds its value, every other key is kept. */
  lemma PutTwo(m: seq<Member>, k1: string, v1: Value, k2: string, v2: Value)
    requires k1 != k2
    ensures var r := Put(Put(m, k1, v1), k2, v2);
      && Lookup(r, k1) == Some(v1) && Lookup(r, k2) == Some(v2)
      && forall k :: k != k1 && k != k2 ==> Lookup(r, k) == Lookup(m, k)
  {
    var m1 := Put(m, k1, v1);
    PutOther(m1, k2, v2, k1);
    forall k | k != k1 && k != k2
      ensures Lookup(Put(m1, k2, v2), k) == Lookup(m, k)
    {
      PutOther(m, k1, v1, k);
      PutOther(m1, k2, v2, k);
    }
  }

  /** A deletion after two assignments, all to distinct keys: every other key is kept. */
  lemma PutTwoRemove(m: seq<Member>, k1: string, v1: Value, k2: string, v2: Value, k3: string)
    requires k1 != k2 && k1 != k3 && k2 != k3
    ensures var r := Remove(Put(Put(m, k1, v1), k2, v2), k3);
      && Lookup(r, k1) == Some(v1) && Lookup(r, k2) == Some(v2) && Lookup(r, k3) == None
      && forall k :: k != k1 && k != k2 && k != k3 ==> Lookup(r, k) == Lookup(m, k)
  {
    var m2 := Put(Put(m, k1, v1), k2, v2);
    PutTwo(m, k1, v1, k2, v2);
    RemoveOther(m2, k3, k1);
    RemoveOther(m2, k3, k2);
    forall k | k != k1 && k != k2 && k != k3
      ensures Lookup(Remove(m2, k3), k) == Lookup(m, k)
    {
      RemoveOther(m2, k3, k);
    }
  }

  /** Repeating two assignments to distinct keys changes nothing. */
  lemma PutTwoFixpoint(m: seq<Member>, k1: string, v1: Value, k2: string, v2: Value)
    requires k1 != k2
    ensures var r := Put(Put(m, k1, v1), k2, v2);
      Put(Put(r, k1, v1), k2, v2) == r
  {
    var r := Put(Put(m, k1, v1), k2, v2);
    PutAllValued(m, k1, v1);
    PutAllValued(Put(m, k1, v1), k2, v2);
    PutFixpoint(r, k1, v1);
    PutFixpoint(r, k2, v2);
  }

  /** Repeating three assignments to distinct keys changes nothing. */
  lemma PutThreeFixpoint(m: seq<Member>, k1: string, v1: Value, k2: string, v2: Value, k3: string, v3: Value)
    requires k1 != k2 && k1 != k3 && k2 != k3
    ensures var r := Put(Put(Put(m, k1, v1), k2, v2), k3, v3);
      Put(Put(Put(r, k1, v1), k2, v2), k3, v3) == r
  {
    var m2 := Put(Put(m, k1, v1), k2, v2);
    var r := Put(m2, k3, v3);
    PutAllValued(m, k1, v1);
    PutAllValued(Put(m, k1, v1), k2, v2);
    PutAllValued(m2, k3, v3);
    PutFixpoint(r, k1, v1);
    PutFixpoint(r, k2, v2);
    PutFixpoint(r, k3, v3);
  }

  /** Repeating two assignments and a deletion, all on distinct keys, changes nothing. */
  lemma PutTwoRemoveFixpoint(m: seq<Member>, k1: string, v1: Value, k2: string, v2: Value, k3: string)
    requires k1 != k2 && k1 != k3 && k2 != k3
    ensures var r := Remove(Put(Put(m, k1, v1), k2, v2), k3);
      Remove(Put(Put(r, k1, v1), k2, v2), k3) == r
  {
    var m2 := Put(Put(m, k1, v1), k2, v2);
    var r := Remove(m2, k3);
    PutAllValued(m, k1, v1);
    PutAllValued(Put(m, k1, v1), k2, v2);
    RemoveAllValued(m2, k3, k1, v1);
    RemoveAllValued(m2, k3, k2, v2);
    PutFixpoint(r, k1, v1);
    PutFixpoint(r, k2, v2);
  }

  /** Three assignments to distinct keys: each holds its value, every other key is kept. */
  lemma PutThree(m: seq<Member>, k1: string, v1: Value, k2: string, v2: Value, k3: string, v3: Value)
    requires k1 != k2 && k1 != k3 && k2 != k3
    ensures var r := Put(Put(Put(m, k1, v1), k2, v2), k3, v3);
      && Lookup(r, k1) == Some(v1) && Lookup(r, k2) == Some(v2) && Lookup(r, k3) == Some(v3)
      && forall k :: k != k1 && k != k2 && k != k3 ==> Lookup(r, k) == Lookup(m, k)
  {
    var m2 := Put(Put(m, k1, v1), k2, v2);
    PutTwo(m, k1, v1, k2, v2);
    PutOther(m2, k3, v3, k1);
    PutOther(m2, k3, v3, k2);
    forall k | k != k1 && k != k2 && k != k3
      ensures Lookup(Put(m2, k3, v3), k) == Lookup(m, k)
    {
      PutOther(m2, k3, v3, k);
    }
  }

  lemma PutAllValued(members: seq<Member>, key: string, v: Value)
    ensures AllValued(Put(members, key, v), key, v)
    ensures forall k, w :: k != key && AllValued(members, k, w) ==> AllValued(Put(members, key, v), k, w)
  {
  }

  lemma RemoveAllValued(members: seq<Member>, key: string, k: string, w: Value)
    requires k != key && AllValued(members, k, w)
    ensures AllValued(Remove(members, key), k, w)
  {
    var m :| m in members && m.key == k;
    assert m in Remove(members, key);
  }

  /** Assigning the value every member named `key` already holds changes nothing. */
  lemma PutFixpoint(members: seq<Member>, key: string, v: Value)
    requires AllValued(members, key, v)
    ensures Put(members, key, v) == members
  {
    var r := Put(members, key, v);
    forall i | 0 <= i < |members| ensures r[i] == members[i] {
      assert members[i] in members;
    }
  }

  /** The value found for a key every member of which holds `v`. */
  lemma LookupAllValued(members: seq<Member>, key: string, v: Value)
    requires AllValued(members, key, v)
    ensures Lookup(members, key) == Some(v)
  {
    LookupFound(members, key);
  }

  /** A key no member carries is not found. */
  lemma LookupAbsent(members: seq<Member>, key: string)
    requires !HasKey(members, key)
    ensures Lookup(members, key) == None
  {
    forall i | 0 <= i < |members|
      ensures members[i].key != key
    {
      assert members[i] in members;
    }
  }

  /** A value found by `Lookup` belongs to a member with that key. */
  lemma LookupFound(members: seq<Member>, key: string)
    ensures Lookup(members, key).Some? ==> Member(key, Lookup(members, key).value) in members
  {
    if |members| > 0 && members[0].key != key {
      LookupFound(members[1..], key);
    }
  }

  /** JavaScript `delete o[key]`. */
  function Remove(members: seq<Member>, key: string): (r: seq<Member>)
    ensures Lookup(r, key) == None && !HasKey(r, key)
    ensures forall m :: m in r <==> m in members && m.key != key
    ensures !HasKey(members, key) ==> r == members
  {
    if |members| == 0 then []
    else if members[0].key == key then Remove(members[1..], key)
    else [members[0]] + Remove(members[1..], key)
  }
}

=== FILE: layout_validate.dfy ===
/**
 * The firmware's layout gate, `layout_validate_json`: the entity-id, domain,
 * colour and direction grammars, the rect bounds, duplicate page and widget
 * ids across the whole document, and the bounded list of messages. Messages
 * are kept as structured problems rather than formatted text.
 */
module LayoutValidate {
  import opened Wrappers
  import opened CStr
  import opened Json
  import opened HexRgb
  import opened PanelConfig

  /** `[a-z0-9_]`, the characters of an entity id besides its one dot. */
  predicate IsEntityChar(c: char)
  {
    IsLower(c) || IsDigit(c) || c == '_'
  }

  /** The shape of a valid entity id, stated without the search for the dot. */
  predicate EntityIdShape(maxLen: int, e: string)
  {
    && 3 <= |e| < maxLen
    && exists k :: (0 < k < |e| - 1 && e[k] == '.'
         && forall i :: 0 <= i < |e| && i != k ==> IsEntityChar(e[i]))
  }

  /** `is_valid_entity_id`. */
  function IsValidEntityId(maxLen: int, e: string): (r: bool)
    ensures r <==> EntityIdShape(maxLen, e)
  {
    if |e| < 3 || |e| >= maxLen then false
    else match IndexOf(e, '.')
      case None => false
      case Some(k) =>
        if k == 0 || k + 1 == |e| then false
        else if '.' in e[k + 1..] then false
        else
          var ok := forall i :: 0 <= i < |e| ==> e[i] == '.' || IsEntityChar(e[i]);
          EntityIdShapeAt(maxLen, e, k);
          ok
  }

  /** With the first dot at `k`, the shape holds iff no later dot and every other character is allowed. */
  lemma EntityIdShapeAt(maxLen: int, e: string, k: nat)
    requires 3 <= |e| < maxLen && 0 < k < |e| - 1 && e[k] == '.' && '.' !in e[..k] && '.' !in e[k + 1..]
    ensures EntityIdShape(maxLen, e) <==> forall i :: 0 <= i < |e| ==> e[i] == '.' || IsEntityChar(e[i])
  {
    assert forall i :: 0 <= i < k ==> e[..k][i] == e[i];
    assert forall i :: k < i < |e| ==> e[k + 1..][i - k - 1] == e[i];
    assert forall i :: 0 <= i < |e| && i != k ==> e[i] != '.';
  }

  /** `entity_in_domain`: the id is the domain followed by a dot and more. */
  predicate EntityInDomain(e: string, domain: string)
  {
    |domain| < |e| && e[..|domain|] == domain && e[|domain|] == '.'
  }

  lemma EntityInDomainIsPrefix(e: string, domain: string)
    ensures EntityInDomain(e, domain) <==> StartsWith(e, domain + ".")
  {
    if StartsWith(e, domain + ".") {
      assert e[..|domain|] == (domain + ".")[..|domain|];
      assert e[|domain|] == (domain + ".")[|domain|];
    }
    if EntityInDomain(e, domain) {
      assert e[..|domain| + 1] == e[..|domain|] + [e[|domain|]];
    }
  }

  /** `required_domain_for_widget_type`. */
  function RequiredDomain(widgetType: string): Option<string>
  {
    if widgetType == "sensor" then Some("sensor")
    else if widgetType == "light_tile" then Some("light")
    else if widgetType == "heating_tile" then Some("climate")
    else if widgetType == "weather_tile" || widgetType == "weather_3day" then Some("weather")
    else None
  }

  /** `widget_entity_domain_valid`. */
  function EntityDomainValid(widgetType: string, e: string): (r: bool)
    ensures widgetType == "sensor" ==> (r <==> EntityInDomain(e, "sensor") || EntityInDomain(e, "binary_sensor"))
    ensures widgetType != "sensor" && RequiredDomain(widgetType).Some? ==>
      (r <==> EntityInDomain(e, RequiredDomain(widgetType).value))
    ensures RequiredDomain(widgetType).None? ==> r
  {
    if widgetType == "sensor" then EntityInDomain(e, "sensor") || EntityInDomain(e, "binary_sensor")
    else match RequiredDomain(widgetType)
      case None => true
      case Some(d) => EntityInDomain(e, d)
  }

  const SliderDirections: set<string> := {"auto", "left_to_right", "right_to_left", "bottom_to_top", "top_to_bottom"}

  /** One message of the validation result. `widget` is the widget's id, or "?" when it is not a string. */
  datatype Problem =
    | NullLayout | ParseError | BadVersion | PagesNotArray | NoPages | TooManyPages
    | PageNotObject | PageInvalidId(pageIndex: nat) | PageIdTooLong(pageId: string) | DuplicatePageId(pageId: string)
    | WidgetsNotArray(page: string) | TooManyWidgets(page: string) | WidgetNotObject
    | WidgetInvalidId(pageIndex: nat, widgetIndex: nat) | WidgetIdTooLong(widgetId: string)
    | DuplicateWidgetId(widgetId: string)
    | MissingType(widget: string) | UnsupportedType(widget: string, widgetType: string)
    | InvalidEntityId(widget: string) | SensorDomain(widget: string) | WrongDomain(widget: string, domain: string)
    | InvalidSecondary(widget: string) | BadSliderDirection(widget: string) | BadSliderAccent(widget: string)
    | MissingRect(widget: string) | RectNotNumbers(widget: string) | RectOutOfBounds(widget: string)
    | SizeOutOfLimits(widget: string, limits: SizeLimits)

  /** `layout_validation_add`: a message is kept only while there is room. */
  function Add(messages: seq<Problem>, maxErrors: int, p: Problem): (r: seq<Problem>)
    ensures |messages| >= maxErrors ==> r == messages
    ensures |messages| < maxErrors ==> r == messages + [p]
  {
    if |messages| >= maxErrors then messages else messages + [p]
  }

  function AddAll(messages: seq<Problem>, maxErrors: int, ps: seq<Problem>): seq<Problem>
    decreases |ps|
  {
    if |ps| == 0 then messages else AddAll(Add(messages, maxErrors, ps[0]), maxErrors, ps[1..])
  }

  /** Adding one by one keeps the first `maxErrors` problems and drops the rest. */
  lemma {:induction false} AddAllKeepsPrefix(messages: seq<Problem>, maxErrors: int, ps: seq<Problem>)
    requires |messages| <= maxErrors
    decreases |ps|
    ensures AddAll(messages, maxErrors, ps) == (messages + ps)[..Max(|messages|, Min(|messages| + |ps|, maxErrors))]
  {
    if |ps| > 0 {
      var next := Add(messages, maxErrors, ps[0]);
      AddAllKeepsPrefix(next, maxErrors, ps[1..]);
      if |messages| < maxErrors {
        assert next + ps[1..] == messages + ps;
      } else {
        assert AddAll(messages, maxErrors, ps) == AddAll(messages, maxErrors, ps[1..]);
        assert (messages + ps[1..])[..|messages|] == messages == (messages + ps)[..|messages|];
      }
    } else {
      assert messages + ps == messages;
    }
  }

  /** The name a message gives the widget. */
  function Label(id: Option<Value>): string
  {
    if IsString(id) then id.value.s else "?"
  }

  function Text(v: Option<Value>): string
    requires IsString(v)
  {
    v.value.s
  }

  /** The id checks of `validate_widget`. */
  function IdProblems(cfg: Config, id: Option<Value>, known: seq<string>, pageIndex: nat, widgetIndex: nat)
    : (r: seq<Problem>)
    ensures |r| <= 1
    ensures |r| == 0 <==> IsString(id) && 0 < |Text(id)| < cfg.maxWidgetIdLen && Text(id) !in known
  {
    if !IsString(id) || |Text(id)| == 0 then [WidgetInvalidId(pageIndex, widgetIndex)]
    else if |Text(id)| >= cfg.maxWidgetIdLen then [WidgetIdTooLong(Text(id))]
    else if Text(id) in known then [DuplicateWidgetId(Text(id))]
    else []
  }

  function TypeProblems(who: string, widgetType: Option<Value>): (r: seq<Problem>)
    ensures |r| <= 1
    ensures |r| == 0 <==> IsString(widgetType) && Text(widgetType) in FirmwareWidgetTypes
  {
    if !IsString(widgetType) then [MissingType(who)]
    else if Text(widgetType) !in FirmwareWidgetTypes then [UnsupportedType(who, Text(widgetType))]
    else []
  }

  /** The entity-id grammar and, when the type is a string, the domain rule. */
  function EntityProblems(cfg: Config, who: string, widgetType: Option<Value>, entity: Option<Value>)
    : (r: seq<Problem>)
    ensures |r| <= 2
    ensures |r| == 0 <==>
      && IsString(entity) && IsValidEntityId(cfg.maxEntityIdLen, Text(entity))
      && (IsString(widgetType) ==> EntityDomainValid(Text(widgetType), Text(entity)))
  {
    var grammar := if !IsString(entity) || !IsValidEntityId(cfg.maxEntityIdLen, Text(entity)) then [InvalidEntityId(who)] else [];
    var domain :=
      if IsString(widgetType) && IsString(entity) && !EntityDomainValid(Text(widgetType), Text(entity)) then
        if Text(widgetType) == "sensor" then [SensorDomain(who)]
        else [WrongDomain(who, RequiredDomain(Text(widgetType)).GetOr("?"))]
      else [];
    grammar + domain
  }

  /** A heating tile's non-empty secondary entity must be a valid `sensor.` id. */
  function SecondaryProblems(cfg: Config, who: string, widgetType: Option<Value>, secondary: Option<Value>)
    : (r: seq<Problem>)
    ensures |r| <= 1
    ensures |r| == 0 <==>
      !(IsString(widgetType) && Text(widgetType) == "heating_tile" && IsString(secondary) && Text(secondary) != "")
      || (IsValidEntityId(cfg.maxEntityIdLen, Text(secondary)) && EntityInDomain(Text(secondary), "sensor"))
  {
    if IsString(widgetType) && Text(widgetType) == "heating_tile" && IsString(secondary) && Text(secondary) != ""
       && !(IsValidEntityId(cfg.maxEntityIdLen, Text(secondary)) && EntityInDomain(Text(secondary), "sensor"))
    then [InvalidSecondary(who)]
    else []
  }

  /** A slider's direction and accent colour, when present, must be strings of their grammars. */
  function SliderProblems(who: string, widgetType: Option<Value>, direction: Option<Value>, accent: Option<Value>)
    : (r: seq<Problem>)
    ensures |r| <= 2
    ensures |r| == 0 <==>
      !(IsString(widgetType) && Text(widgetType) == "slider")
      || ((direction.None? || (IsString(direction) && Text(direction) in SliderDirections))
          && (accent.None? || (IsString(accent) && IsValidHexRgb(Text(accent)))))
  {
    if !(IsString(widgetType) && Text(widgetType) == "slider") then []
    else
      (if direction.Some? && !(IsString(direction) && Text(direction) in SliderDirections) then [BadSliderDirection(who)] else [])
      + (if accent.Some? && !(IsString(accent) && IsValidHexRgb(Text(accent))) then [BadSliderAccent(who)] else [])
  }

  /** The rect lies inside the content box with a positive size. */
  predicate InContentBox(cfg: Config, x: int, y: int, w: int, h: int)
  {
    0 < w && 0 < h && 0 <= x && 0 <= y && x + w <= cfg.contentWidth && y + h <= cfg.contentHeight
  }

  /**
   * The bound test as `validate_widget` writes it: `rx + rw` and `ry + rh`
   * are sums of two `int`s, which wrap round on 32-bit hardware.
   */
  predicate InContentBoxAsWritten(cfg: Config, x: int, y: int, w: int, h: int)
  {
    0 < w && 0 < h && 0 <= x && 0 <= y && Wrap32(x + w) <= cfg.contentWidth && Wrap32(y + h) <= cfg.contentHeight
  }

  /** While neither sum leaves 32 bits the written test is the intended one. */
  lemma ContentBoxAgrees(cfg: Config, x: int, y: int, w: int, h: int)
    requires x + w <= IntMax && y + h <= IntMax
    ensures InContentBoxAsWritten(cfg, x, y, w, h) <==> InContentBox(cfg, x, y, w, h)
  {
    if 0 < w && 0 < h && 0 <= x && 0 <= y {
      assert Wrap32(x + w) == x + w && Wrap32(y + h) == y + h;
    }
  }

  /**
   * A 120x80 sensor rect, the smallest a sensor may be, at `"x": 1e12`:
   * `valueint` reads `x` as `INT_MAX`.
   */
  const OverflowRect: Value :=
    Obj([Member("x", Number(1000000000000.0)), Member("y", Number(0.0)), Member("w", Number(120.0)), Member("h", Number(80.0))])

  /**
   * The rect above passes the rect check as written, because `INT_MAX + 120`
   * wraps to a negative sum, and fails the intended check as out of bounds.
   */
  lemma ContentBoxOverflowAccepted(cfg: Config, who: string)
    requires 120 <= cfg.contentWidth <= IntMax && 80 <= cfg.contentHeight
    ensures RectProblemsAsWritten(cfg, who, Some(Str("sensor")), Some(OverflowRect)) == []
    ensures RectProblems(cfg, who, Some(Str("sensor")), Some(OverflowRect)) == [RectOutOfBounds(who)]
  {
    var r := OverflowRect;
    assert Get(r, "x") == Some(Number(1000000000000.0));
    assert Get(r, "y") == Some(Number(0.0));
    assert Get(r, "w") == Some(Number(120.0));
    assert Get(r, "h") == Some(Number(80.0));
    assert ValueInt(1000000000000.0) == IntMax;
    assert ValueInt(0.0) == 0 && ValueInt(120.0) == 120 && ValueInt(80.0) == 80;
    assert Wrap32(IntMax + 120) == IntMin + 119;
    assert Wrap32(0 + 80) == 80;
    assert InContentBoxAsWritten(cfg, IntMax, 0, 120, 80);
    assert !InContentBox(cfg, IntMax, 0, 120, 80);
    assert WithinLimits(WidgetSizeLimits(cfg, Some("sensor")), 120, 80);
  }

  /** Any sensor widget carrying that rect draws the out-of-bounds message in its problem list. */
  lemma OverflowWidgetRejected(cfg: Config, w: seq<Member>, known: seq<string>, pageIndex: nat, widgetIndex: nat)
    requires 120 <= cfg.contentWidth <= IntMax && 80 <= cfg.contentHeight
    requires Lookup(w, "type") == Some(Str("sensor")) && Lookup(w, "rect") == Some(OverflowRect)
    ensures RectOutOfBounds(Label(Lookup(w, "id"))) in WidgetProblems(cfg, w, known, pageIndex, widgetIndex)
    ensures RectProblemsAsWritten(cfg, Label(Lookup(w, "id")), Lookup(w, "type"), Lookup(w, "rect")) == []
  {
    var who := Label(Lookup(w, "id"));
    ContentBoxOverflowAccepted(cfg, who);
    var ps := WidgetProblems(cfg, w, known, pageIndex, widgetIndex);
    assert ps[|ps| - 1] == RectOutOfBounds(who);
  }

  predicate WithinLimits(l: SizeLimits, w: int, h: int)
  {
    l.minW <= w <= l.maxW && l.minH <= h <= l.maxH
  }

  /** The rect checks: present, numeric, inside the content box, then within the type's limits. */
  function RectProblems(cfg: Config, who: string, widgetType: Option<Value>, rect: Option<Value>)
    : (r: seq<Problem>)
    ensures |r| <= 1
    ensures |r| == 0 <==>
      && IsObject(rect)
      && var x, y, w, h := Get(rect.value, "x"), Get(rect.value, "y"), Get(rect.value, "w"), Get(rect.value, "h");
         && IsNumber(x) && IsNumber(y) && IsNumber(w) && IsNumber(h)
         && InContentBox(cfg, ValueInt(x.value.n), ValueInt(y.value.n), ValueInt(w.value.n), ValueInt(h.value.n))
         && WithinLimits(WidgetSizeLimits(cfg, TypeText(widgetType)), ValueInt(w.value.n), ValueInt(h.value.n))
  {
    if !IsObject(rect) then [MissingRect(who)]
    else
      var x, y, w, h := Get(rect.value, "x"), Get(rect.value, "y"), Get(rect.value, "w"), Get(rect.value, "h");
      if !(IsNumber(x) && IsNumber(y) && IsNumber(w) && IsNumber(h)) then [RectNotNumbers(who)]
      else
        var limits := WidgetSizeLimits(cfg, TypeText(widgetType));
        if !InContentBox(cfg, ValueInt(x.value.n), ValueInt(y.value.n), ValueInt(w.value.n), ValueInt(h.value.n)) then [RectOutOfBounds(who)]
        else if !WithinLimits(limits, ValueInt(w.value.n), ValueInt(h.value.n)) then [SizeOutOfLimits(who, limits)]
        else []
  }

  /** The rect checks with the bound test as `validate_widget` writes it. */
  function RectProblemsAsWritten(cfg: Config, who: string, widgetType: Option<Value>, rect: Option<Value>)
    : (r: seq<Problem>)
    ensures |r| <= 1
    ensures |r| == 0 <==>
      && IsObject(rect)
      && var x, y, w, h := Get(rect.value, "x"), Get(rect.value, "y"), Get(rect.value, "w"), Get(rect.value, "h");
         && IsNumber(x) && IsNumber(y) && IsNumber(w) && IsNumber(h)
         && InContentBoxAsWritten(cfg, ValueInt(x.value.n), ValueInt(y.value.n), ValueInt(w.value.n), ValueInt(h.value.n))
         && WithinLimits(WidgetSizeLimits(cfg, TypeText(widgetType)), ValueInt(w.value.n), ValueInt(h.value.n))
  {
    if !IsObject(rect) then [MissingRect(who)]
    else
      var x, y, w, h := Get(rect.value, "x"), Get(rect.value, "y"), Get(rect.value, "w"), Get(rect.value, "h");
      if !(IsNumber(x) && IsNumber(y) && IsNumber(w) && IsNumber(h)) then [RectNotNumbers(who)]
      else
        var limits := WidgetSizeLimits(cfg, TypeText(widgetType));
        if !InContentBoxAsWritten(cfg, ValueInt(x.value.n), ValueInt(y.value.n), ValueInt(w.value.n), ValueInt(h.value.n)) then [RectOutOfBounds(who)]
        else if !WithinLimits(limits, ValueInt(w.value.n), ValueInt(h.value.n)) then [SizeOutOfLimits(who, limits)]
        else []
  }

  /** While no coordinate sum leaves 32 bits, the rect checks as written and as intended give the same messages. */
  lemma RectProblemsAgree(cfg: Config, who: string, widgetType: Option<Value>, rect: Option<Value>)
    requires IsObject(rect)
    requires forall k :: k in ["x", "y", "w", "h"] && IsNumber(Get(rect.value, k)) ==> ValueInt(Get(rect.value, k).value.n) <= IntMax / 2
    ensures RectProblemsAsWritten(cfg, who, widgetType, rect) == RectProblems(cfg, who, widgetType, rect)
  {
    var x, y, w, h := Get(rect.value, "x"), Get(rect.value, "y"), Get(rect.value, "w"), Get(rect.value, "h");
    if IsNumber(x) && IsNumber(y) && IsNumber(w) && IsNumber(h) {
      assert "x" in ["x", "y", "w", "h"] && "y" in ["x", "y", "w", "h"];
      assert "w" in ["x", "y", "w", "h"] && "h" in ["x", "y", "w", "h"];
      ContentBoxAgrees(cfg, ValueInt(x.value.n), ValueInt(y.value.n), ValueInt(w.value.n), ValueInt(h.value.n));
    }
  }

  function TypeText(widgetType: Option<Value>): Option<string>
  {
    if IsString(widgetType) then Some(Text(widgetType)) else None
  }

  /** `validate_widget` on a widget object, against the widget ids seen so far in the document. */
  function WidgetProblems(cfg: Config, w: seq<Member>, known: seq<string>, pageIndex: nat, widgetIndex: nat)
    : seq<Problem>
  {
    var id := Lookup(w, "id");
    var t := Lookup(w, "type");
    var who := Label(id);
    IdProblems(cfg, id, known, pageIndex, widgetIndex)
    + TypeProblems(who, t)
    + EntityProblems(cfg, who, t, Lookup(w, "entity_id"))
    + SecondaryProblems(cfg, who, t, Lookup(w, "secondary_entity_id"))
    + SliderProblems(who, t, Lookup(w, "slider_direction"), Lookup(w, "slider_accent_color"))
    + RectProblems(cfg, who, t, Lookup(w, "rect"))
  }

  /** Everything a widget must satisfy, as one statement. */
  predicate WidgetAcceptable(cfg: Config, w: seq<Member>, known: seq<string>)
  {
    var id, t, e := Lookup(w, "id"), Lookup(w, "type"), Lookup(w, "entity_id");
    var sec, dir, acc := Lookup(w, "secondary_entity_id"), Lookup(w, "slider_direction"), Lookup(w, "slider_accent_color");
    var rect := Lookup(w, "rect");
    && IsString(id) && 0 < |Text(id)| < cfg.maxWidgetIdLen && Text(id) !in known
    && IsString(t) && Text(t) in FirmwareWidgetTypes
    && IsString(e) && EntityIdShape(cfg.maxEntityIdLen, Text(e)) && EntityDomainValid(Text(t), Text(e))
    && (Text(t) == "heating_tile" && IsString(sec) && Text(sec) != "" ==>
          EntityIdShape(cfg.maxEntityIdLen, Text(sec)) && StartsWith(Text(sec), "sensor."))
    && (Text(t) == "slider" ==> (dir.None? || (IsString(dir) && Text(dir) in SliderDirections)))
    && (Text(t) == "slider" ==> (acc.None? || (IsString(acc) && IsValidHexRgb(Text(acc)))))
    && IsObject(rect)
    && var x, y, wd, ht := Get(rect.value, "x"), Get(rect.value, "y"), Get(rect.value, "w"), Get(rect.value, "h");
       && IsNumber(x) && IsNumber(y) && IsNumber(wd) && IsNumber(ht)
       && InContentBox(cfg, ValueInt(x.value.n), ValueInt(y.value.n), ValueInt(wd.value.n), ValueInt(ht.value.n))
       && WithinLimits(WidgetSizeLimits(cfg, Some(Text(t))), ValueInt(wd.value.n), ValueInt(ht.value.n))
  }

  /** A widget draws no message exactly when it is acceptable. */
  lemma WidgetProblemsExact(cfg: Config, w: seq<Member>, known: seq<string>, pageIndex: nat, widgetIndex: nat)
    ensures WidgetProblems(cfg, w, known, pageIndex, widgetIndex) == [] <==> WidgetAcceptable(cfg, w, known)
  {
    var sec := Lookup(w, "secondary_entity_id");
    if IsString(sec) {
      EntityInDomainIsPrefix(Text(sec), "sensor");
    }
  }

  /** The state carried through the scan: ids recorded so far and the problems found. */
  datatype Scan = Scan(pageIds: seq<string>, widgetIds: seq<string>, problems: seq<Problem>)

  /** One entry of a page's `widgets` array, and the id it records. */
  function ScanWidget(cfg: Config, s: Scan, w: Value, pageIndex: nat, widgetIndex: nat): (r: Scan)
    ensures r.pageIds == s.pageIds
    ensures Extends(r.problems, s.problems)
    ensures |s.widgetIds| <= |r.widgetIds| && r.widgetIds[..|s.widgetIds|] == s.widgetIds
  {
    if !w.Obj? then s.(problems := s.problems + [WidgetNotObject])
    else
      var ps := WidgetProblems(cfg, w.members, s.widgetIds, pageIndex, widgetIndex);
      var id := Lookup(w.members, "id");
      var known :=
        if IsString(id) && 0 < |Text(id)| < cfg.maxWidgetIdLen && Text(id) !in s.widgetIds
           && |s.widgetIds| < cfg.maxWidgetsTotal
        then s.widgetIds + [Text(id)] else s.widgetIds;
      Scan(s.pageIds, known, s.problems + ps)
  }

  function ScanWidgets(cfg: Config, s: Scan, ws: seq<Value>, pageIndex: nat, from: nat): (r: Scan)
    requires from <= |ws|
    ensures r.pageIds == s.pageIds
    ensures Extends(r.problems, s.problems)
    ensures |s.widgetIds| <= |r.widgetIds| && r.widgetIds[..|s.widgetIds|] == s.widgetIds
    decreases |ws| - from
  {
    if from == |ws| then s
    else ScanWidgets(cfg, ScanWidget(cfg, s, ws[from], pageIndex, from), ws, pageIndex, from + 1)
  }

  /** The page-id checks, and the id they record. */
  function ScanPageId(cfg: Config, s: Scan, pageId: Option<Value>, pageIndex: nat): (r: Scan)
    ensures r.widgetIds == s.widgetIds && Extends(r.problems, s.problems)
  {
    if !IsString(pageId) || |Text(pageId)| == 0 then s.(problems := s.problems + [PageInvalidId(pageIndex)])
    else if |Text(pageId)| >= cfg.maxPageIdLen then s.(problems := s.problems + [PageIdTooLong(Text(pageId))])
    else if Text(pageId) in s.pageIds then s.(problems := s.problems + [DuplicatePageId(Text(pageId))])
    else if |s.pageIds| < cfg.maxPages then s.(pageIds := s.pageIds + [Text(pageId)])
    else s
  }

  /** One entry of `pages`. */
  function ScanPage(cfg: Config, s: Scan, page: Value, pageIndex: nat): (r: Scan)
    ensures Extends(r.problems, s.problems)
    ensures |s.widgetIds| <= |r.widgetIds| && r.widgetIds[..|s.widgetIds|] == s.widgetIds
  {
    if !page.Obj? then s.(problems := s.problems + [PageNotObject])
    else
      var pageId := Lookup(page.members, "id");
      var widgets := Lookup(page.members, "widgets");
      var s1 := ScanPageId(cfg, s, pageId, pageIndex);
      if !IsArray(widgets) then
        var r := s1.(problems := s1.problems + [WidgetsNotArray(Label(pageId))]);
        ExtendsTrans(s.problems, s1.problems, r.problems);
        r
      else
        var items := widgets.value.items;
        var s2 := if |items| > cfg.maxWidgetsPerPage then s1.(problems := s1.problems + [TooManyWidgets(Label(pageId))]) else s1;
        var r := ScanWidgets(cfg, s2, items, pageIndex, 0);
        ExtendsTrans(s.problems, s1.problems, s2.problems);
        ExtendsTrans(s.problems, s2.problems, r.problems);
        r
  }

  lemma ExtendsTrans(a: seq<Problem>, b: seq<Problem>, c: seq<Problem>)
    requires Extends(b, a) && Extends(c, b)
    ensures Extends(c, a)
  {
    assert c[..|a|] == c[..|b|][..|a|];
  }

  function ScanPages(cfg: Config, s: Scan, pages: seq<Value>, from: nat): (r: Scan)
    requires from <= |pages|
    ensures Extends(r.problems, s.problems)
    decreases |pages| - from
  {
    if from == |pages| then s else ScanPages(cfg, ScanPage(cfg, s, pages[from], from), pages, from + 1)
  }

  /** `later` is `earlier` with problems appended. */
  predicate Extends(later: seq<Problem>, earlier: seq<Problem>)
  {
    |earlier| <= |later| && later[..|earlier|] == earlier
  }

  /** The text handed to the validator: a null pointer, text cJSON cannot parse, or a parsed document. */
  datatype LayoutText = NullText | Unparsable | Parsed(root: Value)

  /** Every problem the validator finds, before the message list caps them. */
  function Problems(cfg: Config, input: LayoutText): (ps: seq<Problem>)
    ensures input.NullText? ==> ps == [NullLayout]
    ensures input.Unparsable? ==> ps == [ParseError]
  {
    match input
    case NullText => [NullLayout]
    case Unparsable => [ParseError]
    case Parsed(root) => DocumentProblems(cfg, root)
  }

  /** The checks of a parsed document: the version, the `pages` array, then every page. */
  function DocumentProblems(cfg: Config, root: Value): (ps: seq<Problem>)
    ensures !IsArray(Get(root, "pages")) ==> |ps| > 0 && ps[|ps| - 1] == PagesNotArray
    ensures !(IsNumber(Get(root, "version")) && ValueInt(Get(root, "version").value.n) == 1) ==> |ps| > 0 && ps[0] == BadVersion
  {
    var version := Get(root, "version");
    var pages := Get(root, "pages");
    var v := if IsNumber(version) && ValueInt(version.value.n) == 1 then [] else [BadVersion];
    if !IsArray(pages) then v + [PagesNotArray]
    else
      var r := PageListProblems(cfg, pages.value.items, v);
      assert |v| > 0 ==> r[0] == r[..|v|][0];
      r
  }

  /** The page-count checks and the scan of every page, after the problems found so far. */
  function PageListProblems(cfg: Config, items: seq<Value>, before: seq<Problem>): (ps: seq<Problem>)
    ensures Extends(ps, before)
  {
    var counts := (if |items| <= 0 then [NoPages] else []) + (if |items| > cfg.maxPages then [TooManyPages] else []);
    var r := ScanPages(cfg, Scan([], [], before + counts), items, 0).problems;
    assert (before + counts)[..|before|] == before;
    r
  }

  /** The verdict and the kept messages of `layout_validate_json`. */
  datatype Verdict = Verdict(ok: bool, messages: seq<Problem>)

  function ValidateJson(cfg: Config, input: LayoutText): (r: Verdict)
    requires ValidConfig(cfg)
    ensures r.messages == Problems(cfg, input)[..Min(|Problems(cfg, input)|, cfg.maxLayoutErrors)]
    ensures r.ok <==> Problems(cfg, input) == []
    ensures |r.messages| <= cfg.maxLayoutErrors
    ensures r.ok <==> r.messages == []
  {
    var ps := Problems(cfg, input);
    var messages := AddAll([], cfg.maxLayoutErrors, ps);
    AddAllKeepsPrefix([], cfg.maxLayoutErrors, ps);
    assert [] + ps == ps;
    Verdict(|messages| == 0, messages)
  }

  /** A widget whose id was recorded earlier draws a duplicate-id message, wherever in the document it appears. */
  lemma RecordedIdReported(cfg: Config, s: Scan, w: Value, pageIndex: nat, widgetIndex: nat)
    requires w.Obj? && IsString(Lookup(w.members, "id"))
    requires Text(Lookup(w.members, "id")) in s.widgetIds && 0 < |Text(Lookup(w.members, "id"))| < cfg.maxWidgetIdLen
    ensures DuplicateWidgetId(Text(Lookup(w.members, "id"))) in ScanWidget(cfg, s, w, pageIndex, widgetIndex).problems
  {
    var id := Text(Lookup(w.members, "id"));
    var ps := WidgetProblems(cfg, w.members, s.widgetIds, pageIndex, widgetIndex);
    assert IdProblems(cfg, Lookup(w.members, "id"), s.widgetIds, pageIndex, widgetIndex) == [DuplicateWidgetId(id)];
    assert ps[0] == DuplicateWidgetId(id);
    assert ScanWidget(cfg, s, w, pageIndex, widgetIndex).problems == s.problems + ps;
    assert (s.problems + ps)[|s.problems|] == DuplicateWidgetId(id);
  }
}

=== FILE: light_tile.dfy ===
/**
 * The light tile's logic: when a light counts as on, the brightness percent
 * read from its state, the size class of the card, and the (on, brightness,
 * unavailable) triple its click and slider handlers leave behind, with the
 * rollback when the service call fails.
 */
module LightTile {
  import opened Wrappers
  import opened Percent

  /** `light_state_is_on`: only the exact text `on`. */
  predicate StateIsOn(state: Option<string>)
  {
    state == Some("on")
  }

  /**
   * The attributes of a light state after `(int)` truncation of the numbers;
   * the floating-point attribute values themselves are not part of this model.
   */
  datatype Attributes = Attributes(brightnessPct: Option<int>, brightness: Option<int>)

  /**
   * `light_extract_brightness_percent`: `brightness_pct` when present, else
   * the 0..255 `brightness` scaled to a percent; a missing or negative value
   * falls back to 100 when on and 0 when off.
   */
  function ExtractBrightness(attrs: Attributes, isOn: bool): (v: int)
    ensures 0 <= v <= 100
    ensures attrs.brightnessPct.Some? && attrs.brightnessPct.value >= 0 ==> v == ClampPercent(attrs.brightnessPct.value)
    ensures attrs.brightnessPct.None? && attrs.brightness.Some? ==> v == BrightnessToPercent(attrs.brightness.value)
    ensures attrs.brightnessPct.None? && attrs.brightness.None? ==> v == (if isOn then 100 else 0)
    ensures attrs.brightnessPct.Some? && attrs.brightnessPct.value < 0 ==> v == (if isOn then 100 else 0)
  {
    var value :=
      if attrs.brightnessPct.Some? then attrs.brightnessPct.value
      else if attrs.brightness.Some? then BrightnessToPercent(attrs.brightness.value)
      else -1;
    ClampPercent(if value < 0 then (if isOn then 100 else 0) else value)
  }

  /** The card size classes. */
  datatype TileClass = Compact | Small | Medium | Large

  /**
   * `light_tile_class_from_dim`: a non-positive dimension is small, up to
   * 180 compact, below 240 small, below 300 medium, and large from 300 on.
   */
  function ClassFromDim(minDim: int): (c: TileClass)
    ensures c == Compact <==> 0 < minDim <= 180
    ensures c == Small <==> minDim <= 0 || 180 < minDim < 240
    ensures c == Medium <==> 240 <= minDim < 300
    ensures c == Large <==> minDim >= 300
  {
    if minDim <= 0 then Small
    else if minDim <= 180 then Compact
    else if minDim < 240 then Small
    else if minDim < 300 then Medium
    else Large
  }

  function ClassRank(c: TileClass): nat
  {
    match c
    case Compact => 0
    case Small => 1
    case Medium => 2
    case Large => 3
  }

  /** For any positive size, a bigger card never gets a smaller class. */
  lemma ClassMonotone(a: int, b: int)
    requires 0 < a <= b
    ensures ClassRank(ClassFromDim(a)) <= ClassRank(ClassFromDim(b))
  {
  }

  /** The tile context fields the handlers touch. */
  datatype Light = Light(isOn: bool, brightness: int, unavailable: bool)

  /** `w_light_tile_apply_state`: on only for `on`, brightness extracted, available. */
  function ApplyState(state: Option<string>, attrs: Attributes): (t: Light)
    ensures !t.unavailable && (t.isOn <==> StateIsOn(state)) && 0 <= t.brightness <= 100
    ensures t.brightness == ExtractBrightness(attrs, StateIsOn(state))
  {
    Light(StateIsOn(state), ExtractBrightness(attrs, StateIsOn(state)), false)
  }

  /** `w_light_tile_mark_unavailable`. */
  function MarkUnavailable(): (t: Light)
    ensures t.unavailable && !t.isOn && t.brightness == 0
  {
    Light(false, 0, true)
  }

  /**
   * A click on the card: ignored while unavailable; otherwise the light is
   * switched, a light turned on at zero brightness shows 100, and when the
   * power call fails the previous triple is restored exactly.
   */
  function Click(t: Light, callOk: bool): (r: Light)
    ensures t.unavailable || !callOk ==> r == t
    ensures !t.unavailable && callOk ==>
      && r.isOn == !t.isOn && !r.unavailable
      && 0 <= r.brightness <= 100
      && (r.isOn ==> r.brightness > 0)
      && (0 < t.brightness <= 100 ==> r.brightness == t.brightness)
  {
    if t.unavailable then t
    else
      var nextOn := !t.isOn;
      var b := if nextOn && t.brightness <= 0 then 100 else t.brightness;
      var b := ClampPercent(if b < 0 then 0 else b);
      if callOk then Light(nextOn, b, false) else t
  }

  /** Two successful clicks leave the light switched as it was, at a non-zero brightness if on. */
  lemma ClickTwice(t: Light)
    requires !t.unavailable
    ensures var r := Click(Click(t, true), true);
      r.isOn == t.isOn && !r.unavailable && 0 < r.brightness <= 100
  {
  }

  /** Dragging the tile's slider only moves the shown brightness. */
  function SliderMoved(t: Light, raw: int): (r: Light)
    ensures r.isOn == t.isOn && r.unavailable == t.unavailable && r.brightness == ClampPercent(raw)
  {
    t.(brightness := ClampPercent(raw))
  }

  /**
   * Releasing the tile's slider sends the clamped brightness; on success the
   * light is on iff that brightness is above zero, and on failure the
   * previous triple is restored exactly.
   */
  function SliderReleased(t: Light, raw: int, callOk: bool): (r: Light)
    ensures !callOk ==> r == t
    ensures callOk ==> r.brightness == ClampPercent(raw) && (r.isOn <==> r.brightness > 0) && !r.unavailable
  {
    var b := ClampPercent(raw);
    if callOk then Light(b > 0, b, false) else t
  }

  /**
   * The rollback restores the triple as it was at release, which the drag
   * has already changed: a failed release keeps the dragged brightness.
   */
  lemma DragThenFailedRelease(t: Light, raw: int)
    ensures SliderReleased(SliderMoved(t, raw), raw, false) == SliderMoved(t, raw)
    ensures SliderReleased(SliderMoved(t, raw), raw, true).brightness == ClampPercent(raw)
  {
  }
}

=== FILE: mdi_converter.dfy ===
/**
 * The token handling of the Material Design Icons converter: icon tokens
 * such as `F06E8`, `0xF06E8` or `U+F06E8` are gathered from the command
 * line, a token file and a bundled list, parsed as hexadecimal code points,
 * made unique and sorted, and written as the comma-separated range string
 * the LVGL font converter takes.
 */
module MdiConverter {
  import opened Wrappers

  // Python's string primitives.

  /** The characters for which Python's `str.isspace` holds. */
  predicate IsSpace(c: char)
  {
    c == ' ' || '\t' <= c <= '\r' || '\U{1c}' <= c <= '\U{1f}'
    || c == '\U{85}' || c == '\U{a0}' || c == '\U{1680}' || '\U{2000}' <= c <= '\U{200a}'
    || c == '\U{2028}' || c == '\U{2029}' || c == '\U{202f}' || c == '\U{205f}' || c == '\U{3000}'
  }

  /** The characters `str.splitlines` breaks lines at. */
  predicate IsLineBreak(c: char)
  {
    '\n' <= c <= '\r' || '\U{1c}' <= c <= '\U{1e}' || c == '\U{85}' || c == '\U{2028}' || c == '\U{2029}'
  }

  function StripStart(s: string): (r: string)
    ensures |r| <= |s| && r == s[|s| - |r|..]
    ensures |r| > 0 ==> !IsSpace(r[0])
    ensures forall i :: 0 <= i < |s| - |r| ==> IsSpace(s[i])
  {
    if |s| > 0 && IsSpace(s[0]) then StripStart(s[1..]) else s
  }

  function StripEnd(s: string): (r: string)
    ensures |r| <= |s| && r == s[..|r|]
    ensures |r| > 0 ==> !IsSpace(r[|r| - 1])
    ensures forall i :: |r| <= i < |s| ==> IsSpace(s[i])
  {
    if |s| > 0 && IsSpace(s[|s| - 1]) then StripEnd(s[..|s| - 1]) else s
  }

  /** `s.strip()`: the string without white space at either end. */
  function Strip(s: string): (r: string)
    ensures |r| == 0 || (!IsSpace(r[0]) && !IsSpace(r[|r| - 1]))
    ensures |r| <= |s|
  {
    StripEnd(StripStart(s))
  }

  /** A string with no white space at either end is its own strip. */
  lemma StripNoop(s: string)
    requires |s| == 0 || (!IsSpace(s[0]) && !IsSpace(s[|s| - 1]))
    ensures Strip(s) == s
  {
    assert StripStart(s) == s;
  }

  /** Upper-casing of the ASCII letters. */
  function UpperChar(c: char): char
  {
    if 'a' <= c <= 'z' then (c as int - 32) as char else c
  }

  /** `s.upper()` on ASCII letters. */
  function Upper(s: string): (r: string)
    ensures |r| == |s| && forall i :: 0 <= i < |s| ==> r[i] == UpperChar(s[i])
  {
    seq(|s|, i requires 0 <= i < |s| => UpperChar(s[i]))
  }

  predicate StartsWith(s: string, p: string)
  {
    |p| <= |s| && s[..|p|] == p
  }

  /** `s.split(c)`: the pieces between the separators, one more than there are separators. */
  function Split(s: string, c: char): (r: seq<string>)
    ensures |r| >= 1
  {
    if |s| == 0 then [""]
    else
      var rest := Split(s[1..], c);
      if s[0] == c then [""] + rest else [[s[0]] + rest[0]] + rest[1..]
  }

  /** The pieces with `c` between each two. */
  function Join(c: char, ps: seq<string>): string
  {
    if |ps| == 0 then "" else if |ps| == 1 then ps[0] else ps[0] + [c] + Join(c, ps[1..])
  }

  /** No piece holds the separator. */
  predicate FreeOf(ps: seq<string>, c: char)
  {
    forall i, j :: 0 <= i < |ps| && 0 <= j < |ps[i]| ==> ps[i][j] != c
  }

  /** A leading character other than the separator starts the first piece. */
  lemma SplitCons(x: char, s: string, c: char)
    requires x != c
    ensures Split([x] + s, c) == [[x] + Split(s, c)[0]] + Split(s, c)[1..]
  {
    assert ([x] + s)[1..] == s;
  }

  /** A leading separator closes an empty first piece. */
  lemma SplitSep(s: string, c: char)
    ensures Split([c] + s, c) == [""] + Split(s, c)
  {
    assert ([c] + s)[1..] == s;
  }

  /** Splitting pieces joined by a separator none of them holds gives them back. */
  lemma {:induction false} SplitJoin(ps: seq<string>, c: char)
    requires |ps| >= 1 && FreeOf(ps, c)
    ensures Split(Join(c, ps), c) == ps
    decreases |ps|, |ps[0]|
  {
    if |ps[0]| > 0 {
      var head := ps[0][1..];
      var ps' := [head] + ps[1..];
      assert Join(c, ps) == [ps[0][0]] + Join(c, ps') by {
        if |ps| > 1 {
          assert ps'[1..] == ps[1..];
        }
      }
      assert FreeOf(ps', c) by {
        forall i, j | 0 <= i < |ps'| && 0 <= j < |ps'[i]|
          ensures ps'[i][j] != c
        {
          if i == 0 {
            assert ps'[0][j] == ps[0][j + 1];
          } else {
            assert ps'[i] == ps[i];
          }
        }
      }
      SplitJoin(ps', c);
      assert ps[0][0] != c;
      SplitCons(ps[0][0], Join(c, ps'), c);
      assert [ps[0][0]] + head == ps[0];
      assert ps == [[ps[0][0]] + ps'[0]] + ps'[1..];
    } else if |ps| > 1 {
      assert FreeOf(ps[1..], c) by {
        forall i, j | 0 <= i < |ps| - 1 && 0 <= j < |ps[1..][i]|
          ensures ps[1..][i][j] != c
        {
          assert ps[1..][i] == ps[i + 1];
        }
      }
      SplitJoin(ps[1..], c);
      assert Join(c, ps) == [c] + Join(c, ps[1..]);
      SplitSep(Join(c, ps[1..]), c);
      assert ps == [ps[0]] + ps[1..];
    }
  }

  /** `line.split("#", 1)[0]`: the text before the first `#`. */
  function BeforeHash(s: string): (r: string)
    ensures |r| <= |s| && r == s[..|r|]
    ensures forall i :: 0 <= i < |r| ==> r[i] != '#'
    ensures |r| < |s| ==> s[|r|] == '#'
  {
    if |s| == 0 || s[0] == '#' then "" else [s[0]] + BeforeHash(s[1..])
  }

  /** The lines of a text; the empty pieces `str.splitlines` drops hold no tokens. */
  function Lines(s: string): (r: seq<string>)
    ensures |r| >= 1
  {
    if |s| == 0 then [""]
    else
      var rest := Lines(s[1..]);
      if IsLineBreak(s[0]) then [""] + rest else [[s[0]] + rest[0]] + rest[1..]
  }

  /** A text without line breaks is one line. */
  lemma {:induction false} OneLine(s: string)
    requires forall i :: 0 <= i < |s| ==> !IsLineBreak(s[i])
    ensures Lines(s) == [s]
    decreases |s|
  {
    if |s| > 0 {
      OneLine(s[1..]);
      assert [s[0]] + s[1..] == s;
    }
  }

  // Tokens.

  /** Non-empty, with no white space at either end. */
  predicate Stripped(t: string)
  {
    |t| > 0 && !IsSpace(t[0]) && !IsSpace(t[|t| - 1])
  }

  /** A token as the file loader yields it: non-empty, stripped, without separators, comments or line breaks. */
  predicate CleanToken(t: string)
  {
    && Stripped(t)
    && forall j :: 0 <= j < |t| ==> t[j] != ',' && t[j] != '#' && !IsLineBreak(t[j])
  }

  /** The chunks of a comma-separated line, stripped, with the empty ones dropped. */
  function Chunks(ps: seq<string>): (r: seq<string>)
    ensures forall i :: 0 <= i < |r| ==> |r[i]| > 0
  {
    if |ps| == 0 then []
    else
      var c := Strip(ps[0]);
      (if |c| > 0 then [c] else []) + Chunks(ps[1..])
  }

  /** The tokens of one line: the part before `#`, stripped, split at commas. */
  function LineTokens(line: string): seq<string>
  {
    var l := Strip(BeforeHash(line));
    if |l| == 0 then [] else Chunks(Split(l, ','))
  }

  function LinesTokens(ls: seq<string>): seq<string>
  {
    if |ls| == 0 then [] else LineTokens(ls[0]) + LinesTokens(ls[1..])
  }

  /** `load_tokens_from_file` on the file's text. */
  function LoadTokens(text: string): seq<string>
  {
    LinesTokens(Lines(text))
  }

  /** Tokens already stripped pass the chunking unchanged. */
  lemma {:induction false} ChunksClean(ps: seq<string>)
    requires forall i :: 0 <= i < |ps| ==> Stripped(ps[i])
    ensures Chunks(ps) == ps
    decreases |ps|
  {
    if |ps| > 0 {
      StripNoop(ps[0]);
      assert forall i :: 0 <= i < |ps| - 1 ==> ps[1..][i] == ps[i + 1];
      ChunksClean(ps[1..]);
      assert ps == [ps[0]] + ps[1..];
    }
  }

  /** Clean tokens joined by commas have no white space at either end. */
  lemma JoinEnds(toks: seq<string>)
    requires |toks| >= 1 && forall i :: 0 <= i < |toks| ==> CleanToken(toks[i])
    ensures var s := Join(',', toks); |s| > 0 && !IsSpace(s[0]) && !IsSpace(s[|s| - 1])
    ensures forall j :: 0 <= j < |Join(',', toks)| ==> Join(',', toks)[j] != '#' && !IsLineBreak(Join(',', toks)[j])
    decreases |toks|
  {
    if |toks| > 1 {
      JoinEnds(toks[1..]);
      var s := Join(',', toks);
      var rest := Join(',', toks[1..]);
      assert s == toks[0] + [','] + rest;
      assert s[|s| - 1] == rest[|rest| - 1];
      forall j | 0 <= j < |s|
        ensures s[j] != '#' && !IsLineBreak(s[j])
      {
        if j < |toks[0]| {
          assert s[j] == toks[0][j];
        } else if j > |toks[0]| {
          assert s[j] == rest[j - |toks[0]| - 1];
        }
      }
    }
  }

  /** A line of clean tokens separated by commas holds those tokens. */
  lemma LineTokensJoined(toks: seq<string>)
    requires |toks| >= 1 && forall i :: 0 <= i < |toks| ==> CleanToken(toks[i])
    ensures LineTokens(Join(',', toks)) == toks
  {
    var s := Join(',', toks);
    JoinEnds(toks);
    assert |BeforeHash(s)| == |s|;
    assert BeforeHash(s) == s;
    StripNoop(s);
    SplitJoin(toks, ',');
    ChunksClean(toks);
  }

  /** A text without line breaks loads as the tokens of its one line. */
  lemma LoadOneLine(s: string, toks: seq<string>)
    requires forall i :: 0 <= i < |s| ==> !IsLineBreak(s[i])
    requires LineTokens(s) == toks
    ensures LoadTokens(s) == toks
  {
    OneLine(s);
    assert LinesTokens([s]) == LineTokens(s) + LinesTokens([]);
  }

  /** A line of clean tokens separated by commas loads as those tokens. */
  lemma LoadJoinedLine(toks: seq<string>)
    requires |toks| >= 1 && forall i :: 0 <= i < |toks| ==> CleanToken(toks[i])
    ensures LoadTokens(Join(',', toks)) == toks
  {
    var s := Join(',', toks);
    JoinEnds(toks);
    LineTokensJoined(toks);
    LoadOneLine(s, toks);
  }

  /**
   * A token file holding clean tokens separated by commas loads as those
   * tokens.
   */
  lemma LoadJoined(toks: seq<string>)
    requires forall i :: 0 <= i < |toks| ==> CleanToken(toks[i])
    ensures LoadTokens(Join(',', toks)) == toks
  {
    if |toks| == 0 {
      assert LineTokens("") == [];
      LoadOneLine("", []);
    } else {
      LoadJoinedLine(toks);
    }
  }

  // Code points.

  predicate IsHexDigit(c: char)
  {
    '0' <= c <= '9' || 'a' <= c <= 'f' || 'A' <= c <= 'F'
  }

  function DigitValue(c: char): (v: nat)
    requires IsHexDigit(c)
    ensures v < 16
  {
    if '0' <= c <= '9' then c as int - '0' as int
    else if 'a' <= c <= 'f' then c as int - 'a' as int + 10
    else c as int - 'A' as int + 10
  }

  /**
   * The digits `int(s, 16)` takes after any sign and prefix: hexadecimal
   * digits with single underscores between them.
   */
  predicate Numeral(s: string)
  {
    && |s| > 0 && IsHexDigit(s[0]) && IsHexDigit(s[|s| - 1])
    && (forall i :: 0 <= i < |s| ==> IsHexDigit(s[i]) || s[i] == '_')
    && (forall i :: 0 <= i < |s| - 1 ==> s[i] == '_' ==> s[i + 1] != '_')
  }

  /** The value of the digits, underscores skipped. */
  function NumeralValue(s: string): nat
    requires forall i :: 0 <= i < |s| ==> IsHexDigit(s[i]) || s[i] == '_'
  {
    if |s| == 0 then 0
    else
      var init := s[..|s| - 1];
      assert forall i :: 0 <= i < |init| ==> init[i] == s[i];
      if s[|s| - 1] == '_' then NumeralValue(init) else 16 * NumeralValue(init) + DigitValue(s[|s| - 1])
  }

  /**
   * What `int(s, 16)` reads after any sign: an optional `0x` prefix, after
   * which one underscore may come, then the digits.
   */
  function UnsignedHex(b: string): Option<nat>
  {
    var prefixed := |b| >= 2 && b[0] == '0' && (b[1] == 'x' || b[1] == 'X');
    var rest := if prefixed then b[2..] else b;
    var digits := if prefixed && |rest| > 0 && rest[0] == '_' then rest[1..] else rest;
    if Numeral(digits) then Some(NumeralValue(digits)) else None
  }

  /** `int(s, 16)`: white space around, an optional sign, then the number; anything else raises. */
  function ParseHexInt(s: string): Option<int>
  {
    var t := Strip(s);
    if |t| > 0 && t[0] == '-' then
      match UnsignedHex(t[1..])
      case None => None
      case Some(v) => Some(0 - v)
    else if |t| > 0 && t[0] == '+' then
      match UnsignedHex(t[1..])
      case None => None
      case Some(v) => Some(v)
    else
      match UnsignedHex(t)
      case None => None
      case Some(v) => Some(v)
  }

  /** A leading `U+` and then a leading `0X` dropped. */
  function DropPrefixes(t: string): string
  {
    var t1 := if StartsWith(t, "U+") then t[2..] else t;
    if StartsWith(t1, "0X") then t1[2..] else t1
  }

  /**
   * `parse_codepoint`: strip and upper-case the token, refuse an empty one,
   * drop the prefixes, and read the rest as hexadecimal.
   */
  function ParseCodepoint(token: string): Option<int>
  {
    var t := Upper(Strip(token));
    if |t| == 0 then None else ParseHexInt(DropPrefixes(t))
  }

  /** An upper-case hexadecimal digit. */
  function HexDigit(v: nat): (c: char)
    requires v < 16
    ensures IsHexDigit(c) && DigitValue(c) == v && !IsSpace(c) && UpperChar(c) == c
  {
    if v < 10 then ('0' as int + v) as char else ('A' as int + v - 10) as char
  }

  /** `f"{n:X}"` for `n >= 0`: upper-case hexadecimal without leading zeros. */
  function Hex(n: nat): (r: string)
    ensures |r| > 0 && forall i :: 0 <= i < |r| ==> IsHexDigit(r[i]) && UpperChar(r[i]) == r[i] && !IsSpace(r[i])
    decreases n
  {
    if n < 16 then [HexDigit(n)] else Hex(n / 16) + [HexDigit(n % 16)]
  }

  /** The digits of `Hex(n)` are a numeral worth `n`. */
  lemma {:induction false} HexValue(n: nat)
    ensures Numeral(Hex(n)) && NumeralValue(Hex(n)) == n
    decreases n
  {
    var r := Hex(n);
    if n >= 16 {
      HexValue(n / 16);
      assert r[..|r| - 1] == Hex(n / 16);
    }
  }

  /** `f"{cp:X}"`: a minus sign for a negative number, then the digits. */
  function SignedHex(cp: int): (r: string)
  {
    if cp < 0 then "-" + Hex(-cp) else Hex(cp)
  }

  /** The entry of the range string for one code point. */
  function RangeEntry(cp: int): (r: string)
  {
    "0x" + SignedHex(cp)
  }

  /** `range_string`: the code points as `0x`-prefixed upper-case hexadecimal, joined by commas. */
  function RangeString(cps: seq<int>): (r: string)
  {
    Join(',', RangeEntries(cps))
  }

  function RangeEntries(cps: seq<int>): (r: seq<string>)
    ensures |r| == |cps| && forall i :: 0 <= i < |cps| ==> r[i] == RangeEntry(cps[i])
  {
    seq(|cps|, i requires 0 <= i < |cps| => RangeEntry(cps[i]))
  }

  /** Bare digits read as their value. */
  lemma UnsignedHexOf(n: nat)
    ensures UnsignedHex(Hex(n)) == Some(n)
  {
    HexValue(n);
    var h := Hex(n);
    if |h| >= 2 {
      assert IsHexDigit(h[1]);
    }
  }

  /** The digits of a signed number read back as that number. */
  lemma SignedHexParses(cp: int)
    ensures ParseHexInt(SignedHex(cp)) == Some(cp)
  {
    var s := SignedHex(cp);
    var n := if cp < 0 then -cp else cp;
    var h := Hex(n);
    assert s[|s| - 1] == h[|h| - 1];
    StripNoop(s);
    UnsignedHexOf(n);
    if cp < 0 {
      assert s[1..] == h;
    } else {
      assert s[0] == h[0];
    }
  }

  /** Upper-casing leaves a string of upper-case characters as it is. */
  lemma UpperFixed(s: string)
    requires forall i :: 0 <= i < |s| ==> UpperChar(s[i]) == s[i]
    ensures Upper(s) == s
  {
  }

  /** The digits of `Hex(n)` are upper-case and carry no prefix. */
  lemma DropPrefixesHex(h: string)
    requires forall i :: 0 <= i < |h| ==> IsHexDigit(h[i])
    ensures DropPrefixes(h) == h
  {
    if |h| >= 2 {
      assert h[..2][0] == h[0] && h[..2][1] == h[1];
    }
  }

  /** A token already stripped and upper-case reaches the prefix step as it is. */
  lemma ParseCodepointUpper(t: string)
    requires |t| > 0 && !IsSpace(t[0]) && !IsSpace(t[|t| - 1])
    requires forall i :: 0 <= i < |t| ==> UpperChar(t[i]) == t[i]
    ensures ParseCodepoint(t) == ParseHexInt(DropPrefixes(t))
  {
    StripNoop(t);
    UpperFixed(t);
  }

  /** A `0x` token is read from after the prefix. */
  lemma ParseCodepointOx(s: string)
    requires |s| > 0 && !IsSpace(s[|s| - 1])
    requires forall i :: 0 <= i < |s| ==> UpperChar(s[i]) == s[i]
    ensures ParseCodepoint("0x" + s) == ParseHexInt(s)
  {
    var e := "0x" + s;
    assert e[|e| - 1] == s[|s| - 1];
    StripNoop(e);
    var t := Upper(e);
    assert t == "0X" + s by {
      assert t[0] == '0' && t[1] == 'X';
      assert forall i :: 0 <= i < |s| ==> t[i + 2] == UpperChar(s[i]);
    }
    assert t[..2] == "0X" && t[..2] != "U+";
    assert t[2..] == s;
  }

  /** Each entry of the range string parses back as its code point. */
  lemma RangeEntryParses(cp: int)
    ensures ParseCodepoint(RangeEntry(cp)) == Some(cp)
  {
    var s := SignedHex(cp);
    var n := if cp < 0 then -cp else cp;
    var h := Hex(n);
    assert s[|s| - 1] == h[|h| - 1];
    forall i | 0 <= i < |s|
      ensures UpperChar(s[i]) == s[i]
    {
      if cp >= 0 {
        assert s[i] == h[i];
      } else if i > 0 {
        assert s[i] == h[i - 1];
      }
    }
    ParseCodepointOx(s);
    SignedHexParses(cp);
  }

  /** A range entry is a clean token. */
  lemma RangeEntryClean(cp: int)
    ensures CleanToken(RangeEntry(cp))
  {
    var e := RangeEntry(cp);
    var h := Hex(if cp < 0 then -cp else cp);
    forall j | 0 <= j < |e|
      ensures e[j] != ',' && e[j] != '#' && !IsLineBreak(e[j])
    {
      if j >= 2 + |e| - 2 - |h| {
        assert e[j] == h[j - (|e| - |h|)];
      }
    }
    assert e[|e| - 1] == h[|h| - 1];
  }

  /** Every token parsed, or nothing when one fails. */
  function ParseAll(tokens: seq<string>): (r: Option<seq<int>>)
    ensures r.Some? <==> forall i :: 0 <= i < |tokens| ==> ParseCodepoint(tokens[i]).Some?
    ensures r.Some? ==> |r.value| == |tokens| && forall i :: 0 <= i < |tokens| ==> r.value[i] == ParseCodepoint(tokens[i]).value
  {
    if forall i :: 0 <= i < |tokens| ==> ParseCodepoint(tokens[i]).Some?
    then Some(seq(|tokens|, i requires 0 <= i < |tokens| => ParseCodepoint(tokens[i]).value))
    else None
  }

  /**
   * A range string written to a token file loads and parses back as the
   * code points it lists.
   */
  lemma RangeFileRoundTrip(cps: seq<int>)
    ensures ParseAll(LoadTokens(RangeString(cps))) == Some(cps)
  {
    var entries := RangeEntries(cps);
    forall i | 0 <= i < |entries|
      ensures CleanToken(entries[i]) && ParseCodepoint(entries[i]) == Some(cps[i])
    {
      RangeEntryClean(cps[i]);
      RangeEntryParses(cps[i]);
    }
    LoadJoined(entries);
    assert ParseAll(entries).value == cps;
  }

  // Unique and sorted.

  predicate StrictlyIncreasing(s: seq<int>)
  {
    forall i, j :: 0 <= i < j < |s| ==> s[i] < s[j]
  }

  /** `x` placed in a strictly increasing sequence, unless it is there already. */
  function InsertUnique(x: int, s: seq<int>): (r: seq<int>)
    requires StrictlyIncreasing(s)
    ensures StrictlyIncreasing(r)
    ensures forall y :: y in r <==> y == x || y in s
    ensures |r| > 0 && (r[0] == x || (|s| > 0 && r[0] == s[0]))
    decreases |s|
  {
    if |s| == 0 then [x]
    else if x < s[0] then [x] + s
    else if x == s[0] then s
    else
      var rest := InsertUnique(x, s[1..]);
      assert forall y :: y in s <==> y == s[0] || y in s[1..];
      [s[0]] + rest
  }

  /** `unique_sorted`: the distinct values in increasing order. */
  function UniqueSorted(values: seq<int>): (r: seq<int>)
    ensures StrictlyIncreasing(r)
    ensures forall y :: y in r <==> y in values
    decreases |values|
  {
    if |values| == 0 then []
    else
      assert forall y :: y in values <==> y == values[0] || y in values[1..];
      InsertUnique(values[0], UniqueSorted(values[1..]))
  }

  /** The first member of a strictly increasing sequence is its least. */
  lemma Least(s: seq<int>, y: int)
    requires StrictlyIncreasing(s) && y in s
    ensures s[0] <= y
  {
  }

  /**
   * A strictly increasing sequence is determined by its members: the
   * result of `unique_sorted` is the one such sequence for its input.
   */
  lemma {:induction false} IncreasingUnique(a: seq<int>, b: seq<int>)
    requires StrictlyIncreasing(a) && StrictlyIncreasing(b)
    requires forall y :: y in a <==> y in b
    ensures a == b
    decreases |a|
  {
    if |a| > 0 {
      assert a[0] in a;
    }
    if |b| > 0 {
      assert b[0] in b;
    }
    if |a| > 0 {
      Least(a, b[0]);
      Least(b, a[0]);
      forall y
        ensures y in a[1..] <==> y in b[1..]
      {
        if y in a[1..] {
          assert y in b && y != b[0];
        }
        if y in b[1..] {
          assert y in a && y != a[0];
        }
      }
      IncreasingUnique(a[1..], b[1..]);
      assert a == [a[0]] + a[1..] && b == [b[0]] + b[1..];
    }
  }

  /** Making a sorted unique list unique and sorted again changes nothing. */
  lemma UniqueSortedIdempotent(values: seq<int>)
    ensures UniqueSorted(UniqueSorted(values)) == UniqueSorted(values)
  {
    IncreasingUnique(UniqueSorted(UniqueSorted(values)), UniqueSorted(values));
  }

  // The command line.

  const DefaultIcon: string := "F06E8"

  /** The bundled list of fifty home automation icons. */
  const Top50: seq<string> := [
    "F0335", "F06E8", "F0031", "F033E", "F0531", "F0001", "F0710", "F0AC4",
    "F033F", "F0341", "F07EE", "F0C7E", "F05D1", "F0210", "F0E37", "F0302",
    "F081C", "F081D", "F06D3", "F026B", "F040A", "F04DB", "F057E", "F044C",
    "F0190", "F02D7", "F05E3", "F0318", "F0599", "F0595", "F059A", "F0585",
    "F02FD", "F00FB", "F050F", "F007D", "F0493", "F0019", "F0041", "F0156",
    "F001D", "F001C", "F0415", "F0623", "F035C", "F029C", "F0508", "F04B3",
    "F092E", "F024B"
  ]

  /**
   * The tokens `main` collects: the bundled list when asked for, then the
   * token file's, then the `--icon` ones; the default icon alone when none
   * of them gives a token.
   */
  function Tokens(useTop50: bool, file: Option<string>, icons: seq<string>): (r: seq<string>)
    ensures |r| >= 1
  {
    var collected := (if useTop50 then Top50 else [])
      + (if file.Some? then LoadTokens(file.value) else [])
      + icons;
    if |collected| == 0 then [DefaultIcon] else collected
  }

  /** The code points `main` prints: every token parsed, then made unique and sorted. */
  function Codepoints(tokens: seq<string>): (r: Option<seq<int>>)
    ensures r.Some? <==> forall i :: 0 <= i < |tokens| ==> ParseCodepoint(tokens[i]).Some?
    ensures r.Some? ==> StrictlyIncreasing(r.value)
    ensures r.Some? ==> forall y :: y in r.value <==> exists i :: 0 <= i < |tokens| && ParseCodepoint(tokens[i]) == Some(y)
  {
    match ParseAll(tokens)
    case None => None
    case Some(cps) =>
      assert forall y :: y in cps <==> exists i :: 0 <= i < |tokens| && ParseCodepoint(tokens[i]) == Some(y) by {
        forall y
          ensures y in cps <==> exists i :: 0 <= i < |tokens| && ParseCodepoint(tokens[i]) == Some(y)
        {
          if y in cps {
            var i :| 0 <= i < |cps| && cps[i] == y;
            assert ParseCodepoint(tokens[i]) == Some(y);
          }
        }
      }
      Some(UniqueSorted(cps))
  }

  /** An upper-case hexadecimal token parses as its value. */
  lemma HexTokenParses(n: nat)
    ensures ParseCodepoint(Hex(n)) == Some(n)
  {
    var h := Hex(n);
    ParseCodepointUpper(h);
    DropPrefixesHex(h);
    SignedHexParses(n);
  }

  /** The default icon is the hexadecimal numeral of U+F06E8. */
  lemma DefaultIconHex()
    ensures Hex(0xF06E8) == DefaultIcon
  {
    assert Hex(0xF) == "F";
    assert Hex(0xF0) == "F0";
    assert Hex(0xF06) == "F06";
    assert Hex(0xF06E) == "F06E";
  }

  /** A single token that parses gives a single code point. */
  lemma ParseAllOne(t: string, v: int)
    requires ParseCodepoint(t) == Some(v)
    ensures ParseAll([t]) == Some([v])
  {
    var ts := [t];
    assert forall i :: 0 <= i < |ts| ==> ts[i] == t;
    var r := ParseAll(ts);
    assert |r.value| == 1 && r.value[0] == v;
    assert r.value == [v];
  }

  /** The default icon token parses as U+F06E8. */
  lemma DefaultIconParses()
    ensures ParseAll([DefaultIcon]) == Some([0xF06E8])
  {
    var h := Hex(0xF06E8);
    HexTokenParses(0xF06E8);
    ParseAllOne(h, 0xF06E8);
    DefaultIconHex();
  }

  /** With no tokens from anywhere, the converter works on U+F06E8 alone. */
  lemma DefaultRange()
    ensures Codepoints(Tokens(false, None, [])) == Some([0xF06E8])
  {
    assert Tokens(false, None, []) == [DefaultIcon];
    DefaultIconParses();
    var cps: seq<int> := [0xF06E8];
    IncreasingUnique(UniqueSorted(cps), cps);
  }
}

=== FILE: panel_config.dfy ===
/**
 * The build-time sizes the firmware takes from `app_config.h`, which is not
 * part of this model: they are parameters here, each assumed positive.
 */
module PanelConfig {
  import opened Wrappers

  datatype Config = Config(
    contentWidth: int, contentHeight: int, screenWidth: int,
    maxEntityIdLen: int, maxWidgetIdLen: int, maxPageIdLen: int,
    maxPages: int, maxWidgetsPerPage: int, maxWidgetsTotal: int, maxLayoutErrors: int)

  predicate ValidConfig(cfg: Config)
  {
    && cfg.contentWidth > 0 && cfg.contentHeight > 0 && cfg.screenWidth > 0
    && cfg.maxEntityIdLen > 0 && cfg.maxWidgetIdLen > 0 && cfg.maxPageIdLen > 0
    && cfg.maxPages > 0 && cfg.maxWidgetsPerPage > 0 && cfg.maxWidgetsTotal > 0 && cfg.maxLayoutErrors > 0
  }

  datatype SizeLimits = SizeLimits(minW: int, minH: int, maxW: int, maxH: int)

  /** The widget types the firmware can render; `empty_tile` is not one of them. */
  const FirmwareWidgetTypes: set<string> :=
    {"sensor", "button", "slider", "graph", "light_tile", "heating_tile", "weather_tile", "weather_3day"}

  /**
   * `widget_size_limits_for_type` of the validator; the renderer's
   * `ui_runtime_widget_size_limits` is the same table. `None` is a type that
   * is not a string.
   */
  function WidgetSizeLimits(cfg: Config, widgetType: Option<string>): (l: SizeLimits)
    ensures l.maxW <= cfg.contentWidth && l.maxH <= cfg.contentHeight
    ensures 60 <= l.minW <= 260 && 60 <= l.minH <= 220
    ensures widgetType.None? || widgetType.value !in FirmwareWidgetTypes ==>
      l == SizeLimits(60, 60, cfg.contentWidth, cfg.contentHeight)
    ensures widgetType.Some? && widgetType.value in {"sensor", "slider", "graph"} ==>
      l.maxW == cfg.contentWidth && l.maxH == cfg.contentHeight
    ensures cfg.contentWidth >= 640 && cfg.contentHeight >= 420 ==> l.minW <= l.maxW && l.minH <= l.maxH
  {
    var base := SizeLimits(60, 60, cfg.contentWidth, cfg.contentHeight);
    var l := match widgetType
      case None => base
      case Some(t) =>
        if t == "sensor" then base.(minW := 120, minH := 80)
        else if t == "button" then SizeLimits(180, 120, 480, 320)
        else if t == "slider" then base.(minW := 180, minH := 100)
        else if t == "graph" then base.(minW := 220, minH := 140)
        else if t == "light_tile" then SizeLimits(200, 180, 480, 480)
        else if t == "heating_tile" || t == "weather_tile" then SizeLimits(220, 200, 480, 480)
        else if t == "weather_3day" then SizeLimits(260, 220, 640, 420)
        else base;
    l.(maxW := Cap(l.maxW, cfg.contentWidth), maxH := Cap(l.maxH, cfg.contentHeight))
  }

  function Cap(v: int, bound: int): (r: int)
    ensures r <= bound && (r == v || r == bound)
  {
    if v > bound then bound else v
  }
}

=== FILE: percent.dfy ===
/**
 * The integer percent arithmetic shared by the slider, the light tile and the
 * service bindings: the 0..100 clamp, Home Assistant's 0..255 brightness
 * scale read as a percent, and a percent written back as a brightness.
 */
module Percent {

  /** `clamp_percent` (the same code in the slider and the light tile). */
  function ClampPercent(v: int): (r: int)
    ensures 0 <= r <= 100
    ensures 0 <= v <= 100 ==> r == v
    ensures v < 0 ==> r == 0
    ensures v > 100 ==> r == 100
  {
    if v < 0 then 0 else if v > 100 then 100 else v
  }

  /** Clamping is idempotent and keeps the order of its inputs. */
  lemma ClampPercentMonotone(a: int, b: int)
    requires a <= b
    ensures ClampPercent(a) <= ClampPercent(b)
    ensures ClampPercent(ClampPercent(a)) == ClampPercent(a)
  {
  }

  /**
   * A raw `brightness` attribute as a percent: the raw value is clamped to
   * 0..255, then scaled by `(raw * 100 + 127) / 255`, which rounds to the
   * nearest percent.
   */
  function BrightnessToPercent(raw: int): (r: int)
    ensures 0 <= r <= 100
    ensures raw <= 0 ==> r == 0
    ensures raw >= 255 ==> r == 100
  {
    var c := if raw < 0 then 0 else if raw > 255 then 255 else raw;
    (c * 100 + 127) / 255
  }

  /** The scaled percent is the raw brightness rounded to the nearest percent. */
  lemma BrightnessToPercentRounds(raw: int)
    requires 0 <= raw <= 255
    ensures var r := BrightnessToPercent(raw);
      255 * r - 127 <= 100 * raw && 100 * raw < 255 * r + 128
  {
    var r := BrightnessToPercent(raw);
    assert r == (raw * 100 + 127) / 255;
    assert 255 * r <= raw * 100 + 127 < 255 * r + 255;
  }

  /** A brighter raw value never reads as a smaller percent. */
  lemma BrightnessToPercentMonotone(a: int, b: int)
    requires a <= b
    ensures BrightnessToPercent(a) <= BrightnessToPercent(b)
  {
    var ca := if a < 0 then 0 else if a > 255 then 255 else a;
    var cb := if b < 0 then 0 else if b > 255 then 255 else b;
    var qa, qb := (ca * 100 + 127) / 255, (cb * 100 + 127) / 255;
    assert 255 * qa <= ca * 100 + 127 <= cb * 100 + 127 < 255 * qb + 255;
  }

  /**
   * `set_slider_value` for a light: the percent, clamped to 0..100, becomes
   * the brightness `value * 255 / 100` (truncating), which lies in 0..255.
   */
  function PercentToBrightness(value: int): (b: int)
    ensures 0 <= b <= 255
    ensures value <= 0 ==> b == 0
    ensures value >= 100 ==> b == 255
    ensures b * 100 <= ClampPercent(value) * 255 < b * 100 + 100
  {
    ClampPercent(value) * 255 / 100
  }

  /**
   * A percent sent to a light and read back from the state it reports comes
   * back unchanged: the two scalings are inverse on 0..100.
   */
  lemma PercentBrightnessRoundTrip(v: int)
    requires 0 <= v <= 100
    ensures BrightnessToPercent(PercentToBrightness(v)) == v
  {
    var b := PercentToBrightness(v);
    assert b == v * 255 / 100;
    assert 100 * b <= 255 * v < 100 * b + 100;
    assert 255 * v + 27 < b * 100 + 127 <= 255 * v + 127;
    var q := (b * 100 + 127) / 255;
    assert 255 * q <= b * 100 + 127 < 255 * q + 255;
    assert q == v;
  }
}

=== FILE: ringbuf.dfy ===
/**
 * The byte ring buffer: a fixed store of `capacity` bytes, a read index, a
 * write index and a length. A missing buffer is `None`.
 */
module RingBuf {
  import opened Wrappers

  datatype Ring = Ring(store: Option<seq<bv8>>, capacity: nat, readIdx: nat, writeIdx: nat, len: nat)

  /** An index past the end, by less than one round, taken back into the store. */
  function Wrap(x: nat, n: nat): nat
  {
    if x < n then x else x - n
  }

  /** A successor index in `1..n` taken modulo `n` wraps only at `n`. */
  lemma WrapOnce(x: int, n: int)
    requires 0 < x <= n
    ensures x % n == (if x == n then 0 else x)
  {
  }

  /**
   * The buffer as its operations keep it: the store has `capacity` bytes,
   * the length is at most the capacity, both indices are in the store, and
   * the write index is `len` places after the read index, round the ring.
   */
  predicate Valid(r: Ring)
  {
    && (r.store.Some? ==> |r.store.value| == r.capacity)
    && r.len <= r.capacity
    && (r.capacity == 0 ==> r.readIdx == 0 && r.writeIdx == 0)
    && (r.capacity > 0 ==> r.readIdx < r.capacity && r.writeIdx < r.capacity
                           && r.writeIdx == Wrap(r.readIdx + r.len, r.capacity))
  }

  /** The bytes waiting to be read, oldest first. */
  function Contents(r: Ring): (s: seq<bv8>)
    requires Valid(r)
    ensures |s| == (if r.store.Some? then r.len else 0)
  {
    if r.store.None? then []
    else seq(r.len, i requires 0 <= i < r.len => r.store.value[Wrap(r.readIdx + i, r.capacity)])
  }

  /** A new ring over a store: empty, both indices at 0. */
  function Empty(store: Option<seq<bv8>>): (r: Ring)
    ensures Valid(r) && r.len == 0 && Contents(r) == []
  {
    Ring(store, if store.Some? then |store.value| else 0, 0, 0, 0)
  }

  /**
   * `ringbuf_write_byte`: fails, changing nothing, when there is no store or
   * the ring is full; otherwise the byte is stored at the write index, which
   * moves on modulo the capacity, and the length grows by one.
   */
  function WriteByte(r: Ring, value: bv8): (res: (bool, Ring))
    requires Valid(r)
    ensures res.0 <==> r.store.Some? && r.len < r.capacity
    ensures !res.0 ==> res.1 == r
    ensures Valid(res.1)
    ensures res.0 ==> Contents(res.1) == Contents(r) + [value]
    ensures res.1.capacity == r.capacity
  {
    if r.store.None? || r.len == r.capacity then (false, r)
    else
      WrapOnce(r.writeIdx + 1, r.capacity);
      var r2 := r.(store := Some(r.store.value[r.writeIdx := value]),
                   writeIdx := (r.writeIdx + 1) % r.capacity, len := r.len + 1);
      assert r2.writeIdx == Wrap(r.writeIdx + 1, r.capacity);
      assert Valid(r2);
      assert Contents(r2) == Contents(r) + [value] by {
        forall i | 0 <= i < r2.len
          ensures Contents(r2)[i] == (Contents(r) + [value])[i]
        {
          if i < r.len {
            assert Wrap(r.readIdx + i, r.capacity) != r.writeIdx;
          }
        }
      }
      (true, r2)
  }

  /**
   * `ringbuf_read_byte`: fails, changing nothing, when there is no store, no
   * place to put the byte or nothing to read; otherwise the byte at the read
   * index comes out, the read index moves on modulo the capacity, and the
   * length shrinks by one.
   */
  function ReadByte(r: Ring, hasOut: bool): (res: (Option<bv8>, Ring))
    requires Valid(r)
    ensures res.0.Some? <==> r.store.Some? && hasOut && r.len > 0
    ensures res.0.None? ==> res.1 == r
    ensures Valid(res.1)
    ensures res.0.Some? ==> res.0.value == Contents(r)[0] && Contents(res.1) == Contents(r)[1..]
    ensures res.1.capacity == r.capacity
  {
    if r.store.None? || !hasOut || r.len == 0 then (None, r)
    else
      WrapOnce(r.readIdx + 1, r.capacity);
      var r2 := r.(readIdx := (r.readIdx + 1) % r.capacity, len := r.len - 1);
      assert r2.readIdx == Wrap(r.readIdx + 1, r.capacity);
      assert Valid(r2);
      assert Wrap(r.readIdx + 0, r.capacity) == r.readIdx;
      assert Contents(r)[0] == r.store.value[r.readIdx];
      assert Contents(r2) == Contents(r)[1..] by {
        forall i | 0 <= i < r2.len
          ensures Contents(r2)[i] == Contents(r)[1..][i]
        {
          assert Wrap(r2.readIdx + i, r.capacity) == Wrap(r.readIdx + i + 1, r.capacity);
        }
      }
      (Some(r.store.value[r.readIdx]), r2)
  }

  /** Writing bytes one by one until the first failure; the number written comes first. */
  function WriteAll(r: Ring, bytes: seq<bv8>): (res: (nat, Ring))
    requires Valid(r)
    ensures Valid(res.1) && res.0 <= |bytes| && res.1.capacity == r.capacity
    decreases |bytes|
  {
    if |bytes| == 0 then (0, r)
    else
      var w := WriteByte(r, bytes[0]);
      if !w.0 then (0, r)
      else
        var rest := WriteAll(w.1, bytes[1..]);
        (1 + rest.0, rest.1)
  }

  /** Reading `n` bytes one by one, stopping at the first failure. */
  function ReadAll(r: Ring, n: nat): (res: (seq<bv8>, Ring))
    requires Valid(r)
    ensures Valid(res.1) && |res.0| <= n && res.1.capacity == r.capacity
    decreases n
  {
    if n == 0 then ([], r)
    else
      var rd := ReadByte(r, true);
      if rd.0.None? then ([], r)
      else
        var rest := ReadAll(rd.1, n - 1);
        ([rd.0.value] + rest.0, rest.1)
  }

  /** As many bytes as fit are written, and they queue up after what was there. */
  lemma {:induction false} WriteAllQueues(r: Ring, bytes: seq<bv8>)
    requires Valid(r) && r.store.Some?
    ensures var w := WriteAll(r, bytes);
      var k := if |bytes| <= r.capacity - r.len then |bytes| else r.capacity - r.len;
      w.0 == k && Contents(w.1) == Contents(r) + bytes[..k]
    decreases |bytes|
  {
    var k := if |bytes| <= r.capacity - r.len then |bytes| else r.capacity - r.len;
    if |bytes| > 0 && r.len < r.capacity {
      var w := WriteByte(r, bytes[0]);
      var rest := WriteAll(w.1, bytes[1..]);
      assert WriteAll(r, bytes) == (1 + rest.0, rest.1);
      assert w.1.len == r.len + 1 && w.1.store.Some?;
      WriteAllQueues(w.1, bytes[1..]);
      assert rest.0 == k - 1;
      QueueStep(Contents(r), bytes, k);
    } else {
      assert k == 0 && bytes[..k] == [];
    }
  }

  lemma QueueStep(c: seq<bv8>, b: seq<bv8>, k: nat)
    requires 1 <= k <= |b|
    ensures c + [b[0]] + b[1..][..k - 1] == c + b[..k]
  {
    assert b[..k] == [b[0]] + b[1..][..k - 1];
  }

  /** Reading takes the waiting bytes out in the order they were written. */
  lemma {:induction false} ReadAllInOrder(r: Ring, n: nat)
    requires Valid(r) && r.store.Some?
    ensures var rd := ReadAll(r, n);
      var k := if n <= r.len then n else r.len;
      rd.0 == Contents(r)[..k] && Contents(rd.1) == Contents(r)[k..]
    decreases n
  {
    if n > 0 && r.len > 0 {
      var rd := ReadByte(r, true);
      ReadAllInOrder(rd.1, n - 1);
      var k := if n <= r.len then n else r.len;
      assert Contents(r)[..k] == [Contents(r)[0]] + Contents(r)[1..][..k - 1];
      assert Contents(r)[k..] == Contents(r)[1..][k - 1..];
    }
  }

  /** First in, first out: bytes written into an empty ring that has room come back unchanged. */
  lemma Fifo(store: seq<bv8>, bytes: seq<bv8>)
    requires |bytes| <= |store|
    ensures var w := WriteAll(Empty(Some(store)), bytes);
      w.0 == |bytes| && ReadAll(w.1, |bytes|).0 == bytes
  {
    var w := WriteAll(Empty(Some(store)), bytes);
    WriteAllQueues(Empty(Some(store)), bytes);
    assert bytes[..|bytes|] == bytes;
    ReadAllInOrder(w.1, |bytes|);
    assert Contents(w.1)[..|bytes|] == bytes;
  }
}

=== FILE: sensor_widget.dfy ===
/**
 * The sensor widget's logic: which states are unavailable, the value text,
 * the value font chosen by the card's size, and the "updated ... ago" label
 * with its buckets and colour.
 */
module SensorWidget {
  import opened Wrappers
  import opened CStr

  /** The `char value_text[96]` buffer. */
  const ValueBuffer: nat := 96

  /** `sensor_state_is_unavailable`: no text, empty text, `unavailable` or `unknown`. */
  predicate StateIsUnavailable(state: Option<string>)
  {
    state.None? || state.value in {"", "unavailable", "unknown"}
  }

  datatype Font = SmallFont | MediumFont | LargeFont | ExtraLargeFont

  function FontRank(f: Font): nat
  {
    match f
    case SmallFont => 0
    case MediumFont => 1
    case LargeFont => 2
    case ExtraLargeFont => 3
  }

  datatype Card = Card(width: int, height: int)

  /**
   * `sensor_pick_value_font`: by the card's smaller side, extra large from
   * 260, large from 190, medium from 140 and small below; medium without a card.
   */
  function PickValueFont(card: Option<Card>): (f: Font)
    ensures card.None? ==> f == MediumFont
    ensures card.Some? ==> var m := Min(card.value.width, card.value.height);
      && (f == ExtraLargeFont <==> m >= 260)
      && (f == LargeFont <==> 190 <= m < 260)
      && (f == MediumFont <==> 140 <= m < 190)
      && (f == SmallFont <==> m < 140)
  {
    if card.None? then MediumFont
    else
      var m := if card.value.width < card.value.height then card.value.width else card.value.height;
      if m >= 260 then ExtraLargeFont
      else if m >= 190 then LargeFont
      else if m >= 140 then MediumFont
      else SmallFont
  }

  /** Growing a card in both directions never picks a smaller font. */
  lemma PickValueFontMonotone(a: Card, b: Card)
    requires a.width <= b.width && a.height <= b.height
    ensures FontRank(PickValueFont(Some(a))) <= FontRank(PickValueFont(Some(b)))
  {
  }

  /** The buckets of the age label, each with the number it prints. */
  datatype Age = JustNow | OneMinute | Minutes(n: int) | OneHour | Hours(n: int) | OneDay | Days(n: int)

  function AgeRank(a: Age): nat
  {
    match a
    case JustNow => 0
    case OneMinute => 1
    case Minutes(_) => 2
    case OneHour => 3
    case Hours(_) => 4
    case OneDay => 5
    case Days(_) => 6
  }

  /**
   * The bucket `sensor_update_age_label` picks for an age in milliseconds; a
   * negative age (a clock behind the update) counts as 0. The "1 day" bucket
   * is never chosen: any age of a day is already 24 hours or more, and ages
   * below 48 hours land in the hour buckets.
   */
  function AgeBucket(ageMs: int): (a: Age)
    ensures var m := if ageMs < 0 then 0 else ageMs / 60000;
      && (a == JustNow <==> m == 0)
      && (a == OneMinute <==> m == 1)
      && (a.Minutes? <==> 2 <= m < 60) && (a.Minutes? ==> a.n == m)
      && (a == OneHour <==> 60 <= m < 120)
      && (a.Hours? <==> 120 <= m < 48 * 60) && (a.Hours? ==> a.n == m / 60)
      && (a.Days? <==> m >= 48 * 60) && (a.Days? ==> a.n == m / 60 / 24 && a.n >= 2)
    ensures a != OneDay
  {
    var age := if ageMs < 0 then 0 else ageMs;
    var minutes := age / 60000;
    var hours := minutes / 60;
    var days := hours / 24;
    if minutes <= 0 then JustNow
    else if minutes == 1 then OneMinute
    else if minutes < 60 then Minutes(minutes)
    else if hours == 1 then OneHour
    else if hours < 48 then Hours(hours)
    else if days == 1 then OneDay
    else Days(days)
  }

  /** An older update never shows a younger bucket. */
  lemma AgeBucketMonotone(a: int, b: int)
    requires a <= b
    ensures AgeRank(AgeBucket(a)) <= AgeRank(AgeBucket(b))
  {
    var ma := if a < 0 then 0 else a / 60000;
    var mb := if b < 0 then 0 else b / 60000;
    assert ma <= mb;
  }

  datatype AgeColour = Muted | OffColour

  /** The age label when shown: its bucket, and the off colour from 30 minutes on. */
  datatype AgeLabel = Hidden | Shown(age: Age, colour: AgeColour)

  /** The sensor context fields the logic touches. */
  datatype Sensor = Sensor(unavailable: bool, hasTimestamp: bool, lastUpdateMs: int, valueText: string)

  /**
   * `sensor_update_age_label` at time `nowMs`: hidden while unavailable or
   * without a timestamp; otherwise the age bucket, in the muted colour for
   * the first 30 minutes and the off colour after.
   */
  function AgeLabelAt(s: Sensor, nowMs: int): (l: AgeLabel)
    ensures l == Hidden <==> s.unavailable || !s.hasTimestamp
    ensures l.Shown? ==> l.age == AgeBucket(nowMs - s.lastUpdateMs)
    ensures l.Shown? ==> (l.colour == Muted <==> nowMs - s.lastUpdateMs < 30 * 60000)
  {
    if s.unavailable || !s.hasTimestamp then Hidden
    else
      var age := if nowMs - s.lastUpdateMs < 0 then 0 else nowMs - s.lastUpdateMs;
      Shown(AgeBucket(nowMs - s.lastUpdateMs), if age / 60000 >= 30 then OffColour else Muted)
  }

  /** The text of the value label: `--` stands in for an empty value. */
  function ShownValue(text: string): (r: string)
    ensures r != ""
    ensures text != "" ==> r == text
  {
    if text == "" then "--" else text
  }

  /**
   * `w_sensor_apply_state`: an unavailable state is `sensor_apply_unavailable`;
   * otherwise the value is the state followed by a space and the unit when
   * the unit is non-empty, cut to 96 bytes, and the timestamp counts only
   * when positive. Every field of the context is rewritten.
   */
  function ApplyState(state: Option<string>, unit: Option<string>, lastChangedMs: int,
                      unavailableText: string): (r: Sensor)
    ensures r.unavailable <==> StateIsUnavailable(state)
    ensures r.unavailable ==> r == ApplyUnavailable(unavailableText)
    ensures !r.unavailable ==>
      && r.lastUpdateMs == lastChangedMs && (r.hasTimestamp <==> lastChangedMs > 0)
      && |r.valueText| == Min(|state.value| + (if unit.Some? && unit.value != "" then 1 + |unit.value| else 0), ValueBuffer - 1)
      && (|r.valueText| <= |state.value| ==> StartsWith(state.value, r.valueText))
      && (|r.valueText| >= |state.value| ==> StartsWith(r.valueText, state.value))
      && StartsWith(if unit.Some? && unit.value != "" then state.value + " " + unit.value else state.value, r.valueText)
  {
    if StateIsUnavailable(state) then ApplyUnavailable(unavailableText)
    else
      var text := if unit.Some? && unit.value != "" then state.value + " " + unit.value else state.value;
      assert StartsWith(text, state.value) by { assert text[..|state.value|] == state.value; }
      Sensor(false, lastChangedMs > 0, lastChangedMs, Fit(text, ValueBuffer))
  }

  /** A value that fits the buffer reads as the state, a space and the unit. */
  lemma ApplyStateShowsUnit(state: Option<string>, unit: string, lastChangedMs: int, u: string)
    requires !StateIsUnavailable(state) && unit != ""
    requires |state.value| + 1 + |unit| < ValueBuffer
    ensures ApplyState(state, Some(unit), lastChangedMs, u).valueText == state.value + " " + unit
  {
    var r := ApplyState(state, Some(unit), lastChangedMs, u);
    var text := state.value + " " + unit;
    assert text[..|r.valueText|] == r.valueText;
    assert |r.valueText| == |text|;
  }

  /** An available sensor always shows a value, never the `--` placeholder. */
  lemma AvailableShowsValue(state: Option<string>, unit: Option<string>, lastChangedMs: int, u: string)
    requires !StateIsUnavailable(state)
    ensures var r := ApplyState(state, unit, lastChangedMs, u);
      r.valueText != "" && ShownValue(r.valueText) == r.valueText && r.valueText[0] == state.value[0]
  {
    var r := ApplyState(state, unit, lastChangedMs, u);
    var text := if unit.Some? && unit.value != "" then state.value + " " + unit.value else state.value;
    assert text[0] == state.value[0];
    assert r.valueText == Fit(text, ValueBuffer);
  }

  /** `sensor_apply_unavailable`: unavailable, no timestamp, the translated word as the value. */
  function ApplyUnavailable(unavailableText: string): (r: Sensor)
    ensures r.unavailable && !r.hasTimestamp && r.lastUpdateMs == 0 && r.valueText == unavailableText
    ensures forall now :: AgeLabelAt(r, now) == Hidden
  {
    Sensor(true, false, 0, unavailableText)
  }
}

=== FILE: slider_widget.dfy ===
/**
 * The slider widget's logic: the configured fill direction and the one it
 * takes on a card, the percent read from an entity state, and the widget
 * state its touch events and state updates leave behind.
 */
module SliderWidget {
  import opened Wrappers
  import opened CStr
  import opened Percent

  datatype Direction = Auto | LeftToRight | RightToLeft | BottomToTop | TopToBottom

  /** The layout spelling of a direction. */
  function DirectionName(d: Direction): string
  {
    match d
    case Auto => "auto"
    case LeftToRight => "left_to_right"
    case RightToLeft => "right_to_left"
    case BottomToTop => "bottom_to_top"
    case TopToBottom => "top_to_bottom"
  }

  /**
   * `slider_direction_from_text`: the four explicit names map to their
   * direction; no text, empty text, `auto` and anything unknown mean auto.
   */
  function DirectionFromText(text: Option<string>): (d: Direction)
    ensures d != Auto <==>
      text.Some? && text.value in {"left_to_right", "right_to_left", "bottom_to_top", "top_to_bottom"}
    ensures d != Auto ==> DirectionName(d) == text.value
  {
    if text.None? || text.value == "" || text.value == "auto" then Auto
    else if text.value == "left_to_right" then LeftToRight
    else if text.value == "right_to_left" then RightToLeft
    else if text.value == "bottom_to_top" then BottomToTop
    else if text.value == "top_to_bottom" then TopToBottom
    else Auto
  }

  /** Reading a direction's own name gives the direction back. */
  lemma DirectionNameRoundTrip(d: Direction)
    ensures DirectionFromText(Some(DirectionName(d))) == d
  {
  }

  predicate IsVertical(d: Direction) { d == BottomToTop || d == TopToBottom }

  predicate IsReversed(d: Direction) { d == RightToLeft || d == TopToBottom }

  /** The two axis tests tell the four explicit directions apart. */
  lemma AxesDetermineDirection(a: Direction, b: Direction)
    requires a != Auto && b != Auto
    requires IsVertical(a) == IsVertical(b) && IsReversed(a) == IsReversed(b)
    ensures a == b
  {
  }

  /** A card's size, when the slider sits on one. */
  datatype Card = Card(width: int, height: int)

  /**
   * `slider_effective_direction`: without a context the slider runs left to
   * right; a configured direction wins; auto runs bottom to top on a card
   * narrower than it is tall, and left to right otherwise.
   */
  function EffectiveDirection(configured: Option<Direction>, card: Option<Card>): (d: Direction)
    ensures d != Auto
    ensures configured.Some? && configured.value != Auto ==> d == configured.value
    ensures configured == Some(Auto) ==>
      (d == BottomToTop <==> card.Some? && card.value.width < card.value.height)
    ensures configured == Some(Auto) && d != BottomToTop ==> d == LeftToRight
    ensures configured.None? ==> d == LeftToRight
  {
    if configured.None? then LeftToRight
    else if configured.value != Auto then configured.value
    else if card.Some? && card.value.width < card.value.height then BottomToTop
    else LeftToRight
  }

  /** The value range handed to the native slider, from the start of the track to its end. */
  datatype Range = Range(start: int, end: int)

  /**
   * `slider_apply_native_orientation`: the native slider always runs from
   * its start; a reversed direction puts 100 at the start instead of 0.
   */
  function NativeRange(d: Direction): (r: Range)
    ensures {r.start, r.end} == {0, 100}
    ensures r.start == 0 <==> !IsReversed(d)
  {
    if IsReversed(d) then Range(100, 0) else Range(0, 100)
  }

  /** `slider_state_is_unavailable`: only the two texts, and not a missing state. */
  predicate StateIsUnavailable(state: Option<string>)
  {
    state.Some? && (state.value == "unavailable" || state.value == "unknown")
  }

  /** `slider_state_is_on_text`. */
  predicate StateIsOnText(state: Option<string>)
  {
    state.Some? && state.value in {"on", "open", "playing", "home"}
  }

  /**
   * The numeric readings of a state. The floating-point steps are not part of
   * this model: `textPercent` is what `slider_parse_percent_text` made of the
   * state text, the attributes are their values after `(int)(x + 0.5)`, and
   * `volumePercent` is the volume level already scaled to a percent.
   */
  datatype Reading = Reading(
    state: Option<string>, textPercent: Option<int>,
    brightnessPct: Option<int>, brightness: Option<int>, volumePercent: Option<int>)

  /** What `slider_extract_percent_value` returns and whether it found a number. */
  datatype Extracted = Extracted(value: int, hasNumeric: bool)

  /**
   * `slider_extract_percent_value`: the state text, then `brightness_pct`,
   * then the 0..255 `brightness`, then the volume, whichever is numeric first;
   * without any number the state text alone decides between 100 and 0.
   */
  function ExtractPercent(reading: Option<Reading>): (e: Extracted)
    ensures 0 <= e.value <= 100
    ensures e.hasNumeric <==>
      reading.Some? && (reading.value.textPercent.Some? || reading.value.brightnessPct.Some?
                        || reading.value.brightness.Some? || reading.value.volumePercent.Some?)
    ensures !e.hasNumeric ==> e.value == (if reading.Some? && StateIsOnText(reading.value.state) then 100 else 0)
    ensures reading.Some? && reading.value.textPercent.Some? ==> e.value == ClampPercent(reading.value.textPercent.value)
    ensures reading.Some? && reading.value.textPercent.None? && reading.value.brightnessPct.Some? ==>
      e.value == ClampPercent(reading.value.brightnessPct.value)
    ensures reading.Some? && reading.value.textPercent.None? && reading.value.brightnessPct.None?
            && reading.value.brightness.Some? ==>
      e.value == BrightnessToPercent(reading.value.brightness.value)
  {
    if reading.None? then Extracted(0, false)
    else
      var r := reading.value;
      if r.textPercent.Some? then Extracted(ClampPercent(r.textPercent.value), true)
      else if r.brightnessPct.Some? then Extracted(ClampPercent(r.brightnessPct.value), true)
      else if r.brightness.Some? then Extracted(BrightnessToPercent(r.brightness.value), true)
      else if r.volumePercent.Some? then Extracted(ClampPercent(r.volumePercent.value), true)
      else Extracted(if StateIsOnText(r.state) then 100 else 0, false)
  }

  /** The slider context fields the logic touches; `lastSent` starts at -1. */
  datatype Slider = Slider(value: int, isOn: bool, unavailable: bool, dragging: bool, lastSent: int)

  /** What every reachable slider satisfies: a percent, and an unavailable one reads 0 and off. */
  predicate Valid(s: Slider)
  {
    0 <= s.value <= 100 && (s.unavailable ==> s.value == 0 && !s.isOn)
  }

  function Initial(): (s: Slider)
    ensures Valid(s) && s.lastSent == -1
  {
    Slider(0, false, false, false, -1)
  }

  /**
   * `w_slider_apply_state`: an unavailable state reads 0, off and
   * unavailable; otherwise the extracted percent is shown, and the slider is
   * on when a number above zero was found or the text says on.
   */
  function ApplyState(s: Slider, reading: Reading): (t: Slider)
    ensures Valid(t) && !t.dragging && t.lastSent == s.lastSent
    ensures t.unavailable <==> StateIsUnavailable(reading.state)
    ensures !t.unavailable ==> t.value == ExtractPercent(Some(reading)).value
    ensures !t.unavailable ==>
      (t.isOn <==> StateIsOnText(reading.state) || (ExtractPercent(Some(reading)).hasNumeric && t.value > 0))
  {
    if StateIsUnavailable(reading.state) then s.(value := 0, isOn := false, unavailable := true, dragging := false)
    else
      var e := ExtractPercent(Some(reading));
      var onText := StateIsOnText(reading.state);
      s.(value := ClampPercent(e.value), isOn := if e.hasNumeric then e.value > 0 || onText else onText,
         unavailable := false, dragging := false)
  }

  /** `w_slider_mark_unavailable`. */
  function MarkUnavailable(s: Slider): (t: Slider)
    ensures Valid(t) && t.unavailable && t.value == 0 && !t.isOn && !t.dragging && t.lastSent == s.lastSent
  {
    s.(value := 0, isOn := false, unavailable := true, dragging := false)
  }

  /** The touch events the widget listens to; the raw values are what the native slider reports. */
  datatype Event = Pressed | ValueChanged(raw: int) | Released(raw: int) | PressLost

  /** The slider after an event, and the value sent to Home Assistant, if any. */
  datatype Outcome = Outcome(slider: Slider, sent: Option<int>)

  /**
   * `w_slider_event_cb`, while events are not suppressed. Moving the knob
   * shows the new percent and makes the slider available and on iff above
   * zero; on release the value is sent only when it differs from the last
   * value sent, and that record moves only when the call succeeds.
   */
  function OnEvent(s: Slider, ev: Event, sendOk: bool): (o: Outcome)
    ensures o.sent.Some? ==> ev.Released? && o.sent.value == ClampPercent(ev.raw) && o.sent.value != s.lastSent
    ensures ev.Released? && ClampPercent(ev.raw) != s.lastSent ==> o.sent.Some?
    ensures o.slider.lastSent == (if o.sent.Some? && sendOk then o.sent.value else s.lastSent)
    ensures (ev.ValueChanged? || ev.Released?) ==>
      && o.slider.value == ClampPercent(ev.raw) && !o.slider.unavailable && (o.slider.isOn <==> o.slider.value > 0)
      && o.slider.dragging == ev.ValueChanged?
    ensures ev.Pressed? ==> o.slider == s.(dragging := true)
    ensures ev.PressLost? ==> o.slider == s.(dragging := false)
  {
    match ev
    case Pressed => Outcome(s.(dragging := true), None)
    case PressLost => Outcome(s.(dragging := false), None)
    case ValueChanged(raw) =>
      var v := ClampPercent(raw);
      Outcome(s.(value := v, dragging := true, unavailable := false, isOn := v > 0), None)
    case Released(raw) =>
      var v := ClampPercent(raw);
      var moved := s.(value := v, dragging := false, unavailable := false, isOn := v > 0);
      if v != s.lastSent then Outcome(moved.(lastSent := if sendOk then v else s.lastSent), Some(v))
      else Outcome(moved, None)
  }

  /** Every event keeps the slider valid. */
  lemma OnEventPreservesValid(s: Slider, ev: Event, sendOk: bool)
    requires Valid(s)
    ensures Valid(OnEvent(s, ev, sendOk).slider)
  {
  }

  /** Releasing again at a value whose sending succeeded sends nothing more. */
  lemma ReleaseSendsOnce(s: Slider, raw: int)
    ensures var o := OnEvent(s, Released(raw), true);
      OnEvent(o.slider, Released(raw), true).sent.None?
  {
  }

  /** A failed send is retried on the next release at the same value. */
  lemma FailedReleaseRetries(s: Slider, raw: int)
    requires ClampPercent(raw) != s.lastSent
    ensures var o := OnEvent(s, Released(raw), false);
      OnEvent(o.slider, Released(raw), true).sent == Some(ClampPercent(raw))
  {
  }
}

=== FILE: subset_ttf.dfy ===
/**
 * `subset_ttf`: keep the outlines of the glyphs some code points map to,
 * together with every glyph a kept composite glyph is built from, empty
 * every other outline, and write the font again with a fresh `loca`, a
 * smaller table set and a corrected `head.checkSumAdjustment`.
 *
 * The source font arrives as its table directory already read: one entry
 * per tag, with the table's bytes.
 */
module SubsetTtf {
  import opened Wrappers
  import opened Bytes
  import opened TtfChecksum
  import opened TtfDirectory
  import opened TtfCmap
  import opened TtfGlyf
  import opened TtfLoca

  // The keep closure.

  /**
   * The glyphs glyph `g` is built from: the components of its outline when
   * `g` is a glyph of the font and its outline is non-empty and inside
   * `glyf`, otherwise none.
   */
  function Refs(glyf: seq<Byte>, loca: seq<nat>, g: int): (r: seq<nat>)
    ensures forall i :: 0 <= i < |r| ==> r[i] < U16Limit
  {
    if 0 <= g && g + 1 < |loca| && loca[g] < loca[g + 1] <= |glyf| then CompositeRefs(glyf[loca[g]..loca[g + 1]])
    else []
  }

  /** Every glyph a member of `s` is built from is in `s` too. */
  predicate Closed(glyf: seq<Byte>, loca: seq<nat>, s: set<int>)
  {
    forall g, r :: g in s && r in Refs(glyf, loca, g) ==> r in s
  }

  /** The numbers `0..n-1`. */
  function Below(n: nat): (r: set<int>)
    ensures forall x :: x in r <==> 0 <= x < n
  {
    if n == 0 then {} else Below(n - 1) + {n - 1}
  }

  /** Every glyph index a component can name. */
  function GlyphIds(): set<int>
  {
    Below(U16Limit)
  }

  /** `s` with the glyphs its members are built from. */
  function Expand(glyf: seq<Byte>, loca: seq<nat>, s: set<int>): (r: set<int>)
    ensures s <= r && r - s <= GlyphIds()
    ensures r == s ==> Closed(glyf, loca, s)
  {
    s + set g, x: nat | g in s && x in Refs(glyf, loca, g) :: x as int
  }

  /** Growing a set by members of `u` leaves fewer members of `u` out. */
  lemma Shrinks(u: set<int>, a: set<int>, b: set<int>)
    requires a <= b && a != b && b - a <= u
    ensures |u - b| < |u - a|
  {
    assert b == a + (b - a);
    assert u - a == (u - b) + (b - a);
  }

  /** The smallest closed set holding `s`, by expanding until nothing changes. */
  function Close(glyf: seq<Byte>, loca: seq<nat>, s: set<int>): set<int>
    decreases |GlyphIds() - s|
  {
    var e := Expand(glyf, loca, s);
    if e == s then s
    else
      Shrinks(GlyphIds(), s, e);
      Close(glyf, loca, e)
  }

  /** The closure holds the set it started from and is closed. */
  lemma {:induction false} CloseCloses(glyf: seq<Byte>, loca: seq<nat>, s: set<int>)
    ensures s <= Close(glyf, loca, s)
    ensures Closed(glyf, loca, Close(glyf, loca, s))
    decreases |GlyphIds() - s|
  {
    var e := Expand(glyf, loca, s);
    if e != s {
      Shrinks(GlyphIds(), s, e);
      CloseCloses(glyf, loca, e);
    }
  }

  /** Any closed set holding `s` holds the closure of `s`. */
  lemma {:induction false} CloseLeast(glyf: seq<Byte>, loca: seq<nat>, s: set<int>, t: set<int>)
    requires s <= t && Closed(glyf, loca, t)
    ensures Close(glyf, loca, s) <= t
    decreases |GlyphIds() - s|
  {
    var e := Expand(glyf, loca, s);
    if e != s {
      Shrinks(GlyphIds(), s, e);
      CloseLeast(glyf, loca, e, t);
    }
  }

  /**
   * Every member of `keep` that is no longer queued has all its components
   * in `keep`.
   */
  predicate Settled(glyf: seq<Byte>, loca: seq<nat>, keep: set<int>, queue: seq<int>)
  {
    forall g, r :: g in keep && g !in queue && r in Refs(glyf, loca, g) ==> r in keep
  }

  /**
   * The inner loop over one glyph's components: each one not seen before
   * joins `keep` and the queue.
   */
  method QueueRefs(refs: seq<nat>, keep: set<int>, queue: seq<int>) returns (keep': set<int>, queue': seq<int>)
    ensures keep <= keep'
    ensures forall x :: x in keep' <==> x in keep || x in refs
    ensures forall x :: x in queue' <==> x in queue || (x in refs && x !in keep)
    ensures keep' == keep ==> queue' == queue
  {
    keep', queue' := keep, queue;
    var seen := keep;
    var i := 0;
    while i < |refs|
      invariant i <= |refs| && seen == keep' && keep <= keep'
      invariant forall x :: x in keep' <==> x in keep || x in refs[..i]
      invariant forall x :: x in queue' <==> x in queue || (x in refs[..i] && x !in keep)
      invariant keep' == keep ==> queue' == queue
      decreases |refs| - i
    {
      var ref := refs[i];
      if ref !in seen {
        seen := seen + {ref};
        keep' := keep' + {ref};
        queue' := queue' + [ref];
      }
      assert refs[..i + 1] == refs[..i] + [ref];
      i := i + 1;
    }
    assert refs[..i] == refs;
  }

  /**
   * One turn of the work-list loop for a popped glyph: a glyph out of range
   * or without an outline is skipped; otherwise its components not seen
   * before join `keep` and the queue.
   */
  method Visit(glyf: seq<Byte>, loca: seq<nat>, gid: int, keep: set<int>, queue: seq<int>)
    returns (keep': set<int>, queue': seq<int>)
    ensures keep <= keep'
    ensures forall x :: x in keep' <==> x in keep || x in Refs(glyf, loca, gid)
    ensures forall x :: x in queue' <==> x in queue || (x in Refs(glyf, loca, gid) && x !in keep)
    ensures keep' == keep ==> queue' == queue
  {
    var numGlyphs := |loca| - 1;
    if gid < 0 || gid >= numGlyphs {
      return keep, queue;
    }
    var start := loca[gid];
    var end := loca[gid + 1];
    if end <= start || end > |glyf| {
      return keep, queue;
    }
    var refs := ScanComposite(glyf[start..end]);
    keep', queue' := QueueRefs(refs, keep, queue);
  }

  /**
   * The work-list loop of `subset_ttf`, which pops a glyph and visits it
   * until the queue is empty, computes the smallest closed set holding the
   * starting glyphs. The queue starts as the starting glyphs in `order`,
   * the order in which the set iterates.
   */
  method KeepClosure(glyf: seq<Byte>, loca: seq<nat>, initial: set<int>, order: seq<int>) returns (keep: set<int>)
    requires |loca| >= 1
    requires forall x :: x in initial <==> x in order
    ensures initial <= keep && Closed(glyf, loca, keep)
    ensures keep == Close(glyf, loca, initial)
  {
    ghost var c := Close(glyf, loca, initial);
    CloseCloses(glyf, loca, initial);
    keep := initial;
    var queue := order;
    while |queue| > 0
      invariant initial <= keep <= c
      invariant forall x :: x in queue ==> x in keep
      invariant Settled(glyf, loca, keep, queue)
      decreases |c - keep|, |queue|
    {
      var gid := queue[|queue| - 1];
      var popped := queue[..|queue| - 1];
      forall x | x in queue
        ensures x in popped || x == gid
      {
        var i :| 0 <= i < |queue| && queue[i] == x;
        if i < |popped| {
          assert popped[i] == x;
        }
      }
      forall x | x in popped
        ensures x in queue
      {
        var i :| 0 <= i < |popped| && popped[i] == x;
        assert queue[i] == x;
      }
      assert forall r :: r in Refs(glyf, loca, gid) ==> r in c;
      ghost var keep0 := keep;
      keep, queue := Visit(glyf, loca, gid, keep, popped);
      if keep != keep0 {
        forall x | x in keep - keep0
          ensures x in c
        {
          assert x in Refs(glyf, loca, gid);
        }
        Shrinks(c, keep0, keep);
      }
    }
    CloseLeast(glyf, loca, initial, keep);
  }

  // The subset pipeline.

  const HheaTag: Tag := 0x6868_6561
  const HmtxTag: Tag := 0x686D_7478
  const MaxpTag: Tag := 0x6D61_7870
  const LocaTag: Tag := 0x6C6F_6361
  const GlyfTag: Tag := 0x676C_7966
  const CmapTag: Tag := 0x636D_6170
  const Os2Tag: Tag := 0x4F53_2F32
  const NameTag: Tag := 0x6E61_6D65

  /** The tables the subset font keeps when the source has them. */
  const KeptTags: set<Tag> := {CmapTag, GlyfTag, HeadTag, HheaTag, HmtxTag, LocaTag, MaxpTag, Os2Tag, NameTag}

  /** Where `numGlyphs` sits in the `maxp` table. */
  const NumGlyphsAt: nat := 4

  /** A table directory read into a dictionary holds each tag once. */
  predicate DistinctTags(d: seq<Table>)
  {
    forall i, j :: 0 <= i < j < |d| ==> d[i].tag != d[j].tag
  }

  /** Where the entry with `tag` is, if there is one. */
  function FindTag(d: seq<Table>, tag: Tag): (r: Option<nat>)
    ensures r.None? <==> forall i :: 0 <= i < |d| ==> d[i].tag != tag
    ensures r.Some? ==> r.value < |d| && d[r.value].tag == tag
  {
    if |d| == 0 then None
    else if d[0].tag == tag then Some(0)
    else
      match FindTag(d[1..], tag)
      case None => None
      case Some(i) => Some(i + 1)
  }

  /** The bytes of the table with `tag`. */
  function Get(d: seq<Table>, tag: Tag): seq<Byte>
    requires FindTag(d, tag).Some?
  {
    d[FindTag(d, tag).value].data
  }

  /** The source holds every table the subset needs. */
  predicate HasRequired(d: seq<Table>)
  {
    && FindTag(d, HeadTag).Some? && FindTag(d, HheaTag).Some? && FindTag(d, HmtxTag).Some?
    && FindTag(d, MaxpTag).Some? && FindTag(d, LocaTag).Some? && FindTag(d, GlyfTag).Some?
    && FindTag(d, CmapTag).Some?
  }

  /**
   * The starting glyphs: `.notdef` and every non-zero glyph the code points
   * map to; nothing when a lookup raises.
   */
  function StartGlyphs(cmap: seq<Byte>, cps: seq<int>): (r: Option<set<int>>)
    ensures r.Some? <==> forall i :: 0 <= i < |cps| ==> GidForCodepoint(cmap, cps[i]).Some?
    ensures r.Some? ==> 0 in r.value
    ensures r.Some? ==> forall i :: 0 <= i < |cps| ==> GidForCodepoint(cmap, cps[i]).value in r.value
    ensures r.Some? ==> forall x :: x in r.value && x != 0 ==> exists i :: 0 <= i < |cps| && GidForCodepoint(cmap, cps[i]) == Some(x)
  {
    if |cps| == 0 then Some({0})
    else
      var last := |cps| - 1;
      match StartGlyphs(cmap, cps[..last])
      case None => None
      case Some(s) =>
        assert forall i :: 0 <= i < last ==> cps[..last][i] == cps[i];
        match GidForCodepoint(cmap, cps[last])
        case None => None
        case Some(g) => Some(if g != 0 then s + {g} else s)
  }

  /** The table kept for `t`: the new `glyf` and `loca` in place of the old, any other as it was. */
  function Replaced(t: Table, glyf: seq<Byte>, loca: seq<Byte>): Table
  {
    if t.tag == GlyfTag then Table(GlyfTag, glyf)
    else if t.tag == LocaTag then Table(LocaTag, loca)
    else t
  }

  /** The tables of the subset font, in the source's order. */
  function Retable(src: seq<Table>, glyf: seq<Byte>, loca: seq<Byte>): seq<Table>
  {
    if |src| == 0 then []
    else (if src[0].tag in KeptTags then [Replaced(src[0], glyf, loca)] else []) + Retable(src[1..], glyf, loca)
  }

  /** Every table of the subset font is a kept source table, with `glyf` and `loca` replaced. */
  lemma {:induction false} RetableFrom(src: seq<Table>, glyf: seq<Byte>, loca: seq<Byte>, i: nat) returns (j: nat)
    requires i < |Retable(src, glyf, loca)|
    ensures j < |src| && src[j].tag in KeptTags
    ensures Retable(src, glyf, loca)[i] == Replaced(src[j], glyf, loca)
    decreases |src|
  {
    var rest := Retable(src[1..], glyf, loca);
    if src[0].tag in KeptTags && i == 0 {
      j := 0;
    } else {
      var k := if src[0].tag in KeptTags then i - 1 else i;
      assert Retable(src, glyf, loca)[i] == rest[k];
      var j' := RetableFrom(src[1..], glyf, loca, k);
      j := j' + 1;
    }
  }

  /** Every kept source table is in the subset font, with `glyf` and `loca` replaced. */
  lemma {:induction false} RetableHas(src: seq<Table>, glyf: seq<Byte>, loca: seq<Byte>, j: nat) returns (i: nat)
    requires j < |src| && src[j].tag in KeptTags
    ensures i < |Retable(src, glyf, loca)|
    ensures Retable(src, glyf, loca)[i] == Replaced(src[j], glyf, loca)
    decreases |src|
  {
    if j == 0 {
      i := 0;
    } else {
      var i' := RetableHas(src[1..], glyf, loca, j - 1);
      i := if src[0].tag in KeptTags then i' + 1 else i';
    }
  }

  /** Packing the subset tables and setting the adjustment. */
  function Rebuilt(src: seq<Table>, glyf: seq<Byte>, loca: seq<Byte>): Option<seq<Byte>>
  {
    match MakeTtf(Retable(src, glyf, loca))
    case None => None
    case Some(font) => SetHeadChecksumAdjustment(font)
  }

  /**
   * The subset tables hold the source's `head` table, and every `head`
   * entry among them is that table.
   */
  lemma RetableHead(src: seq<Table>, glyf: seq<Byte>, loca: seq<Byte>) returns (i: nat)
    requires DistinctTags(src) && FindTag(src, HeadTag).Some?
    ensures i < |Retable(src, glyf, loca)| && Retable(src, glyf, loca)[i].tag == HeadTag
    ensures forall m :: 0 <= m < |Retable(src, glyf, loca)| && Retable(src, glyf, loca)[m].tag == HeadTag ==>
      Retable(src, glyf, loca)[m].data == Get(src, HeadTag)
  {
    var tables := Retable(src, glyf, loca);
    var h := FindTag(src, HeadTag).value;
    i := RetableHas(src, glyf, loca, h);
    forall m | 0 <= m < |tables| && tables[m].tag == HeadTag
      ensures tables[m].data == Get(src, HeadTag)
    {
      var j := RetableFrom(src, glyf, loca, m);
      assert src[j].tag == HeadTag;
    }
  }

  /**
   * When the source's `head` table holds at least 12 bytes, a rebuilt
   * font, whenever one is packed, sums to 0xB1B0AFBA.
   */
  lemma RebuiltChecksum(src: seq<Table>, glyf: seq<Byte>, loca: seq<Byte>)
    requires DistinctTags(src) && FindTag(src, HeadTag).Some? && |Get(src, HeadTag)| >= 12
    requires MakeTtf(Retable(src, glyf, loca)).Some?
    ensures Rebuilt(src, glyf, loca).Some? && Checksum(Rebuilt(src, glyf, loca).value) == ChecksumMagic
  {
    var i := RetableHead(src, glyf, loca);
    HeadedFontChecksum(Retable(src, glyf, loca), i);
  }

  /**
   * `subset_ttf` on a source font read into its tables: nothing when a
   * required table is missing or a read, a glyph lookup or a pack raises;
   * otherwise the rebuilt font.
   */
  function Subset(src: seq<Table>, cps: seq<int>): Option<seq<Byte>>
    requires DistinctTags(src)
  {
    if !HasRequired(src) then None
    else
      var head := Get(src, HeadTag);
      var maxp := Get(src, MaxpTag);
      var glyf := Get(src, GlyfTag);
      if |maxp| < NumGlyphsAt + 2 then None
      else
        match ParseLoca(head, Get(src, LocaTag), BeU16(maxp, NumGlyphsAt))
        case None => None
        case Some(loca) =>
          match StartGlyphs(Get(src, CmapTag), cps)
          case None => None
          case Some(initial) =>
            var keep := Close(glyf, loca, initial);
            var short := LocFormatIsShort(head).value;
            match EncodeLoca(NewLoca(glyf, loca, keep), short)
            case None => None
            case Some(locaData) => Rebuilt(src, NewGlyf(glyf, loca, keep, |loca| - 1), locaData)
  }

  /** A subset font, whenever one is produced, sums to 0xB1B0AFBA. */
  lemma SubsetChecksum(src: seq<Table>, cps: seq<int>)
    requires DistinctTags(src) && Subset(src, cps).Some?
    ensures Checksum(Subset(src, cps).value) == ChecksumMagic
  {
    var head := Get(src, HeadTag);
    var maxp := Get(src, MaxpTag);
    var glyf := Get(src, GlyfTag);
    var loca := ParseLoca(head, Get(src, LocaTag), BeU16(maxp, NumGlyphsAt)).value;
    var initial := StartGlyphs(Get(src, CmapTag), cps).value;
    var keep := Close(glyf, loca, initial);
    var short := LocFormatIsShort(head).value;
    var locaData := EncodeLoca(NewLoca(glyf, loca, keep), short).value;
    RebuiltChecksum(src, NewGlyf(glyf, loca, keep, |loca| - 1), locaData);
  }
}

=== FILE: ttf_checksum.dfy ===
/**
 * The table checksum of the OpenType "Table Directory" section: the data,
 * padded with zero bytes to a multiple of four, read as big-endian 32-bit
 * words and summed modulo 2^32.
 */
module TtfChecksum {
  import opened Bytes

  /** The number of zero bytes that bring `n` bytes to a multiple of four (`(-n) % 4`). */
  function PadLen(n: nat): (p: nat)
    ensures p < 4 && (n + p) % 4 == 0
  {
    (0 - n) % 4
  }

  /** The data with its zero padding. */
  function Padded(d: seq<Byte>): (p: seq<Byte>)
    ensures |p| == |d| + PadLen(|d|) && |p| % 4 == 0
    ensures forall i :: 0 <= i < |d| ==> p[i] == d[i]
    ensures forall i :: |d| <= i < |p| ==> p[i] == 0
  {
    d + ZeroBytes(PadLen(|d|))
  }

  /** The plain sum of the first `k` words. */
  function WordSum(d: seq<Byte>, k: nat): nat
    requires 4 * k <= |d|
  {
    if k == 0 then 0 else WordSum(d, k - 1) + BeU32(d, 4 * (k - 1))
  }

  /** `compute_checksum`. */
  function Checksum(d: seq<Byte>): (c: nat)
    ensures c < U32Limit
  {
    var p := Padded(d);
    WordSum(p, |p| / 4) % U32Limit
  }

  /**
   * The loop of `compute_checksum`, which keeps the running total to 32 bits
   * at every step, computes the checksum.
   */
  method ComputeChecksum(data: seq<Byte>) returns (total: nat)
    ensures total == Checksum(data)
  {
    var p := Padded(data);
    var words := |p| / 4;
    assert 4 * words == |p|;
    total := 0;
    var k := 0;
    while k < words
      invariant k <= words
      invariant total == WordSum(p, k) % U32Limit
      decreases words - k
    {
      var w := BeU32(p, 4 * k);
      ModStep(WordSum(p, k), w);
      total := (total + w) % U32Limit;
      k := k + 1;
    }
  }

  /** Only the first `k` words count. */
  lemma {:induction false} WordSumPrefix(d: seq<Byte>, e: seq<Byte>, k: nat)
    requires 4 * k <= |d| && 4 * k <= |e| && d[..4 * k] == e[..4 * k]
    ensures WordSum(d, k) == WordSum(e, k)
  {
    if k > 0 {
      assert d[..4 * (k - 1)] == e[..4 * (k - 1)] by {
        assert d[..4 * (k - 1)] == d[..4 * k][..4 * (k - 1)];
        assert e[..4 * (k - 1)] == e[..4 * k][..4 * (k - 1)];
      }
      WordSumPrefix(d, e, k - 1);
      var j := 4 * (k - 1);
      assert d[j] == d[..4 * k][j] && e[j] == e[..4 * k][j];
      assert d[j + 1] == d[..4 * k][j + 1] && e[j + 1] == e[..4 * k][j + 1];
      assert d[j + 2] == d[..4 * k][j + 2] && e[j + 2] == e[..4 * k][j + 2];
      assert d[j + 3] == d[..4 * k][j + 3] && e[j + 3] == e[..4 * k][j + 3];
    }
  }

  /**
   * Replacing one word changes the sum by the difference of the two words:
   * `d` and `e` agree outside bytes `4w .. 4w + 4`.
   */
  lemma {:induction false} WordSumChange(d: seq<Byte>, e: seq<Byte>, w: nat, k: nat)
    requires |d| == |e| && 4 * k <= |d| && w < k
    requires forall i :: 0 <= i < |d| && !(4 * w <= i < 4 * w + 4) ==> d[i] == e[i]
    ensures WordSum(e, k) == WordSum(d, k) - BeU32(d, 4 * w) + BeU32(e, 4 * w)
  {
    if k - 1 == w {
      assert d[..4 * w] == e[..4 * w];
      WordSumPrefix(d, e, w);
    } else {
      WordSumChange(d, e, w, k - 1);
      var j := 4 * (k - 1);
      assert d[j] == e[j] && d[j + 1] == e[j + 1] && d[j + 2] == e[j + 2] && d[j + 3] == e[j + 3];
    }
  }

  /** Words after an aligned prefix are the words of the rest. */
  lemma {:induction false} WordSumAppend(a: seq<Byte>, c: seq<Byte>, k: nat)
    requires |a| % 4 == 0 && 4 * k <= |c|
    ensures WordSum(a + c, |a| / 4 + k) == WordSum(a, |a| / 4) + WordSum(c, k)
  {
    if k == 0 {
      assert (a + c)[..4 * (|a| / 4)] == a[..4 * (|a| / 4)];
      WordSumPrefix(a + c, a, |a| / 4);
    } else {
      WordSumAppend(a, c, k - 1);
      var j := 4 * (k - 1);
      assert (a + c)[|a| + j] == c[j] && (a + c)[|a| + j + 1] == c[j + 1];
      assert (a + c)[|a| + j + 2] == c[j + 2] && (a + c)[|a| + j + 3] == c[j + 3];
      assert 4 * (|a| / 4 + k - 1) == |a| + j;
    }
  }

  /** Padding after an aligned prefix pads only the rest. */
  lemma PaddedAppend(a: seq<Byte>, b: seq<Byte>)
    requires |a| % 4 == 0
    ensures Padded(a + b) == a + Padded(b)
  {
    assert PadLen(|a| + |b|) == PadLen(|b|);
  }

  lemma PaddedAligned(a: seq<Byte>)
    requires |a| % 4 == 0
    ensures Padded(a) == a
  {
    assert PadLen(|a|) == 0;
  }

  /** Reducing the running total before adding a word changes nothing. */
  lemma ModStep(x: nat, y: nat)
    requires y < U32Limit
    ensures (x % U32Limit + y) % U32Limit == (x + y) % U32Limit
  {
    ModAdd(x, y);
  }

  lemma ModAdd(x: nat, y: nat)
    ensures (x + y) % U32Limit == (x % U32Limit + y % U32Limit) % U32Limit
  {
  }

  /**
   * The checksum is additive over a concatenation whose first part is a
   * whole number of words: the checksum of a font is the sum of the
   * checksums of its aligned pieces.
   */
  lemma ChecksumAppend(a: seq<Byte>, b: seq<Byte>)
    requires |a| % 4 == 0
    ensures Checksum(a + b) == (Checksum(a) + Checksum(b)) % U32Limit
  {
    var pb := Padded(b);
    PaddedAppend(a, b);
    PaddedAligned(a);
    WordSumAppend(a, pb, |pb| / 4);
    var x := WordSum(a, |a| / 4);
    var y := WordSum(pb, |pb| / 4);
    assert |a + pb| / 4 == |a| / 4 + |pb| / 4;
    assert Checksum(a + b) == (x + y) % U32Limit;
    ModAdd(x, y);
  }

  /**
   * Filling one aligned word that was zero adds its value to the checksum:
   * `d` and `e` agree outside bytes `4w .. 4w + 4`, where `d` holds zero.
   */
  lemma ChecksumWordChange(d: seq<Byte>, e: seq<Byte>, w: nat)
    requires |d| == |e| && 4 * w + 4 <= |d|
    requires forall i :: 0 <= i < |d| && !(4 * w <= i < 4 * w + 4) ==> d[i] == e[i]
    requires BeU32(d, 4 * w) == 0
    ensures Checksum(e) == (Checksum(d) + BeU32(e, 4 * w)) % U32Limit
  {
    var pd := Padded(d);
    var pe := Padded(e);
    PaddedAgree(d, e, w);
    var words := |pd| / 4;
    assert w < words by {
      assert 4 * words == |pd|;
    }
    WordSumChange(pd, pe, w, words);
    ModAdd(WordSum(pd, words), BeU32(e, 4 * w));
  }

  /** Padding keeps two inputs' agreement outside one word, and that word. */
  lemma PaddedAgree(d: seq<Byte>, e: seq<Byte>, w: nat)
    requires |d| == |e| && 4 * w + 4 <= |d|
    requires forall i :: 0 <= i < |d| && !(4 * w <= i < 4 * w + 4) ==> d[i] == e[i]
    ensures |Padded(d)| == |Padded(e)|
    ensures forall i :: 0 <= i < |Padded(d)| && !(4 * w <= i < 4 * w + 4) ==> Padded(d)[i] == Padded(e)[i]
    ensures BeU32(Padded(d), 4 * w) == BeU32(d, 4 * w) && BeU32(Padded(e), 4 * w) == BeU32(e, 4 * w)
  {
    var pd := Padded(d);
    var pe := Padded(e);
    var j := 4 * w;
    assert pd[j] == d[j] && pd[j + 1] == d[j + 1] && pd[j + 2] == d[j + 2] && pd[j + 3] == d[j + 3];
    assert pe[j] == e[j] && pe[j + 1] == e[j + 1] && pe[j + 2] == e[j + 2] && pe[j + 3] == e[j + 3];
  }
}

=== FILE: ttf_cmap.dfy ===
/**
 * The codepoint-to-glyph lookup of the font subsetter over the bytes of a
 * `cmap` table, per the OpenType "cmap" section: subtables of format 12
 * (sequential map groups) and format 4 (segment mapping to delta values).
 * Every read past the end of the table makes the lookup raise, which is
 * `None` here.
 */
module TtfCmap {
  import opened Wrappers
  import opened Bytes

  /** What one step of a scan found. */
  datatype Scan = Miss | Hit(gid: int) | Fault

  /**
   * The first step from `i` that does not miss decides the scan; a scan in
   * which every step misses misses.
   */
  function FirstHit(step: nat -> Scan, i: nat, n: nat): Scan
    decreases n - i
  {
    if i >= n then Miss
    else if step(i).Miss? then FirstHit(step, i + 1, n)
    else step(i)
  }

  /** The scan hits `g` exactly when some step does and every step before it misses. */
  lemma {:induction false} FirstHitFound(step: nat -> Scan, i: nat, n: nat, g: int)
    ensures FirstHit(step, i, n) == Hit(g) <==>
      exists j :: i <= j < n && step(j) == Hit(g) && forall k :: i <= k < j ==> step(k) == Miss
    decreases n - i
  {
    if i < n {
      FirstHitFound(step, i + 1, n, g);
      if FirstHit(step, i, n) == Hit(g) && step(i).Miss? {
        var j :| i + 1 <= j < n && step(j) == Hit(g) && forall k :: i + 1 <= k < j ==> step(k) == Miss;
        assert forall k :: i <= k < j ==> step(k) == Miss;
      }
      if exists j :: i <= j < n && step(j) == Hit(g) && forall k :: i <= k < j ==> step(k) == Miss {
        var j :| i <= j < n && step(j) == Hit(g) && forall k :: i <= k < j ==> step(k) == Miss;
        if j > i {
          assert step(i) == Miss;
          assert i + 1 <= j < n && step(j) == Hit(g) && forall k :: i + 1 <= k < j ==> step(k) == Miss;
        }
      }
    }
  }

  /** The scan misses exactly when every step misses. */
  lemma {:induction false} FirstHitMiss(step: nat -> Scan, i: nat, n: nat)
    ensures FirstHit(step, i, n) == Miss <==> forall j :: i <= j < n ==> step(j) == Miss
    decreases n - i
  {
    if i < n {
      FirstHitMiss(step, i + 1, n);
    }
  }

  /** The scan faults exactly when some step faults and every step before it misses. */
  lemma {:induction false} FirstHitFault(step: nat -> Scan, i: nat, n: nat)
    ensures FirstHit(step, i, n) == Fault <==>
      exists j :: i <= j < n && step(j) == Fault && forall k :: i <= k < j ==> step(k) == Miss
    decreases n - i
  {
    if i < n {
      FirstHitFault(step, i + 1, n);
      if FirstHit(step, i, n) == Fault && step(i).Miss? {
        var j :| i + 1 <= j < n && step(j) == Fault && forall k :: i + 1 <= k < j ==> step(k) == Miss;
        assert forall k :: i <= k < j ==> step(k) == Miss;
      }
      if exists j :: i <= j < n && step(j) == Fault && forall k :: i <= k < j ==> step(k) == Miss {
        var j :| i <= j < n && step(j) == Fault && forall k :: i <= k < j ==> step(k) == Miss;
        if j > i {
          assert step(i) == Miss;
          assert i + 1 <= j < n && step(j) == Fault && forall k :: i + 1 <= k < j ==> step(k) == Miss;
        }
      }
    }
  }

  // Format 12: groups of 12 bytes (start char, end char, start glyph) from `off`.

  /**
   * Group `j`: all three of its numbers are read before the comparison, so a
   * group cut short faults; a group holding `cp` maps it to its start glyph
   * plus the distance from its start char.
   */
  function GroupStep(cmap: seq<Byte>, cp: int, off: nat, j: nat): (r: Scan)
    ensures r.Hit? ==> r.gid >= 0
  {
    var at := off + 12 * j;
    if at + 12 > |cmap| then Fault
    else
      var start := BeU32(cmap, at);
      if start <= cp <= BeU32(cmap, at + 4) then Hit(BeU32(cmap, at + 8) + (cp - start)) else Miss
  }

  /** The group loop of a format 12 subtable: `n` groups from `off`. */
  function ScanGroups(cmap: seq<Byte>, cp: int, off: nat, n: nat): Scan
  {
    FirstHit((j: nat) => GroupStep(cmap, cp, off, j), 0, n)
  }

  // Format 4: four parallel arrays of `segCount` 16-bit numbers from `sub + 14`,
  // with two reserved bytes after the first.

  function EndCodeAt(sub: nat, segCount: nat, s: nat): nat { sub + 14 + 2 * s }
  function StartCodeAt(sub: nat, segCount: nat, s: nat): nat { sub + 16 + 2 * segCount + 2 * s }
  function DeltaAt(sub: nat, segCount: nat, s: nat): nat { sub + 16 + 4 * segCount + 2 * s }
  function RangeOffsetAt(sub: nat, segCount: nat, s: nat): nat { sub + 16 + 6 * segCount + 2 * s }

  /**
   * The glyph a segment holding `cp` gives: with a zero range offset the
   * codepoint plus the delta; otherwise the glyph array entry the range
   * offset points at, plus the delta, where an entry past the end of the
   * table or a zero entry gives 0. Sums are taken modulo 65536.
   */
  function SegmentGlyph(cmap: seq<Byte>, cp: int, roAt: nat, start: nat, delta: int, rangeOffset: nat): (gid: int)
    requires cp >= start
    ensures 0 <= gid < U16Limit
  {
    if rangeOffset == 0 then (cp + delta) % U16Limit
    else
      var addr := roAt + rangeOffset + (cp - start) * 2;
      if addr + 2 > |cmap| then 0
      else
        var index := BeU16(cmap, addr);
        if index == 0 then 0 else (index + delta) % U16Limit
  }

  /**
   * Segment `s`: its end and start codes are read first; a segment not
   * holding `cp` misses without reading more; otherwise the delta and the
   * range offset are read and a zero glyph misses.
   */
  function SegmentStep(cmap: seq<Byte>, cp: int, sub: nat, segCount: nat, s: nat): (r: Scan)
    ensures r.Hit? ==> 0 < r.gid < U16Limit
  {
    var endAt := EndCodeAt(sub, segCount, s);
    var startAt := StartCodeAt(sub, segCount, s);
    if endAt + 2 > |cmap| || startAt + 2 > |cmap| then Fault
    else
      var start := BeU16(cmap, startAt);
      if cp < start || cp > BeU16(cmap, endAt) then Miss
      else
        var deltaAt := DeltaAt(sub, segCount, s);
        var roAt := RangeOffsetAt(sub, segCount, s);
        if deltaAt + 2 > |cmap| || roAt + 2 > |cmap| then Fault
        else
          var gid := SegmentGlyph(cmap, cp, roAt, start, BeI16(cmap, deltaAt), BeU16(cmap, roAt));
          if gid != 0 then Hit(gid) else Miss
  }

  /** The segment loop of a format 4 subtable, which stops at the first nonzero glyph. */
  function ScanSegments(cmap: seq<Byte>, cp: int, sub: nat, segCount: nat): Scan
  {
    FirstHit((s: nat) => SegmentStep(cmap, cp, sub, segCount, s), 0, segCount)
  }

  // The subtable loop.

  /** What one encoding record contributes. */
  datatype Step = SubFault | Return(gid: int) | SetBest(gid: int) | Skip

  /**
   * Encoding record `i`: a format 12 subtable whose groups hold `cp`
   * returns at once; a format 4 subtable, for a codepoint in the Basic
   * Multilingual Plane, whose segments give a glyph makes it the best so
   * far; any other subtable is skipped.
   */
  function SubtableStep(cmap: seq<Byte>, cp: int, i: nat): (r: Step)
    ensures r.Return? ==> r.gid >= 0
    ensures r.SetBest? ==> 0 < r.gid < U16Limit
  {
    var recAt := 4 + 8 * i;
    if recAt + 8 > |cmap| then SubFault
    else
      var sub := BeU32(cmap, recAt + 4);
      if sub + 2 > |cmap| then SubFault
      else
        var format := BeU16(cmap, sub);
        if format == 12 then
          if sub + 16 > |cmap| then SubFault
          else
            match ScanGroups(cmap, cp, sub + 16, BeU32(cmap, sub + 12))
            case Fault => SubFault
            case Hit(g) => FirstHitFound((j: nat) => GroupStep(cmap, cp, sub + 16, j), 0, BeU32(cmap, sub + 12), g); Return(g)
            case Miss => Skip
        else if format != 4 || cp > 0xFFFF then Skip
        else if sub + 8 > |cmap| then SubFault
        else
          var segCount := BeU16(cmap, sub + 6) / 2;
          match ScanSegments(cmap, cp, sub, segCount)
          case Fault => SubFault
          case Hit(g) => FirstHitFound((s: nat) => SegmentStep(cmap, cp, sub, segCount, s), 0, segCount, g); SetBest(g)
          case Miss => Skip
  }

  /** The subtable loop from record `i` of `n`, with the best glyph so far. */
  function Walk(cmap: seq<Byte>, cp: int, i: nat, n: nat, best: int): Option<int>
    decreases n - i
  {
    if i >= n then Some(best)
    else
      match SubtableStep(cmap, cp, i)
      case SubFault => None
      case Return(g) => Some(g)
      case SetBest(g) => Walk(cmap, cp, i + 1, n, g)
      case Skip => Walk(cmap, cp, i + 1, n, best)
  }

  /**
   * `gid_for_codepoint` on the bytes of the `cmap` table; 0 when no
   * subtable maps the codepoint.
   */
  function GidForCodepoint(cmap: seq<Byte>, cp: int): Option<int>
  {
    if |cmap| < 4 then None else Walk(cmap, cp, 0, BeU16(cmap, 2), 0)
  }

  /** Steps that neither fault nor return. */
  predicate Passes(cmap: seq<Byte>, cp: int, i: nat)
  {
    SubtableStep(cmap, cp, i).SetBest? || SubtableStep(cmap, cp, i).Skip?
  }

  /** A glyph found is never negative. */
  lemma {:induction false} WalkNonNegative(cmap: seq<Byte>, cp: int, i: nat, n: nat, best: int)
    requires best >= 0
    ensures Walk(cmap, cp, i, n, best).Some? ==> Walk(cmap, cp, i, n, best).value >= 0
    decreases n - i
  {
    if i < n {
      match SubtableStep(cmap, cp, i)
      case SubFault =>
      case Return(g) =>
      case SetBest(g) => WalkNonNegative(cmap, cp, i + 1, n, g);
      case Skip => WalkNonNegative(cmap, cp, i + 1, n, best);
    }
  }

  /**
   * The first format 12 subtable that maps the codepoint decides, whatever
   * format 4 subtables before it found.
   */
  lemma {:induction false} WalkReturns(cmap: seq<Byte>, cp: int, i: nat, j: nat, n: nat, best: int)
    requires i <= j < n && SubtableStep(cmap, cp, j).Return?
    requires forall k :: i <= k < j ==> Passes(cmap, cp, k)
    ensures Walk(cmap, cp, i, n, best) == Some(SubtableStep(cmap, cp, j).gid)
    decreases j - i
  {
    if i < j {
      assert Passes(cmap, cp, i);
      WalkReturns(cmap, cp, i + 1, j, n, if SubtableStep(cmap, cp, i).SetBest? then SubtableStep(cmap, cp, i).gid else best);
    }
  }

  /** A subtable that faults before any decides makes the lookup raise. */
  lemma {:induction false} WalkFaults(cmap: seq<Byte>, cp: int, i: nat, j: nat, n: nat, best: int)
    requires i <= j < n && SubtableStep(cmap, cp, j).SubFault?
    requires forall k :: i <= k < j ==> Passes(cmap, cp, k)
    ensures Walk(cmap, cp, i, n, best) == None
    decreases j - i
  {
    if i < j {
      assert Passes(cmap, cp, i);
      WalkFaults(cmap, cp, i + 1, j, n, if SubtableStep(cmap, cp, i).SetBest? then SubtableStep(cmap, cp, i).gid else best);
    }
  }

  /**
   * When every subtable passes, the last format 4 subtable that found a
   * glyph decides: later ones override earlier ones.
   */
  lemma {:induction false} WalkLastBest(cmap: seq<Byte>, cp: int, i: nat, j: nat, n: nat, best: int)
    requires i <= j < n && SubtableStep(cmap, cp, j).SetBest?
    requires forall k :: i <= k < n ==> Passes(cmap, cp, k)
    requires forall k :: j < k < n ==> SubtableStep(cmap, cp, k).Skip?
    ensures Walk(cmap, cp, i, n, best) == Some(SubtableStep(cmap, cp, j).gid)
    decreases n - i
  {
    assert Passes(cmap, cp, i);
    var next := if SubtableStep(cmap, cp, i).SetBest? then SubtableStep(cmap, cp, i).gid else best;
    if i < j {
      WalkLastBest(cmap, cp, i + 1, j, n, next);
    } else {
      WalkSkips(cmap, cp, i + 1, n, next);
    }
  }

  /** When every remaining subtable is skipped, the best so far stands. */
  lemma {:induction false} WalkSkips(cmap: seq<Byte>, cp: int, i: nat, n: nat, best: int)
    requires forall k :: i <= k < n ==> SubtableStep(cmap, cp, k).Skip?
    ensures Walk(cmap, cp, i, n, best) == Some(best)
    decreases n - i
  {
    if i < n {
      WalkSkips(cmap, cp, i + 1, n, best);
    }
  }

  /**
   * The group loop of `gid_for_codepoint` as written, which returns from the
   * first group holding the codepoint.
   */
  method GroupLoop(cmap: seq<Byte>, cp: int, off: nat, groups: nat) returns (r: Scan)
    ensures r == ScanGroups(cmap, cp, off, groups)
  {
    var step := (j: nat) => GroupStep(cmap, cp, off, j);
    var j := 0;
    while j < groups
      invariant j <= groups
      invariant ScanGroups(cmap, cp, off, groups) == FirstHit(step, j, groups)
      decreases groups - j
    {
      var at := off + 12 * j;
      if at + 12 > |cmap| {
        return Fault;
      }
      var start := BeU32(cmap, at);
      if start <= cp <= BeU32(cmap, at + 4) {
        return Hit(BeU32(cmap, at + 8) + (cp - start));
      }
      j := j + 1;
    }
    return Miss;
  }

  /** The segment loop of `gid_for_codepoint` as written, which breaks at the first glyph found. */
  method SegmentLoop(cmap: seq<Byte>, cp: int, sub: nat, segCount: nat) returns (r: Scan)
    ensures r == ScanSegments(cmap, cp, sub, segCount)
  {
    var step := (s: nat) => SegmentStep(cmap, cp, sub, segCount, s);
    var s := 0;
    while s < segCount
      invariant s <= segCount
      invariant ScanSegments(cmap, cp, sub, segCount) == FirstHit(step, s, segCount)
      decreases segCount - s
    {
      var found := SegmentStep(cmap, cp, sub, segCount, s);
      if !found.Miss? {
        return found;
      }
      s := s + 1;
    }
    return Miss;
  }

  /**
   * The subtable loop of `gid_for_codepoint` as written, with the early
   * return for a format 12 match and the running best for format 4,
   * computes the lookup.
   */
  method LookupGlyph(cmap: seq<Byte>, cp: int) returns (r: Option<int>)
    ensures r == GidForCodepoint(cmap, cp)
  {
    if |cmap| < 4 {
      return None;
    }
    var n := BeU16(cmap, 2);
    var best := 0;
    var i := 0;
    while i < n
      invariant i <= n
      invariant Walk(cmap, cp, 0, n, 0) == Walk(cmap, cp, i, n, best)
      decreases n - i
    {
      var recAt := 4 + 8 * i;
      if recAt + 8 > |cmap| {
        return None;
      }
      var sub := BeU32(cmap, recAt + 4);
      if sub + 2 > |cmap| {
        return None;
      }
      var format := BeU16(cmap, sub);
      if format == 12 {
        if sub + 16 > |cmap| {
          return None;
        }
        var found := GroupLoop(cmap, cp, sub + 16, BeU32(cmap, sub + 12));
        if found.Fault? {
          return None;
        }
        if found.Hit? {
          return Some(found.gid);
        }
      } else if format == 4 && cp <= 0xFFFF {
        if sub + 8 > |cmap| {
          return None;
        }
        var found := SegmentLoop(cmap, cp, sub, BeU16(cmap, sub + 6) / 2);
        if found.Fault? {
          return None;
        }
        if found.Hit? {
          best := found.gid;
        }
      }
      i := i + 1;
    }
    return Some(best);
  }
}

=== FILE: ttf_directory.dfy ===
/**
 * Writing a TrueType file from its tables (`make_ttf`) and setting the
 * whole-font checksum (`set_head_checksum_adjustment`), after the "Table
 * Directory" and "head" sections of the OpenType specification: a 12-byte
 * header, one 16-byte record per table in tag order, then the tables, each
 * starting on a four-byte boundary and padded with zeros.
 */
module TtfDirectory {
  import opened Wrappers
  import opened Bytes
  import opened TtfChecksum

  /**
   * A table tag: its four bytes read as a big-endian number, so that the
   * byte-string order of tags is the numeric order.
   */
  type Tag = x: nat | x < U32Limit

  datatype Table = Table(tag: Tag, data: seq<Byte>)

  /** `b"head"`. */
  const HeadTag: Tag := 0x6865_6164

  const SfntVersion: nat := 0x0001_0000

  /** The value the checksum of a whole font must come to. */
  const ChecksumMagic: nat := 0xB1B0_AFBA

  const RecordSize: nat := 16

  /** Where the tables start after a directory of `n` records. */
  function DirEnd(n: nat): nat
  {
    12 + RecordSize * n
  }

  predicate SortedByTag(ts: seq<Table>)
  {
    forall i, j :: 0 <= i < j < |ts| ==> ts[i].tag <= ts[j].tag
  }

  function Insert(t: Table, s: seq<Table>): (r: seq<Table>)
    requires SortedByTag(s)
    ensures SortedByTag(r)
    ensures multiset(r) == multiset(s) + multiset{t}
    ensures |r| == |s| + 1 && (r[0] == t || (|s| > 0 && r[0] == s[0]))
    decreases |s|
  {
    if |s| == 0 then [t]
    else if t.tag < s[0].tag then
      ConsSorted(t, s);
      [t] + s
    else
      assert SortedByTag(s[1..]) by {
        forall i, j | 0 <= i < j < |s| - 1
          ensures s[1..][i].tag <= s[1..][j].tag
        {
          assert s[1..][i] == s[i + 1] && s[1..][j] == s[j + 1];
        }
      }
      var rest := Insert(t, s[1..]);
      assert s == [s[0]] + s[1..];
      assert s[0].tag <= rest[0].tag;
      ConsSorted(s[0], rest);
      [s[0]] + rest
  }

  /** A table no later than the head of a sorted sequence keeps it sorted in front. */
  lemma ConsSorted(x: Table, r: seq<Table>)
    requires SortedByTag(r) && (|r| > 0 ==> x.tag <= r[0].tag)
    ensures SortedByTag([x] + r)
  {
    var xr := [x] + r;
    forall i, j | 0 <= i < j < |xr|
      ensures xr[i].tag <= xr[j].tag
    {
      if i == 0 {
        assert xr[j] == r[j - 1];
      } else {
        assert xr[i] == r[i - 1] && xr[j] == r[j - 1];
      }
    }
  }

  /** `sorted(tables.keys())`: the tables in tag order. */
  function SortByTag(ts: seq<Table>): (r: seq<Table>)
    ensures SortedByTag(r)
    ensures multiset(r) == multiset(ts)
    decreases |ts|
  {
    if |ts| == 0 then []
    else
      assert ts == [ts[0]] + ts[1..];
      Insert(ts[0], SortByTag(ts[1..]))
  }

  /** The exponent of the largest power of two not above `n`. */
  function Log2(n: nat): (e: nat)
    ensures e <= n
  {
    if n < 2 then 0 else 1 + Log2(n / 2)
  }

  lemma {:induction false} Log2Bounds(n: nat)
    requires n >= 1
    ensures Pow2(Log2(n)) <= n < 2 * Pow2(Log2(n))
  {
    if n >= 2 {
      Log2Bounds(n / 2);
    }
  }

  lemma {:induction false} Log2Unique(n: nat, e: nat)
    requires Pow2(e) <= n < 2 * Pow2(e)
    ensures e == Log2(n)
  {
    if e > 0 {
      Log2Unique(n / 2, e - 1);
    }
  }

  /**
   * The doubling loop of `make_ttf`: the largest power of two not above the
   * number of tables (1 when there are none) and its exponent.
   */
  method SearchParams(n: nat) returns (maxPow2: nat, entrySelector: nat)
    ensures maxPow2 == Pow2(entrySelector) && entrySelector == Log2(n)
    ensures n >= 1 ==> maxPow2 <= n < 2 * maxPow2
  {
    maxPow2 := 1;
    entrySelector := 0;
    while 2 * maxPow2 <= n
      invariant maxPow2 == Pow2(entrySelector)
      invariant maxPow2 == 1 || maxPow2 <= n
      decreases n - maxPow2
    {
      maxPow2 := 2 * maxPow2;
      entrySelector := entrySelector + 1;
    }
    if n >= 1 {
      Log2Unique(n, entrySelector);
    }
  }

  /** The directory header: version, table count, search range, entry selector, range shift. */
  function Header(n: nat): (h: seq<Byte>)
    requires 1 <= n < 4096
    ensures |h| == 12
  {
    Log2Bounds(n);
    var p := Pow2(Log2(n));
    U32Be(SfntVersion) + U16Be(n) + U16Be(RecordSize * p) + U16Be(Log2(n)) + U16Be(RecordSize * n - RecordSize * p)
  }

  /** The tables with their padding, one after the other. */
  function Payload(ts: seq<Table>): (p: seq<Byte>)
    ensures |p| % 4 == 0
    decreases |ts|
  {
    if |ts| == 0 then [] else Payload(ts[..|ts| - 1]) + Padded(ts[|ts| - 1].data)
  }

  /** Where table `i` starts in the file. */
  function Offset(ts: seq<Table>, i: nat): nat
    requires i <= |ts|
  {
    DirEnd(|ts|) + |Payload(ts[..i])|
  }

  /** Every offset and length fits the 32-bit fields, and the count the 16-bit header fields. */
  predicate Packable(ts: seq<Table>)
  {
    && 1 <= |ts| < 4096
    && forall i {:trigger Offset(ts, i)} :: 0 <= i < |ts| ==> Offset(ts, i) < U32Limit && |ts[i].data| < U32Limit
  }

  /** One directory record: tag, checksum, offset, length. */
  function Record(t: Table, offset: nat): (r: seq<Byte>)
    requires offset < U32Limit && |t.data| < U32Limit
    ensures |r| == RecordSize
  {
    U32Be(t.tag) + U32Be(Checksum(t.data)) + U32Be(offset) + U32Be(|t.data|)
  }

  /** The first `k` records. */
  function Records(ts: seq<Table>, k: nat): (r: seq<Byte>)
    requires k <= |ts| && Packable(ts)
    ensures |r| == RecordSize * k
  {
    if k == 0 then [] else Records(ts, k - 1) + Record(ts[k - 1], Offset(ts, k - 1))
  }

  /** The file for tables already in order: header, records, tables. */
  function Build(ts: seq<Table>): (f: seq<Byte>)
    requires Packable(ts)
    ensures |f| == DirEnd(|ts|) + |Payload(ts)|
  {
    Header(|ts|) + Records(ts, |ts|) + Payload(ts)
  }

  /**
   * `make_ttf`: the tables in tag order behind the header and the records.
   * A count or size that does not fit its field makes `struct.pack` raise.
   */
  function MakeTtf(tables: seq<Table>): (r: Option<seq<Byte>>)
    ensures r.Some? <==> Packable(SortByTag(tables))
    ensures r.Some? ==> r.value == Build(SortByTag(tables))
  {
    var ts := SortByTag(tables);
    if !Packable(ts) then None else Some(Build(ts))
  }

  /** The header of a built file, per the "Table Directory" section. */
  lemma BuildHeader(ts: seq<Table>)
    requires Packable(ts)
    ensures var f := Build(ts); var n := |ts|; var p := Pow2(Log2(n));
      && BeU32(f, 0) == SfntVersion && BeU16(f, 4) == n
      && p <= n < 2 * p
      && BeU16(f, 6) == RecordSize * p && BeU16(f, 8) == Log2(n)
      && BeU16(f, 10) == RecordSize * n - RecordSize * p
  {
    var f := Build(ts);
    assert forall k :: 0 <= k < 12 ==> f[k] == Header(|ts|)[k];
    HeaderFields(f, |ts|);
  }

  /** Twelve bytes spelling a header read back as its five fields. */
  lemma HeaderFields(f: seq<Byte>, n: nat)
    requires 1 <= n < 4096 && 12 <= |f|
    requires forall k :: 0 <= k < 12 ==> f[k] == Header(n)[k]
    ensures var p := Pow2(Log2(n));
      && BeU32(f, 0) == SfntVersion && BeU16(f, 4) == n
      && p <= n < 2 * p
      && BeU16(f, 6) == RecordSize * p && BeU16(f, 8) == Log2(n)
      && BeU16(f, 10) == RecordSize * n - RecordSize * p
  {
    Log2Bounds(n);
    var p := Pow2(Log2(n));
    BeU32At(f, 0, SfntVersion);
    BeU16At(f, 4, n);
    BeU16At(f, 6, RecordSize * p);
    BeU16At(f, 8, Log2(n));
    BeU16At(f, 10, RecordSize * n - RecordSize * p);
  }

  /** Byte `j` of record `i` among the first `n`. */
  lemma {:induction false} RecordByte(ts: seq<Table>, n: nat, i: nat, j: nat)
    requires i < n <= |ts| && Packable(ts) && j < RecordSize
    ensures Records(ts, n)[RecordSize * i + j] == Record(ts[i], Offset(ts, i))[j]
    decreases n
  {
    if i < n - 1 {
      RecordByte(ts, n - 1, i, j);
    }
  }

  /** Record `i` sits at `12 + 16 i` in the built file. */
  lemma BuildRecordBytes(ts: seq<Table>, i: nat)
    requires Packable(ts) && i < |ts|
    ensures DirEnd(i) + RecordSize <= DirEnd(|ts|)
    ensures forall j :: 0 <= j < RecordSize ==> Build(ts)[DirEnd(i) + j] == Record(ts[i], Offset(ts, i))[j]
  {
    var f := Build(ts);
    var rs := Records(ts, |ts|);
    forall j | 0 <= j < RecordSize
      ensures f[DirEnd(i) + j] == Record(ts[i], Offset(ts, i))[j]
    {
      RecordByte(ts, |ts|, i, j);
      assert f[12 + RecordSize * i + j] == rs[RecordSize * i + j];
    }
  }

  /** Sixteen bytes spelling a record read back as its four fields. */
  lemma RecordFields(f: seq<Byte>, at: nat, t: Table, o: nat)
    requires o < U32Limit && |t.data| < U32Limit && at + RecordSize <= |f|
    requires forall j :: 0 <= j < RecordSize ==> f[at + j] == Record(t, o)[j]
    ensures BeU32(f, at) == t.tag && BeU32(f, at + 4) == Checksum(t.data)
    ensures BeU32(f, at + 8) == o && BeU32(f, at + 12) == |t.data|
  {
    var r := Record(t, o);
    var a, b, c, d := U32Be(t.tag), U32Be(Checksum(t.data)), U32Be(o), U32Be(|t.data|);
    assert r == a + b + c + d;
    assert f[at] == a[0] && f[at + 1] == a[1] && f[at + 2] == a[2] && f[at + 3] == a[3] by {
      assert f[at + 0] == r[0] && f[at + 1] == r[1] && f[at + 2] == r[2] && f[at + 3] == r[3];
    }
    assert f[at + 4] == b[0] && f[at + 5] == b[1] && f[at + 6] == b[2] && f[at + 7] == b[3] by {
      assert f[at + 4] == r[4] && f[at + 5] == r[5] && f[at + 6] == r[6] && f[at + 7] == r[7];
    }
    assert f[at + 8] == c[0] && f[at + 9] == c[1] && f[at + 10] == c[2] && f[at + 11] == c[3] by {
      assert f[at + 8] == r[8] && f[at + 9] == r[9] && f[at + 10] == r[10] && f[at + 11] == r[11];
    }
    assert f[at + 12] == d[0] && f[at + 13] == d[1] && f[at + 14] == d[2] && f[at + 15] == d[3] by {
      assert f[at + 12] == r[12] && f[at + 13] == r[13] && f[at + 14] == r[14] && f[at + 15] == r[15];
    }
    BeU32At(f, at, t.tag);
    BeU32At(f, at + 4, Checksum(t.data));
    BeU32At(f, at + 8, o);
    BeU32At(f, at + 12, |t.data|);
  }

  /** The four fields of record `i`: tag, checksum, offset, unpadded length. */
  lemma BuildRecord(ts: seq<Table>, i: nat)
    requires Packable(ts) && i < |ts|
    ensures DirEnd(i) + RecordSize <= |Build(ts)|
    ensures BeU32(Build(ts), DirEnd(i)) == ts[i].tag
    ensures BeU32(Build(ts), DirEnd(i) + 4) == Checksum(ts[i].data)
    ensures BeU32(Build(ts), DirEnd(i) + 8) == Offset(ts, i)
    ensures BeU32(Build(ts), DirEnd(i) + 12) == |ts[i].data|
  {
    BuildRecordBytes(ts, i);
    RecordFields(Build(ts), DirEnd(i), ts[i], Offset(ts, i));
  }

  /** The tables before `i` and table `i` itself, padded, fit in the payload. */
  lemma {:induction false} PayloadPrefix(ts: seq<Table>, i: nat)
    requires i < |ts|
    ensures |Payload(ts[..i])| + |Padded(ts[i].data)| <= |Payload(ts)|
    decreases |ts|
  {
    var init := ts[..|ts| - 1];
    if i < |ts| - 1 {
      assert init[..i] == ts[..i];
      PayloadPrefix(init, i);
    } else {
      assert ts[..i] == init;
    }
  }

  /** Byte `j` of padded table `i` in the payload. */
  lemma {:induction false} PayloadByte(ts: seq<Table>, i: nat, j: nat)
    requires i < |ts| && j < |Padded(ts[i].data)|
    ensures |Payload(ts[..i])| + j < |Payload(ts)|
    ensures Payload(ts)[|Payload(ts[..i])| + j] == Padded(ts[i].data)[j]
    decreases |ts|
  {
    var init := ts[..|ts| - 1];
    PayloadPrefix(ts, i);
    if i < |ts| - 1 {
      assert init[..i] == ts[..i];
      PayloadByte(init, i, j);
    } else {
      assert ts[..i] == init;
    }
  }

  /** Each table starts on a four-byte boundary, right after the padded table before it. */
  lemma OffsetStep(ts: seq<Table>, i: nat)
    requires i < |ts|
    ensures Offset(ts, i) % 4 == 0
    ensures Offset(ts, i + 1) == Offset(ts, i) + |Padded(ts[i].data)|
  {
    assert ts[..i + 1][..i] == ts[..i];
  }

  /** Table `i`, padded, sits at its offset in the built file. */
  lemma BuildPadded(ts: seq<Table>, i: nat)
    requires Packable(ts) && i < |ts|
    ensures Offset(ts, i) % 4 == 0 && Offset(ts, i) + |Padded(ts[i].data)| <= |Build(ts)|
    ensures forall j :: 0 <= j < |Padded(ts[i].data)| ==> Build(ts)[Offset(ts, i) + j] == Padded(ts[i].data)[j]
  {
    var f := Build(ts);
    var o := Offset(ts, i);
    var d := ts[i].data;
    OffsetStep(ts, i);
    PayloadPrefix(ts, i);
    forall j | 0 <= j < |Padded(d)|
      ensures f[o + j] == Padded(d)[j]
    {
      PayloadByte(ts, i, j);
    }
  }

  /**
   * Table `i` is stored unchanged at its offset, and the padding after it,
   * up to the next four-byte boundary, is zero.
   */
  lemma BuildData(ts: seq<Table>, i: nat)
    requires Packable(ts) && i < |ts|
    ensures var f := Build(ts); var o := Offset(ts, i); var d := ts[i].data;
      && o % 4 == 0 && o + |d| + PadLen(|d|) <= |f|
      && (forall j :: 0 <= j < |d| ==> f[o + j] == d[j])
      && (forall k :: o + |d| <= k < o + |d| + PadLen(|d|) ==> f[k] == 0)
  {
    BuildPadded(ts, i);
    PaddedAt(Build(ts), Offset(ts, i), ts[i].data);
  }

  /** Padded data spelled out at `o` is the data followed by zero bytes. */
  lemma PaddedAt(f: seq<Byte>, o: nat, d: seq<Byte>)
    requires o + |Padded(d)| <= |f|
    requires forall j :: 0 <= j < |Padded(d)| ==> f[o + j] == Padded(d)[j]
    ensures o + |d| + PadLen(|d|) <= |f|
    ensures forall j :: 0 <= j < |d| ==> f[o + j] == d[j]
    ensures forall k :: o + |d| <= k < o + |d| + PadLen(|d|) ==> f[k] == 0
  {
    var p := Padded(d);
    forall j | 0 <= j < |d|
      ensures f[o + j] == d[j]
    {
      assert f[o + j] == p[j];
    }
    forall k | o + |d| <= k < o + |d| + PadLen(|d|)
      ensures f[k] == 0
    {
      assert f[o + (k - o)] == p[k - o];
    }
  }

  /** What looking for the `head` record found. */
  datatype HeadLookup = HeadAt(offset: nat) | NoHead | ShortRecord

  /**
   * The record loop of `set_head_checksum_adjustment` from record `i`:
   * the first record whose four tag bytes are `head` gives the offset; a
   * record cut short after its tag makes the offset read raise.
   */
  function FindHead(font: seq<Byte>, n: nat, i: nat): HeadLookup
    decreases n - i
  {
    if i >= n then NoHead
    else
      var at := DirEnd(i);
      if at + 4 <= |font| && BeU32(font, at) == HeadTag then
        if at + 12 <= |font| then HeadAt(BeU32(font, at + 8)) else ShortRecord
      else FindHead(font, n, i + 1)
  }

  /** The font with the four bytes at `at` replaced by `w`. */
  function Patch(font: seq<Byte>, at: nat, w: seq<Byte>): (r: seq<Byte>)
    requires at + 4 <= |font| && |w| == 4
    ensures |r| == |font| && r[at..at + 4] == w
    ensures forall i :: 0 <= i < |font| && !(at <= i < at + 4) ==> r[i] == font[i]
  {
    font[..at] + w + font[at + 4..]
  }

  /** The `checkSumAdjustment` that brings a font whose adjustment is zero to the magic sum. */
  function Adjustment(zeroed: seq<Byte>): (a: nat)
    ensures a < U32Limit
  {
    (ChecksumMagic - Checksum(zeroed)) % U32Limit
  }

  /**
   * The font with the word at `at` set to the adjustment computed with that
   * word zeroed; nothing else changes.
   */
  function Adjusted(font: seq<Byte>, at: nat): (r: seq<Byte>)
    requires at + 4 <= |font|
    ensures |r| == |font|
    ensures forall i :: 0 <= i < |font| && !(at <= i < at + 4) ==> r[i] == font[i]
    ensures BeU32(r, at) == Adjustment(Patch(font, at, ZeroBytes(4)))
  {
    var adjust := Adjustment(Patch(font, at, ZeroBytes(4)));
    var r := Patch(font, at, U32Be(adjust));
    BeU32At(r, at, adjust);
    r
  }

  /**
   * `set_head_checksum_adjustment`: a font too short for its table count,
   * without a `head` record, or whose `head` lies too near the end for the
   * field at offset 8, makes it raise; otherwise the field is zeroed, the
   * font summed, and the field set to what brings the sum to 0xB1B0AFBA.
   */
  function SetHeadChecksumAdjustment(font: seq<Byte>): (r: Option<seq<Byte>>)
    ensures r.Some? <==> |font| >= 6 && FindHead(font, BeU16(font, 4), 0).HeadAt?
                         && FindHead(font, BeU16(font, 4), 0).offset + 12 <= |font|
    ensures r.Some? ==> r.value == Adjusted(font, FindHead(font, BeU16(font, 4), 0).offset + 8)
  {
    if |font| < 6 then None
    else
      match FindHead(font, BeU16(font, 4), 0)
      case NoHead => None
      case ShortRecord => None
      case HeadAt(h) =>
        if h + 12 > |font| then None else Some(Adjusted(font, h + 8))
  }

  lemma Aligned8(h: nat)
    requires h % 4 == 0
    ensures (h + 8) % 4 == 0
  {
  }

  lemma ModMagic(c: nat)
    requires c < U32Limit
    ensures (c + (ChecksumMagic - c) % U32Limit) % U32Limit == ChecksumMagic
  {
  }

  /**
   * Setting an aligned word to the adjustment brings the font's checksum to
   * 0xB1B0AFBA, as the "head" section of the OpenType specification requires.
   */
  lemma AdjustedSum(font: seq<Byte>, at: nat)
    requires at % 4 == 0 && at + 4 <= |font|
    ensures Checksum(Adjusted(font, at)) == ChecksumMagic
  {
    var r := Adjusted(font, at);
    var z := Patch(font, at, ZeroBytes(4));
    var w := at / 4;
    assert BeU32(z, 4 * w) == 0 by {
      assert z[at] == 0 && z[at + 1] == 0 && z[at + 2] == 0 && z[at + 3] == 0;
    }
    ChecksumWordChange(z, r, w);
    ModMagic(Checksum(z));
  }

  /**
   * Whenever the `head` table is four-byte aligned, as every table `make_ttf`
   * writes is, the adjusted font sums to 0xB1B0AFBA.
   */
  lemma AdjustedChecksum(font: seq<Byte>)
    requires SetHeadChecksumAdjustment(font).Some?
    requires FindHead(font, BeU16(font, 4), 0).offset % 4 == 0
    ensures Checksum(SetHeadChecksumAdjustment(font).value) == ChecksumMagic
  {
    var h := FindHead(font, BeU16(font, 4), 0).offset;
    Aligned8(h);
    AdjustedSum(font, h + 8);
  }

  /** Reading a record's tag bytes: they spell `head` exactly when the tag read as a number is `head`. */
  lemma TagBytes(font: seq<Byte>, at: nat)
    requires at + 4 <= |font|
    ensures font[at..at + 4] == U32Be(HeadTag) <==> BeU32(font, at) == HeadTag
  {
    BeU32Packs(font, at);
    if font[at..at + 4] == U32Be(HeadTag) {
      BeU32At(font, at, HeadTag);
    }
  }

  /** In a built file the search finds the first `head` table in tag order. */
  lemma {:induction false} FindHeadInBuild(ts: seq<Table>, i: nat, k: nat)
    requires Packable(ts) && i <= k < |ts| && ts[k].tag == HeadTag
    requires forall j :: i <= j < k ==> ts[j].tag != HeadTag
    ensures FindHead(Build(ts), |ts|, i) == HeadAt(Offset(ts, k))
    decreases k - i
  {
    var f := Build(ts);
    BuildRecord(ts, i);
    TagBytes(f, DirEnd(i));
    if i < k {
      FindHeadInBuild(ts, i + 1, k);
    }
  }

  /**
   * Building a font and then setting its checksum adjustment succeeds when
   * there is a `head` table of at least 12 bytes, and the result sums to
   * 0xB1B0AFBA.
   */
  lemma MadeFontChecksum(tables: seq<Table>, k: nat)
    requires MakeTtf(tables).Some? && k < |SortByTag(tables)|
    requires var ts := SortByTag(tables);
      ts[k].tag == HeadTag && |ts[k].data| >= 12 && forall j :: 0 <= j < k ==> ts[j].tag != HeadTag
    ensures var r := SetHeadChecksumAdjustment(MakeTtf(tables).value);
      r.Some? && Checksum(r.value) == ChecksumMagic
  {
    var ts := SortByTag(tables);
    var f := Build(ts);
    assert MakeTtf(tables).value == f;
    BuildHeader(ts);
    FindHeadInBuild(ts, 0, k);
    BuildPadded(ts, k);
    AdjustedChecksum(f);
  }

  /** The first `head` entry at or before a known one. */
  lemma FirstHead(ts: seq<Table>, j: nat) returns (k: nat)
    requires j < |ts| && ts[j].tag == HeadTag
    ensures k <= j && ts[k].tag == HeadTag
    ensures forall m :: 0 <= m < k ==> ts[m].tag != HeadTag
  {
    k := 0;
    while ts[k].tag != HeadTag
      invariant k <= j && forall m :: 0 <= m < k ==> ts[m].tag != HeadTag
      decreases j - k
    {
      k := k + 1;
    }
  }

  /**
   * Packing any tables among which there is a `head` table, every `head`
   * entry holding at least 12 bytes, and then setting the adjustment gives
   * a font whose checksum is 0xB1B0AFBA.
   */
  lemma HeadedFontChecksum(tables: seq<Table>, h: nat)
    requires MakeTtf(tables).Some? && h < |tables| && tables[h].tag == HeadTag
    requires forall i :: 0 <= i < |tables| && tables[i].tag == HeadTag ==> |tables[i].data| >= 12
    ensures var r := SetHeadChecksumAdjustment(MakeTtf(tables).value);
      r.Some? && Checksum(r.value) == ChecksumMagic
  {
    var ts := SortByTag(tables);
    assert tables[h] in multiset(ts);
    var j :| 0 <= j < |ts| && ts[j] == tables[h];
    var k := FirstHead(ts, j);
    assert ts[k] in multiset(tables);
    var i :| 0 <= i < |tables| && tables[i] == ts[k];
    MadeFontChecksum(tables, k);
  }
}

=== FILE: ttf_glyf.dfy ===
/**
 * The component list of a composite glyph, per the composite glyph
 * description of the OpenType "glyf" section: after the 10-byte glyph
 * header, each component holds 16-bit flags, a 16-bit glyph index, its
 * arguments (two bytes each, or one) and an optional transform, and the
 * MORE_COMPONENTS flag says whether another component follows.
 */
module TtfGlyf {
  import opened Bytes

  const ArgsAreWords: nat := 0x0001
  const HaveScale: nat := 0x0008
  const MoreComponents: nat := 0x0020
  const HaveXYScale: nat := 0x0040
  const HaveTwoByTwo: nat := 0x0080

  const GlyphHeaderSize: nat := 10

  /** `flags & bit != 0` for a single-bit `bit`. */
  predicate HasFlag(flags: nat, bit: nat)
    requires bit > 0
  {
    (flags / bit) % 2 == 1
  }

  /**
   * Bytes a component takes: flags and glyph index, the arguments, and the
   * transform, where a single scale wins over separate x and y scales,
   * which win over a two-by-two matrix.
   */
  function ComponentSize(flags: nat): (n: nat)
    ensures 6 <= n <= 16
  {
    4 + (if HasFlag(flags, ArgsAreWords) then 4 else 2)
      + (if HasFlag(flags, HaveScale) then 2
         else if HasFlag(flags, HaveXYScale) then 4
         else if HasFlag(flags, HaveTwoByTwo) then 8
         else 0)
  }

  /** The glyph indices of the components from `off` on. */
  function RefsFrom(glyph: seq<Byte>, off: nat): (r: seq<nat>)
    ensures forall i :: 0 <= i < |r| ==> r[i] < U16Limit
    ensures |r| > 0 ==> off + 6 * |r| <= |glyph| + 6
    decreases |glyph| - off
  {
    if off + 4 > |glyph| then []
    else
      var flags := BeU16(glyph, off);
      [BeU16(glyph, off + 2)]
        + (if HasFlag(flags, MoreComponents) then RefsFrom(glyph, off + ComponentSize(flags)) else [])
  }

  /**
   * `composite_refs`: nothing for a glyph under 10 bytes or with a
   * non-negative contour count; otherwise the component glyph indices in
   * order.
   */
  function CompositeRefs(glyph: seq<Byte>): (r: seq<nat>)
    ensures forall i :: 0 <= i < |r| ==> r[i] < U16Limit
    ensures r != [] ==> |glyph| >= GlyphHeaderSize && BeI16(glyph, 0) < 0 && 6 * |r| <= |glyph| - 4
  {
    if |glyph| < GlyphHeaderSize || BeI16(glyph, 0) >= 0 then [] else RefsFrom(glyph, GlyphHeaderSize)
  }

  /**
   * The loop of `composite_refs` as written, with its `more` flag, computes
   * the component list.
   */
  method ScanComposite(glyph: seq<Byte>) returns (refs: seq<nat>)
    ensures refs == CompositeRefs(glyph)
  {
    if |glyph| < GlyphHeaderSize || BeI16(glyph, 0) >= 0 {
      return [];
    }
    refs := [];
    var off := GlyphHeaderSize;
    var more := true;
    while more && off + 4 <= |glyph|
      invariant more ==> refs + RefsFrom(glyph, off) == CompositeRefs(glyph)
      invariant !more ==> refs == CompositeRefs(glyph)
      decreases |glyph| - off, more
    {
      ghost var at := off;
      ghost var before := refs;
      var flags := BeU16(glyph, off);
      refs := refs + [BeU16(glyph, off + 2)];
      off := off + 4;
      off := off + if HasFlag(flags, ArgsAreWords) then 4 else 2;
      if HasFlag(flags, HaveScale) {
        off := off + 2;
      } else if HasFlag(flags, HaveXYScale) {
        off := off + 4;
      } else if HasFlag(flags, HaveTwoByTwo) {
        off := off + 8;
      }
      assert off == at + ComponentSize(flags);
      more := HasFlag(flags, MoreComponents);
      WalkStep(glyph, at, before);
    }
  }

  /** The walk's invariant survives one component: its index joins the list, and the rest is read from the next offset. */
  lemma WalkStep(glyph: seq<Byte>, at: nat, before: seq<nat>)
    requires at + 4 <= |glyph|
    requires before + RefsFrom(glyph, at) == CompositeRefs(glyph)
    ensures var flags := BeU16(glyph, at);
      var refs := before + [BeU16(glyph, at + 2)];
      && (HasFlag(flags, MoreComponents) ==> refs + RefsFrom(glyph, at + ComponentSize(flags)) == CompositeRefs(glyph))
      && (!HasFlag(flags, MoreComponents) ==> refs == CompositeRefs(glyph))
  {
    var flags := BeU16(glyph, at);
    RefsFromAt(glyph, at);
    if HasFlag(flags, MoreComponents) {
      AppendOne(before, BeU16(glyph, at + 2), RefsFrom(glyph, at + ComponentSize(flags)));
    }
  }

  /** One step of the component walk: the index at `at`, then the rest when the flags say more follow. */
  lemma RefsFromAt(glyph: seq<Byte>, at: nat)
    requires at + 4 <= |glyph|
    ensures var flags := BeU16(glyph, at);
      RefsFrom(glyph, at)
        == [BeU16(glyph, at + 2)] + (if HasFlag(flags, MoreComponents) then RefsFrom(glyph, at + ComponentSize(flags)) else [])
  {
  }

  lemma AppendOne(a: seq<nat>, x: nat, b: seq<nat>)
    ensures (a + [x]) + b == a + ([x] + b)
  {
  }

  /** One component as a font writes it: flags, glyph index, then argument and transform bytes. */
  datatype Component = Component(flags: nat, glyph: nat, rest: seq<Byte>)

  /** The flags and index fit 16 bits and the trailing bytes are as many as the flags call for. */
  predicate WellSized(c: Component)
  {
    c.flags < U16Limit && c.glyph < U16Limit && |c.rest| == ComponentSize(c.flags) - 4
  }

  /** Every component but the last says another follows; the last does not. */
  predicate Chained(cs: seq<Component>)
  {
    && |cs| >= 1
    && (forall i :: 0 <= i < |cs| ==> WellSized(cs[i]))
    && (forall i :: 0 <= i < |cs| - 1 ==> HasFlag(cs[i].flags, MoreComponents))
    && !HasFlag(cs[|cs| - 1].flags, MoreComponents)
  }

  function EncodeComponent(c: Component): (b: seq<Byte>)
    requires WellSized(c)
    ensures |b| == ComponentSize(c.flags)
  {
    U16Be(c.flags) + U16Be(c.glyph) + c.rest
  }

  function EncodeComponents(cs: seq<Component>): seq<Byte>
    requires forall i :: 0 <= i < |cs| ==> WellSized(cs[i])
  {
    if |cs| == 0 then [] else EncodeComponent(cs[0]) + EncodeComponents(cs[1..])
  }

  function GlyphIndices(cs: seq<Component>): (r: seq<nat>)
    ensures |r| == |cs| && forall i :: 0 <= i < |cs| ==> r[i] == cs[i].glyph
  {
    if |cs| == 0 then [] else [cs[0].glyph] + GlyphIndices(cs[1..])
  }

  /** A component written after any prefix shows its flags and glyph index at the prefix's end. */
  lemma ComponentFields(pre: seq<Byte>, c: Component, after: seq<Byte>)
    requires WellSized(c)
    ensures var g := pre + EncodeComponent(c) + after;
      |pre| + 4 <= |g| && BeU16(g, |pre|) == c.flags && BeU16(g, |pre| + 2) == c.glyph
  {
    var e := EncodeComponent(c);
    var g := pre + e + after;
    var at := |pre|;
    assert g[at] == e[0] && g[at + 1] == e[1] && g[at + 2] == e[2] && g[at + 3] == e[3];
    U16BeRoundTrip(c.flags);
    U16BeRoundTrip(c.glyph);
    BeU16At(g, at, c.flags);
    BeU16At(g, at + 2, c.glyph);
  }

  /** Reading components written after any prefix gives back their glyph indices, whatever follows them. */
  lemma {:induction false} RefsFromEncoded(pre: seq<Byte>, cs: seq<Component>, tail: seq<Byte>)
    requires Chained(cs)
    ensures RefsFrom(pre + EncodeComponents(cs) + tail, |pre|) == GlyphIndices(cs)
    decreases |cs|
  {
    var c := cs[0];
    var e := EncodeComponent(c);
    var rest := EncodeComponents(cs[1..]);
    var g := pre + EncodeComponents(cs) + tail;
    assert g == pre + e + (rest + tail);
    ComponentFields(pre, c, rest + tail);
    var next := |pre| + ComponentSize(c.flags);
    assert RefsFrom(g, |pre|) == [c.glyph] + (if HasFlag(c.flags, MoreComponents) then RefsFrom(g, next) else []);
    if |cs| > 1 {
      assert Chained(cs[1..]) by {
        assert forall i :: 0 <= i < |cs| - 1 ==> cs[1..][i] == cs[i + 1];
      }
      assert g == (pre + e) + rest + tail && |pre + e| == next;
      RefsFromEncoded(pre + e, cs[1..], tail);
      assert GlyphIndices(cs) == [c.glyph] + GlyphIndices(cs[1..]);
    } else {
      assert cs[|cs| - 1] == c;
    }
  }

  /**
   * A composite glyph written from chained components reads back as their
   * glyph indices in order, whatever instructions follow them.
   */
  lemma CompositeRoundTrip(header: seq<Byte>, cs: seq<Component>, tail: seq<Byte>)
    requires |header| == GlyphHeaderSize && BeI16(header, 0) < 0 && Chained(cs)
    ensures CompositeRefs(header + EncodeComponents(cs) + tail) == GlyphIndices(cs)
  {
    var g := header + EncodeComponents(cs) + tail;
    assert g[0] == header[0] && g[1] == header[1];
    RefsFromEncoded(header, cs, tail);
  }
}

=== FILE: ttf_loca.dfy ===
/**
 * The glyph location table, per the OpenType "loca" section: `numGlyphs + 1`
 * offsets into the `glyf` table, stored halved in 16 bits (the short
 * format, `indexToLocFormat` 0) or whole in 32 bits (the long format); and
 * the rebuild of `glyf` and `loca` that keeps only some glyphs' outlines.
 */
module TtfLoca {
  import opened Wrappers
  import opened Bytes

  /** Where `indexToLocFormat` sits in the `head` table. */
  const IndexToLocFormatAt: nat := 50

  /** The width of one stored offset. */
  function EntrySize(short: bool): nat
  {
    if short then 2 else 4
  }

  /** Offset `i` as stored. */
  function EntryAt(loca: seq<Byte>, short: bool, i: nat): nat
    requires EntrySize(short) * (i + 1) <= |loca|
  {
    if short then 2 * BeU16(loca, 2 * i) else BeU32(loca, 4 * i)
  }

  /**
   * The offset loop of `parse_loca` for `n` glyphs: every one of the
   * `n + 1` reads must lie inside the table, or the read raises.
   */
  function LocaOffsets(loca: seq<Byte>, short: bool, n: nat): (r: Option<seq<nat>>)
    ensures r.Some? <==> EntrySize(short) * (n + 1) <= |loca|
    ensures r.Some? ==> |r.value| == n + 1 && forall i :: 0 <= i <= n ==> r.value[i] == EntryAt(loca, short, i)
  {
    if EntrySize(short) * (n + 1) > |loca| then None
    else Some(seq(n + 1, (i: nat) requires i <= n => EntryAt(loca, short, i)))
  }

  /** The format flag of the `head` table, which must be long enough to hold it. */
  function LocFormatIsShort(head: seq<Byte>): (r: Option<bool>)
    ensures r.Some? <==> |head| >= IndexToLocFormatAt + 2
  {
    if |head| < IndexToLocFormatAt + 2 then None else Some(BeI16(head, IndexToLocFormatAt) == 0)
  }

  /** `parse_loca`. */
  function ParseLoca(head: seq<Byte>, loca: seq<Byte>, n: nat): (r: Option<seq<nat>>)
    ensures r.Some? <==> LocFormatIsShort(head).Some? && EntrySize(LocFormatIsShort(head).value) * (n + 1) <= |loca|
    ensures r.Some? ==> |r.value| == n + 1
  {
    match LocFormatIsShort(head)
    case None => None
    case Some(short) => LocaOffsets(loca, short, n)
  }

  /** Offsets a format can store: even and under 2^17 when short, under 2^32 when long. */
  predicate Storable(off: nat, short: bool)
  {
    if short then off % 2 == 0 && off / 2 < U16Limit else off < U32Limit
  }

  /**
   * The packing loop of `subset_ttf`: an odd offset in the short format
   * raises, as does any offset too large for `struct.pack`.
   */
  function EncodeLoca(offs: seq<nat>, short: bool): (r: Option<seq<Byte>>)
    ensures r.Some? <==> forall i :: 0 <= i < |offs| ==> Storable(offs[i], short)
    ensures r.Some? ==> |r.value| == EntrySize(short) * |offs|
  {
    if |offs| == 0 then Some([])
    else if !Storable(offs[0], short) then None
    else
      match EncodeLoca(offs[1..], short)
      case None =>
        assert forall i :: 1 <= i < |offs| ==> offs[1..][i - 1] == offs[i];
        None
      case Some(rest) =>
        assert forall i :: 1 <= i < |offs| ==> offs[1..][i - 1] == offs[i];
        Some((if short then U16Be(offs[0] / 2) else U32Be(offs[0])) + rest)
  }

  /** Entry `i` of packed offsets reads back as the offset. */
  lemma {:induction false} EncodedEntry(offs: seq<nat>, short: bool, i: nat)
    requires EncodeLoca(offs, short).Some? && i < |offs|
    ensures EntryAt(EncodeLoca(offs, short).value, short, i) == offs[i]
    decreases |offs|
  {
    var b := EncodeLoca(offs, short).value;
    var rest := EncodeLoca(offs[1..], short).value;
    var w := EntrySize(short);
    if i == 0 {
      if short {
        U16BeRoundTrip(offs[0] / 2);
        BeU16At(b, 0, offs[0] / 2);
      } else {
        U32BeRoundTrip(offs[0]);
        BeU32At(b, 0, offs[0]);
      }
    } else {
      EncodedEntry(offs[1..], short, i - 1);
      EntryShift(if short then U16Be(offs[0] / 2) else U32Be(offs[0]), rest, short, i);
    }
  }

  /** Behind one stored entry, entry `i` is entry `i - 1` of the rest. */
  lemma EntryShift(h: seq<Byte>, rest: seq<Byte>, short: bool, i: nat)
    requires |h| == EntrySize(short) && 1 <= i && EntrySize(short) * (i + 1) <= |h + rest|
    ensures EntryAt(h + rest, short, i) == EntryAt(rest, short, i - 1)
  {
    var b := h + rest;
    var w := EntrySize(short);
    var at := w * i;
    assert w * (i - 1) + w == at;
    assert b[at] == rest[at - w] && b[at + 1] == rest[at - w + 1];
    if !short {
      assert b[at + 2] == rest[at - w + 2] && b[at + 3] == rest[at - w + 3];
    }
  }

  /** Packed offsets parse back as themselves, in either format. */
  lemma LocaRoundTrip(offs: seq<nat>, short: bool)
    requires |offs| >= 1 && EncodeLoca(offs, short).Some?
    ensures LocaOffsets(EncodeLoca(offs, short).value, short, |offs| - 1) == Some(offs)
  {
    var b := EncodeLoca(offs, short).value;
    forall i | 0 <= i < |offs|
      ensures EntryAt(b, short, i) == offs[i]
    {
      EncodedEntry(offs, short, i);
    }
    assert LocaOffsets(b, short, |offs| - 1).value == offs;
  }

  // The rebuild.

  /**
   * Glyph `g`'s outline as `glyf[start:end]`, kept when `g` is in `keep`
   * and its offsets lie in order inside the table, otherwise nothing.
   */
  function Outline(glyf: seq<Byte>, loca: seq<nat>, keep: set<int>, g: nat): seq<Byte>
    requires g + 1 < |loca|
  {
    if g in keep && loca[g] <= loca[g + 1] <= |glyf| then glyf[loca[g]..loca[g + 1]] else []
  }

  /** Every glyph's outline, in glyph order. */
  function Outlines(glyf: seq<Byte>, loca: seq<nat>, keep: set<int>): (ps: seq<seq<Byte>>)
    requires |loca| >= 1
    ensures |ps| == |loca| - 1
  {
    seq(|loca| - 1, (g: nat) requires g + 1 < |loca| => Outline(glyf, loca, keep, g))
  }

  /** The first `k` pieces, one after the other. */
  function ConcatUpTo(ps: seq<seq<Byte>>, k: nat): seq<Byte>
    requires k <= |ps|
  {
    if k == 0 then [] else ConcatUpTo(ps, k - 1) + ps[k - 1]
  }

  /** The new `glyf` after the first `k` glyphs. */
  function NewGlyf(glyf: seq<Byte>, loca: seq<nat>, keep: set<int>, k: nat): seq<Byte>
    requires k < |loca|
  {
    ConcatUpTo(Outlines(glyf, loca, keep), k)
  }

  /** The new `loca`: each glyph starts where the new `glyf` had grown to. */
  function NewLoca(glyf: seq<Byte>, loca: seq<nat>, keep: set<int>): (r: seq<nat>)
    requires |loca| >= 1
    ensures |r| == |loca|
  {
    seq(|loca|, (k: nat) requires k < |loca| => |NewGlyf(glyf, loca, keep, k)|)
  }

  /** `out` holds `o` at `at`. */
  predicate HoldsAt(out: seq<Byte>, at: nat, o: seq<Byte>)
  {
    at + |o| <= |out| && forall j :: 0 <= j < |o| ==> out[at + j] == o[j]
  }

  /** A shorter concatenation is a prefix of a longer one. */
  lemma {:induction false} ConcatPrefix(ps: seq<seq<Byte>>, k: nat, m: nat)
    requires k <= m <= |ps|
    ensures |ConcatUpTo(ps, k)| <= |ConcatUpTo(ps, m)|
    ensures forall i :: 0 <= i < |ConcatUpTo(ps, k)| ==> ConcatUpTo(ps, m)[i] == ConcatUpTo(ps, k)[i]
    decreases m
  {
    if k < m {
      ConcatPrefix(ps, k, m - 1);
    }
  }

  /** Piece `g` follows the pieces before it. */
  lemma ConcatSpan(ps: seq<seq<Byte>>, g: nat)
    requires g < |ps|
    ensures |ConcatUpTo(ps, g + 1)| == |ConcatUpTo(ps, g)| + |ps[g]|
    ensures HoldsAt(ConcatUpTo(ps, |ps|), |ConcatUpTo(ps, g)|, ps[g])
  {
    var a := ConcatUpTo(ps, g);
    var b := ConcatUpTo(ps, g + 1);
    var out := ConcatUpTo(ps, |ps|);
    ConcatPrefix(ps, g + 1, |ps|);
    forall j | 0 <= j < |ps[g]|
      ensures out[|a| + j] == ps[g][j]
    {
      assert out[|a| + j] == b[|a| + j];
    }
  }

  /**
   * The new `loca` starts at 0, never decreases, and ends at the length of
   * the new `glyf`.
   */
  lemma NewLocaShape(glyf: seq<Byte>, loca: seq<nat>, keep: set<int>)
    requires |loca| >= 1
    ensures var r := NewLoca(glyf, loca, keep);
      && r[0] == 0
      && (forall i, j :: 0 <= i <= j < |r| ==> r[i] <= r[j])
      && r[|r| - 1] == |NewGlyf(glyf, loca, keep, |loca| - 1)|
  {
    var ps := Outlines(glyf, loca, keep);
    forall i, j | 0 <= i <= j < |loca|
      ensures |ConcatUpTo(ps, i)| <= |ConcatUpTo(ps, j)|
    {
      ConcatPrefix(ps, i, j);
    }
  }

  /**
   * Glyph `g` of the new font spans exactly its kept outline: the original
   * bytes for a kept glyph with sound offsets, and nothing for any other.
   */
  lemma NewGlyphBytes(glyf: seq<Byte>, loca: seq<nat>, keep: set<int>, g: nat)
    requires g + 1 < |loca|
    ensures NewLoca(glyf, loca, keep)[g + 1] == NewLoca(glyf, loca, keep)[g] + |Outline(glyf, loca, keep, g)|
    ensures HoldsAt(NewGlyf(glyf, loca, keep, |loca| - 1), NewLoca(glyf, loca, keep)[g], Outline(glyf, loca, keep, g))
  {
    var ps := Outlines(glyf, loca, keep);
    var r := NewLoca(glyf, loca, keep);
    assert r[g] == |ConcatUpTo(ps, g)| && r[g + 1] == |ConcatUpTo(ps, g + 1)|;
    assert ps[g] == Outline(glyf, loca, keep, g);
    ConcatSpan(ps, g);
  }

  /**
   * The rebuild loop of `subset_ttf`, which appends each kept outline and
   * records where every glyph starts, computes the new `glyf` and `loca`.
   */
  method Rebuild(glyf: seq<Byte>, loca: seq<nat>, keep: set<int>) returns (newGlyf: seq<Byte>, newLoca: seq<nat>)
    requires |loca| >= 1
    ensures newGlyf == NewGlyf(glyf, loca, keep, |loca| - 1)
    ensures newLoca == NewLoca(glyf, loca, keep)
  {
    var n := |loca| - 1;
    newGlyf := [];
    newLoca := seq(n + 1, (i: nat) => 0);
    var g := 0;
    while g < n
      invariant g <= n && |newLoca| == n + 1
      invariant newGlyf == NewGlyf(glyf, loca, keep, g)
      invariant forall i :: 0 <= i < g ==> newLoca[i] == |NewGlyf(glyf, loca, keep, i)|
      decreases n - g
    {
      newLoca := newLoca[g := |newGlyf|];
      if g in keep {
        var start := loca[g];
        var end := loca[g + 1];
        if start <= end <= |glyf| {
          newGlyf := newGlyf + glyf[start..end];
        }
      }
      g := g + 1;
    }
    newLoca := newLoca[n := |newGlyf|];
  }
}

=== FILE: ui_bindings.dfy ===
/**
 * The service calls a widget's touch turns into: the domain of an entity id,
 * the toggle call, and the call a slider value becomes for each domain.
 */
module UiBindings {
  import opened Wrappers
  import opened CStr
  import opened Percent

  /** The `char domain[32]` buffer both entry points split into. */
  const DomainBuffer: nat := 32

  /**
   * `split_entity_id`: the text before the first `.`, cut to the buffer;
   * no id, an empty buffer, no dot, or a dot in front fails.
   */
  function SplitEntityId(entityId: Option<string>, domainLen: nat): (r: Option<string>)
    ensures r.Some? <==>
      domainLen > 0 && entityId.Some? && IndexOf(entityId.value, '.').Some? && IndexOf(entityId.value, '.').value > 0
    ensures r.Some? ==>
      && |r.value| < domainLen && (domainLen > 1 ==> |r.value| > 0)
      && StartsWith(entityId.value, r.value) && '.' !in r.value
      && (|r.value| < domainLen - 1 ==> entityId.value[|r.value|] == '.')
  {
    if domainLen == 0 || entityId.None? then None
    else
      match IndexOf(entityId.value, '.')
      case None => None
      case Some(k) =>
        if k == 0 then None
        else
          var d := Fit(entityId.value[..k], domainLen);
          assert forall i :: 0 <= i < |d| ==> d[i] == entityId.value[..k][i];
          Some(d)
  }

  /** A domain without a dot, followed by a dot and anything, splits back to that domain. */
  lemma SplitEntityIdOfJoin(domain: string, rest: string, domainLen: nat)
    requires 0 < |domain| < domainLen && '.' !in domain
    ensures SplitEntityId(Some(domain + "." + rest), domainLen) == Some(domain)
  {
    var e := domain + "." + rest;
    assert e[|domain|] == '.';
    assert forall i :: 0 <= i < |domain| ==> e[i] == domain[i];
    IndexOfAt(e, '.', |domain|);
    assert e[..|domain|] == domain;
  }

  /** The services of `ha_services.h` the bindings call, plus the two literal ones. */
  datatype Service = Toggle | TurnOn | VolumeSet | SetTemperature | SetValue

  /** The number a payload carries beside the `entity_id`. */
  datatype Payload =
    | EntityOnly
    | Brightness(brightness: int)
    | VolumeLevel(percent: int)
    | Temperature(temperature: int)
    | NumericValue(value: int)

  /** One `ha_client_call_service(domain, service, payload)`. */
  datatype Call = Call(domain: string, service: Service, entityId: string, payload: Payload)

  /** `ui_bindings_toggle_entity`; `None` is `ESP_ERR_INVALID_ARG`. */
  function ToggleEntity(entityId: Option<string>): (r: Option<Call>)
    ensures r.Some? <==> entityId.Some? && entityId.value != "" && SplitEntityId(entityId, DomainBuffer).Some?
    ensures r.Some? ==>
      && r.value.domain == SplitEntityId(entityId, DomainBuffer).value
      && r.value.service == Toggle && r.value.entityId == entityId.value && r.value.payload == EntityOnly
  {
    if entityId.None? || entityId.value == "" then None
    else
      match SplitEntityId(entityId, DomainBuffer)
      case None => None
      case Some(domain) => Some(Call(domain, Toggle, entityId.value, EntityOnly))
  }

  /**
   * `ui_bindings_set_slider_value`: the value is clamped to 0..100 and the
   * service is chosen by the entity's domain: a light is turned on with a
   * 0..255 brightness, a media player's volume is set, a climate entity's
   * target temperature is set, and anything else gets `set_value`.
   */
  function SetSliderValue(entityId: Option<string>, value: int): (r: Option<Call>)
    ensures r.Some? <==> entityId.Some? && entityId.value != "" && SplitEntityId(entityId, DomainBuffer).Some?
    ensures r.Some? ==> r.value.domain == SplitEntityId(entityId, DomainBuffer).value && r.value.entityId == entityId.value
    ensures r.Some? && r.value.domain == "light" ==>
      r.value.service == TurnOn && r.value.payload == Brightness(PercentToBrightness(value))
      && 0 <= r.value.payload.brightness <= 255
    ensures r.Some? && r.value.domain == "media_player" ==>
      r.value.service == VolumeSet && r.value.payload == VolumeLevel(ClampPercent(value))
    ensures r.Some? && r.value.domain == "climate" ==>
      r.value.service == SetTemperature && r.value.payload == Temperature(ClampPercent(value))
    ensures r.Some? && r.value.domain !in {"light", "media_player", "climate"} ==>
      r.value.service == SetValue && r.value.payload == NumericValue(ClampPercent(value))
  {
    if entityId.None? || entityId.value == "" then None
    else
      var v := ClampPercent(value);
      match SplitEntityId(entityId, DomainBuffer)
      case None => None
      case Some(domain) =>
        var e := entityId.value;
        if domain == "light" then Some(Call(domain, TurnOn, e, Brightness(PercentToBrightness(v))))
        else if domain == "media_player" then Some(Call(domain, VolumeSet, e, VolumeLevel(v)))
        else if domain == "climate" then Some(Call(domain, SetTemperature, e, Temperature(v)))
        else Some(Call(domain, SetValue, e, NumericValue(v)))
  }

  /**
   * The brightness a light slider sends reads back, through the light's
   * reported 0..255 brightness, as the clamped percent the slider showed.
   */
  lemma SliderLightRoundTrip(rest: string, value: int)
    ensures var r := SetSliderValue(Some("light." + rest), value);
      r.Some? && r.value.domain == "light" && BrightnessToPercent(r.value.payload.brightness) == ClampPercent(value)
  {
    assert "light." + rest == "light" + "." + rest;
    SplitEntityIdOfJoin("light", rest, DomainBuffer);
    PercentBrightnessRoundTrip(ClampPercent(value));
  }
}

=== FILE: ui_i18n.dfy ===
/**
 * The runtime translation table: the deep merge of a custom translation over
 * a built-in one, the dotted-path lookup under the `lvgl` root, the string a
 * key resolves to, and the language `init` and `reset` settle on. JSON parsing
 * is not part of this model: the built-in tables and the custom file arrive as
 * parsed values.
 */
module UiI18n {
  import opened Wrappers
  import opened CStr
  import opened Json
  import opened I18nStore

  /** Gives the first member named `key` the value `v`, in place (cJSON edits the item it found). */
  function SetFirst(ms: seq<Member>, key: string, v: Value): (r: seq<Member>)
    ensures |r| == |ms|
    ensures HasKey(ms, key) ==> Lookup(r, key) == Some(v)
    ensures forall k :: k != key ==> Lookup(r, k) == Lookup(ms, k)
    ensures forall i :: 0 <= i < |r| ==> r[i].key == ms[i].key
  {
    if |ms| == 0 then []
    else if ms[0].key == key then [Member(key, v)] + ms[1..]
    else
      var rest := SetFirst(ms[1..], key, v);
      assert HasKey(ms, key) && ms[0].key != key ==> HasKey(ms[1..], key) by {
        if HasKey(ms, key) && ms[0].key != key {
          var m :| m in ms && m.key == key;
          assert m in ms[1..];
        }
      }
      [ms[0]] + rest
  }

  /** Deletes the first member named `key` (`cJSON_DeleteItemFromObjectCaseSensitive`). */
  function RemoveFirst(ms: seq<Member>, key: string): (r: seq<Member>)
    ensures forall k :: k != key ==> Lookup(r, k) == Lookup(ms, k)
    ensures !HasKey(ms, key) ==> r == ms
    ensures forall m :: m in r ==> m in ms
    ensures UniqueKeys(ms) ==> UniqueKeys(r) && !HasKey(r, key)
  {
    if |ms| == 0 then []
    else if ms[0].key == key then
      UniqueTail(ms);
      ms[1..]
    else
      var rest := RemoveFirst(ms[1..], key);
      UniqueTail(ms);
      UniqueCons(ms[0], rest);
      [ms[0]] + rest
  }

  /** The members after the first of a table without repeated keys have distinct keys, none the first's. */
  lemma UniqueTail(ms: seq<Member>)
    requires |ms| > 0
    ensures UniqueKeys(ms) ==> UniqueKeys(ms[1..]) && !HasKey(ms[1..], ms[0].key)
  {
    if UniqueKeys(ms) {
      forall m | m in ms[1..]
        ensures m.key != ms[0].key
      {
        var k :| 0 <= k < |ms[1..]| && ms[1..][k] == m;
        assert ms[1..][k] == ms[k + 1];
      }
    }
  }

  /** A member whose key the rest lacks, in front of distinct keys, keeps the keys distinct. */
  lemma UniqueCons(x: Member, rest: seq<Member>)
    ensures UniqueKeys(rest) && !HasKey(rest, x.key) ==> UniqueKeys([x] + rest)
  {
    if UniqueKeys(rest) && !HasKey(rest, x.key) {
      var r := [x] + rest;
      forall i, j | 0 <= i < j < |r|
        ensures r[i].key != r[j].key
      {
        assert r[j] == rest[j - 1];
        if i > 0 {
          assert r[i] == rest[i - 1];
        } else {
          assert r[j] in rest;
        }
      }
    }
  }

  /** Keys are unique: what a parsed built-in table and every object in it satisfy. */
  predicate UniqueKeys(ms: seq<Member>)
  {
    forall i, j :: 0 <= i < j < |ms| ==> ms[i].key != ms[j].key
  }

  /**
   * `ui_i18n_merge_object` of a source object into a destination object,
   * member by member in the source's order.
   */
  function MergeMembers(dst: seq<Member>, src: seq<Member>): seq<Member>
    decreases src, 1
  {
    if |src| == 0 then dst else MergeMembers(MergeMember(dst, src[0]), src[1..])
  }

  /**
   * One source member: an empty key is skipped; an object meeting an object
   * is merged into it in place; anything else replaces the destination's
   * member, which is deleted and the copy appended.
   */
  function MergeMember(dst: seq<Member>, m: Member): seq<Member>
    decreases m, 0
  {
    if m.key == "" then dst
    else
      var d := Lookup(dst, m.key);
      if m.value.Obj? && d.Some? && d.value.Obj? then
        SetFirst(dst, m.key, Obj(MergeMembers(d.value.members, m.value.members)))
      else RemoveFirst(dst, m.key) + [m]
  }

  /** What a member's key ends up holding after the merge: objects merge, anything else is replaced. */
  function MergedValue(d: Option<Value>, s: Value): Value
  {
    if s.Obj? && d.Some? && d.value.Obj? then Obj(MergeMembers(d.value.members, s.members)) else s
  }

  /** One merged member: its key gets the merged value, every other key keeps its value, keys stay unique. */
  lemma MergeMemberLookup(dst: seq<Member>, m: Member)
    requires UniqueKeys(dst) && m.key != ""
    ensures var r := MergeMember(dst, m);
      && UniqueKeys(r)
      && Lookup(r, m.key) == Some(MergedValue(Lookup(dst, m.key), m.value))
      && forall k :: k != m.key ==> Lookup(r, k) == Lookup(dst, k)
  {
    var d := Lookup(dst, m.key);
    if !(m.value.Obj? && d.Some? && d.value.Obj?) {
      var rest := RemoveFirst(dst, m.key);
      LookupAppend(rest, m);
      assert UniqueKeys(rest + [m]) by {
        forall i | 0 <= i < |rest| ensures rest[i].key != m.key {
          assert rest[i] in rest;
        }
      }
    } else {
      LookupFound(dst, m.key);
      assert HasKey(dst, m.key);
    }
  }

  /**
   * The deep merge, key by key, for tables without repeated keys: a key
   * the source does not carry (or carries with an empty name) keeps the
   * destination's value; a key it carries holds the merged value.
   */
  lemma {:induction false} MergeMembersLookup(dst: seq<Member>, src: seq<Member>)
    requires UniqueKeys(dst) && UniqueKeys(src)
    ensures var r := MergeMembers(dst, src);
      && UniqueKeys(r)
      && (forall k :: k == "" || !HasKey(src, k) ==> Lookup(r, k) == Lookup(dst, k))
      && (forall k :: k != "" && HasKey(src, k) ==>
            Lookup(r, k) == Some(MergedValue(Lookup(dst, k), Lookup(src, k).value)))
    decreases src
  {
    if |src| > 0 {
      var m := src[0];
      var tail := src[1..];
      var d1 := MergeMember(dst, m);
      if m.key != "" { MergeMemberLookup(dst, m); }
      assert UniqueKeys(tail);
      MergeMembersLookup(d1, tail);
      var r := MergeMembers(dst, src);
      assert r == MergeMembers(d1, tail);
      forall k | true
        ensures HasKey(src, k) <==> k == m.key || HasKey(tail, k)
        ensures k != m.key ==> Lookup(src, k) == Lookup(tail, k)
      {
        if HasKey(src, k) && k != m.key {
          var x :| x in src && x.key == k;
          assert x in tail;
        }
        if HasKey(tail, k) {
          var x :| x in tail && x.key == k;
          assert x in src;
        }
      }
      forall j | 0 <= j < |tail| ensures tail[j].key != m.key {
        assert tail[j] == src[j + 1];
      }
    }
  }

  /** Merging an object with no members changes nothing. */
  lemma MergeNothing(dst: seq<Member>)
    ensures MergeMembers(dst, []) == dst
  {
  }

  // ---------------------------------------------------------------------------
  // Lookup.

  /** The `char segment[64]` buffer: a segment must be shorter. */
  const SegmentBuffer: nat := 64

  /**
   * The segment loop of `ui_i18n_lookup_path` from an object node: each
   * segment up to the next `.` is looked up in turn; an empty or over-long
   * segment, or a missing member, finds nothing. A key ending in `.` stops
   * at the node reached before it.
   */
  function Walk(node: Value, rest: string): (r: Option<Value>)
    decreases |rest|
  {
    if rest == "" then Some(node)
    else
      var dot := IndexOf(rest, '.');
      var len := if dot.Some? then dot.value else |rest|;
      if len == 0 || len >= SegmentBuffer then None
      else match Get(node, rest[..len])
        case None => None
        case Some(child) => if dot.None? then Some(child) else Walk(child, rest[len + 1..])
  }

  /** `ui_i18n_lookup_path`: a non-empty key under the `lvgl` object of the table. */
  function LookupPath(root: Option<Value>, key: Option<string>): (r: Option<Value>)
    ensures root.None? || key.None? || key == Some("") ==> r.None?
    ensures r.Some? ==> root.Some? && IsObject(Get(root.value, "lvgl"))
  {
    if root.None? || !root.value.Obj? || key.None? || key.value == "" then None
    else
      var node := Get(root.value, "lvgl");
      if node.None? || !node.value.Obj? then None else Walk(node.value, key.value)
  }

  /** A path of segments, the reference reading of a dotted key: one `Get` per segment. */
  function GetPath(node: Value, segs: seq<string>): Option<Value>
    decreases |segs|
  {
    if |segs| == 0 then Some(node)
    else match Get(node, segs[0])
      case None => None
      case Some(child) => GetPath(child, segs[1..])
  }

  /** The segments joined with `.`. */
  function Join(segs: seq<string>): string
    decreases |segs|
  {
    if |segs| == 0 then "" else if |segs| == 1 then segs[0] else segs[0] + "." + Join(segs[1..])
  }

  /** A segment the lookup can follow: non-empty, without `.`, shorter than its buffer. */
  predicate GoodSegment(seg: string)
  {
    0 < |seg| < SegmentBuffer && '.' !in seg
  }

  /** Walking a dotted key made of good segments is the stepwise lookup of its segments. */
  lemma {:induction false} WalkJoin(node: Value, segs: seq<string>)
    requires |segs| > 0 && forall i :: 0 <= i < |segs| ==> GoodSegment(segs[i])
    ensures Walk(node, Join(segs)) == GetPath(node, segs)
    decreases |segs|
  {
    var s0 := segs[0];
    if |segs| == 1 {
      assert IndexOf(s0, '.') == None;
      assert s0[..|s0|] == s0;
    } else {
      var text := s0 + "." + Join(segs[1..]);
      assert text[|s0|] == '.';
      assert text[..|s0|] == s0;
      IndexOfAt(text, '.', |s0|);
      assert text[|s0| + 1..] == Join(segs[1..]);
      match Get(node, s0)
      case None =>
      case Some(child) => WalkJoin(child, segs[1..]);
    }
  }

  /** A key that begins with `.` finds nothing. */
  lemma LeadingDot(node: Value, rest: string)
    ensures Walk(node, "." + rest) == None
  {
    IndexOfAt("." + rest, '.', 0);
  }

  /** A key whose first segment is 64 characters or longer finds nothing. */
  lemma LongSegment(node: Value, seg: string, rest: string)
    requires |seg| >= SegmentBuffer && '.' !in seg
    ensures Walk(node, seg + rest) == None
  {
    var text := seg + rest;
    assert text[..|seg|] == seg;
  }

  /** An empty segment after good ones finds nothing: `a..b` does not resolve. */
  lemma {:induction false} EmptyInteriorSegment(node: Value, segs: seq<string>, rest: string)
    requires |segs| > 0 && forall i :: 0 <= i < |segs| ==> GoodSegment(segs[i])
    ensures Walk(node, Join(segs) + "." + "." + rest) == None
    decreases |segs|
  {
    var s0 := segs[0];
    if |segs| == 1 {
      var text := s0 + "." + "." + rest;
      assert text[|s0|] == '.' && text[..|s0|] == s0;
      IndexOfAt(text, '.', |s0|);
      assert text[|s0| + 1..] == "." + rest;
      match Get(node, s0)
      case None =>
      case Some(child) => LeadingDot(child, rest);
    } else {
      var text := s0 + "." + (Join(segs[1..]) + "." + "." + rest);
      assert text == Join(segs) + "." + "." + rest;
      assert text[|s0|] == '.' && text[..|s0|] == s0;
      IndexOfAt(text, '.', |s0|);
      assert text[|s0| + 1..] == Join(segs[1..]) + "." + "." + rest;
      match Get(node, s0)
      case None =>
      case Some(child) => EmptyInteriorSegment(child, segs[1..], rest);
    }
  }

  /**
   * `ui_i18n_get`: the text of the node when it is a non-empty string,
   * otherwise the fallback, otherwise "".
   */
  function Translate(root: Option<Value>, key: Option<string>, fallback: Option<string>): (r: string)
    ensures var n := LookupPath(root, key);
      n.Some? && n.value.Str? && n.value.s != "" ==> r == n.value.s
    ensures var n := LookupPath(root, key);
      !(n.Some? && n.value.Str? && n.value.s != "") ==> r == (if fallback.Some? then fallback.value else "")
  {
    var n := LookupPath(root, key);
    if n.Some? && n.value.Str? && n.value.s != "" then n.value.s
    else if fallback.Some? then fallback.value else ""
  }

  // ---------------------------------------------------------------------------
  // Init and reset.

  /** `s_translation_root` (absent after reset) and `s_language`. */
  datatype State = State(root: Option<Value>, language: string)

  /** `ui_i18n_parse_object_or_empty` after parsing: anything but an object becomes `{}`. */
  function ObjectOrEmpty(v: Value): (r: seq<Member>)
    ensures v.Obj? ==> r == v.members
    ensures !v.Obj? ==> r == []
  {
    if v.Obj? then v.members else []
  }

  /**
   * `ui_i18n_init`: the code is normalised, falling back to the default
   * language; its built-in table (English when it has none) is the base and
   * the custom translation stored for the code, if there is one, is merged
   * over it. `tables` gives each built-in table as parsed; `custom` is the
   * stored translation for the normalised code as parsed, absent when none
   * could be read.
   */
  function Init(code: Option<string>, maxLen: nat, defaultLanguage: string,
                tables: Builtin -> Value, custom: Option<Value>): (st: State)
    requires maxLen > 0
    ensures var n := NormalizeLanguageCode(code, maxLen, maxLen);
      st.language == (if n.Some? then n.value else Fit(defaultLanguage, maxLen))
    ensures |st.language| < maxLen
    ensures st.root.Some? && st.root.value.Obj?
  {
    var n := NormalizeLanguageCode(code, maxLen, maxLen);
    var normalized := if n.Some? then n.value else Fit(defaultLanguage, maxLen);
    var b := BuiltinTranslation(Some(normalized));
    var base := ObjectOrEmpty(tables(if b.Some? then b.value else English));
    var root := if custom.Some? then MergeMembers(base, ObjectOrEmpty(custom.value)) else base;
    State(Some(Obj(root)), Fit(normalized, maxLen))
  }

  /** Without a custom translation, a valid code without a built-in table reads the English one. */
  lemma InitUnknownLanguage(code: string, maxLen: nat, defaultLanguage: string, tables: Builtin -> Value)
    requires IsValidLanguageCode(code, maxLen) && code !in {"de", "en", "es"}
    ensures var st := Init(Some(code), maxLen, defaultLanguage, tables, None);
      st.language == code && st.root == Some(Obj(ObjectOrEmpty(tables(English))))
  {
    NormalizeValidCode(code, maxLen, maxLen);
  }

  /** An input that does not normalise selects the default language. */
  lemma InitInvalidCode(code: Option<string>, maxLen: nat, defaultLanguage: string,
                        tables: Builtin -> Value, custom: Option<Value>)
    requires maxLen > 0 && NormalizeLanguageCode(code, maxLen, maxLen).None?
    requires |defaultLanguage| < maxLen
    ensures Init(code, maxLen, defaultLanguage, tables, custom).language == defaultLanguage
  {
  }

  /**
   * A custom translation overrides the built-in one key by key: a top-level
   * key it carries resolves to the merged value, and every other key to the
   * built-in value.
   */
  lemma InitCustomOverrides(code: string, maxLen: nat, defaultLanguage: string,
                            tables: Builtin -> Value, custom: seq<Member>, k: string)
    requires IsValidLanguageCode(code, maxLen)
    requires var b := BuiltinTranslation(Some(code));
      UniqueKeys(ObjectOrEmpty(tables(if b.Some? then b.value else English))) && UniqueKeys(custom)
    ensures var b := BuiltinTranslation(Some(code));
      var base := ObjectOrEmpty(tables(if b.Some? then b.value else English));
      var st := Init(Some(code), maxLen, defaultLanguage, tables, Some(Obj(custom)));
      && (k != "" && HasKey(custom, k) ==> Get(st.root.value, k) == Some(MergedValue(Lookup(base, k), Lookup(custom, k).value)))
      && (k == "" || !HasKey(custom, k) ==> Get(st.root.value, k) == Lookup(base, k))
  {
    NormalizeValidCode(code, maxLen, maxLen);
    var b := BuiltinTranslation(Some(code));
    MergeMembersLookup(ObjectOrEmpty(tables(if b.Some? then b.value else English)), custom);
  }

  /** `ui_i18n_reset`: no table, the default language. */
  function Reset(maxLen: nat, defaultLanguage: string): (st: State)
    requires maxLen > 0
    ensures st.root.None? && st.language == Fit(defaultLanguage, maxLen)
  {
    State(None, Fit(defaultLanguage, maxLen))
  }

  /** After a reset every key reads as its fallback. */
  lemma ResetFallsBack(maxLen: nat, defaultLanguage: string, key: Option<string>, fallback: string)
    requires maxLen > 0
    ensures Translate(Reset(maxLen, defaultLanguage).root, key, Some(fallback)) == fallback
  {
  }
}

=== FILE: ui_pages.dfy ===
/**
 * The page registry behind the panel's navigation: adding pages, showing one
 * by index or id, stepping to the next with wrap-around, the split of the
 * extra pages into the nav bar's left and right groups, and the top bar's
 * date, time and status indicators.
 */
module UiPages {
  import opened Wrappers
  import opened CStr
  import opened PanelConfig

  datatype Page = Page(id: string, title: string)

  /** `s_pages`, `s_page_count` and `s_current_index` (-1 while nothing is shown). */
  datatype Registry = Registry(pages: seq<Page>, current: int)

  /** What the registry keeps: at most `maxPages` pages whose id and title fit their buffers. */
  predicate Valid(cfg: Config, titleSize: nat, r: Registry)
  {
    && |r.pages| <= cfg.maxPages
    && -1 <= r.current < |r.pages|
    && forall i :: 0 <= i < |r.pages| ==>
         |r.pages[i].id| < cfg.maxPageIdLen && |r.pages[i].title| < titleSize
  }

  /** `ui_pages_init`. */
  function Init(): (r: Registry)
    ensures r.pages == [] && r.current == -1
  {
    Registry([], -1)
  }

  /**
   * `ui_pages_add`: refused when the registry is full, the id is missing or
   * empty, or the pages have no content box yet; otherwise the page is
   * appended with its id and title cut to their buffers, the title
   * defaulting to the id.
   */
  function Add(cfg: Config, titleSize: nat, r: Registry, id: Option<string>, title: Option<string>, hasContentBox: bool)
    : (res: (Registry, bool))
    requires ValidConfig(cfg) && titleSize > 0
    ensures !res.1 ==> res.0 == r
    ensures res.1 <==> |r.pages| < cfg.maxPages && id.Some? && id.value != "" && hasContentBox
    ensures res.1 ==>
      && |res.0.pages| == |r.pages| + 1 && res.0.current == r.current && res.0.pages[..|r.pages|] == r.pages
      && res.0.pages[|r.pages|].id == Fit(id.value, cfg.maxPageIdLen)
      && res.0.pages[|r.pages|].title == Fit(if title.Some? && title.value != "" then title.value else id.value, titleSize)
    ensures Valid(cfg, titleSize, r) ==> Valid(cfg, titleSize, res.0)
  {
    if |r.pages| >= cfg.maxPages || id.None? || id.value == "" || !hasContentBox then (r, false)
    else
      var t := if title.Some? && title.value != "" then title.value else id.value;
      var page := Page(Fit(id.value, cfg.maxPageIdLen), Fit(t, titleSize));
      (Registry(r.pages + [page], r.current), true)
  }

  /** `ui_pages_show_index`: an index past the last page is refused and changes nothing. */
  function ShowIndex(r: Registry, index: int): (res: (Registry, bool))
    ensures res.1 <==> 0 <= index < |r.pages|
    ensures res.1 ==> res.0 == r.(current := index)
    ensures !res.1 ==> res.0 == r
  {
    if index < 0 || index >= |r.pages| then (r, false) else (r.(current := index), true)
  }

  /** The first page whose id matches under `strncmp` over the id buffer. */
  function FirstMatch(pages: seq<Page>, id: string, n: nat): (k: Option<nat>)
    ensures k.Some? ==> k.value < |pages| && SameUpTo(id, pages[k.value].id, n)
    ensures k.Some? ==> forall j :: 0 <= j < k.value ==> !SameUpTo(id, pages[j].id, n)
    ensures k.None? ==> forall j :: 0 <= j < |pages| ==> !SameUpTo(id, pages[j].id, n)
  {
    if |pages| == 0 then None
    else if SameUpTo(id, pages[0].id, n) then Some(0)
    else match FirstMatch(pages[1..], id, n)
      case None => None
      case Some(k) => Some(k + 1)
  }

  /** `ui_pages_show`: shows the first page with that id; no id, or no such page, is refused. */
  function Show(cfg: Config, r: Registry, id: Option<string>): (res: (Registry, bool))
    requires ValidConfig(cfg)
    ensures res.1 <==> id.Some? && exists i :: 0 <= i < |r.pages| && SameUpTo(id.value, r.pages[i].id, cfg.maxPageIdLen)
    ensures !res.1 ==> res.0 == r
    ensures res.1 ==>
      && 0 <= res.0.current < |r.pages| && res.0.pages == r.pages
      && SameUpTo(id.value, r.pages[res.0.current].id, cfg.maxPageIdLen)
      && forall j :: 0 <= j < res.0.current ==> !SameUpTo(id.value, r.pages[j].id, cfg.maxPageIdLen)
  {
    if id.None? then (r, false)
    else
      match FirstMatch(r.pages, id.value, cfg.maxPageIdLen)
      case None => (r, false)
      case Some(k) => ShowIndex(r, k)
  }

  /** A page added with an id that fits its buffer can then be shown by that id. */
  lemma AddThenShow(cfg: Config, titleSize: nat, r: Registry, id: string, title: Option<string>)
    requires ValidConfig(cfg) && titleSize > 0
    requires |r.pages| < cfg.maxPages && id != "" && |id| < cfg.maxPageIdLen
    ensures var added := Add(cfg, titleSize, r, Some(id), title, true).0;
      Show(cfg, added, Some(id)).1
  {
    var added := Add(cfg, titleSize, r, Some(id), title, true).0;
    assert added.pages[|r.pages|].id == id;
    assert SameUpTo(id, added.pages[|r.pages|].id, cfg.maxPageIdLen);
  }

  /** `ui_pages_next`: the page after the current one (the first when none is shown), wrapping around. */
  function Next(r: Registry): (res: (Registry, bool))
    requires -1 <= r.current < |r.pages|
    ensures res.1 <==> |r.pages| > 0
    ensures res.1 ==> var c := Max(r.current, 0) + 1;
      res.0 == r.(current := if c == |r.pages| then 0 else c)
    ensures !res.1 ==> res.0 == r
  {
    if |r.pages| == 0 then (r, false)
    else
      var c := (if r.current < 0 then 0 else r.current) + 1;
      WrapOnce(c, |r.pages|);
      ShowIndex(r, c % |r.pages|)
  }

  /** A successor index in `1..n` taken modulo `n` wraps only at `n`. */
  lemma WrapOnce(x: int, n: int)
    requires 0 < x <= n
    ensures x % n == (if x == n then 0 else x)
  {
  }

  /** `k` steps of `Next`. */
  function NextN(r: Registry, k: nat): (s: Registry)
    requires -1 <= r.current < |r.pages|
    ensures s.pages == r.pages && -1 <= s.current < |s.pages|
    decreases k
  {
    if k == 0 then r else NextN(Next(r).0, k - 1)
  }

  /** From a shown page, `k` steps forward (at most one round) land `k` pages further on, wrapping once. */
  lemma {:induction false} NextNAdvances(r: Registry, k: nat)
    requires 0 <= r.current < |r.pages| && k <= |r.pages|
    ensures var c := r.current + k;
      NextN(r, k).current == (if c < |r.pages| then c else c - |r.pages|)
    decreases k
  {
    if k > 0 {
      var r1 := Next(r).0;
      if r.current + 1 == |r.pages| {
        NextNFrom(r1, k - 1);
      } else {
        NextNAdvances(r1, k - 1);
      }
    }
  }

  /** From a shown page, steps that do not reach the end count straight up. */
  lemma {:induction false} NextNFrom(r: Registry, k: nat)
    requires 0 <= r.current && r.current + k < |r.pages|
    ensures NextN(r, k).current == r.current + k
    decreases k
  {
    if k > 0 {
      NextNFrom(Next(r).0, k - 1);
    }
  }

  /** Stepping through every page comes back to where it started. */
  lemma NextCycles(r: Registry)
    requires 0 <= r.current < |r.pages|
    ensures NextN(r, |r.pages|) == r
  {
    NextNAdvances(r, |r.pages|);
  }

  /** `ui_pages_current_id`: the shown page's id, or "" when nothing is shown. */
  function CurrentId(r: Registry): (id: string)
    ensures 0 <= r.current < |r.pages| ==> id == r.pages[r.current].id
    ensures !(0 <= r.current < |r.pages|) ==> id == ""
  {
    if r.current < 0 || r.current >= |r.pages| then "" else r.pages[r.current].id
  }

  /** Showing a page by index and reading the current id gives that page's id. */
  lemma ShowIndexThenCurrentId(r: Registry, index: int)
    requires 0 <= index < |r.pages|
    ensures CurrentId(ShowIndex(r, index).0) == r.pages[index].id
  {
  }

  // ---------------------------------------------------------------------------
  // Nav bar.

  const HomeWidth: int := 72
  const OuterMargin: int := 14
  const HomeGap: int := 12
  const SideGap: int := 8
  const MinSideWidth: int := 64

  /** The split `ui_pages_apply_tab_style` computes before placing buttons. */
  datatype Geometry = Geometry(
    homeX: int, leftStart: int, rightStart: int, leftCount: int, rightCount: int, leftW: int, rightW: int)

  /** The width of each of `count` buttons sharing a region with 8-pixel gaps, at least 64. */
  function SideWidth(region: int, count: int): (w: int)
    requires count > 0
    ensures w >= MinSideWidth
    ensures region >= count * MinSideWidth + (count - 1) * SideGap ==> count * w + (count - 1) * SideGap <= region
  {
    var w := CDiv(region - (count - 1) * SideGap, count);
    if w < MinSideWidth then MinSideWidth else w
  }

  /**
   * The home button is centred; the extra pages (all but the first) are
   * split into `(n + 1) / 2` on the left and `n / 2` on the right, each
   * side's buttons sharing its region between the margin and the home gap.
   */
  function NavGeometry(screenWidth: int, pageCount: nat): (g: Geometry)
    ensures var extra := if pageCount > 1 then pageCount - 1 else 0;
      g.leftCount + g.rightCount == extra && g.rightCount <= g.leftCount <= g.rightCount + 1
    ensures g.leftCount > 0 ==> g.leftW >= MinSideWidth
    ensures g.rightCount > 0 ==> g.rightW >= MinSideWidth
    ensures g.rightStart == g.homeX + HomeWidth + HomeGap && g.leftStart == OuterMargin
  {
    var homeX := CDiv(screenWidth - HomeWidth, 2);
    var extra := if pageCount > 1 then pageCount - 1 else 0;
    var leftCount := (extra + 1) / 2;
    var rightCount := extra / 2;
    var leftStart := OuterMargin;
    var leftEnd := homeX - HomeGap;
    var rightStart := homeX + HomeWidth + HomeGap;
    var rightEnd := screenWidth - OuterMargin;
    var leftRegion := if leftEnd > leftStart then leftEnd - leftStart else 0;
    var rightRegion := if rightEnd > rightStart then rightEnd - rightStart else 0;
    Geometry(homeX, leftStart, rightStart, leftCount, rightCount,
             if leftCount > 0 then SideWidth(leftRegion, leftCount) else 0,
             if rightCount > 0 then SideWidth(rightRegion, rightCount) else 0)
  }

  /** One extra nav button: the page it opens (`maxPages` when unused), its place, and its side. */
  datatype NavSlot = NavSlot(page: int, x: int, w: int, left: bool, hidden: bool)

  /**
   * Slot `s` shows page `s + 1`: on the left when `s` is even, counted from
   * the home button outwards, otherwise on the right counted onwards.
   */
  predicate Placed(g: Geometry, s: nat, slot: NavSlot)
  {
    && slot.page == s + 1 && (slot.left <==> s % 2 == 0)
    && (slot.left ==> slot.w == g.leftW && 0 <= g.leftCount - 1 - s / 2
                      && slot.x == g.leftStart + (g.leftCount - 1 - s / 2) * (g.leftW + SideGap))
    && (!slot.left ==> slot.w == g.rightW && s / 2 < g.rightCount
                       && slot.x == g.rightStart + (s / 2) * (g.rightW + SideGap))
  }

  /**
   * The button placement loop of `ui_pages_apply_tab_style`: page `i` goes
   * in slot `i - 1`, on the left when `i - 1` is even; left buttons fill
   * from the home button outwards, right buttons from the home button
   * onwards; unused slots are hidden and point at `maxPages`.
   */
  method NavLayout(screenWidth: int, pageCount: nat, maxPages: nat) returns (slots: seq<NavSlot>)
    requires maxPages > 0
    ensures |slots| == maxPages - 1
    ensures forall s :: 0 <= s < |slots| ==> (slots[s].hidden <==> s + 1 >= pageCount)
    ensures forall s :: 0 <= s < |slots| && slots[s].hidden ==> slots[s].page == maxPages
    ensures forall s :: 0 <= s < |slots| && !slots[s].hidden ==> Placed(NavGeometry(screenWidth, pageCount), s, slots[s])
  {
    var g := NavGeometry(screenWidth, pageCount);
    slots := [];
    var leftSlot, rightSlot := 0, 0;
    var pageIndex := 1;
    while pageIndex < pageCount && |slots| < maxPages - 1
      invariant 1 <= pageIndex <= Max(pageCount, 1) && |slots| == pageIndex - 1 <= maxPages - 1
      invariant leftSlot == pageIndex / 2 && rightSlot == (pageIndex - 1) / 2
      invariant forall s :: 0 <= s < |slots| ==> !slots[s].hidden && Placed(g, s, slots[s])
    {
      var slot := PlaceButton(g, pageCount, pageIndex, leftSlot, rightSlot);
      if slot.left {
        leftSlot := leftSlot + 1;
      } else {
        rightSlot := rightSlot + 1;
      }
      slots := slots + [slot];
      pageIndex := pageIndex + 1;
    }
    ghost var placed := slots;
    while |slots| < maxPages - 1
      invariant |placed| <= |slots| <= maxPages - 1 && slots[..|placed|] == placed
      invariant forall s :: |placed| <= s < |slots| ==> slots[s].hidden && slots[s].page == maxPages
      decreases maxPages - 1 - |slots|
    {
      slots := slots + [NavSlot(maxPages, 0, 0, false, true)];
    }
  }

  /** One pass of the placement loop: the button for `pageIndex`, from the side counters so far. */
  function PlaceButton(g: Geometry, pageCount: nat, pageIndex: nat, leftSlot: nat, rightSlot: nat): (slot: NavSlot)
    requires 1 <= pageIndex < pageCount
    requires var extra := pageCount - 1; g.leftCount + g.rightCount == extra && g.rightCount <= g.leftCount <= g.rightCount + 1
    requires leftSlot == pageIndex / 2 && rightSlot == (pageIndex - 1) / 2
    ensures !slot.hidden && Placed(g, pageIndex - 1, slot)
  {
    var s := pageIndex - 1;
    if s % 2 == 0 then
      var pos := g.leftCount - 1 - leftSlot;
      NavSlot(pageIndex, g.leftStart + pos * (g.leftW + SideGap), g.leftW, true, false)
    else
      NavSlot(pageIndex, g.rightStart + rightSlot * (g.rightW + SideGap), g.rightW, false, false)
  }

  // ---------------------------------------------------------------------------
  // Top bar.

  /** `"%02d.%02d.%04d"` of day, month (`tm_mon + 1`) and year (`tm_year + 1900`), in a 32-byte buffer. */
  function FormatDate(mday: int, mon: int, year: int): string
  {
    Fit(PadDec(mday, 2) + "." + PadDec(mon + 1, 2) + "." + PadDec(year + 1900, 4), 32)
  }

  /** `"%02d:%02d"` of hour and minute, in a 16-byte buffer. */
  function FormatTime(hour: int, min: int): string
  {
    Fit(PadDec(hour, 2) + ":" + PadDec(min, 2), 16)
  }

  /**
   * For any calendar time the date reads `DD.MM.YYYY`: the day, the month
   * counted from 1, and the full year can be read back from fixed positions.
   */
  lemma FormatDateFields(mday: int, mon: int, year: int)
    requires 1 <= mday <= 31 && 0 <= mon <= 11 && -1900 <= year <= 8099
    ensures var t := FormatDate(mday, mon, year);
      && |t| == 10 && t[2] == '.' && t[5] == '.'
      && (forall i :: 0 <= i < 10 && i != 2 && i != 5 ==> IsDigit(t[i]))
      && Digits2(t, 0) == mday && Digits2(t, 3) == mon + 1 && Digits2(t, 6) * 100 + Digits2(t, 8) == year + 1900
  {
    var n := year + 1900;
    PadDecTwo(mday);
    PadDecTwo(mon + 1);
    PadDecFour(n);
    var y := Dec4(n);
    var t := PadDec(mday, 2) + "." + PadDec(mon + 1, 2) + "." + y;
    assert FormatDate(mday, mon, year) == t;
    assert t[6..] == y;
    Dec4Value(n);
    assert Digits2(t, 6) == Digits2(y, 0) && Digits2(t, 8) == Digits2(y, 2);
  }

  /** The four digits of `%04d` read back, two at a time, as the number. */
  lemma Dec4Value(n: nat)
    requires n < 10000
    ensures Digits2(Dec4(n), 0) * 100 + Digits2(Dec4(n), 2) == n
  {
    var d := Dec4(n);
    assert Digits2(d, 0) == n / 1000 * 10 + n / 100 % 10;
    assert Digits2(d, 2) == n / 10 % 10 * 10 + n % 10;
    Dec4Arith(n);
  }

  /** The four decimal digits of `n`, recombined, give `n`. */
  lemma Dec4Arith(n: nat)
    requires n < 10000
    ensures (n / 1000 * 10 + n / 100 % 10) * 100 + (n / 10 % 10 * 10 + n % 10) == n
  {
    var h := n / 100;
    var t := n / 10;
    assert t / 10 == h;
    assert h / 10 == n / 1000;
    assert h == h / 10 * 10 + h % 10;
    assert t == h * 10 + t % 10;
    assert n == t * 10 + n % 10;
  }

  /** For any clock time the time reads `HH:MM`, both read back from fixed positions. */
  lemma FormatTimeFields(hour: int, min: int)
    requires 0 <= hour < 24 && 0 <= min < 60
    ensures var t := FormatTime(hour, min);
      && |t| == 5 && t[2] == ':' && IsDigit(t[0]) && IsDigit(t[1]) && IsDigit(t[3]) && IsDigit(t[4])
      && Digits2(t, 0) == hour && Digits2(t, 3) == min
  {
    PadDecTwo(hour);
    PadDecTwo(min);
  }

  datatype WifiIndicator = WifiAccessPoint | WifiConnected | WifiDisconnected
  datatype ApiIndicator = ApiSynced | ApiSyncing | ApiDisconnected

  /**
   * The Wi-Fi part of `ui_pages_set_topbar_status`: an active setup access
   * point is shown whether or not a network is joined; the "on" colour goes
   * with everything but the disconnected symbol.
   */
  function WifiStatus(connected: bool, setupApActive: bool): (w: WifiIndicator)
    ensures w == WifiAccessPoint <==> setupApActive
    ensures w == WifiConnected <==> connected && !setupApActive
    ensures w == WifiDisconnected <==> !connected && !setupApActive
  {
    if setupApActive then WifiAccessPoint else if connected then WifiConnected else WifiDisconnected
  }

  /** The Home Assistant part: synced or syncing while connected, closed otherwise. */
  function ApiStatus(connected: bool, initialSyncDone: bool): (a: ApiIndicator)
    ensures a == ApiDisconnected <==> !connected
    ensures a == ApiSynced <==> connected && initialSyncDone
  {
    if !connected then ApiDisconnected else if initialSyncDone then ApiSynced else ApiSyncing
  }
}

=== FILE: ui_runtime.dfy ===
/**
 * The renderer's side of a layout: the rect clamp applied to every widget it
 * builds, the conversion of a widget record, and which widgets an entity's
 * state update reaches.
 */
module UiRuntime {
  import opened Wrappers
  import opened CStr
  import opened Json
  import opened PanelConfig

  datatype Rect = Rect(x: int, y: int, w: int, h: int)

  /** `ui_runtime_clamp_widget_rect`: size into the type's limits, then position into the content box. */
  function ClampWidgetRect(cfg: Config, widgetType: Option<string>, r: Rect): (c: Rect)
    requires ValidConfig(cfg)
    ensures var l := WidgetSizeLimits(cfg, widgetType);
      && c.w <= l.maxW && c.h <= l.maxH
      && (l.minW <= l.maxW ==> l.minW <= c.w) && (l.minH <= l.maxH ==> l.minH <= c.h)
      && 0 <= c.x && c.x + c.w <= cfg.contentWidth && 0 <= c.y && c.y + c.h <= cfg.contentHeight
    ensures var l := WidgetSizeLimits(cfg, widgetType);
      l.minW <= r.w <= l.maxW && l.minH <= r.h <= l.maxH ==> c.w == r.w && c.h == r.h
    ensures 0 <= r.x && r.x + c.w <= cfg.contentWidth ==> c.x == r.x
    ensures 0 <= r.y && r.y + c.h <= cfg.contentHeight ==> c.y == r.y
  {
    var l := WidgetSizeLimits(cfg, widgetType);
    var w := Lower(Upper(r.w, l.minW), l.maxW);
    var h := Lower(Upper(r.h, l.minH), l.maxH);
    var x := if r.x < 0 then 0 else r.x;
    var y := if r.y < 0 then 0 else r.y;
    var x := if x + w > cfg.contentWidth then cfg.contentWidth - w else x;
    var y := if y + h > cfg.contentHeight then cfg.contentHeight - h else y;
    Rect(if x < 0 then 0 else x, if y < 0 then 0 else y, w, h)
  }

  /**
   * `ui_runtime_clamp_widget_rect` as written: the tests `x + w > width` and
   * `y + h > height` add two `int`s, which wrap round on 32-bit hardware.
   */
  function ClampWidgetRectAsWritten(cfg: Config, widgetType: Option<string>, r: Rect): (c: Rect)
    requires ValidConfig(cfg)
    ensures var l := WidgetSizeLimits(cfg, widgetType);
      0 < l.maxW && 0 < l.maxH && r.x <= IntMax - l.maxW && r.y <= IntMax - l.maxH ==>
        c == ClampWidgetRect(cfg, widgetType, r)
  {
    var l := WidgetSizeLimits(cfg, widgetType);
    var w := Lower(Upper(r.w, l.minW), l.maxW);
    var h := Lower(Upper(r.h, l.minH), l.maxH);
    var x := if r.x < 0 then 0 else r.x;
    var y := if r.y < 0 then 0 else r.y;
    var x := if Wrap32(x + w) > cfg.contentWidth then cfg.contentWidth - w else x;
    var y := if Wrap32(y + h) > cfg.contentHeight then cfg.contentHeight - h else y;
    Rect(if x < 0 then 0 else x, if y < 0 then 0 else y, w, h)
  }

  /**
   * A widget whose `x` is `1e12` reads as `INT_MAX`; `INT_MAX + 100` wraps
   * negative, so the written clamp leaves it at `INT_MAX`, far outside the
   * content box, where the intended clamp pulls it back to the right edge.
   */
  lemma ClampOverflowEscapes(cfg: Config)
    requires ValidConfig(cfg) && 640 <= cfg.contentWidth <= IntMax && 420 <= cfg.contentHeight <= IntMax
    ensures ClampWidgetRectAsWritten(cfg, None, Rect(ValueInt(1000000000000.0), 0, 100, 100)).x == IntMax
    ensures ClampWidgetRect(cfg, None, Rect(ValueInt(1000000000000.0), 0, 100, 100)).x == cfg.contentWidth - 100
  {
    assert ValueInt(1000000000000.0) == IntMax;
    assert WidgetSizeLimits(cfg, None) == SizeLimits(60, 60, cfg.contentWidth, cfg.contentHeight);
    assert Wrap32(IntMax + 100) == IntMin + 99;
  }

  /** `if (v < lo) v = lo`. */
  function Upper(v: int, lo: int): int { if v < lo then lo else v }

  /** `if (v > hi) v = hi`. */
  function Lower(v: int, hi: int): int { if v > hi then hi else v }

  /** Clamping a clamped rect changes nothing. */
  lemma ClampIdempotent(cfg: Config, widgetType: Option<string>, r: Rect)
    requires ValidConfig(cfg)
    ensures ClampWidgetRect(cfg, widgetType, ClampWidgetRect(cfg, widgetType, r)) == ClampWidgetRect(cfg, widgetType, r)
  {
  }

  /** The fields of `ui_widget_def_t` the model keeps. */
  datatype WidgetDef = WidgetDef(
    id: string, widgetType: string, title: string, entityId: string, secondaryEntityId: string,
    sliderDirection: string, sliderAccentColor: string, rect: Rect)

  /** The buffer sizes of `ui_widget_def_t` (the `type` field holds 16 bytes). */
  datatype DefSizes = DefSizes(id: nat, title: nat, entityId: nat, uiOption: nat, colorText: nat)

  predicate ValidSizes(z: DefSizes)
  {
    z.id > 0 && z.title > 0 && z.entityId > 0 && z.uiOption > 0 && z.colorText > 0
  }

  function OptText(v: Option<Value>, size: nat): string
    requires size > 0
  {
    if IsString(v) then Fit(v.value.s, size) else ""
  }

  /**
   * `ui_runtime_widget_from_json`: a widget record with string id, type and
   * entity id and a rect object of four numbers becomes a definition with
   * every text cut to its buffer and a clamped rect; anything else is refused.
   */
  function WidgetFromJson(cfg: Config, z: DefSizes, widget: Value): (r: Option<WidgetDef>)
    requires ValidConfig(cfg) && ValidSizes(z)
    ensures r.Some? <==>
      && IsString(Get(widget, "id")) && IsString(Get(widget, "type")) && IsString(Get(widget, "entity_id"))
      && IsObject(Get(widget, "rect"))
      && var rect := Get(widget, "rect").value;
         IsNumber(Get(rect, "x")) && IsNumber(Get(rect, "y")) && IsNumber(Get(rect, "w")) && IsNumber(Get(rect, "h"))
    ensures r.Some? ==>
      && r.value.id == Fit(Get(widget, "id").value.s, z.id)
      && r.value.title == Fit(if IsString(Get(widget, "title")) then Get(widget, "title").value.s else Get(widget, "id").value.s, z.title)
      && var l := WidgetSizeLimits(cfg, Some(r.value.widgetType));
         && 0 <= r.value.rect.x && r.value.rect.x + r.value.rect.w <= cfg.contentWidth
         && 0 <= r.value.rect.y && r.value.rect.y + r.value.rect.h <= cfg.contentHeight
         && r.value.rect.w <= l.maxW && r.value.rect.h <= l.maxH
  {
    var id, t, e, rect := Get(widget, "id"), Get(widget, "type"), Get(widget, "entity_id"), Get(widget, "rect");
    if !(IsString(id) && IsString(t) && IsString(e) && IsObject(rect)) then None
    else
      var x, y, w, h := Get(rect.value, "x"), Get(rect.value, "y"), Get(rect.value, "w"), Get(rect.value, "h");
      if !(IsNumber(x) && IsNumber(y) && IsNumber(w) && IsNumber(h)) then None
      else
        var title := Get(widget, "title");
        var widgetType := Fit(t.value.s, 16);
        Some(WidgetDef(
          Fit(id.value.s, z.id), widgetType,
          Fit(if IsString(title) then title.value.s else id.value.s, z.title),
          Fit(e.value.s, z.entityId), OptText(Get(widget, "secondary_entity_id"), z.entityId),
          OptText(Get(widget, "slider_direction"), z.uiOption), OptText(Get(widget, "slider_accent_color"), z.colorText),
          ClampWidgetRect(cfg, Some(widgetType), Rect(ValueInt(x.value.n), ValueInt(y.value.n), ValueInt(w.value.n), ValueInt(h.value.n)))))
  }

  /** What a state update does to one widget. */
  datatype Action = Untouched | ApplyState | MarkUnavailable

  /** The binding of a built widget: its primary and (possibly empty) secondary entity. */
  datatype Binding = Binding(entityId: string, secondaryEntityId: string)

  /**
   * `ui_runtime_apply_entity_state_ex` for one widget: a widget bound to the
   * entity, as primary or as non-empty secondary, receives the state when
   * there is one; a missing state marks only primary-bound widgets
   * unavailable, and only when asked to.
   */
  function ActionFor(b: Binding, entityId: string, found: bool, markMissing: bool, maxLen: nat): (a: Action)
    ensures entityId == "" ==> a == Untouched
    ensures a == ApplyState <==>
      entityId != "" && found && (SameUpTo(entityId, b.entityId, maxLen)
                                  || (b.secondaryEntityId != "" && SameUpTo(entityId, b.secondaryEntityId, maxLen)))
    ensures a == MarkUnavailable <==> entityId != "" && !found && markMissing && SameUpTo(entityId, b.entityId, maxLen)
  {
    if entityId == "" then Untouched
    else
      var primary := SameUpTo(entityId, b.entityId, maxLen);
      var secondary := b.secondaryEntityId != "" && SameUpTo(entityId, b.secondaryEntityId, maxLen);
      if !primary && !secondary then Untouched
      else if found then ApplyState
      else if primary && markMissing then MarkUnavailable
      else Untouched
  }

  /** The update applied to every built widget, in order. */
  function ApplyEntityState(widgets: seq<Binding>, entityId: string, found: bool, markMissing: bool, maxLen: nat)
    : (r: seq<Action>)
    ensures |r| == |widgets|
    ensures forall i :: 0 <= i < |widgets| ==> r[i] == ActionFor(widgets[i], entityId, found, markMissing, maxLen)
  {
    seq(|widgets|, i requires 0 <= i < |widgets| => ActionFor(widgets[i], entityId, found, markMissing, maxLen))
  }

  /** Preserving missing states never marks a widget unavailable; it only withholds marks. */
  lemma PreserveMissingOnlyWithholds(widgets: seq<Binding>, entityId: string, found: bool, maxLen: nat)
    ensures forall i :: 0 <= i < |widgets| ==>
      && ApplyEntityState(widgets, entityId, found, false, maxLen)[i] != MarkUnavailable
      && (ApplyEntityState(widgets, entityId, found, false, maxLen)[i] == ApplyEntityState(widgets, entityId, found, true, maxLen)[i]
          || ApplyEntityState(widgets, entityId, found, true, maxLen)[i] == MarkUnavailable)
  {
  }
}

=== FILE: weather_tile.dfy ===
/**
 * The text and integer logic of the weather tile: condition keys and their
 * display form, the icon code point of a condition and its UTF-8 bytes
 * (section 3 of RFC 3629), forecast dates and weekdays, the three-day rows'
 * flags and the three-day row layout.
 */
module WeatherTile {
  import opened Wrappers
  import opened CStr

  // ---------------------------------------------------------------------------
  // Condition keys.

  function KeyChar(c: char): char
  {
    var d := if c == ' ' || c == '_' then '-' else c;
    ToLower(d)
  }

  /**
   * `weather_normalize_condition_key`: spaces and underscores become `-`,
   * ASCII capitals become small, and the text is cut to the buffer. Nothing
   * is written into a zero-sized buffer.
   */
  function NormalizeConditionKey(src: string, size: nat): (r: Option<string>)
    ensures r.None? <==> size == 0
    ensures r.Some? ==> |r.value| == Min(|src|, size - 1)
    ensures r.Some? ==> forall i :: 0 <= i < |r.value| ==> r.value[i] == KeyChar(src[i])
    ensures r.Some? ==> forall i :: 0 <= i < |r.value| ==> r.value[i] !in " _" && !IsUpper(r.value[i])
  {
    if size == 0 then None
    else
      var kept := Fit(src, size);
      Some(seq(|kept|, i requires 0 <= i < |kept| => KeyChar(kept[i])))
  }

  /** A normalised key normalises to itself. */
  lemma NormalizeIdempotent(src: string, size: nat)
    requires size > 0
    ensures NormalizeConditionKey(NormalizeConditionKey(src, size).value, size) == NormalizeConditionKey(src, size)
  {
    var k := NormalizeConditionKey(src, size).value;
    assert Fit(k, size) == k;
    var r := NormalizeConditionKey(k, size).value;
    assert |r| == |k|;
    forall i | 0 <= i < |k|
      ensures r[i] == k[i]
    {
      assert k[i] == KeyChar(src[i]);
    }
    assert r == k;
  }

  /** The separators of a condition name. */
  function Spaced(c: char): char
  {
    if c == '_' || c == '-' then ' ' else c
  }

  /**
   * `weather_humanize_condition`: separators become spaces and the first
   * letter of the text and of every word is capitalised; an empty condition
   * reads "--". Nothing is written into a zero-sized buffer.
   */
  method HumanizeCondition(src: string, size: nat) returns (r: Option<string>)
    ensures r.None? <==> size == 0
    ensures r.Some? && src == "" ==> r.value == Fit("--", size)
    ensures r.Some? && src != "" ==> |r.value| == Min(|src|, size - 1)
    ensures r.Some? && src != "" ==> forall i :: 0 <= i < |r.value| ==>
      r.value[i] == (if (i == 0 || Spaced(src[i - 1]) == ' ') then ToUpper(Spaced(src[i])) else Spaced(src[i]))
  {
    if size == 0 {
      return None;
    }
    if src == "" {
      return Some(Fit("--", size));
    }
    var out: string := [];
    var upperNext := true;
    var i := 0;
    while i < |src| && |out| + 1 < size
      invariant 0 <= i <= |src| && |out| == i && i <= size - 1
      invariant upperNext <==> (i == 0 || Spaced(src[i - 1]) == ' ')
      invariant forall j :: 0 <= j < i ==>
        out[j] == (if (j == 0 || Spaced(src[j - 1]) == ' ') then ToUpper(Spaced(src[j])) else Spaced(src[j]))
    {
      var c := Spaced(src[i]);
      if upperNext && IsLower(c) {
        c := ToUpper(c);
      }
      assert c == (if (i == 0 || Spaced(src[i - 1]) == ' ') then ToUpper(Spaced(src[i])) else Spaced(src[i]));
      assert c == ' ' <==> Spaced(src[i]) == ' ';
      out := out + [c];
      upperNext := c == ' ';
      i := i + 1;
    }
    return Some(out);
  }

  // ---------------------------------------------------------------------------
  // Icons.

  const CpCloudy: nat := 0xF0590
  const CpFog: nat := 0xF0591
  const CpHail: nat := 0xF0592
  const CpLightning: nat := 0xF0593
  const CpNight: nat := 0xF0594
  const CpPartlyCloudy: nat := 0xF0595
  const CpPouring: nat := 0xF0596
  const CpRainy: nat := 0xF0597
  const CpSnowy: nat := 0xF0598
  const CpSunny: nat := 0xF0599
  const CpSunset: nat := 0xF059A
  const CpWindy: nat := 0xF059D
  const CpWindyVariant: nat := 0xF059E
  const CpLightningRainy: nat := 0xF067E
  const CpSnowyRainy: nat := 0xF067F
  const CpHurricane: nat := 0xF0898
  const CpNightPartlyCloudy: nat := 0xF0F31
  const CpPartlyLightning: nat := 0xF0F32
  const CpPartlyRainy: nat := 0xF0F33
  const CpPartlySnowy: nat := 0xF0F34
  const CpPartlySnowyRainy: nat := 0xF0F35
  const CpSnowyHeavy: nat := 0xF0F36
  const CpTornado: nat := 0xF0F38

  /** `weather_has_token`: a substring test. */
  predicate Has(key: string, token: string)
  {
    Contains(key, token)
  }

  /**
   * `weather_icon_codepoint_for_key`: two exact names first, then the
   * tokens in a fixed priority order; 0 when no token matches.
   */
  function IconCodepointForKey(key: string): (cp: nat)
    ensures key == "clear-night" ==> cp == CpNight
    ensures key == "partlycloudy" || key == "partly-cloudy" ==> cp == CpPartlyCloudy
    ensures key != "clear-night" && key != "partlycloudy" && key != "partly-cloudy" && Has(key, "tornado") ==> cp == CpTornado
    ensures cp == 0 <==>
      key != "clear-night" && key != "partlycloudy" && key != "partly-cloudy"
      && forall t :: t in IconTokens ==> !Has(key, t)
    ensures cp in IconCodepoints || cp == 0
  {
    if key == "" then (assert !Has(key, "cloud") by { assert !OccursAt(key, "cloud", 0); } 0)
    else if key == "clear-night" then CpNight
    else if key == "partlycloudy" || key == "partly-cloudy" then CpPartlyCloudy
    else if Has(key, "tornado") then CpTornado
    else if Has(key, "hurricane") then CpHurricane
    else if Has(key, "lightning") && Has(key, "rain") then CpLightningRainy
    else if Has(key, "partly") && Has(key, "lightning") then CpPartlyLightning
    else if Has(key, "lightning") then CpLightning
    else if Has(key, "hail") then CpHail
    else if Has(key, "fog") || Has(key, "hazy") || Has(key, "mist") then CpFog
    else if Has(key, "partly") && Has(key, "snow") && Has(key, "rain") then CpPartlySnowyRainy
    else if Has(key, "partly") && Has(key, "snow") then CpPartlySnowy
    else if Has(key, "snow") && Has(key, "rain") then CpSnowyRainy
    else if Has(key, "snow") && Has(key, "heavy") then CpSnowyHeavy
    else if Has(key, "snow") then CpSnowy
    else if Has(key, "partly") && Has(key, "rain") then CpPartlyRainy
    else if Has(key, "pouring") then CpPouring
    else if Has(key, "rain") then CpRainy
    else if Has(key, "night") && Has(key, "partly") then CpNightPartlyCloudy
    else if Has(key, "night") then CpNight
    else if Has(key, "sunset") then CpSunset
    else if Has(key, "sunny") || Has(key, "clear") then CpSunny
    else if Has(key, "wind") && Has(key, "variant") then CpWindyVariant
    else if Has(key, "wind") then CpWindy
    else if Has(key, "partly") then CpPartlyCloudy
    else if Has(key, "cloud") then CpCloudy
    else 0
  }

  /** The tokens that can select an icon on their own. */
  const IconTokens: set<string> :=
    {"tornado", "hurricane", "lightning", "hail", "fog", "hazy", "mist", "snow", "pouring", "rain",
     "night", "sunset", "sunny", "clear", "wind", "partly", "cloud"}

  const IconCodepoints: set<nat> :=
    {CpCloudy, CpFog, CpHail, CpLightning, CpNight, CpPartlyCloudy, CpPouring, CpRainy, CpSnowy, CpSunny,
     CpSunset, CpWindy, CpWindyVariant, CpLightningRainy, CpSnowyRainy, CpHurricane, CpNightPartlyCloudy,
     CpPartlyLightning, CpPartlyRainy, CpPartlySnowy, CpPartlySnowyRainy, CpSnowyHeavy, CpTornado}

  /**
   * `weather_icon_utf8_from_codepoint` for a 32-bit code point: one to four
   * bytes by the ranges of section 3 of RFC 3629.
   */
  function Utf8FromCodepoint(cp: nat): (b: seq<nat>)
    requires cp < 0x1_0000_0000
    ensures 1 <= |b| <= 4 && forall i :: 0 <= i < |b| ==> b[i] < 256
    ensures |b| == 1 <==> cp <= 0x7F
    ensures |b| == 2 <==> 0x7F < cp <= 0x7FF
    ensures |b| == 3 <==> 0x7FF < cp <= 0xFFFF
    ensures forall i :: 1 <= i < |b| ==> 0x80 <= b[i] < 0xC0
  {
    if cp <= 0x7F then [cp]
    else if cp <= 0x7FF then [0xC0 + (cp / 64) % 32, 0x80 + cp % 64]
    else if cp <= 0xFFFF then [0xE0 + (cp / 4096) % 16, 0x80 + (cp / 64) % 64, 0x80 + cp % 64]
    else [0xF0 + (cp / 262144) % 8, 0x80 + (cp / 4096) % 64, 0x80 + (cp / 64) % 64, 0x80 + cp % 64]
  }

  predicate Continuation(x: nat)
  {
    0x80 <= x < 0xC0
  }

  /** The strict decoder of section 3 of RFC 3629: shortest forms only, no surrogates, at most U+10FFFF. */
  function DecodeUtf8(b: seq<nat>): Option<nat>
  {
    if |b| == 1 && b[0] < 0x80 then Some(b[0])
    else if |b| == 2 && 0xC2 <= b[0] <= 0xDF && Continuation(b[1]) then
      Some((b[0] - 0xC0) * 64 + (b[1] - 0x80))
    else if |b| == 3 && 0xE0 <= b[0] <= 0xEF && Continuation(b[1]) && Continuation(b[2]) then
      var v := ((b[0] - 0xE0) * 64 + (b[1] - 0x80)) * 64 + (b[2] - 0x80);
      if v < 0x800 || (0xD800 <= v <= 0xDFFF) then None else Some(v)
    else if |b| == 4 && 0xF0 <= b[0] <= 0xF4 && Continuation(b[1]) && Continuation(b[2]) && Continuation(b[3]) then
      var v := (((b[0] - 0xF0) * 64 + (b[1] - 0x80)) * 64 + (b[2] - 0x80)) * 64 + (b[3] - 0x80);
      if v < 0x10000 || v > 0x10FFFF then None else Some(v)
    else None
  }

  /** Every Unicode scalar value survives encoding and strict decoding. */
  lemma Utf8RoundTrip(cp: nat)
    requires cp <= 0x10FFFF && !(0xD800 <= cp <= 0xDFFF)
    ensures DecodeUtf8(Utf8FromCodepoint(cp)) == Some(cp)
  {
    if cp > 0x7F && cp <= 0x7FF {
      Utf8TwoBytes(cp);
    } else if cp > 0x7FF && cp <= 0xFFFF {
      Utf8ThreeBytes(cp);
    } else if cp > 0xFFFF {
      Utf8FourBytes(cp);
    }
  }

  lemma Utf8TwoBytes(cp: nat)
    requires 0x7F < cp <= 0x7FF
    ensures DecodeUtf8(Utf8FromCodepoint(cp)) == Some(cp)
  {
    var q1 := cp / 64;
    assert cp == q1 * 64 + cp % 64;
    assert 2 <= q1 < 32 && q1 % 32 == q1;
  }

  lemma Utf8ThreeBytes(cp: nat)
    requires 0x7FF < cp <= 0xFFFF && !(0xD800 <= cp <= 0xDFFF)
    ensures DecodeUtf8(Utf8FromCodepoint(cp)) == Some(cp)
  {
    var q1 := cp / 64;
    var q2 := cp / 4096;
    assert cp == q1 * 64 + cp % 64;
    assert q1 == q2 * 64 + q1 % 64;
    assert q2 < 16 && q2 % 16 == q2;
    var b := Utf8FromCodepoint(cp);
    assert b == [0xE0 + q2, 0x80 + q1 % 64, 0x80 + cp % 64];
    assert cp == (q2 * 64 + q1 % 64) * 64 + cp % 64;
  }

  lemma Utf8FourBytes(cp: nat)
    requires 0xFFFF < cp <= 0x10FFFF
    ensures DecodeUtf8(Utf8FromCodepoint(cp)) == Some(cp)
  {
    var q1 := cp / 64;
    var q2 := cp / 4096;
    var q3 := cp / 262144;
    assert cp == q1 * 64 + cp % 64;
    assert q1 == q2 * 64 + q1 % 64;
    assert q2 == q3 * 64 + q2 % 64;
    assert q3 <= 4 && q3 % 8 == q3;
    var b := Utf8FromCodepoint(cp);
    assert b == [0xF0 + q3, 0x80 + q2 % 64, 0x80 + q1 % 64, 0x80 + cp % 64];
    assert cp == ((q3 * 64 + q2 % 64) * 64 + q1 % 64) * 64 + cp % 64;
  }

  // ---------------------------------------------------------------------------
  // Dates.

  datatype Ymd = Ymd(year: int, month: int, day: int)

  /** The first ten characters look like `YYYY-MM-DD`. */
  predicate DateShape(s: string)
  {
    |s| >= 10 && s[4] == '-' && s[7] == '-'
    && forall i :: 0 <= i < 10 && i != 4 && i != 7 ==> IsDigit(s[i])
  }

  /**
   * `weather_parse_ymd`: a `YYYY-MM-DD` prefix with month 1..12 and day
   * 1..31 (the day is not checked against the month).
   */
  function ParseYmd(s: string): (r: Option<Ymd>)
    ensures r.Some? <==> DateShape(s) && 1 <= Digits2(s, 5) <= 12 && 1 <= Digits2(s, 8) <= 31
    ensures r.Some? ==> r.value == Ymd(Digits2(s, 0) * 100 + Digits2(s, 2), Digits2(s, 5), Digits2(s, 8))
    ensures r.Some? ==> 0 <= r.value.year <= 9999
  {
    if |s| < 10 || s[4] != '-' || s[7] != '-' then None
    else if exists i :: 0 <= i < 10 && i != 4 && i != 7 && !IsDigit(s[i]) then None
    else
      var y := Digits2(s, 0) * 100 + Digits2(s, 2);
      var m := Digits2(s, 5);
      var d := Digits2(s, 8);
      if m < 1 || m > 12 || d < 1 || d > 31 then None else Some(Ymd(y, m, d))
  }

  /** The `YYYY-MM-DD` spelling of a date. */
  function FormatYmd(d: Ymd): string
    requires 0 <= d.year <= 9999 && 1 <= d.month <= 12 && 1 <= d.day <= 31
  {
    Dec4(d.year) + "-" + [DigitChar(d.month / 10), DigitChar(d.month % 10)] + "-"
      + [DigitChar(d.day / 10), DigitChar(d.day % 10)]
  }

  /** Parsing a written date (followed by anything, such as a time) gives the date back. */
  lemma ParseFormatYmd(d: Ymd, rest: string)
    requires 0 <= d.year <= 9999 && 1 <= d.month <= 12 && 1 <= d.day <= 31
    ensures ParseYmd(FormatYmd(d) + rest) == Some(d)
  {
    var s := FormatYmd(d) + rest;
    FormattedFields(d, rest);
    assert Digits2(s, 0) * 100 + Digits2(s, 2) == d.year;
  }

  /** The fields of a written date, read back as two-digit groups. */
  lemma FormattedFields(d: Ymd, rest: string)
    requires 0 <= d.year <= 9999 && 1 <= d.month <= 12 && 1 <= d.day <= 31
    ensures var s := FormatYmd(d) + rest;
      && DateShape(s)
      && Digits2(s, 0) * 100 + Digits2(s, 2) == d.year
      && Digits2(s, 5) == d.month && Digits2(s, 8) == d.day
  {
    var s := FormatYmd(d) + rest;
    assert s[4] == '-' && s[7] == '-';
    assert forall i :: 0 <= i < 10 && i != 4 && i != 7 ==> IsDigit(s[i]);
    assert Digits2(s, 0) == d.year / 1000 * 10 + d.year / 100 % 10;
    assert Digits2(s, 2) == d.year / 10 % 10 * 10 + d.year % 10;
    FourDigits(d.year);
  }

  lemma FourDigits(y: nat)
    requires y < 10000
    ensures (y / 1000 * 10 + y / 100 % 10) * 100 + (y / 10 % 10 * 10 + y % 10) == y
  {
    assert y / 100 == y / 1000 * 10 + y / 100 % 10;
    assert y / 10 == y / 100 * 10 + y / 10 % 10;
    assert y == y / 10 * 10 + y % 10;
  }

  /** Sakamoto's month table. */
  function MonthKey(month: int): int
    requires 1 <= month <= 12
  {
    [0, 3, 2, 5, 0, 3, 5, 1, 4, 6, 2, 4][month - 1]
  }

  /** `weather_weekday_from_ymd` as written, with C's truncating `/` and `%` (0 is Sunday). */
  function WeekdayAsWritten(year: int, month: int, day: int): int
    requires 1 <= month <= 12
  {
    var y := if month < 3 then year - 1 else year;
    CMod(y + CDiv(y, 4) - CDiv(y, 100) + CDiv(y, 400) + MonthKey(month) + day, 7)
  }

  /** Sakamoto's method with floor division, which the method assumes. */
  function Weekday(year: int, month: int, day: int): (w: int)
    requires 1 <= month <= 12
    ensures 0 <= w < 7
  {
    var y := if month < 3 then year - 1 else year;
    (y + y / 4 - y / 100 + y / 400 + MonthKey(month) + day) % 7
  }

  // The reference calendar: days counted from 1 March of year 0, years starting in March.

  predicate Leap(y: int)
  {
    y % 4 == 0 && (y % 100 != 0 || y % 400 == 0)
  }

  /** Length of the March-based year that starts in March of `y`; its February is in `y + 1`. */
  function MarchYearLength(y: int): nat
  {
    if Leap(y + 1) then 366 else 365
  }

  /** Days from 1 March of year 0 to 1 March of year `y`. */
  function DaysToMarch(y: int): int
    decreases if y >= 0 then y else -y
  {
    if y == 0 then 0
    else if y > 0 then DaysToMarch(y - 1) + MarchYearLength(y - 1)
    else DaysToMarch(y + 1) - MarchYearLength(y)
  }

  /** Days from 1 March to the first of each month of a March-based year. */
  function DaysToMonth(month: int): nat
    requires 1 <= month <= 12
  {
    [306, 337, 0, 31, 61, 92, 122, 153, 184, 214, 245, 275][month - 1]
  }

  /** The day number of a date: consecutive dates have consecutive numbers. */
  function DayNumber(year: int, month: int, day: int): int
    requires 1 <= month <= 12
  {
    DaysToMarch(if month < 3 then year - 1 else year) + DaysToMonth(month) + day - 1
  }

  /** The proleptic Gregorian weekday (0 is Sunday): 1 March of year 0, day number 0, was a Wednesday. */
  function ReferenceWeekday(year: int, month: int, day: int): int
    requires 1 <= month <= 12
  {
    (DayNumber(year, month, day) + 3) % 7
  }

  /** The reference calendar puts 1 January 2000 on a Saturday. */
  lemma ReferenceEpoch(year: int)
    requires year == 2000
    ensures ReferenceWeekday(year, 1, 1) == 6
  {
    DaysToMarchClosed(year - 1);
  }

  lemma {:induction false} DaysToMarchClosed(y: int)
    ensures DaysToMarch(y) == 365 * y + y / 4 - y / 100 + y / 400
    decreases if y >= 0 then y else -y
  {
    if y > 0 {
      DaysToMarchClosed(y - 1);
      LeapSteps(y - 1);
    } else if y < 0 {
      DaysToMarchClosed(y + 1);
      LeapSteps(y);
    }
  }

  /** How the floor quotients step from one year to the next. */
  lemma LeapSteps(y: int)
    ensures (y + 1) / 4 - y / 4 == (if (y + 1) % 4 == 0 then 1 else 0)
    ensures (y + 1) / 100 - y / 100 == (if (y + 1) % 100 == 0 then 1 else 0)
    ensures (y + 1) / 400 - y / 400 == (if (y + 1) % 400 == 0 then 1 else 0)
    ensures MarchYearLength(y) == 365 + (y + 1) / 4 - y / 4 - ((y + 1) / 100 - y / 100) + (y + 1) / 400 - y / 400
  {
  }

  /** Sakamoto's method with floor division gives the reference weekday for every date. */
  lemma WeekdayIsReference(year: int, month: int, day: int)
    requires 1 <= month <= 12
    ensures Weekday(year, month, day) == ReferenceWeekday(year, month, day)
  {
    var y := if month < 3 then year - 1 else year;
    DaysToMarchClosed(y);
    var s := y + y / 4 - y / 100 + y / 400 + MonthKey(month) + day;
    var n := DayNumber(year, month, day);
    assert n == 365 * y + y / 4 - y / 100 + y / 400 + DaysToMonth(month) + day - 1;
    MonthKeyResidue(month);
    assert s - (n + 3) == 7 * (-52 * y) + (MonthKey(month) - DaysToMonth(month) - 2);
    SameResidue(s, n + 3);
  }

  /** Sakamoto's table is the days before each month, shifted by two, modulo seven. */
  lemma MonthKeyResidue(month: int)
    requires 1 <= month <= 12
    ensures (MonthKey(month) - DaysToMonth(month) - 2) % 7 == 0
  {
  }

  lemma SameResidue(a: int, b: int)
    requires (a - b) % 7 == 0
    ensures a % 7 == b % 7
  {
    var k := (a - b) / 7;
    assert a - b == 7 * k;
    assert a == b + 7 * k;
  }

  /** For every year from 1 on, and for March onwards of year 0, truncation does not matter. */
  lemma AsWrittenAgrees(year: int, month: int, day: int)
    requires 1 <= month <= 12 && year >= 0 && day >= 1 && (year >= 1 || month >= 3)
    ensures WeekdayAsWritten(year, month, day) == Weekday(year, month, day)
  {
  }

  /** January 1 of year 0 was a Saturday; the code as written calls it a Sunday. */
  lemma AsWrittenYearZero()
    ensures WeekdayAsWritten(0, 1, 1) == 0
    ensures Weekday(0, 1, 1) == 6
  {
    var y := -1;
    assert MonthKey(1) == 0;
    assert CDiv(y, 4) == 0 && CDiv(y, 100) == 0 && CDiv(y, 400) == 0;
    assert WeekdayAsWritten(0, 1, 1) == CMod(0, 7) == 0;
    assert y / 4 == -1 && y / 100 == -1 && y / 400 == -1;
    assert Weekday(0, 1, 1) == (-1) % 7 == 6;
  }

  /** `weather_datetime_is_today`, with the local date as a parameter. */
  function DatetimeIsToday(datetime: string, today: Ymd): (r: bool)
    ensures r <==> ParseYmd(datetime) == Some(today)
  {
    match ParseYmd(datetime)
    case None => false
    case Some(d) => d.year == today.year && d.month == today.month && d.day == today.day
  }

  const WeekdayNames: seq<string> := ["Sun", "Mon", "Tue", "Wed", "Thu", "Fri", "Sat"]

  /** `weather_day_from_datetime` as written: the short weekday name, or "--" for an unreadable date. */
  function DayFromDatetimeAsWritten(datetime: string): (r: string)
    ensures ParseYmd(datetime).None? ==> r == "--"
    ensures r == "--" || r in WeekdayNames
  {
    match ParseYmd(datetime)
    case None => "--"
    case Some(d) =>
      var w := WeekdayAsWritten(d.year, d.month, d.day);
      if w < 0 || w > 6 then "--" else WeekdayNames[w]
  }

  /** The day name the tile shows, using the corrected weekday. */
  function DayFromDatetime(datetime: string): (r: string)
    ensures ParseYmd(datetime).None? <==> r == "--"
    ensures ParseYmd(datetime).Some? ==>
      var d := ParseYmd(datetime).value;
      r == WeekdayNames[ReferenceWeekday(d.year, d.month, d.day)]
  {
    match ParseYmd(datetime)
    case None => "--"
    case Some(d) =>
      WeekdayIsReference(d.year, d.month, d.day);
      WeekdayNames[Weekday(d.year, d.month, d.day)]
  }

  /** The as-written day name differs from the true one exactly on dates in January and February of year 0. */
  lemma DayNameCounterexample()
    ensures DayFromDatetimeAsWritten("0000-01-01") == "Sun"
    ensures DayFromDatetime("0000-01-01") == "Sat"
  {
    var s := "0000-01-01";
    assert DateShape(s);
    assert Digits2(s, 0) == 0 && Digits2(s, 2) == 0 && Digits2(s, 5) == 1 && Digits2(s, 8) == 1;
    assert ParseYmd(s) == Some(Ymd(0, 1, 1));
    AsWrittenYearZero();
  }

  // ---------------------------------------------------------------------------
  // The three-day rows (temperatures are an abstract type `T`).

  datatype Forecast<T> = Forecast(valid: bool, day: string, conditionKey: string,
                                  hasLow: bool, hasHigh: bool, low: T, high: T)

  datatype Values<T> = Values(
    conditionKey: string, todayConditionKey: string, hasTemp: bool, temp: T,
    todayHasLow: bool, todayLow: T, todayHasHigh: bool, todayHigh: T, forecast: seq<Forecast<T>>)

  datatype Row<T> = Row(valid: bool, day: string, conditionKey: string, hasLow: bool, low: T,
                        hasHigh: bool, high: T, hasPoint: bool, point: T)

  /** A row that knows one bound uses it for the other as well. */
  function Complete<T>(r: Row<T>): (c: Row<T>)
    ensures c.hasLow == c.hasHigh == (r.hasLow || r.hasHigh)
    ensures c.valid == r.valid && c.day == r.day && c.conditionKey == r.conditionKey && c.hasPoint == r.hasPoint
    ensures r.hasLow ==> c.low == r.low
    ensures r.hasHigh ==> c.high == r.high
    ensures r.hasLow && !r.hasHigh ==> c.high == r.low
    ensures !r.hasLow && r.hasHigh ==> c.low == r.high
  {
    if r.hasLow && !r.hasHigh then r.(hasHigh := true, high := r.low)
    else if !r.hasLow && r.hasHigh then r.(hasLow := true, low := r.high)
    else r
  }

  /**
   * `weather_build_3day_rows`: row 0 is "Now" with today's bounds, falling
   * back to the current temperature; rows 1-3 copy the valid forecast
   * slots; the condition key falls back to the current one. `zero` stands
   * for the zeroed temperature of an unfilled row.
   */
  function Build3DayRows<T>(v: Values<T>, zero: T): (rows: seq<Row<T>>)
    requires |v.forecast| == 3
    ensures |rows| == 4
    ensures rows[0].valid && rows[0].day == "Now"
    ensures forall i :: 1 <= i < 4 ==> rows[i].valid == v.forecast[i - 1].valid
    ensures forall i :: 0 <= i < 4 && rows[i].valid ==> rows[i].hasLow == rows[i].hasHigh
    ensures rows[0].hasLow <==> v.todayHasLow || v.todayHasHigh || v.hasTemp
    ensures rows[0].hasPoint <==> v.hasTemp
    ensures forall i :: 1 <= i < 4 && rows[i].valid ==>
      (rows[i].hasLow <==> v.forecast[i - 1].hasLow || v.forecast[i - 1].hasHigh)
  {
    var blank := Row(false, "", "", false, zero, false, zero, false, zero);
    var low := v.todayHasLow || v.hasTemp;
    var high := v.todayHasHigh || v.hasTemp;
    var now := Complete(Row(true, "Now", Fit(if v.todayConditionKey != "" then v.todayConditionKey else v.conditionKey, 32),
      low, if v.todayHasLow then v.todayLow else if v.hasTemp then v.temp else zero,
      high, if v.todayHasHigh then v.todayHigh else if v.hasTemp then v.temp else zero,
      v.hasTemp, if v.hasTemp then v.temp else zero));
    [now] + seq(3, i requires 0 <= i < 3 =>
      var f := v.forecast[i];
      if !f.valid then blank
      else Complete(Row(true, Fit(f.day, 12), Fit(if f.conditionKey != "" then f.conditionKey else v.conditionKey, 32),
                        f.hasLow, f.low, f.hasHigh, f.high, false, zero)))
  }

  // ---------------------------------------------------------------------------

  datatype RowsLayout = RowsLayout(contentW: int, rowsTop: int, rowH: int, rowGap: int,
                                   dayW: int, iconW: int, lowW: int, highW: int, barW: int)

  /**
   * The integer part of `weather_set_3day_rows_layout` for a card of the
   * given size: four rows below the header, with narrower columns when the
   * bar would get too thin.
   */
  function Set3DayRowsLayout(cardW: int, cardH: int): (l: RowsLayout)
    ensures l.contentW >= 120 && l.rowH >= 22 && l.barW >= 40
    ensures 118 <= l.rowsTop <= 152
    ensures cardW - 32 >= 120 ==> l.contentW == cardW - 32
  {
    var contentW := if cardW - 32 < 120 then 120 else cardW - 32;
    var rowsBottom := cardH - 12;
    var rowH0 := CDiv(rowsBottom - 150 - 3 * 4, 4);
    var rowH := if rowH0 < 22 then 22 else rowH0;
    var rowGap := if rowH0 < 22 then 3 else 4;
    var top0 := if rowH0 < 22 then rowsBottom - (4 * 22 + 3 * 3) else 150;
    var rowsTop := if rowH0 < 22 && top0 < 118 then 118 else top0;
    var bar0 := contentW - (50 + 28 + 46 + 46 + 16);
    if bar0 < 56 then
      var bar1 := contentW - (42 + 24 + 42 + 42 + 16);
      RowsLayout(contentW, rowsTop, rowH, rowGap, 42, 24, 42, 42, if bar1 < 40 then 40 else bar1)
    else RowsLayout(contentW, rowsTop, rowH, rowGap, 50, 28, 46, 46, bar0)
  }
}

=== FILE: wifi_mgr.dfy ===
/**
 * The Wi-Fi manager's decisions: the regulatory country code, which
 * disconnect reasons are hard, the reconnect backoff, the rate limit on
 * connect requests, the recovery ladder tried on each reconnect, and how scan
 * records become the de-duplicated result list. The driver calls themselves
 * (connect, stop, start, scan) are not part of this model: their outcomes are
 * inputs, and the clock is the `now` parameter in milliseconds.
 */
module WifiMgr {
  import opened Wrappers
  import opened CStr
  import opened Bytes
  import ApiSettings

  const ConnectMinGap: int := 1500
  const DelayMin: nat := 500
  const DelayHard: nat := 2000
  const DelayMax: nat := 20000
  const HardAttemptThreshold: int := 8
  const DiscConnPeriod: int := 4
  const DiscConnCooldown: int := 5000
  const StopStartCooldown: int := 20000

  /** Two ASCII letters, upper case, as the driver wants a country code. */
  predicate IsCountryCode(cc: string)
  {
    ApiSettings.IsCountryCode(cc)
  }

  /**
   * `wifi_mgr_normalize_country_code`: a missing input or an output buffer
   * smaller than `codeMaxLen` fails; otherwise exactly two letters are
   * accepted and upper-cased.
   */
  function NormalizeCountry(input: Option<string>, outLen: nat, codeMaxLen: nat): (r: Option<string>)
    ensures r.Some? <==> input.Some? && outLen >= codeMaxLen
                         && |input.value| == 2 && IsAlpha(input.value[0]) && IsAlpha(input.value[1])
    ensures r.Some? ==> IsCountryCode(r.value) && Lower(r.value) == Lower(input.value)
  {
    if input.None? || outLen < codeMaxLen then None
    else if |input.value| != 2 || !IsAlpha(input.value[0]) || !IsAlpha(input.value[1]) then None
    else Some([ToUpper(input.value[0]), ToUpper(input.value[1])])
  }

  /** Normalising is idempotent: a normal code comes back as it is. */
  lemma NormalizeCountryFixpoint(cc: string, codeMaxLen: nat)
    requires IsCountryCode(cc)
    ensures NormalizeCountry(Some(cc), codeMaxLen, codeMaxLen) == Some(cc)
  {
    assert cc == [cc[0], cc[1]];
  }

  /**
   * The Wi-Fi manager and the settings endpoint normalise a non-empty code
   * the same way.
   */
  lemma NormalizeCountryAgrees(cc: string, codeMaxLen: nat, bufLen: nat, defaultCountry: string)
    requires cc != "" && bufLen > 0
    ensures NormalizeCountry(Some(cc), codeMaxLen, codeMaxLen) == ApiSettings.NormalizeCountryCode(cc, bufLen, defaultCountry)
  {
  }

  /**
   * `wifi_mgr_set_country_code_from_input`, for a country buffer of
   * `codeMaxLen` bytes (room for two letters and the NUL): a missing or empty
   * input means the configured default; whatever does not normalise becomes
   * `"US"`, so a bad input falls back to `"US"` and not to the default.
   */
  function SetCountryFromInput(input: Option<string>, defaultCode: string, codeMaxLen: nat): (r: string)
    requires codeMaxLen >= 3
    ensures IsCountryCode(r)
    ensures input.Some? && input.value != "" ==>
      (NormalizeCountry(input, codeMaxLen, codeMaxLen).Some? ==> Lower(r) == Lower(input.value))
      && (NormalizeCountry(input, codeMaxLen, codeMaxLen).None? ==> r == "US")
    ensures input.None? || input.value == "" ==>
      (NormalizeCountry(Some(defaultCode), codeMaxLen, codeMaxLen).Some? ==> Lower(r) == Lower(defaultCode))
      && (NormalizeCountry(Some(defaultCode), codeMaxLen, codeMaxLen).None? ==> r == "US")
  {
    var source := if input.Some? && input.value != "" then input.value else defaultCode;
    var normalized := NormalizeCountry(Some(source), codeMaxLen, codeMaxLen);
    Fit(if normalized.Some? then normalized.value else "US", codeMaxLen)
  }

  /** `wifi_reason_is_reconnect_hard`: auth expiry, association expiry, 4-way handshake timeout, connection failure. */
  predicate IsHardReason(reason: nat)
  {
    reason in {2, 8, 15, 205}
  }

  /** The attempt number the backoff uses: clamped to 1..5. */
  function BackoffStep(attempt: int): (s: nat)
    ensures 1 <= s <= 5
    ensures 1 <= attempt <= 5 ==> s == attempt
  {
    if attempt < 1 then 1 else if attempt > 5 then 5 else attempt
  }

  function BaseDelay(reason: nat): nat
  {
    if IsHardReason(reason) then DelayHard else DelayMin
  }

  /**
   * The reconnect delay as a formula: the base delay (2000 ms for a hard
   * reason, 500 ms otherwise) doubled once per attempt after the first, up to
   * the fifth attempt, and never more than 20000 ms.
   */
  function ReconnectDelay(reason: nat, attempt: int): (d: nat)
    ensures DelayMin <= d <= DelayMax
  {
    Min(DelayMax, BaseDelay(reason) * Pow2(BackoffStep(attempt) - 1))
  }

  /**
   * `wifi_mgr_compute_reconnect_delay_ms`: the doubling loop that stops at
   * the cap computes the formula.
   */
  method ComputeReconnectDelay(reason: nat, attempt: int) returns (delay: nat)
    ensures delay == ReconnectDelay(reason, attempt)
  {
    var total := BackoffStep(attempt);
    var step := total - 1;
    delay := BaseDelay(reason);
    while step > 0
      invariant 0 <= step < total
      invariant delay == BaseDelay(reason) * Pow2(total - 1 - step) < DelayMax
      decreases step
    {
      delay := delay * 2;
      if delay >= DelayMax {
        Pow2Mono(total - step, total - 1);
        delay := DelayMax;
        return;
      }
      step := step - 1;
    }
  }

  /** A later attempt never waits less. */
  lemma ReconnectDelayMonotone(reason: nat, a: int, b: int)
    requires a <= b
    ensures ReconnectDelay(reason, a) <= ReconnectDelay(reason, b)
  {
    Pow2Mono(BackoffStep(a) - 1, BackoffStep(b) - 1);
  }

  /** A hard reason never waits less than a soft one at the same attempt. */
  lemma ReconnectDelayHardFirst(hard: nat, soft: nat, attempt: int)
    requires IsHardReason(hard) && !IsHardReason(soft)
    ensures ReconnectDelay(soft, attempt) <= ReconnectDelay(hard, attempt)
  {
  }

  /** The backoff steps: 500, 1000, 2000, 4000, 8000 ms for a soft reason and 2000 … 16000, 20000 ms for a hard one. */
  lemma ReconnectDelayTable(reason: nat)
    ensures !IsHardReason(reason) ==>
      ReconnectDelay(reason, 1) == 500 && ReconnectDelay(reason, 2) == 1000 && ReconnectDelay(reason, 3) == 2000
      && ReconnectDelay(reason, 4) == 4000 && ReconnectDelay(reason, 5) == 8000
    ensures IsHardReason(reason) ==>
      ReconnectDelay(reason, 1) == 2000 && ReconnectDelay(reason, 2) == 4000 && ReconnectDelay(reason, 3) == 8000
      && ReconnectDelay(reason, 4) == 16000 && ReconnectDelay(reason, 5) == 20000
  {
    assert Pow2(1) == 2 && Pow2(2) == 4 && Pow2(3) == 8 && Pow2(4) == 16;
  }

  /** What `esp_wifi_connect` reported: done, already connecting, or another error. */
  datatype ConnectResult = ConnectOk | AlreadyConnecting | ConnectFailed

  /** The outcome of one connect request: whether the driver was asked, whether that counts as success, and the new last-request time. */
  datatype Request = Request(called: bool, ok: bool, last: int)

  /**
   * `wifi_mgr_request_connect`: unless forced, a request less than 1500 ms
   * after the last one is skipped and leaves the last-request time alone;
   * otherwise the time is recorded before the driver is asked, and "already
   * connecting" counts as success.
   */
  function RequestConnect(force: bool, now: int, last: int, driver: ConnectResult): (q: Request)
    ensures q.called <==> force || now - last >= ConnectMinGap
    ensures !q.called ==> !q.ok && q.last == last
    ensures q.called ==> q.last == now && (q.ok <==> driver != ConnectFailed)
  {
    if !force && now - last < ConnectMinGap then Request(false, false, last)
    else Request(true, driver != ConnectFailed, now)
  }

  /** The times at which unforced requests made at `times` reach the driver. */
  function CalledTimes(times: seq<int>, last: int): seq<int>
    decreases |times|
  {
    if |times| == 0 then []
    else
      var q := RequestConnect(false, times[0], last, ConnectOk);
      (if q.called then [times[0]] else []) + CalledTimes(times[1..], q.last)
  }

  /**
   * However often unforced requests come, the driver is asked at most once
   * per 1500 ms: each call is at least that long after the one before, and
   * the first after the last recorded request.
   */
  lemma {:induction false} CalledTimesSpaced(times: seq<int>, last: int)
    ensures var c := CalledTimes(times, last);
      (|c| > 0 ==> c[0] - last >= ConnectMinGap)
      && forall i :: 0 < i < |c| ==> c[i] - c[i - 1] >= ConnectMinGap
    decreases |times|
  {
    if |times| > 0 {
      var q := RequestConnect(false, times[0], last, ConnectOk);
      var rest := CalledTimes(times[1..], q.last);
      CalledTimesSpaced(times[1..], q.last);
      var c := (if q.called then [times[0]] else []) + rest;
      assert CalledTimes(times, last) == c;
      if q.called {
        forall i | 0 < i < |c|
          ensures c[i] - c[i - 1] >= ConnectMinGap
        {
          assert c[i] == rest[i - 1];
          if i > 1 {
            assert c[i - 1] == rest[i - 2];
          }
        }
      }
    }
  }

  /** The clocks of the recovery ladder, in milliseconds. */
  datatype Clocks = Clocks(lastStopStart: int, lastDiscConn: int, lastConnect: int)

  /** Which rung of the ladder a reconnect took. */
  datatype Recovery = StopStart | ConnectNudge | NormalConnect

  /**
   * `wifi_mgr_try_reconnect`, given whether `esp_wifi_start` succeeded (or
   * reported the driver already started) and what `esp_wifi_connect` reports:
   * a hard reason at attempt 8 or later, at least 20 s after the last
   * stop/start, restarts the driver and forces a connect; a failed start
   * falls through. Otherwise a known reason on every fourth attempt, at least
   * 5 s after the last nudge, forces a connect. Otherwise an ordinary,
   * rate-limited connect is requested.
   */
  function TryReconnect(reason: nat, attempt: int, now: int, c: Clocks, startOk: bool, driver: ConnectResult)
    : (res: (Recovery, Clocks))
    ensures res.0 == StopStart <==>
      IsHardReason(reason) && attempt >= HardAttemptThreshold && now - c.lastStopStart >= StopStartCooldown && startOk
    ensures res.0 == ConnectNudge <==>
      res.0 != StopStart && reason != 0 && CMod(attempt, DiscConnPeriod) == 0 && now - c.lastDiscConn >= DiscConnCooldown
    ensures res.0 == StopStart ==> res.1 == c.(lastStopStart := now, lastConnect := now)
    ensures res.0 == ConnectNudge ==> res.1 == c.(lastDiscConn := now, lastConnect := now)
    ensures res.0 == NormalConnect ==>
      res.1.lastStopStart == c.lastStopStart && res.1.lastDiscConn == c.lastDiscConn
      && (now - c.lastConnect < ConnectMinGap ==> res.1.lastConnect == c.lastConnect)
      && (now - c.lastConnect >= ConnectMinGap ==> res.1.lastConnect == now)
  {
    if IsHardReason(reason) && attempt >= HardAttemptThreshold && now - c.lastStopStart >= StopStartCooldown && startOk then
      var q := RequestConnect(true, now, c.lastConnect, driver);
      (StopStart, c.(lastStopStart := now, lastConnect := q.last))
    else if reason != 0 && CMod(attempt, DiscConnPeriod) == 0 && now - c.lastDiscConn >= DiscConnCooldown then
      var q := RequestConnect(true, now, c.lastConnect, driver);
      (ConnectNudge, c.(lastDiscConn := now, lastConnect := q.last))
    else
      var q := RequestConnect(false, now, c.lastConnect, driver);
      (NormalConnect, c.(lastConnect := q.last))
  }

  /** Two driver restarts in a row are at least 20 s apart. */
  lemma StopStartSpaced(reason: nat, a1: int, a2: int, now1: int, now2: int, c: Clocks,
                        s1: bool, s2: bool, d1: ConnectResult, d2: ConnectResult)
    ensures var r1 := TryReconnect(reason, a1, now1, c, s1, d1);
      var r2 := TryReconnect(reason, a2, now2, r1.1, s2, d2);
      r1.0 == StopStart && r2.0 == StopStart ==> now2 - now1 >= StopStartCooldown
  {
  }

  /** An unknown reason (0) only ever leads to an ordinary connect request. */
  lemma UnknownReasonIsNormal(attempt: int, now: int, c: Clocks, startOk: bool, driver: ConnectResult)
    ensures TryReconnect(0, attempt, now, c, startOk, driver).0 == NormalConnect
  {
  }

  /** A scan entry: the network name, signal strength and auth mode. */
  datatype Ap = Ap(ssid: string, rssi: int, authmode: nat)

  /** The entry as stored in a result slot whose name buffer has `ssidSize` bytes. */
  function Stored(r: Ap, ssidSize: nat): (s: Ap)
    requires ssidSize > 0
    ensures s.ssid == Fit(r.ssid, ssidSize) && s.rssi == r.rssi && s.authmode == r.authmode
  {
    Ap(Fit(r.ssid, ssidSize), r.rssi, r.authmode)
  }

  /** Some kept entry has the record's name, compared as `strncmp` over the slot size. */
  predicate Known(out: seq<Ap>, ssid: string, ssidSize: nat)
  {
    exists j :: 0 <= j < |out| && SameUpTo(out[j].ssid, ssid, ssidSize)
  }

  /** One step of the scan loop: a hidden (empty) name, a known name or a full list leaves the list as it is. */
  function Keep(out: seq<Ap>, r: Ap, maxResults: nat, ssidSize: nat): seq<Ap>
    requires ssidSize > 0
  {
    if |out| >= maxResults || r.ssid == "" || Known(out, r.ssid, ssidSize) then out
    else out + [Stored(r, ssidSize)]
  }

  /**
   * The result list of `wifi_mgr_scan` for the driver's records, in order:
   * at most `maxResults` entries, none hidden, each name once, the first
   * record of a name winning.
   */
  function Dedup(records: seq<Ap>, maxResults: nat, ssidSize: nat): (out: seq<Ap>)
    requires ssidSize > 0
    ensures |out| <= maxResults
    ensures forall a :: a in out ==> exists r :: r in records && r.ssid != "" && a == Stored(r, ssidSize)
    ensures ssidSize > 1 ==> forall a :: a in out ==> a.ssid != ""
    decreases |records|
  {
    if |records| == 0 then []
    else
      var init := records[..|records| - 1];
      var prev := Dedup(init, maxResults, ssidSize);
      assert forall r :: r in init ==> r in records;
      Keep(prev, records[|records| - 1], maxResults, ssidSize)
  }

  /** Once the list is full, later records change nothing. */
  lemma {:induction false} DedupSaturated(records: seq<Ap>, i: nat, maxResults: nat, ssidSize: nat)
    requires ssidSize > 0 && i <= |records|
    requires |Dedup(records[..i], maxResults, ssidSize)| >= maxResults
    ensures Dedup(records, maxResults, ssidSize) == Dedup(records[..i], maxResults, ssidSize)
    decreases |records|
  {
    if i < |records| {
      var init := records[..|records| - 1];
      assert init[..i] == records[..i];
      DedupSaturated(init, i, maxResults, ssidSize);
    } else {
      assert records[..i] == records;
    }
  }

  /** No name appears twice. */
  predicate DistinctNames(out: seq<Ap>)
  {
    forall i, j :: 0 <= i < j < |out| ==> out[i].ssid != out[j].ssid
  }

  /** When every name fits its slot, no name appears twice in the result. */
  lemma {:induction false} DedupDistinct(records: seq<Ap>, maxResults: nat, ssidSize: nat)
    requires ssidSize > 0
    requires forall r :: r in records ==> |r.ssid| < ssidSize
    ensures DistinctNames(Dedup(records, maxResults, ssidSize))
    decreases |records|
  {
    if |records| > 0 {
      var init := records[..|records| - 1];
      var prev := Dedup(init, maxResults, ssidSize);
      var r := records[|records| - 1];
      DedupDistinct(init, maxResults, ssidSize);
      assert Dedup(records, maxResults, ssidSize) == Keep(prev, r, maxResults, ssidSize);
      if !(|prev| >= maxResults || r.ssid == "" || Known(prev, r.ssid, ssidSize)) {
        var out := prev + [Stored(r, ssidSize)];
        forall i | 0 <= i < |prev|
          ensures prev[i].ssid != r.ssid
        {
          assert prev[i] in prev;
          assert |prev[i].ssid| < ssidSize;
          SameUpToShort(prev[i].ssid, r.ssid, ssidSize);
          assert !SameUpTo(prev[i].ssid, r.ssid, ssidSize);
        }
        assert Fit(r.ssid, ssidSize) == r.ssid;
        assert Dedup(records, maxResults, ssidSize) == out;
        forall i, j | 0 <= i < j < |out|
          ensures out[i].ssid != out[j].ssid
        {
          if j == |prev| {
            assert out[i] == prev[i] && out[j].ssid == r.ssid;
          } else {
            assert out[i] == prev[i] && out[j] == prev[j];
          }
        }
      } else {
        assert Dedup(records, maxResults, ssidSize) == prev;
      }
    }
  }

  /**
   * Nothing is lost that had room: when every name fits its slot, each
   * record with a name has that name in the result, unless the result is
   * full.
   */
  lemma {:induction false} DedupComplete(records: seq<Ap>, maxResults: nat, ssidSize: nat, k: nat)
    requires ssidSize > 0 && k < |records|
    requires forall r :: r in records ==> |r.ssid| < ssidSize
    requires records[k].ssid != ""
    ensures var out := Dedup(records, maxResults, ssidSize);
      |out| == maxResults || exists j :: 0 <= j < |out| && out[j].ssid == records[k].ssid
    decreases |records|
  {
    var init := records[..|records| - 1];
    var prev := Dedup(init, maxResults, ssidSize);
    var r := records[|records| - 1];
    var out := Dedup(records, maxResults, ssidSize);
    assert out == Keep(prev, r, maxResults, ssidSize);
    if k < |records| - 1 {
      assert init[k] == records[k];
      DedupComplete(init, maxResults, ssidSize, k);
      if |prev| == maxResults {
        assert out == prev;
      } else {
        var j :| 0 <= j < |prev| && prev[j].ssid == records[k].ssid;
        assert out[j] == prev[j];
      }
    } else if |prev| < maxResults {
      if Known(prev, r.ssid, ssidSize) {
        var j :| 0 <= j < |prev| && SameUpTo(prev[j].ssid, r.ssid, ssidSize);
        assert prev[j] in prev;
        SameUpToShort(prev[j].ssid, r.ssid, ssidSize);
        assert out[j] == prev[j];
      } else {
        assert out[|prev|] == Stored(r, ssidSize);
      }
    } else {
      assert out == prev;
    }
  }

  /**
   * The record loop of `wifi_mgr_scan`: walk the records until the result
   * list is full, skip hidden networks, compare each name with the names
   * already kept, and append new ones.
   */
  method CollectScan(records: seq<Ap>, maxResults: nat, ssidSize: nat) returns (out: seq<Ap>)
    requires ssidSize > 0
    ensures out == Dedup(records, maxResults, ssidSize)
  {
    out := [];
    var i := 0;
    while i < |records| && |out| < maxResults
      invariant 0 <= i <= |records|
      invariant out == Dedup(records[..i], maxResults, ssidSize)
    {
      var r := records[i];
      assert records[..i + 1][..i] == records[..i];
      assert records[..i + 1][i] == r;
      if r.ssid != "" {
        var duplicate := false;
        var j := 0;
        while j < |out| && !duplicate
          invariant 0 <= j <= |out|
          invariant duplicate ==> Known(out, r.ssid, ssidSize)
          invariant !duplicate ==> forall k :: 0 <= k < j ==> !SameUpTo(out[k].ssid, r.ssid, ssidSize)
        {
          if SameUpTo(out[j].ssid, r.ssid, ssidSize) {
            duplicate := true;
          }
          j := j + 1;
        }
        if !duplicate {
          out := out + [Ap(Fit(r.ssid, ssidSize), r.rssi, r.authmode)];
        }
      }
      i := i + 1;
    }
    if i < |records| {
      DedupSaturated(records, i, maxResults, ssidSize);
    } else {
      assert records[..i] == records;
    }
  }
}

=== FILE: wrappers.dfy ===
/** Optional values and results with an error, shared by every module of the model. */
module Wrappers {

  datatype Option<T> = None | Some(value: T)
  {
    predicate IsSome() { this.Some? }

    /** The carried value, or `default` when there is none. */
    function GetOr(default: T): (r: T)
      ensures this.Some? ==> r == value
      ensures this.None? ==> r == default
    {
      match this
      case Some(v) => v
      case None => default
    }
  }

  datatype Result<T, E> = Ok(value: T) | Err(error: E)
  {
    predicate IsOk() { this.Ok? }

    /** Drops the error, keeping only whether a value was produced. */
    function ToOption(): (r: Option<T>)
      ensures r.Some? <==> this.Ok?
      ensures r.Some? ==> r.value == value
    {
      match this
      case Ok(v) => Some(v)
      case Err(_) => None
    }
  }
}
